=== FILE: README.md ===
# Solhem digital archive — a verified model of its core

The Solhem digital archive is a web application for the photos of a group of
apartment buildings' community events, with a small property-management
dashboard beside it. This Dafny project models the logic behind it and proves
properties about that model:

- **Photo annotation stores.** Maps keyed by photo id hold five kinds of
  record: star ratings (`RatingStore`), tags (`TagStore`), hidden photos
  (`HiddenStore`), photos published to visitors (`PublicStore`) and
  removal-request flags (`FlagStore`). Each store has its own actions,
  queries, statistics and export/import documents.
- **Server-synchronised stores.** The server versions of the rating and
  hidden stores (`ServerRatingStore`, `ServerHiddenStore`) update
  optimistically, save the whole map to the data API, and roll back when the
  save fails.
- **The serverless data function.** `DataStore` models the one function behind
  that data API. It maps a URL's last path segment to a JSON file in a Git
  repository, answers GET with the file (or an empty document), and writes
  PUT bodies back with the file's current revision.
- **Galleries and viewers.**
  - The event gallery page (`EventGalleryPage`): the join of an event's
    photos with the stores, the hidden gate of public mode, the admin
    visibility, tag and rating filters, the sorts, the tag statistics, the
    multi-selection, and the bulk editor.
  - The cross-event photo browser (`PhotoGallery`).
  - The password-gated visitor gallery (`PublicGallery`).
  - The two lightboxes and the removal-request form (`Lightbox`).
  - The tag chooser (`TagSelector`).
- **Static data and file names.** The event catalogue and its photo-list
  generator (`EventData`), and the naming rules of the layout-asset download:
  file extensions and folder names (`DownloadAssets`).
- **The management stores.** Rent payments and period summaries
  (`FinancialStore`), properties and their units (`PropertyStore`), tenants
  with their leases, payments, documents and notes (`TenantStore`), and
  maintenance requests and vendors (`MaintenanceStore`).

How the model is built:

- **Stores with state.** Each store whose actions replace its state is a
  `class`. Its fields are updated by `modifies` methods, and each method is
  specified by a pure function of the old state. The properties are proved
  about those functions.
- **Loops.** Loops of the source (`forEach` counting, pushing photos,
  collecting events) are methods with loop invariants, proved equal to a
  function.
- **Time, I/O and user actions.** The clock, the network, `localStorage`,
  `JSON.parse` and the outcome of each server save are parameters.
- **Object enumeration.** JavaScript objects enumerate integer-like keys
  (such as `"42"`) first, in ascending order, and then the other keys in
  insertion order. Where the source turns a map into an array
  (`Object.values`, `Object.entries`), the model takes that key order as a
  parameter `keys` with `Enumerates(keys, m)`: each key of `m` exactly once.
  Where the model builds the key order itself (the `tagOrder` of
  `TagStore.CountTags` and `EventGalleryPage.TagStats`, which fixes the order
  of `Entries` and the tie order of the popular tags), it uses first-seen
  order. That is the source's order only when no tag looks like an integer.
- **Sorting.** `Array.prototype.sort` is stable. It is modelled by
  `Sorting.SortBy`, a stable insertion sort on an integer key; a
  descending order negates the key.

Shared helpers live in `Wrappers` (`Option`), `Seqs` (filter, sums, counts,
duplicate removal), `Sorting` and `Strings` (ASCII lower case, substring
search, white-space runs).

## Model

| member | source | states |
|---|---|---|
| RatingStore.Clamp | src/stores/ratingStore.ts:46 | the stored rating is always in 1..5; ratings in range are kept, lower ones become 1, higher ones 5 |
| RatingStore.Rated | src/stores/ratingStore.ts:39-52 | after `ratePhoto` the photo has a fresh record with the clamped rating, event, time and comment; the key set gains the photo; every other record is unchanged |
| RatingStore.RatedWellFormed | src/stores/ratingStore.ts:39-52 | rating any photo with any number keeps every record filed under its own photo id with a rating in 1..5 |
| RatingStore.GetPhotoRating | src/stores/ratingStore.ts:54-56 | null exactly when the photo has no record, otherwise that record |
| RatingStore.GetEventRatings | src/stores/ratingStore.ts:58-62 | the result holds exactly the event's records, one per rated photo of the event |
| RatingStore.TopTen | src/stores/ratingStore.ts:64-70 | without a limit: min(10, number of event records) entries, non-increasing, the top of the event's records |
| RatingStore.GetTopRatedPhotos | src/stores/ratingStore.ts:64-70 | the result has min(limit, number of event records) entries, in non-increasing rating order, each the entry of one of the event's records; the entries are of some of the event's records and none of the records left out rates above a kept one |
| RatingStore.TopRated | src/stores/ratingStore.ts:66-69 | sort-slice-map over any record list: length min(limit, n), ratings non-increasing, every entry comes from the list, and the kept records together with the cut ones are the list, with nothing cut rating above anything kept |
| RatingStore.InitialTallies | src/stores/ratingStore.ts:83 | the initial distribution `{1..5: 0}` is the distribution of no ratings |
| RatingStore.TallyStep | src/stores/ratingStore.ts:86-89 | one step of the `forEach` keeps the distribution and the running total exact |
| RatingStore.Tally | src/stores/ratingStore.ts:84-89 | the loop's distribution counts every rating value of the event's records and its total is their sum |
| RatingStore.GetRatingStats | src/stores/ratingStore.ts:72-96 | `totalRatings` is the number of rated photos of the event; the distribution and the total score are exact for those records |
| RatingStore.BucketsSum | src/stores/ratingStore.ts:83-89 | for ratings in 1..5 the five buckets add up to the number of ratings |
| RatingStore.StatsBucketsAddUp | src/stores/ratingStore.ts:72-96 | in a well-formed store the distribution has exactly the keys 1..5 and they add up to `totalRatings` |
| RatingStore.ExportRatings | src/stores/ratingStore.ts:98-105 | the export document carries version "1.0" and the whole map |
| RatingStore.ExportImportRoundTrip | src/stores/ratingStore.ts:98-119 | importing an exported document is accepted and restores exactly the exported map |
| RatingStore.LocalRatingStore.constructor | src/stores/ratingStore.ts:37 | the store starts empty |
| RatingStore.LocalRatingStore.RatePhoto | src/stores/ratingStore.ts:39-52 | the new map is `Rated` of the old one |
| RatingStore.LocalRatingStore.ImportRatings | src/stores/ratingStore.ts:107-119 | returns true exactly when the document parsed and has a version and a ratings object; then the map is replaced, otherwise unchanged |
| RatingStore.LocalRatingStore.ClearAllRatings | src/stores/ratingStore.ts:121-123 | the map is empty |
| ServerRatingStore.RolledBack | src/stores/serverRatingStore.ts:103-119 | the rollback puts the previous record back if there was one, otherwise removes the key; other keys untouched |
| ServerRatingStore.RollbackRestores | src/stores/serverRatingStore.ts:84-122 | rating a photo and rolling back gives exactly the map from before the call |
| ServerRatingStore.ServerRatingStore.constructor | src/stores/serverRatingStore.ts:40-43 | empty map, not loading, no error |
| ServerRatingStore.ServerRatingStore.LoadFromServer | src/stores/serverRatingStore.ts:45-70 | a fetched document replaces the map (empty when it has no ratings) and clears the error; a failed fetch records its message and falls back to the local copy when one parses, else keeps the map |
| ServerRatingStore.ServerRatingStore.SaveToServer | src/stores/serverRatingStore.ts:72-82 | a successful save makes the server copy equal to the map and clears the error; a failed one records the error and changes nothing else |
| ServerRatingStore.ServerRatingStore.RatePhoto | src/stores/serverRatingStore.ts:84-122 | on success the map is `Rated` and saved; on failure the map is exactly as before the call |
| ServerRatingStore.ServerRatingStore.GetTopRatedPhotos | src/stores/serverRatingStore.ts:134-140 | exactly the local ranking over the server map: at most `limit` entries, non-increasing ratings, each from a record of the event |
| ServerRatingStore.ServerRatingStore.GetRatingStats | src/stores/serverRatingStore.ts:142-166 | the same exact count, distribution and total score as the local store's statistics |
| ServerRatingStore.ServerRatingStore.ImportRatings | src/stores/serverRatingStore.ts:177-191 | accepted exactly when version and ratings are present; an accepted map replaces the old one and is saved, a rejected one changes nothing |
| ServerRatingStore.ServerRatingStore.ClearAllRatings | src/stores/serverRatingStore.ts:193-197 | the map is empty; the server copy is emptied when the background save succeeds |
| TagStore.CategoryTags | src/stores/tagStore.ts:18-27 | `Object.values(TAG_CATEGORIES)`: the six tag lists in declaration order |
| TagStore.AllTags | src/stores/tagStore.ts:27 | `ALL_TAGS` is the six lists concatenated, 30 tags |
| TagStore.Tagged | src/stores/tagStore.ts:50-62 | after `tagPhoto` the photo's record holds exactly the given tags, each once in the order of its first occurrence, for the given event, stamped now; other records unchanged |
| Seqs.DedupPrefix | src/stores/tagStore.ts:57 | removing repetitions from a prefix gives a prefix of the whole result: `new Set` keeps tags in first-occurrence order |
| TagStore.TaggedWellFormed | src/stores/tagStore.ts:50-62 | tagging keeps every record under its own id and free of repeated tags |
| TagStore.RetagKeepsTags | src/stores/tagStore.ts:57 | re-tagging a photo with its own tags leaves its tag list as it was |
| TagStore.GetPhotoTags | src/stores/tagStore.ts:64-66 | null exactly when the photo has no record, otherwise that record |
| TagStore.GetEventTags | src/stores/tagStore.ts:68-72 | exactly the event's records, one per tagged photo of the event |
| TagStore.GetPhotosWithTag | src/stores/tagStore.ts:74-78 | exactly the event's records that carry the tag |
| TagStore.CountStep | src/stores/tagStore.ts:86 | one increment of `tagCounts[tag]` (from 0 when absent) keeps the counts and the key order exact |
| TagStore.CountTags | src/stores/tagStore.ts:84-88 | the nested loops count every occurrence of every tag and record the keys in first-seen order |
| TagStore.CountList | src/stores/tagStore.ts:85-87 | the inner loop extends exact counts by one list |
| TagStore.CountIsListsWith | src/stores/tagStore.ts:84-88 | when no list repeats a tag, a tag's count is the number of lists that contain it |
| TagStore.Entries | src/stores/tagStore.ts:90-91 | `Object.entries(...).map(...)`: one `{tag, count}` per key, in key order |
| TagStore.PopularTags | src/stores/tagStore.ts:90-93 | min(10, keys) entries, counts non-increasing, each with its true count, and no left-out tag has a larger count than a kept one |
| TagStore.GetTagStats | src/stores/tagStore.ts:80-100 | `totalTaggedPhotos` is the number of tagged photos of the event, the counts are exact, the popular list is the top ten |
| TagStore.TagCountIsPhotoCount | src/stores/tagStore.ts:80-100 | in a well-formed store a tag's count is the number of the event's photos carrying it |
| TagStore.ExportTags | src/stores/tagStore.ts:102-109 | the export carries version "1.0" and the whole map |
| TagStore.ExportImportRoundTrip | src/stores/tagStore.ts:102-123 | importing an export is accepted and restores the map |
| TagStore.LocalTagStore.constructor | src/stores/tagStore.ts:48 | the store starts empty |
| TagStore.LocalTagStore.TagPhoto | src/stores/tagStore.ts:50-62 | the new map is `Tagged` of the old one |
| TagStore.LocalTagStore.ImportTags | src/stores/tagStore.ts:111-123 | true exactly when parsed with a version and a tag map; then replaced, otherwise unchanged |
| TagStore.LocalTagStore.ClearAllTags | src/stores/tagStore.ts:125-127 | the map is empty |
| HiddenStore.Hidden | src/stores/hiddenStore.ts:35-47 | after `hidePhoto` the photo is hidden with a fresh record; others unchanged |
| HiddenStore.Unhidden | src/stores/hiddenStore.ts:49-54 | after `unhidePhoto` the photo is not hidden, only its key is gone, and an absent key changes nothing |
| HiddenStore.GetHiddenPhotos | src/stores/hiddenStore.ts:60-66 | with an event id, exactly the event's records; with none (or an empty one), every record |
| HiddenStore.Toggled | src/stores/hiddenStore.ts:68-75 | toggling flips whether the photo is hidden and touches no other key |
| HiddenStore.ToggleTwice | src/stores/hiddenStore.ts:68-75 | toggling twice keeps the key set; a photo that was not hidden gives back the very same map, a hidden one comes back re-hidden with the second time stamp and no reason |
| HiddenStore.HideAll | src/stores/hiddenStore.ts:77-91 | every listed photo gets a record with the shared time stamp; unlisted keys unchanged |
| HiddenStore.HideAllNext | src/stores/hiddenStore.ts:81-88 | one `forEach` step extends the result for a prefix by one photo |
| HiddenStore.FillHidden | src/stores/hiddenStore.ts:80-89 | the loop builds exactly `HideAll` |
| HiddenStore.WithoutEvent | src/stores/hiddenStore.ts:93-104 | without an event id the map is emptied; with one, exactly the other events' records remain, unchanged |
| HiddenStore.ExportHidden | src/stores/hiddenStore.ts:106-113 | version "1.0" and the whole map |
| HiddenStore.ExportImportRoundTrip | src/stores/hiddenStore.ts:106-127 | importing an export is accepted and restores the map |
| HiddenStore.LocalHiddenStore.constructor | src/stores/hiddenStore.ts:33 | the store starts empty |
| HiddenStore.LocalHiddenStore.HidePhoto | src/stores/hiddenStore.ts:35-47 | the new map is `Hidden` of the old |
| HiddenStore.LocalHiddenStore.UnhidePhoto | src/stores/hiddenStore.ts:49-54 | the new map is `Unhidden` of the old |
| HiddenStore.LocalHiddenStore.TogglePhotoHidden | src/stores/hiddenStore.ts:68-75 | the new map is `Toggled` of the old |
| HiddenStore.LocalHiddenStore.HideMultiplePhotos | src/stores/hiddenStore.ts:77-91 | the new map is `HideAll` of the old |
| HiddenStore.LocalHiddenStore.UnhideAll | src/stores/hiddenStore.ts:93-104 | the new map is `WithoutEvent` of the old |
| HiddenStore.LocalHiddenStore.ImportHidden | src/stores/hiddenStore.ts:115-127 | true exactly when parsed with version and map; then replaced, otherwise unchanged |
| ServerHiddenStore.HideRolledBack | src/stores/serverHiddenStore.ts:96-103 | the undo as written: the photo's key is removed whatever it held before |
| ServerHiddenStore.HideRestored | src/stores/serverHiddenStore.ts:80-105 | the intended undo: the photo is hidden afterwards exactly when a previous record is put back; other keys untouched |
| ServerHiddenStore.HideRollbackLosesRecord | src/stores/serverHiddenStore.ts:80-105 | re-hiding an already hidden photo and failing the save unhides it: the map differs from the one before the call |
| ServerHiddenStore.HideRestoreRestores | src/stores/serverHiddenStore.ts:80-105 | with the intended undo a failed `hidePhoto` gives back exactly the old map |
| ServerHiddenStore.HideRollbackAgreesWhenAbsent | src/stores/serverHiddenStore.ts:96-103 | for a photo that was not hidden, the written and the intended undo both give back the old map |
| ServerHiddenStore.UnhideRollbackRestores | src/stores/serverHiddenStore.ts:107-132 | a failed `unhidePhoto` gives back exactly the old map |
| ServerHiddenStore.ServerHiddenStore.constructor | src/stores/serverHiddenStore.ts:36-39 | empty map, not loading, no error |
| ServerHiddenStore.ServerHiddenStore.LoadFromServer | src/stores/serverHiddenStore.ts:41-66 | a fetched document replaces the map; a failed fetch records the error and falls back to the local copy when it parses |
| ServerHiddenStore.ServerHiddenStore.SaveToServer | src/stores/serverHiddenStore.ts:68-78 | success makes the server copy equal to the map and clears the error; failure records it |
| ServerHiddenStore.ServerHiddenStore.HidePhoto | src/stores/serverHiddenStore.ts:80-105 | success leaves `Hidden` of the old map; failure leaves the as-written rollback |
| ServerHiddenStore.ServerHiddenStore.HidePhotoRestoring | src/stores/serverHiddenStore.ts:80-105 | the corrected action: success leaves `Hidden`, failure leaves the map exactly as before |
| ServerHiddenStore.ServerHiddenStore.UnhidePhoto | src/stores/serverHiddenStore.ts:107-132 | success leaves `Unhidden`; failure puts the removed record back, the map as before |
| ServerHiddenStore.ServerHiddenStore.TogglePhotoHidden | src/stores/serverHiddenStore.ts:146-153 | success flips the photo as `Toggled`; failure leaves the map as before |
| ServerHiddenStore.ServerHiddenStore.HideMultiplePhotos | src/stores/serverHiddenStore.ts:155-181 | success leaves `HideAll`; failure restores the snapshot |
| ServerHiddenStore.ServerHiddenStore.UnhideAll | src/stores/serverHiddenStore.ts:183-206 | success leaves `WithoutEvent`; failure restores the snapshot |
| ServerHiddenStore.ServerHiddenStore.ImportHidden | src/stores/serverHiddenStore.ts:217-231 | accepted exactly when version and map are present; accepted maps replace the old and are saved |
| ServerHiddenStore.RetryToggle | src/stores/serverHiddenStore.ts:146-153 | a toggle whose save fails followed by one that succeeds has the effect of one toggle, saved |
| PublicStore.Added | src/stores/publicStore.ts:36-47 | after `addToPublic` the photo is public with a fresh record; others unchanged |
| PublicStore.Removed | src/stores/publicStore.ts:49-54 | after `removeFromPublic` only the photo's key is gone |
| PublicStore.GetPublicPhotos | src/stores/publicStore.ts:60-66 | with an event id exactly the event's records, with none every record |
| PublicStore.GetPublicPhotoCount | src/stores/publicStore.ts:105-107 | the number of the event's public photos; for an empty event id, of all public photos |
| PublicStore.Toggled | src/stores/publicStore.ts:68-75 | toggling flips whether the photo is public and touches nothing else |
| PublicStore.ToggleTwice | src/stores/publicStore.ts:68-75 | toggling twice keeps the key set; a photo that was not public gives back the very same map, a public one comes back with the second time stamp |
| PublicStore.AddAll | src/stores/publicStore.ts:77-90 | every listed photo becomes public with the shared time stamp |
| PublicStore.AddAllNext | src/stores/publicStore.ts:80-87 | one `forEach` step extends the prefix result by one photo |
| PublicStore.FillPublic | src/stores/publicStore.ts:79-88 | the loop builds exactly `AddAll` |
| PublicStore.WithoutEvent | src/stores/publicStore.ts:92-103 | no event id empties the map, otherwise exactly the other events' records remain |
| PublicStore.ExportPublicPhotos | src/stores/publicStore.ts:109-116 | version "1.0" and the whole map |
| PublicStore.ExportImportRoundTrip | src/stores/publicStore.ts:109-130 | importing an export is accepted and restores the map |
| PublicStore.LocalPublicStore.constructor | src/stores/publicStore.ts:34 | the store starts empty |
| PublicStore.LocalPublicStore.AddToPublic | src/stores/publicStore.ts:36-47 | the new map is `Added` of the old |
| PublicStore.LocalPublicStore.RemoveFromPublic | src/stores/publicStore.ts:49-54 | the new map is `Removed` of the old |
| PublicStore.LocalPublicStore.TogglePhotoPublic | src/stores/publicStore.ts:68-75 | the new map is `Toggled` of the old |
| PublicStore.LocalPublicStore.AddMultipleToPublic | src/stores/publicStore.ts:77-90 | the new map is `AddAll` of the old |
| PublicStore.LocalPublicStore.RemoveAllFromPublic | src/stores/publicStore.ts:92-103 | the new map is `WithoutEvent` of the old |
| PublicStore.LocalPublicStore.ImportPublicPhotos | src/stores/publicStore.ts:118-130 | true exactly when parsed with version and map; then replaced, otherwise unchanged |
| FlagStore.Flagged | src/stores/flagStore.ts:44-59 | after `flagPhoto` the photo is flagged with a fresh, unsubmitted record; others unchanged |
| FlagStore.MarkedSubmitted | src/stores/flagStore.ts:61-70 | as written: a flagged photo's record gets `submitted`; an unflagged photo's key is bound to `undefined` |
| FlagStore.MarkUnflaggedStaysUnflagged | src/stores/flagStore.ts:61-78 | marking an unflagged photo leaves it unflagged and `getPhotoFlag` null |
| FlagStore.GetPhotoFlag | src/stores/flagStore.ts:76-78 | the record exactly when the photo is flagged, otherwise null |
| FlagStore.FilterEvent | src/stores/flagStore.ts:80-84 | the filter throws exactly when some value is `undefined`; otherwise exactly the event's records |
| FlagStore.GetEventFlags | src/stores/flagStore.ts:80-84 | throws exactly when a key is bound to `undefined`; otherwise exactly the event's flags |
| FlagStore.MarkUnflaggedBreaksEventFlags | src/stores/flagStore.ts:61-84 | marking photo `p` in an empty store binds it to `undefined`, after which `getEventFlags` throws for every event |
| FlagStore.MarkedSubmittedIfFlagged | src/stores/flagStore.ts:61-70 | the corrected action: a flagged photo's record is marked submitted; for an unflagged photo the map is left unchanged |
| FlagStore.IntendedMarkKeepsFlagsReadable | src/stores/flagStore.ts:61-84 | with the corrected action no key is bound to `undefined`, `getEventFlags` never throws, and flagged photos are marked as before |
| FlagStore.ActionsKeepDefined | src/stores/flagStore.ts:44-91 | `flagPhoto` and `removeFlag` keep every key bound to a record |
| FlagStore.LocalFlagStore.constructor | src/stores/flagStore.ts:42 | the store starts empty |
| FlagStore.LocalFlagStore.FlagPhoto | src/stores/flagStore.ts:44-59 | the new map is `Flagged` of the old |
| FlagStore.LocalFlagStore.MarkAsSubmitted | src/stores/flagStore.ts:61-70 | the new map is `MarkedSubmitted` of the old |
| FlagStore.LocalFlagStore.RemoveFlag | src/stores/flagStore.ts:86-91 | only the photo's key is removed |
| FlagStore.LocalFlagStore.ClearAllFlags | src/stores/flagStore.ts:93-95 | the map is empty |
| EventData.TopRanges | src/utils/eventData.ts:27 | for a three-digit number the pattern accepts exactly 073–165 and 170–259 |
| EventData.Suffix | src/utils/eventData.ts:27 | the suffix is `top` exactly when the pattern matches, `all` otherwise |
| EventData.PhotoFor | src/utils/eventData.ts:29-34 | the generated record's id, order, url and thumbnail follow the naming scheme |
| EventData.PhotosFor | src/utils/eventData.ts:25-35 | one record per number, in order, each `PhotoFor` its number and index |
| EventData.GeneratePhotos | src/utils/eventData.ts:4-38 | the loop pushes one photo per number, in order, with id `fred-2025-<number>`, its position as order and the url of the naming scheme; the list equals `PhotosFor` the numbers |
| EventData.GeneratedIdsDistinct | src/utils/eventData.ts:30 | distinct photo numbers give distinct photo ids |
| EventData.GetEventsByYear | src/utils/eventData.ts:116-119 | the events of the first year entry with that year, or none |
| EventData.FindEvent | src/utils/eventData.ts:135 | the first event with that id, or none exactly when no event has it |
| EventData.GetEvent | src/utils/eventData.ts:133-139 | none exactly when no event of any year has that id; otherwise the first event with that id (what `find` returns) of the first year that holds one |
| EventData.EventsOfProperty | src/utils/eventData.ts:123-129 | exactly the catalogue's events of that property |
| EventData.GetEventsByProperty | src/utils/eventData.ts:121-131 | exactly the property's events, newest first, a permutation of the collected ones; the stable sort of them, so events of equal date keep catalogue order |
| EventData.CollectEvents | src/utils/eventData.ts:124-128 | the inner loop appends exactly the property's events of one year |
| EventData.Years | src/utils/eventData.ts:142 | the years of the catalogue, in order |
| EventData.GetAllYears | src/utils/eventData.ts:141-142 | a permutation of the years, in non-increasing order |
| EventData.AllYearsOfCatalogue | src/utils/eventData.ts:41-142 | for the shipped catalogue the years are 2025, 2024 |
| EventData.CatalogueHasFred2025 | src/utils/eventData.ts:4-113 | the catalogue has the `fred-2025` event with its 104 generated photos |
| EventGalleryPage.Join | src/pages/EventGalleryPage.tsx:78-89 | one joined entry per photo, in order, with its rating, tags and hidden flag |
| EventGalleryPage.PhotosWithMeta | src/pages/EventGalleryPage.tsx:77-97 | admin mode keeps every photo; public mode keeps exactly the photos that are not hidden, in order |
| EventGalleryPage.Ids | src/pages/EventGalleryPage.tsx:172 | the ids of the joined photos, in order |
| EventGalleryPage.HiddenNotGated | src/pages/EventGalleryPage.tsx:91-94 | in public mode a hidden photo's id is not among the visible ids |
| EventGalleryPage.VisibilityFiltered | src/pages/EventGalleryPage.tsx:103-111 | admin `exclude`/`only` keep exactly the not-hidden/hidden photos; `include` and public mode keep everything |
| EventGalleryPage.TagFiltered | src/pages/EventGalleryPage.tsx:114-116 | `all` keeps everything, any other tag exactly the photos that carry it |
| EventGalleryPage.UnratedExcluded | src/pages/EventGalleryPage.tsx:119-136 | every comparator but `any` turns away a photo without a rating or rated 0 |
| EventGalleryPage.RatingFiltered | src/pages/EventGalleryPage.tsx:118-137 | exactly the photos whose rating passes the comparator; `any` keeps everything |
| EventGalleryPage.FilteredPhotos | src/pages/EventGalleryPage.tsx:100-140 | exactly the photos passing the hidden, tag and rating filters, in their order |
| EventGalleryPage.SortedPhotos | src/pages/EventGalleryPage.tsx:143-157 | a permutation of the filtered photos; `default` keeps the order; the others are stable sorts by rating (either way) or by tag count |
| EventGalleryPage.MetaTagLists | src/pages/EventGalleryPage.tsx:162-163 | the tag lists of the joined photos, in order |
| EventGalleryPage.TagCounts | src/pages/EventGalleryPage.tsx:160-168 | the counts are exact, and a tag is counted exactly when some visible photo carries it |
| EventGalleryPage.TagStats | src/pages/EventGalleryPage.tsx:171-194 | counts the event's tag records whose photo is visible; the tag counts and key order are exact for those records, and in a well-formed store a tag's count is the number of records carrying it; the popular list has min(10, number of tags) entries by non-increasing count, none left out more frequent than one kept |
| EventGalleryPage.RemoveAll | src/pages/EventGalleryPage.tsx:248 | a tag remains exactly when it was there and is not removed |
| EventGalleryPage.RemoveAllDistinct | src/pages/EventGalleryPage.tsx:248 | removing from a repetition-free list keeps it repetition-free |
| EventGalleryPage.AddAll | src/pages/EventGalleryPage.tsx:251 | a tag is present exactly when it was there or is added |
| EventGalleryPage.AddAllIsDedup | src/pages/EventGalleryPage.tsx:251-254 | adding to a repetition-free list equals removing repetitions from the concatenation |
| EventGalleryPage.BulkTags | src/pages/EventGalleryPage.tsx:242-254 | the new tag list is `(existing minus remove) plus add`, without repetition |
| EventGalleryPage.BulkTagList | src/pages/EventGalleryPage.tsx:242-254 | the loops compute exactly `BulkTags` |
| EventGalleryPage.RatingsAfterHolds | src/pages/EventGalleryPage.tsx:234-239 | every selected photo gets the clamped chosen rating; no rating chosen changes nothing; unselected photos untouched |
| EventGalleryPage.TagsAfterFrame | src/pages/EventGalleryPage.tsx:241-255 | no tag chosen changes nothing; unselected photos untouched |
| EventGalleryPage.TagsAfterHolds | src/pages/EventGalleryPage.tsx:241-255 | each selected photo ends with exactly its old tags minus the removed ones, plus the added ones |
| EventGalleryPage.HiddenAfterHolds | src/pages/EventGalleryPage.tsx:257-264 | no change chosen changes nothing; every selected photo whose save succeeds ends with the chosen visibility; unselected photos and those whose save fails keep their record |
| EventGalleryPage.PublicAfterHolds | src/pages/EventGalleryPage.tsx:266-273 | no change chosen changes nothing; every selected photo ends with the chosen public status; unselected photos untouched |
| EventGalleryPage.HiddenAtTarget | src/pages/EventGalleryPage.tsx:257-264 | when every selected photo already has the target visibility nothing changes |
| EventGalleryPage.HiddenEditIdempotent | src/pages/EventGalleryPage.tsx:257-264 | applying the same visibility edit twice has no further effect |
| EventGalleryPage.PublicAtTarget | src/pages/EventGalleryPage.tsx:266-273 | when every selected photo already has the target status nothing changes |
| EventGalleryPage.PublicEditIdempotent | src/pages/EventGalleryPage.tsx:266-273 | applying the same public edit twice has no further effect |
| EventGalleryPage.TagEditIdempotent | src/pages/EventGalleryPage.tsx:241-255 | applying the same tag edit twice leaves every selected photo with the same tags as once |
| EventGalleryPage.SelectionToggled | src/pages/EventGalleryPage.tsx:206-214 | the photo is selected afterwards exactly when it was not; other photos keep their state; no repetition appears |
| EventGalleryPage.SelectionToggleTwice | src/pages/EventGalleryPage.tsx:206-214 | toggling twice restores the selection's contents |
| EventGalleryPage.EventGalleryPage.constructor | src/pages/EventGalleryPage.tsx:31-44 | nothing selected, not in multi-select mode, lightbox and modal closed, empty bulk form |
| EventGalleryPage.EventGalleryPage.TogglePhotoSelection | src/pages/EventGalleryPage.tsx:206-214 | the selection becomes `SelectionToggled`; nothing else changes |
| EventGalleryPage.EventGalleryPage.SelectAllVisible | src/pages/EventGalleryPage.tsx:216-219 | the selection is exactly the ids of the sorted photos, once each |
| EventGalleryPage.EventGalleryPage.ClearSelection | src/pages/EventGalleryPage.tsx:221-223 | the selection is empty |
| EventGalleryPage.EventGalleryPage.ToggleMultiSelect | src/pages/EventGalleryPage.tsx:225-230 | flips the mode; leaving multi-select mode empties the selection |
| EventGalleryPage.EventGalleryPage.HandlePhotoClick | src/pages/EventGalleryPage.tsx:197-204 | in multi-select mode toggles the photo's selection, otherwise opens the lightbox at the index |
| EventGalleryPage.EventGalleryPage.OpenBulkEditModal | src/pages/EventGalleryPage.tsx:290-294 | the modal opens only with a non-empty selection |
| EventGalleryPage.EventGalleryPage.ResetBulkEditForm | src/pages/EventGalleryPage.tsx:283-288 | the bulk form holds no change; the rest of the page is untouched |
| EventGalleryPage.EventGalleryPage.ApplyBulkEdits | src/pages/EventGalleryPage.tsx:233-281 | the four stores end as the edit functions of the old stores and the old selection; then modal, selection, form and mode are reset |
| EventGalleryPage.EditAll | src/pages/EventGalleryPage.tsx:234-275 | the loop over the selection applies each photo's edits in order |
| EventGalleryPage.EditPhoto | src/pages/EventGalleryPage.tsx:234-275 | one photo's rating, tag, visibility and public edits |
| EventGalleryPage.EditRating | src/pages/EventGalleryPage.tsx:236-238 | rates the photo only when a rating is chosen |
| EventGalleryPage.EditTags | src/pages/EventGalleryPage.tsx:241-255 | re-tags the photo with `BulkTags` only when a tag is added or removed |
| EventGalleryPage.EditVisibility | src/pages/EventGalleryPage.tsx:257-264 | toggles the hidden store only when the photo differs from the target |
| EventGalleryPage.EditPublic | src/pages/EventGalleryPage.tsx:266-273 | toggles the public store only when the photo differs from the target |
| Lightbox.NextIndex | src/components/features/EventGallery.tsx:33-37 | inside the range the next index stays in range, and the last photo wraps to 0 |
| Lightbox.PrevIndex | src/components/features/EventGallery.tsx:39-43 | inside the range the previous index stays in range, and the first photo wraps to the last |
| Lightbox.NextPrevInverse | src/components/features/EventGallery.tsx:33-43 | inside the range, next then previous (and previous then next) return to the same photo |
| Lightbox.EmptyEventEscapes | src/components/features/EventGallery.tsx:33-43 | with no photos the index leaves the range (to 1 or -1) |
| Lightbox.AdvanceWraps | src/components/features/EventGallery.tsx:33-37 | pressing next `k <= n` times moves `k` photos on, modulo the count |
| Lightbox.FullCycleReturns | src/components/features/EventGallery.tsx:33-37 | pressing next once per photo comes back to the start |
| Lightbox.PhotoAt | src/components/features/EventGallery.tsx:45 | a photo exactly when the index is in range, and then one of the event's photos |
| Lightbox.ClickedPhotoNotShown | src/pages/EventGalleryPage.tsx:847-859 | when the clicked photo differs from the first, the lightbox as written (starting at 0) shows a different photo from the one clicked |
| Lightbox.OpenClickedAsWritten | src/components/features/EventGallery.tsx:9-10 | opening `EventGallery` for an event after a click on a photo other than the first shows the first photo, not the clicked one |
| Lightbox.OpenClickedIntended | src/pages/EventGalleryPage.tsx:847-859 | corrected: opening the lightbox at the clicked index shows the clicked photo |
| Lightbox.EventGallery.constructor | src/components/features/EventGallery.tsx:9-10 | as written: the index starts at 0 whatever the caller passed |
| Lightbox.EventGallery.OpenedAt | src/pages/EventGalleryPage.tsx:847-859 | corrected: the lightbox starts on the photo at the index the page passes |
| Lightbox.EventGallery.NextPhoto | src/components/features/EventGallery.tsx:33-37 | the index becomes `NextIndex`; a valid index stays valid |
| Lightbox.EventGallery.PrevPhoto | src/components/features/EventGallery.tsx:39-43 | the index becomes `PrevIndex`; a valid index stays valid |
| Lightbox.EventGallery.SelectPhoto | src/components/features/EventGallery.tsx:144-147 | a thumbnail click shows the photo at that index |
| Lightbox.SubmitRecordsFlag | src/components/features/PublicLightbox.tsx:127-174 | whatever the form post does, the photo ends flagged with the form's data, other flags unchanged |
| Lightbox.PublicLightbox.constructor | src/components/features/PublicLightbox.tsx:11-20 | starts at the given index, form closed, idle, all fields empty |
| Lightbox.PublicLightbox.ResetOnPhotoChange | src/components/features/PublicLightbox.tsx:76-83 | a change of index onto a photo closes the form and clears reason, apartment and status, keeping e-mail and name |
| Lightbox.PublicLightbox.NextPhoto | src/components/features/PublicLightbox.tsx:24-28 | `NextIndex`, then the reset effect; e-mail and name survive |
| Lightbox.PublicLightbox.PrevPhoto | src/components/features/PublicLightbox.tsx:30-34 | `PrevIndex`, then the reset effect |
| Lightbox.PublicLightbox.SelectPhoto | src/components/features/PublicLightbox.tsx:351-354 | a thumbnail click shows the photo at that index; moving to another photo clears the form, staying keeps it; e-mail and name survive |
| Lightbox.PublicLightbox.HandleFlagSubmit | src/components/features/PublicLightbox.tsx:127-174 | an incomplete form changes nothing; a complete one flags the photo, marks it submitted when the post is ok, and sets the status to success or error |
| Lightbox.PublicLightbox.ResetAfterSuccess | src/components/features/PublicLightbox.tsx:160-167 | the timer closes the form and clears every field |
| TagSelector.ToggleTag | src/components/features/TagSelector.tsx:13-19 | a selected tag is removed with all its copies, and every other tag keeps its order and its number of copies; an unselected one is appended; other tags keep their state |
| TagSelector.ToggleTagTwice | src/components/features/TagSelector.tsx:13-19 | selecting a new tag and deselecting it gives back the same list |
| TagSelector.ToggleTagTwiceMovesLast | src/components/features/TagSelector.tsx:13-19 | deselecting and reselecting a tag moves it to the end |
| TagSelector.DeselectSingle | src/components/features/TagSelector.tsx:14-15 | deselecting a tag held once removes just that position |
| TagSelector.CategoryToggled | src/components/features/TagSelector.tsx:21-29 | the category is expanded afterwards exactly when it was not; others keep their state |
| TagSelector.CategoryToggleTwice | src/components/features/TagSelector.tsx:21-29 | toggling twice restores the expanded set |
| TagSelector.TagSelector.constructor | src/components/features/TagSelector.tsx:11 | nothing expanded |
| TagSelector.TagSelector.ToggleCategory | src/components/features/TagSelector.tsx:21-29 | the expanded set becomes `CategoryToggled` |
| PhotoGallery.GalleryMeta | src/pages/PhotoGallery.tsx:44-52 | the pushed record carries the photo, its event, a rating exactly when one is stored, and the stored tags or none |
| PhotoGallery.EventMetas | src/pages/PhotoGallery.tsx:43-53 | one record per photo of the event, in order |
| PhotoGallery.EventsMetasMembers | src/pages/PhotoGallery.tsx:40-54 | the records come from events passing the property filter, and every photo of such an event is there |
| PhotoGallery.YearsMetasMembers | src/pages/PhotoGallery.tsx:34-58 | `allPhotosWithMeta` holds exactly the photos of the events passing both the year and the property filter |
| PhotoGallery.PushEvent | src/pages/PhotoGallery.tsx:43-53 | the innermost loop appends exactly `EventMetas` |
| PhotoGallery.PushYear | src/pages/PhotoGallery.tsx:40-54 | the middle loop appends the records of the passing events |
| PhotoGallery.AllPhotosWithMeta | src/pages/PhotoGallery.tsx:34-58 | the nested loops build exactly the records of the passing years and events |
| PhotoGallery.FilteredPhotos | src/pages/PhotoGallery.tsx:61-66 | `all` keeps everything, any other tag exactly the photos carrying it |
| PhotoGallery.Reversed | src/pages/PhotoGallery.tsx:80 | `reverse()`: position `i` holds the element from the other end |
| PhotoGallery.ReversedTwice | src/pages/PhotoGallery.tsx:80 | reversing twice gives the list back |
| PhotoGallery.SortedPhotos | src/pages/PhotoGallery.tsx:68-82 | a permutation of the filtered photos: newest is the reversed list; the rating and tag orders are stable sorts |
| PhotoGallery.ReversedMultiset | src/pages/PhotoGallery.tsx:80 | reversing is a permutation |
| PhotoGallery.GalleryTagLists | src/pages/PhotoGallery.tsx:96-97 | the tag lists of the records, in order |
| PhotoGallery.TagCounts | src/pages/PhotoGallery.tsx:94-102 | exact counts over all photos before the tag filter; a tag is counted exactly when some photo carries it |
| PhotoGallery.CountedTagSelects | src/pages/PhotoGallery.tsx:61-102 | a tag is offered with a count exactly when selecting it leaves some photo |
| PhotoGallery.Renumbered | src/pages/PhotoGallery.tsx:108-111 | the lightbox's photo list is the sorted photos with `order` set to their position |
| PhotoGallery.PhotoClick | src/pages/PhotoGallery.tsx:104-115 | the opened event is the clicked photo's event with the renumbered list, at the clicked index |
| PhotoGallery.ClickOpensClickedPhoto | src/pages/PhotoGallery.tsx:104-115 | the opened list holds, at the clicked index, the clicked photo |
| PublicGallery.LookupEvent | src/pages/PublicGallery.tsx:43-49 | the loop with its early return finds exactly `GetEvent` of the slug |
| PublicGallery.PhotoIds | src/pages/PublicGallery.tsx:63 | the photo ids of the event's public records, in order |
| PublicGallery.PublicPhotos | src/pages/PublicGallery.tsx:63-64 | a subsequence of the event's photos |
| PublicGallery.PublicPhotosExact | src/pages/PublicGallery.tsx:63-64 | a photo of the event is shown exactly when some public record of the event names it |
| PublicGallery.RenderGates | src/pages/PublicGallery.tsx:51-167 | the gallery is rendered exactly for a known event with public photos and an authenticated visitor; a known event without public photos renders the empty page |
| PublicGallery.ZeroCountNoPhotos | src/pages/PublicGallery.tsx:63-71 | with no public record for the event no photo is public |
| PublicGallery.PublicGallery.constructor | src/pages/PublicGallery.tsx:12-17 | not authenticated, empty password, no error, lightbox closed at 0 |
| PublicGallery.PublicGallery.HandlePasswordSubmit | src/pages/PublicGallery.tsx:29-40 | the right password authenticates and clears the error; a wrong one sets the error and clears the password |
| PublicGallery.PublicGallery.HandlePhotoClick | src/pages/PublicGallery.tsx:66-69 | opens the lightbox at the index |
| PublicGallery.PublicGallery.CloseLightbox | src/pages/PublicGallery.tsx:272-275 | closes the lightbox and resets the index to 0 |
| DownloadAssets.AlternativeAt | src/utils/downloadAssets.ts:118 | the first alternative of the extension group that matches at a position, or none when none does |
| DownloadAssets.MatchFrom | src/utils/downloadAssets.ts:118 | no match exactly when no alternative matches at any position from the start on; otherwise the extension of the leftmost position where one matches |
| DownloadAssets.LeftmostIs | src/utils/downloadAssets.ts:118 | an alternative matching at a position with no match before it is the one the search returns |
| DownloadAssets.GetFileExtension | src/utils/downloadAssets.ts:116-134 | the URL's extension lower-cased with a dot when the pattern matches; else the MIME table's entry; else `.jpg` |
| DownloadAssets.ExtensionIsFixed | src/utils/downloadAssets.ts:116-134 | whatever the input, the result is one of seven dotted extensions |
| DownloadAssets.MimeResults | src/utils/downloadAssets.ts:124-131 | every MIME table entry is one of those seven |
| DownloadAssets.MatchUnique | src/utils/downloadAssets.ts:118 | at a position at most one alternative matches |
| DownloadAssets.AlternativeIsTheMatch | src/utils/downloadAssets.ts:118 | the alternative found first is the one that matches |
| DownloadAssets.NoDotNoMatch | src/utils/downloadAssets.ts:118 | no match can start among characters that hold no dot |
| DownloadAssets.ExtensionFromUrl | src/utils/downloadAssets.ts:118-121 | a name without `?` (dots and other extensions allowed), a dot, an image extension in any case and a query string give that extension in lower case |
| DownloadAssets.ExtensionFromMime | src/utils/downloadAssets.ts:123-133 | a URL without a dot falls back to the MIME table, then to `.jpg` |
| DownloadAssets.FolderName | src/utils/downloadAssets.ts:7 | the folder name holds no white space |
| DownloadAssets.FolderNameIdempotent | src/utils/downloadAssets.ts:7 | naming a folder after a folder name changes nothing |
| DownloadAssets.RunBecomesOneUnderscore | src/utils/downloadAssets.ts:7 | a run of white space between visible characters becomes exactly one underscore |
| DataStore.FileFor | netlify/functions/data-store.js:54-62 | the four types map to their files under `data/`; with an own-property lookup no other name maps to a file |
| DataStore.LastSegment | netlify/functions/data-store.js:51-52 | the type is the suffix of the path after its last `/`, and holds no `/` |
| DataStore.SegmentAfterSlash | netlify/functions/data-store.js:51-52 | a slash-free suffix preceded by `/` is the segment taken |
| DataStore.EmptyData | netlify/functions/data-store.js:142-171 | a known type's empty document has version "1.0", the time and its own empty map; any other name gives `{}` |
| DataStore.EmptyDataKeys | netlify/functions/data-store.js:142-171 | each type's empty document is keyed by that type's own map name |
| DataStore.ReadFile | netlify/functions/data-store.js:68-71 | a read returns the stored file, a 404 when there is none, or the injected failure |
| DataStore.GetReply | netlify/functions/data-store.js:65-90 | GET answers 200 with the stored document, 200 with the empty document on a 404, and 500 on any other failure |
| DataStore.ShaBeforeWrite | netlify/functions/data-store.js:97-107 | the revision sent is the one read, or none when the read failed or the file is missing |
| DataStore.PutOutcome | netlify/functions/data-store.js:109-121 | status 200 exactly when the write is accepted, and then the file holds the document; otherwise 500 and the files are unchanged |
| DataStore.Respond | netlify/functions/data-store.js:33-139 | every response carries the CORS headers; OPTIONS answers 200 with nothing changed; only a successful PUT changes the files |
| DataStore.Dispatch | netlify/functions/data-store.js:54-138 | past the token check every response carries the CORS headers, and only an accepted PUT with a parsed body writes, replacing the looked-up file only |
| DataStore.NoTokenFails | netlify/functions/data-store.js:11-14 | without a token every request but a preflight answers 500 with the token message, before the type is looked at |
| DataStore.GetAnswers | netlify/functions/data-store.js:64-90 | GET of a known type answers as `GetReply`, with the files unchanged |
| DataStore.OtherMethodsRefused | netlify/functions/data-store.js:123-128 | any other method of a known type, POST and DELETE included, answers 405 |
| DataStore.PutThenGet | netlify/functions/data-store.js:64-121 | a PUT that goes through replaces the file, and a following GET returns the document put |
| DataStore.PutAfterFailedReadRefused | netlify/functions/data-store.js:98-115 | when reading an existing file's revision fails, the write goes out without one, is refused, and nothing changes |
| DataStore.InheritedNamePassesGuard | netlify/functions/data-store.js:54-62 | as written, `GET .../constructor` passes the type check and answers 200 with `{}` |
| DataStore.OwnLookupRejectsUnknownTypes | netlify/functions/data-store.js:54-60 | with an own-property lookup every unknown type answers 400 with `Invalid data type` |
| DataStore.OwnLookupWritesDataFiles | netlify/functions/data-store.js:54-121 | with an own-property lookup only a parsed PUT of a known type changes the files, and then only that type's file |
| DataStore.Repository.constructor | netlify/functions/data-store.js:19-23 | the repository configured for the function holds the given files |
| DataStore.Repository.GetContent | netlify/functions/data-store.js:68-71 | the read is `ReadFile` of the current files |
| DataStore.Repository.CreateOrUpdate | netlify/functions/data-store.js:109-115 | a failed or refused write changes nothing; an accepted one stores the document under a new revision |
| DataStore.Handle | netlify/functions/data-store.js:33-139 | the handler's response and the repository afterwards are exactly `Respond` of the old files |
| DataStore.Serve | netlify/functions/data-store.js:54-138 | the handler past its token check answers and leaves the repository exactly as `Dispatch` of the old files |
| FinancialStore.Merge | src/stores/financialStore.ts:59-64 | each of the eleven fields is the patch's when the patch names it and the payment's otherwise; an empty patch changes nothing |
| FinancialStore.ApplyChange | src/stores/financialStore.ts:59-111 | record: paid now with method and transaction; late fee: fee stored, added to the amount, status late; refund: refunded with the reason note |
| FinancialStore.ChangeWhere | src/stores/financialStore.ts:61-62 | the payments with the id are changed, every other payment stays, length kept |
| FinancialStore.GetPayment | src/stores/financialStore.ts:181 | the first payment with that id in the list (no earlier payment has it), or none exactly when no payment has it |
| FinancialStore.PaymentsByStatus | src/stores/financialStore.ts:189-193 | exactly the payments with that status |
| FinancialStore.PaymentsByLease | src/stores/financialStore.ts:183-184 | exactly the payments of that lease |
| FinancialStore.PaymentsByTenant | src/stores/financialStore.ts:186-187 | exactly the payments of that tenant |
| FinancialStore.UpcomingPayments | src/stores/financialStore.ts:195-204 | exactly the pending payments due between now and `days` days later |
| FinancialStore.UpcomingWeek | src/stores/financialStore.ts:195-204 | with the default of seven days: exactly the pending payments due within the coming week |
| FinancialStore.OverduePayments | src/stores/financialStore.ts:206-213 | exactly the pending or late payments due before now |
| FinancialStore.PaymentsByDateRange | src/stores/financialStore.ts:215-220 | exactly the payments paid, or falling due, within the range |
| FinancialStore.FinancialMetrics | src/stores/financialStore.ts:249-288 | the revenue equals `getTotalRevenue` without a range; the outstanding total adds the amount of each pending or late payment; the late total adds the late fee (or 0) of each late payment |
| FinancialStore.MetricsOutstandingOmitsPartial | src/stores/financialStore.ts:232-257 | the metrics' outstanding total plus the partial payments equals `getTotalOutstanding` |
| FinancialStore.RevenueNested | src/stores/financialStore.ts:222-247 | with no negative amounts, a property's revenue ≤ the period's revenue ≤ all revenue |
| FinancialStore.RecordMovesAmount | src/stores/financialStore.ts:71-84 | recording an unpaid payment adds its amount to revenue and, if it was outstanding, takes it from the outstanding total |
| FinancialStore.LateFeeTwice | src/stores/financialStore.ts:86-98 | applying a late fee twice adds it to the amount twice, while the stored fee is the single fee |
| FinancialStore.DeleteRemovesId | src/stores/financialStore.ts:66-69 | after deleting no payment has the id, and the list is unchanged exactly when none had it |
| FinancialStore.SummaryOf | src/stores/financialStore.ts:115-136 | revenue adds the amount of each paid payment of the period; expenses and occupancy are 0; net income is revenue minus expenses; the period is the one asked for; outstanding rent is the outstanding total of the period's payments |
| FinancialStore.SummaryCoversAll | src/stores/financialStore.ts:118-125 | when every payment falls due in the period, the summary's outstanding rent is the whole outstanding total |
| FinancialStore.StoreSummary | src/stores/financialStore.ts:138-143 | the new summary is last and the others are exactly the old summaries of other periods |
| FinancialStore.StoreSummaryOnePerPeriod | src/stores/financialStore.ts:138-143 | storing a summary keeps at most one summary per period |
| FinancialStore.FinancialStore.constructor | src/stores/financialStore.ts:49-50 | no payments, no summaries |
| FinancialStore.FinancialStore.SetPayments | src/stores/financialStore.ts:52 | the list is replaced |
| FinancialStore.FinancialStore.AddPayment | src/stores/financialStore.ts:54-57 | the payment is appended, the rest untouched |
| FinancialStore.FinancialStore.ChangePayment | src/stores/financialStore.ts:59-111 | the list becomes `ChangeWhere` for update, record, late fee and refund |
| FinancialStore.FinancialStore.DeletePayment | src/stores/financialStore.ts:66-69 | exactly the payments with other ids remain |
| FinancialStore.FinancialStore.SetSummaries | src/stores/financialStore.ts:113 | the summaries are replaced |
| FinancialStore.FinancialStore.GenerateSummary | src/stores/financialStore.ts:115-179 | returns `SummaryOf` the period, stores it with `StoreSummary`, and keeps one summary per period |
| PropertyStore.OccupiedCount | src/stores/propertyStore.ts:84-86 | the occupied units never outnumber the units |
| PropertyStore.PatchedProperty | src/stores/propertyStore.ts:57-62 | each field (the id included) is the patch's when named and the property's otherwise, the time is stamped, and an empty patch changes nothing else |
| PropertyStore.WithUnitAdded | src/stores/propertyStore.ts:72-90 | the unit is appended, one more unit counted, the occupied count recomputed, the revenue untouched |
| PropertyStore.MapUnits | src/stores/propertyStore.ts:99-101 | the units with the id are patched, all others stay |
| PropertyStore.WithUnitUpdated | src/stores/propertyStore.ts:92-110 | the unit is patched and the occupied count recomputed; total units and revenue are kept |
| PropertyStore.WithUnitDeleted | src/stores/propertyStore.ts:112-129 | exactly the units with other ids remain, and the unit counters agree with them |
| PropertyStore.WithUnitStatus | src/stores/propertyStore.ts:131-152 | the status is set, and the occupied count and the revenue are recomputed from the units |
| PropertyStore.ApplyChange | src/stores/propertyStore.ts:57-152 | only a property patch that names an id changes the id; a patch gives `PatchedProperty` |
| PropertyStore.ChangeWhere | src/stores/propertyStore.ts:59-61 | the properties with the id change, the others stay |
| PropertyStore.UnitChangeKeepsCounters | src/stores/propertyStore.ts:72-152 | every unit operation keeps the counters in agreement with the units |
| PropertyStore.PatchCanBreakCounters | src/stores/propertyStore.ts:57-62 | a patch that sets the unit count by hand breaks the agreement |
| PropertyStore.UpdateUnitLeavesRevenue | src/stores/propertyStore.ts:92-110 | after `updateUnit` occupies a unit, the revenue no longer matches the occupied rent |
| PropertyStore.UnitChangesKeepStore | src/stores/propertyStore.ts:72-152 | unit operations keep every property of the store in agreement |
| PropertyStore.GetProperty | src/stores/propertyStore.ts:154 | the first property with that id in the list (no earlier property has it), or none exactly when no property has it |
| PropertyStore.SelectedProperty | src/stores/propertyStore.ts:156-161 | nothing without a selected id; otherwise `GetProperty` of the selected id: none exactly when no property has it |
| PropertyStore.GetUnit | src/stores/propertyStore.ts:163-166 | none when the property is unknown; otherwise `FindUnit` over the first such property's units: a unit with that id, none exactly when no unit of it has the id |
| PropertyStore.FindUnit | src/stores/propertyStore.ts:165 | the first unit with that id in the list (no earlier unit has it), or none exactly when no unit has it |
| PropertyStore.GetPropertyStats | src/stores/propertyStore.ts:168-181 | null exactly for an unknown id; otherwise the found property's stored unit count, occupied count and rent roll, and the number of its units whose status is available; with counters that agree with the units, occupied plus available is at most the total |
| PropertyStore.StatsBounded | src/stores/propertyStore.ts:168-181 | occupied and available units together never outnumber the units |
| PropertyStore.SearchProperties | src/stores/propertyStore.ts:183-191 | exactly the properties whose name, street or city contains the query, ignoring case, in order |
| PropertyStore.SearchIgnoresCase | src/stores/propertyStore.ts:183-191 | the empty query finds every property, and a query finds the same as its lower-case form |
| PropertyStore.PropertyStore.constructor | src/stores/propertyStore.ts:45-46 | no properties, nothing selected |
| PropertyStore.PropertyStore.SetProperties | src/stores/propertyStore.ts:50 | the list is replaced |
| PropertyStore.PropertyStore.AddProperty | src/stores/propertyStore.ts:52-55 | the property is appended |
| PropertyStore.PropertyStore.ChangeProperty | src/stores/propertyStore.ts:57-152 | the list becomes `ChangeWhere`, and unit operations keep every counter in agreement |
| PropertyStore.PropertyStore.DeleteProperty | src/stores/propertyStore.ts:64-68 | exactly the other properties remain, and a selection of the deleted id is cleared |
| PropertyStore.PropertyStore.SelectProperty | src/stores/propertyStore.ts:70 | the selection is set |
| TenantStore.MergeTenant | src/stores/tenantStore.ts:57-62 | each field the patch names (documents, payment history and notes included) replaces the tenant's, the others stay, and the time is stamped whatever the patch says |
| TenantStore.UpdateLeases | src/stores/tenantStore.ts:81-94 | the leases with the id are patched, the others stay |
| TenantStore.WithStatus | src/stores/tenantStore.ts:105-118 | the status is set, and the payment date is now exactly when the status is paid |
| TenantStore.UpdatePayments | src/stores/tenantStore.ts:105-118 | the payments with the id get `WithStatus`, the others stay |
| TenantStore.ApplyChange | src/stores/tenantStore.ts:57-145 | every change stamps the time; a patch is `MergeTenant`; adds append the lease, payment, document or note; removing a document drops exactly that id; a lease update merges the patch into the leases with that id; a payment status update changes the payments with that id |
| TenantStore.ChangeWhere | src/stores/tenantStore.ts:59-61 | the tenants with the id change, the others stay |
| TenantStore.GetTenant | src/stores/tenantStore.ts:147 | the first tenant with that id in the list (no earlier tenant has it), or none exactly when no tenant has it |
| TenantStore.SelectedTenant | src/stores/tenantStore.ts:149-154 | nothing without a selected id; otherwise `GetTenant` of the selected id: none exactly when no tenant has it |
| TenantStore.PaymentHistory | src/stores/tenantStore.ts:166-169 | the tenant's payment history, or none for an unknown tenant |
| TenantStore.ActiveTenants | src/stores/tenantStore.ts:156-159 | exactly the tenants with an active lease, in order |
| TenantStore.TenantsWithLatePayments | src/stores/tenantStore.ts:171-174 | exactly the tenants with a late payment |
| TenantStore.TenantsByProperty | src/stores/tenantStore.ts:161-164 | exactly the tenants with a lease whose unit id starts with the property id |
| TenantStore.SearchTenants | src/stores/tenantStore.ts:176-185 | exactly the tenants whose names or e-mail contain the query ignoring case, or whose phone contains it as typed |
| TenantStore.PhoneSearchKeepsCase | src/stores/tenantStore.ts:176-185 | a phone number is matched with its case, an e-mail without |
| TenantStore.AddActiveLeaseActivates | src/stores/tenantStore.ts:72-79 | adding an active lease puts the tenant among the active tenants |
| TenantStore.MarkLateMakesLatePayer | src/stores/tenantStore.ts:105-118 | marking a payment late puts its tenant among the late payers |
| TenantStore.TenantStore.constructor | src/stores/tenantStore.ts:47-48 | no tenants, nothing selected |
| TenantStore.TenantStore.SetTenants | src/stores/tenantStore.ts:50 | the list is replaced |
| TenantStore.TenantStore.AddTenant | src/stores/tenantStore.ts:52-55 | the tenant is appended |
| TenantStore.TenantStore.ChangeTenant | src/stores/tenantStore.ts:57-145 | the list becomes `ChangeWhere` for the update and the lease, payment, document and note operations |
| TenantStore.TenantStore.DeleteTenant | src/stores/tenantStore.ts:64-68 | exactly the other tenants remain, and a selection of the deleted id is cleared |
| TenantStore.TenantStore.SelectTenant | src/stores/tenantStore.ts:70 | the selection is set |
| MaintenanceStore.GetVendor | src/stores/maintenanceStore.ts:207 | the first vendor with that id in the list (no earlier vendor has it), or none exactly when no vendor has it |
| MaintenanceStore.MergeRequest | src/stores/maintenanceStore.ts:67-72 | each of the request's fields is the patch's when named and the request's otherwise, and the time is stamped whatever the patch says |
| MaintenanceStore.ApplyChange | src/stores/maintenanceStore.ts:67-170 | every change stamps the time; a patch gives `MergeRequest`; a status update sets the status; a note is appended; assigning copies the vendor and sets assigned; scheduling sets the date and assigned; completing sets completed, cost and date |
| MaintenanceStore.CompletionNoteIffText | src/stores/maintenanceStore.ts:134-161 | completing appends a system note exactly when notes text is given |
| MaintenanceStore.ChangeWhere | src/stores/maintenanceStore.ts:69-71 | the requests with the id change, the others stay |
| MaintenanceStore.GetRequest | src/stores/maintenanceStore.ts:172 | the first request with that id in the list (no earlier request has it), or none exactly when no request has it |
| MaintenanceStore.SelectedRequest | src/stores/maintenanceStore.ts:174-179 | nothing without a selected id; otherwise `GetRequest` of the selected id: none exactly when no request has it |
| MaintenanceStore.RequestsByUnit | src/stores/maintenanceStore.ts:181-182 | exactly the unit's requests |
| MaintenanceStore.RequestsByProperty | src/stores/maintenanceStore.ts:184-185 | exactly the requests whose unit id starts with the property id |
| MaintenanceStore.RequestsByStatus | src/stores/maintenanceStore.ts:187-188 | exactly the requests with that status |
| MaintenanceStore.RequestsByPriority | src/stores/maintenanceStore.ts:190-191 | exactly the requests with that priority |
| MaintenanceStore.EmergencyRequests | src/stores/maintenanceStore.ts:193-194 | exactly the emergencies not yet completed |
| MaintenanceStore.OverdueRequests | src/stores/maintenanceStore.ts:196-205 | exactly the unfinished, non-low requests created more than three days ago |
| MaintenanceStore.VendorsBySpecialty | src/stores/maintenanceStore.ts:209-210 | exactly the vendors with that specialty |
| MaintenanceStore.MaintenanceStats | src/stores/maintenanceStore.ts:212-235 | the total is the number of requests; open, in progress and completed are the sizes of `getRequestsByStatus` for each status and emergency that of `getRequestsByPriority`; the status counts add up to at most the total; the cost is the completed requests' costs |
| MaintenanceStore.StatsCountPositions | src/stores/maintenanceStore.ts:212-235 | each count is the number of positions of the list holding a request with that status, or with emergency priority |
| MaintenanceStore.StatusCountsBounded | src/stores/maintenanceStore.ts:215-218 | open, in-progress and completed counts together never exceed the total |
| MaintenanceStore.CompletedCostSum | src/stores/maintenanceStore.ts:220-222 | the filtered cost total equals the per-request completed cost sum |
| MaintenanceStore.StatsCountAllEmergencies | src/stores/maintenanceStore.ts:193-219 | the stats' emergency count is at least the open emergencies |
| MaintenanceStore.CompleteMovesCounts | src/stores/maintenanceStore.ts:134-161 | completing an open request moves one from open to completed, adds its cost, and takes it off the emergency list |
| MaintenanceStore.MaintenanceStore.constructor | src/stores/maintenanceStore.ts:56-58 | no requests, no vendors, nothing selected |
| MaintenanceStore.MaintenanceStore.SetRequests | src/stores/maintenanceStore.ts:60 | the requests are replaced |
| MaintenanceStore.MaintenanceStore.AddRequest | src/stores/maintenanceStore.ts:62-65 | the request is appended |
| MaintenanceStore.MaintenanceStore.ChangeRequest | src/stores/maintenanceStore.ts:67-170 | the requests become `ChangeWhere` with the current vendors |
| MaintenanceStore.MaintenanceStore.DeleteRequest | src/stores/maintenanceStore.ts:74-78 | exactly the other requests remain, and a selection of the deleted id is cleared |
| MaintenanceStore.MaintenanceStore.SelectRequest | src/stores/maintenanceStore.ts:80 | the selection is set |
| MaintenanceStore.MaintenanceStore.SetVendors | src/stores/maintenanceStore.ts:82 | the vendors are replaced |
| MaintenanceStore.MaintenanceStore.AddVendor | src/stores/maintenanceStore.ts:84-87 | the vendor is appended |
| MaintenanceStore.MaintenanceStore.UpdateVendor | src/stores/maintenanceStore.ts:89-94 | the vendors with the id are patched, the others stay; requests keep their copies |
| MaintenanceStore.MaintenanceStore.DeleteVendor | src/stores/maintenanceStore.ts:96-99 | exactly the other vendors remain; requests keep their copies |

## Left out

- Rendering, styling, routing, keyboard listeners and scroll locking, the
  share menu, full-screen mode and the zip download of photos and layouts are
  left out. They are presentation and browser I/O. Of the download, only
  its naming rules are modelled: the file extension and the folder name.
- The dashboard pages, the data generator, the property layout pages, the tag
  and rating manager components, `dataApi.ts` and `solhemData.ts` are not
  part of this model.
- Asynchrony is left out. Each server save is one step whose outcome is a
  parameter. Interleavings of several pending saves are not modelled; the
  bulk editor, for one, starts its hidden-store toggles without waiting.
- `JSON.parse` is a parameter, and `JSON.stringify` with its
  pretty-printing is abstracted. A stored document is returned as the same
  JSON value. Base64 coding is left out for the same reason.
- Truthiness of imported documents covers a missing field, an empty version
  string and a present map. Other JSON kinds in those fields (numbers,
  arrays) are not modelled.
- Floating-point results are left out. These are the rating average, the
  property occupancy rate, `getPropertiesByOccupancy`, the summary's average
  rent and occupancy rate, the collection rate, the average payment delay and
  the maintenance average completion time.
- `monthlyRecurring` of the financial metrics is left out. It needs the
  calendar month of dates.
- FinancialStore.GenerateSummary takes the period's bounds as parameters.
  The calendar arithmetic of `new Date(year, month - 1, 1)` and
  `new Date(year, month, 0)` is left out. The upper bound is midnight at the
  start of the month's last day, not its last instant, so a payment due later
  on that day falls outside the period; the model keeps that inclusive
  comparison against whatever bound it is given.
- Dates are whole milliseconds, and ISO time stamps are opaque strings.
- Strings.ToLower folds ASCII letters only. `toLowerCase` also folds other
  scripts, so searches over non-ASCII names are not modelled.
- The `sessionStorage` memory of the visitor gallery's password is left out.
  It is browser storage.
- The `loading` and `error` fields of the property store are left out. No
  action of the store sets them.
- The form post of the removal request is a parameter. It can succeed, be
  refused, or throw. The transient `submitting` status is not kept.
- The repository behind the data function is abstract. It accepts a write
  that names the file's current revision (or no revision for a missing
  file) and refuses others. This is how the hosting API behaves. Its error
  messages are parameters.
- DataStore.Respond checks the token before the data type, as the function
  does. Its CORS header advertises POST and DELETE, which still answer 405.
- DownloadAssets.GetFileExtension models the MIME table lookup for the six
  listed types. A MIME type named like an `Object.prototype` member cannot
  come from a blob, so that path is not modelled.
- MaintenanceStore.VendorsBySpecialty takes the category as a `Category`
  value. A string that names no category matches no vendor, which is the
  same answer.
- The photo browser's option lists of years and properties are left out.
  They are display data.
- One clock reading `now` stands for every `new Date()` of an action. When
  an action stamps several records (the bulk editor, a payment status
  change, a request's completion), they all get the same time. The source
  reads the clock once per record, so its stamps may differ by a few
  milliseconds.
- Money amounts (payment `amount` and `lateFee`, unit `rentAmount`, property
  `monthlyRevenue`, request `cost`) are JavaScript
  floating-point numbers. The model makes them integers, so sums and
  `amount + fee` are exact where the source may round.
- Keys named like `Object.prototype` members are not modelled. The
  model's maps hold only what was stored, and its counters are integers.
  The source's plain objects answer differently for such names, as in the
  lines below.
- HiddenStore.IsPhotoHidden, PublicStore.IsPhotoPublic and
  FlagStore.IsPhotoFlagged test `id in map`. The source's `!!map[id]` is also
  true for an inherited name such as `constructor` when no record has that
  id.
- RatingStore.GetPhotoRating, TagStore.GetPhotoTags and FlagStore.GetPhotoFlag
  return none for an id without a record. The source's `map[id] || null`
  returns the inherited `Object` function for the id `constructor`. The
  server rating store's getter is the same function.
- TagStore.CountTags, EventGalleryPage.TagCounts, EventGalleryPage.TagStats
  and PhotoGallery.TagCounts count every tag exactly. In the source's
  `counts[tag] = (counts[tag] || 0) + 1`, a tag `constructor` starts from the
  inherited function and gets a string instead of a number. A tag
  `__proto__` is never recorded, because assigning a number to it does
  nothing.
- The tag filter's option list on the event page
  (`src/pages/EventGalleryPage.tsx:353-354`) is left out. It sorts the known
  tags by count for display only.
- The `persist` middleware stores the state as JSON. Date fields come back
  as strings after a reload, and the model does not capture that. It keeps
  every date as a number.
- The server stores' getters (`getPhotoRating`, `getEventRatings`,
  `isPhotoHidden`, `getHiddenPhotos`, `exportRatings`, `exportHidden`) are the
  local stores' functions, applied to the server store's map.

## Findings

| source | as written | input that shows it | evidently intended | confidence | as-written member | corrected member |
|---|---|---|---|---|---|---|
| src/stores/serverHiddenStore.ts:96-103 | a failed save of `hidePhoto` removes the photo's key whatever it held before | hide an already hidden photo while the data API is down: the photo becomes visible | restore the previous record, as `unhidePhoto` and `ratePhoto` do | high; not executed | ServerHiddenStore.HideRollbackLosesRecord | ServerHiddenStore.ServerHiddenStore.HidePhotoRestoring |
| src/stores/flagStore.ts:61-70 | `markAsSubmitted` on an unflagged photo binds its key to `undefined` | `markAsSubmitted("p")` on an empty store, then `getEventFlags(e)` reads `undefined.eventId` and throws | leave the map unchanged for an unflagged photo | high; not executed | FlagStore.MarkUnflaggedBreaksEventFlags | FlagStore.MarkedSubmittedIfFlagged |
| src/components/features/EventGallery.tsx:9-10 | the lightbox ignores the `initialPhotoIndex` the event page passes and always starts at 0 | click the third photo of an event: the lightbox shows the first | start at `initialPhotoIndex` | high; not executed | Lightbox.OpenClickedAsWritten | Lightbox.OpenClickedIntended |
| netlify/functions/data-store.js:54-62 | `DATA_FILES[dataType]` is truthy for names inherited from `Object.prototype` | `GET /.netlify/functions/data-store/constructor` answers 200 with `{}` instead of 400 | accept only the four own keys of the table | high; not executed | DataStore.InheritedNamePassesGuard | DataStore.OwnLookupRejectsUnknownTypes |

=== FILE: data_store.dfy ===
/** The serverless function that keeps the shared photo data in the
    repository (netlify/functions/data-store.js): one JSON file per data
    type, read with GET and replaced with PUT. The repository is modelled as
    a store of files, each with its content and its revision token (`sha`);
    which of its calls fail is a parameter. */
module DataStore {
  import opened Wrappers

  /** A JSON value, as parsed from a request body or stored in a file. */
  datatype Json =
    | JNull
    | JBool(b: bool)
    | JNumber(n: int)
    | JString(s: string)
    | JArray(items: seq<Json>)
    | JObject(members: seq<(string, Json)>)

  /** Where a data type's file lives. `DATA_FILES[dataType]` can also yield
      a member every object inherits (`constructor`, `toString`, ...), which
      the handler then uses as if it were a path. */
  datatype FileRef = DataPath(path: string) | Inherited(name: string)

  /** A file of the repository: its content and its revision token. */
  datatype StoredFile = StoredFile(content: Json, sha: string)

  /** How the repository's read of the file goes: as the stored files say,
      or failing with an HTTP status and a message. */
  datatype ReadFault = ReadAsStored | ReadFails(status: int, message: string)

  /** How the repository's write goes: as the stored files allow, or failing
      with a message. */
  datatype WriteFault = WriteAsStored | WriteFails(message: string)

  /** The request body: `JSON.parse(body)` either yields a value or throws. */
  datatype RequestBody = Parsed(doc: Json) | Unparsable(message: string)

  datatype Request = Request(httpMethod: string, path: string, body: RequestBody)

  datatype Body =
    | EmptyBody
    | Content(doc: Json)
    | ErrorMessage(error: string)
    | Updated(success: bool, message: string)

  datatype Response = Response(statusCode: int, headers: Headers, body: Body)

  /** The headers a response carries: the function only ever sends its three
      CORS headers, which `HeaderLines` spells out. */
  datatype Headers = CorsHeaders

  /** Items separated by `, `, as the methods header lists them. */
  function CommaList(items: seq<string>): string {
    if items == [] then ""
    else if |items| == 1 then items[0]
    else items[0] + ", " + CommaList(items[1..])
  }

  function HeaderLines(h: Headers): seq<(string, string)> {
    [
      ("Access-Control-Allow-Origin", "*"),
      ("Access-Control-Allow-Headers", "Content-Type"),
      ("Access-Control-Allow-Methods", CommaList(["GET", "POST", "PUT", "DELETE"]))
    ]
  }

  const TokenMissing: string := "GITHUB_TOKEN environment variable is required"

  /** The four data types and their files. */
  const DataFiles: map<string, string> := map[
    "hidden" := "data/hidden-photos.json",
    "ratings" := "data/photo-ratings.json",
    "tags" := "data/photo-tags.json",
    "flags" := "data/flagged-photos.json"
  ]

  /** The members a plain object inherits from `Object.prototype`. */
  const InheritedNames: set<string> := {
    "constructor", "__proto__", "hasOwnProperty", "isPrototypeOf", "propertyIsEnumerable",
    "toString", "valueOf", "toLocaleString", "__defineGetter__", "__defineSetter__",
    "__lookupGetter__", "__lookupSetter__"
  }

  /** How the handler looks a type up in its table: by plain property access
      as written, or by own property as evidently intended. */
  datatype Lookup = PropertyAccess | OwnProperty

  /** `DATA_FILES[dataType]` when truthy. */
  function FileFor(lookup: Lookup, dataType: string): (r: Option<FileRef>)
    ensures dataType in DataFiles ==> r == Some(DataPath(DataFiles[dataType]))
    ensures lookup == OwnProperty && dataType !in DataFiles ==> r.None?
  {
    if dataType in DataFiles then Some(DataPath(DataFiles[dataType]))
    else if lookup == PropertyAccess && dataType in InheritedNames then Some(Inherited(dataType))
    else None
  }

  /** `path.split('/')` and its last element: what follows the last `/`, or
      the whole path when it has none. */
  function LastSegment(path: string): (r: string)
    ensures |r| <= |path| && r == path[|path| - |r|..]
    ensures '/' !in r
    ensures |r| < |path| ==> path[|path| - |r| - 1] == '/'
  {
    if path == [] then []
    else if path[|path| - 1] == '/' then []
    else
      var init := path[..|path| - 1];
      var prefix := LastSegment(init);
      var last := path[|path| - 1];
      assert init[|init| - |prefix|..] + [last] == path[|path| - 1 - |prefix|..];
      assert |prefix| < |init| ==> init[|init| - |prefix| - 1] == path[|path| - 1 - |prefix| - 1];
      assert forall c :: c in prefix + [last] ==> c in prefix || c == last;
      prefix + [last]
  }

  /** `getEmptyDataStructure(dataType)`: version `1.0`, the time, and the
      type's own map key bound to an empty object; `{}` for any other
      name. */
  function EmptyData(dataType: string, now: string): (r: Json)
    ensures dataType in DataFiles ==>
              (r.JObject? && |r.members| == 3 &&
               r.members[0] == ("version", JString("1.0")) && r.members[1] == ("lastUpdated", JString(now)) &&
               r.members[2].1 == JObject([]))
    ensures dataType !in DataFiles ==> r == JObject([])
  {
    var key := if dataType == "hidden" then "hiddenPhotos"
               else if dataType == "ratings" then "ratings"
               else if dataType == "tags" then "photoTags"
               else "flaggedPhotos";
    if dataType in DataFiles then
      JObject([("version", JString("1.0")), ("lastUpdated", JString(now)), (key, JObject([]))])
    else
      JObject([])
  }

  /** The map key of each type's document. */
  function DataKey(dataType: string): string {
    if dataType == "hidden" then "hiddenPhotos"
    else if dataType == "ratings" then "ratings"
    else if dataType == "tags" then "photoTags"
    else if dataType == "flags" then "flaggedPhotos"
    else ""
  }

  /** Each type's empty document is keyed by that type's own map. */
  lemma EmptyDataKeys(now: string)
    ensures forall t :: t in DataFiles ==> EmptyData(t, now).members[2].0 == DataKey(t)
    ensures EmptyData("hidden", now).members[2].0 == "hiddenPhotos"
    ensures EmptyData("flags", now).members[2].0 == "flaggedPhotos"
  {
  }

  /** The repository's answer to a read: the file, or an error with its
      status. A file that is not there reads as a 404. */
  datatype ReadResult = Found(file: StoredFile) | ReadError(status: int, message: string)

  function ReadFile(files: map<FileRef, StoredFile>, ref: FileRef, fault: ReadFault, notFound: string): (r: ReadResult)
    ensures fault.ReadFails? ==> r == ReadError(fault.status, fault.message)
    ensures fault == ReadAsStored && ref in files ==> r == Found(files[ref])
    ensures fault == ReadAsStored && ref !in files ==> r == ReadError(404, notFound)
  {
    if fault.ReadFails? then ReadError(fault.status, fault.message)
    else if ref in files then Found(files[ref])
    else ReadError(404, notFound)
  }

  /** The repository accepts a write that names the current revision of an
      existing file, or no revision for a new one. */
  predicate WriteAccepted(files: map<FileRef, StoredFile>, ref: FileRef, sha: Option<string>) {
    if ref in files then sha == Some(files[ref].sha) else sha.None?
  }

  /** The outcome of one request and the repository's files afterwards.
      `notFound` and `conflict` are the repository's error messages,
      `newSha` the revision it gives a written file. */
  datatype Outcome = Outcome(response: Response, files: map<FileRef, StoredFile>)

  function Reply(status: int, body: Body): Response {
    Response(status, CorsHeaders, body)
  }

  /** GET: the stored document verbatim; the type's empty document when
      the file is missing (404); any other failure is a 500. */
  function GetReply(files: map<FileRef, StoredFile>, ref: FileRef, dataType: string, read: ReadFault,
                    notFound: string, now: string): (r: Response)
    ensures read == ReadAsStored && ref in files ==> r == Reply(200, Content(files[ref].content))
    ensures read == ReadAsStored && ref !in files ==> r == Reply(200, Content(EmptyData(dataType, now)))
    ensures read.ReadFails? ==>
              r == (if read.status == 404 then Reply(200, Content(EmptyData(dataType, now)))
                    else Reply(500, ErrorMessage(read.message)))
  {
    match ReadFile(files, ref, read, notFound)
    case Found(file) => Reply(200, Content(file.content))
    case ReadError(status, message) =>
      if status == 404 then Reply(200, Content(EmptyData(dataType, now)))
      else Reply(500, ErrorMessage(message))
  }

  /** The revision `let sha` holds when the write starts: the one read, or
      none when the read failed for any reason. */
  function ShaBeforeWrite(files: map<FileRef, StoredFile>, ref: FileRef, read: ReadFault): (r: Option<string>)
    ensures read == ReadAsStored && ref in files ==> r == Some(files[ref].sha)
    ensures read.ReadFails? || ref !in files ==> r.None?
  {
    match ReadFile(files, ref, read, "")
    case Found(file) => Some(file.sha)
    case ReadError(_, _) => None
  }

  /** PUT of a parsed document: the repository's write with the revision
      read before it. */
  function PutOutcome(files: map<FileRef, StoredFile>, ref: FileRef, dataType: string, doc: Json,
                      read: ReadFault, write: WriteFault, conflict: string, newSha: string): (r: Outcome)
    ensures r.response.headers == CorsHeaders
    ensures r.response.statusCode == 200 <==> write == WriteAsStored && WriteAccepted(files, ref, ShaBeforeWrite(files, ref, read))
    ensures r.response.statusCode == 200 ==>
              r.response.body == Updated(true, dataType + " data updated") && r.files == files[ref := StoredFile(doc, newSha)]
    ensures r.response.statusCode != 200 ==> r.files == files && r.response.statusCode == 500
  {
    var sha := ShaBeforeWrite(files, ref, read);
    if write.WriteFails? then Outcome(Reply(500, ErrorMessage(write.message)), files)
    else if !WriteAccepted(files, ref, sha) then Outcome(Reply(500, ErrorMessage(conflict)), files)
    else Outcome(Reply(200, Updated(true, dataType + " data updated")), files[ref := StoredFile(doc, newSha)])
  }

  /** The handler, step by step as the function runs: preflight, token,
      then the type and the method. */
  function Respond(lookup: Lookup, request: Request, token: Option<string>, files: map<FileRef, StoredFile>,
                   read: ReadFault, write: WriteFault, notFound: string, conflict: string,
                   newSha: string, now: string): (r: Outcome)
    ensures r.response.headers == CorsHeaders
    ensures request.httpMethod == "OPTIONS" ==> r.response == Reply(200, EmptyBody) && r.files == files
    ensures r.files != files ==> request.httpMethod == "PUT" && r.response.statusCode == 200
  {
    if request.httpMethod == "OPTIONS" then Outcome(Reply(200, EmptyBody), files)
    else if !Present(token) then Outcome(Reply(500, ErrorMessage(TokenMissing)), files)
    else
      var dataType := LastSegment(request.path);
      Dispatch(request, dataType, FileFor(lookup, dataType), files, read, write, notFound, conflict, newSha, now)
  }

  /** Past the token check: the type's file as looked up, then the method.
      Only a parsed PUT that the repository accepts writes, and it writes
      that file only. */
  function Dispatch(request: Request, dataType: string, ref: Option<FileRef>, files: map<FileRef, StoredFile>,
                    read: ReadFault, write: WriteFault, notFound: string, conflict: string,
                    newSha: string, now: string): (r: Outcome)
    ensures r.response.headers == CorsHeaders
    ensures r.files != files ==>
              request.httpMethod == "PUT" && r.response.statusCode == 200 && ref.Some? && request.body.Parsed? &&
              r.files == files[ref.value := StoredFile(request.body.doc, newSha)]
  {
    if ref.None? then Outcome(Reply(400, ErrorMessage("Invalid data type: " + dataType)), files)
    else if request.httpMethod == "GET" then Outcome(GetReply(files, ref.value, dataType, read, notFound, now), files)
    else if request.httpMethod == "PUT" then
      if request.body.Unparsable? then Outcome(Reply(500, ErrorMessage(request.body.message)), files)
      else PutOutcome(files, ref.value, dataType, request.body.doc, read, write, conflict, newSha)
    else Outcome(Reply(405, ErrorMessage("Method not allowed")), files)
  }

  /** The step from the handler to its dispatch once the type has a file. */
  lemma RespondDispatches(lookup: Lookup, request: Request, token: Option<string>, files: map<FileRef, StoredFile>,
                          read: ReadFault, write: WriteFault, notFound: string, conflict: string,
                          newSha: string, now: string, ref: FileRef)
    requires request.httpMethod != "OPTIONS" && Present(token)
    requires FileFor(lookup, LastSegment(request.path)) == Some(ref)
    ensures Respond(lookup, request, token, files, read, write, notFound, conflict, newSha, now) ==
            Dispatch(request, LastSegment(request.path), Some(ref), files, read, write, notFound, conflict, newSha, now)
  {
  }

  /** A request for a known type. */
  predicate KnownType(request: Request) {
    LastSegment(request.path) in DataFiles
  }

  /** Without a token every request but a preflight fails with 500, before
      the type is even looked at. */
  lemma NoTokenFails(lookup: Lookup, request: Request, token: Option<string>, files: map<FileRef, StoredFile>,
                     read: ReadFault, write: WriteFault, notFound: string, conflict: string, newSha: string, now: string)
    requires request.httpMethod != "OPTIONS" && !Present(token)
    ensures Respond(lookup, request, token, files, read, write, notFound, conflict, newSha, now).response ==
            Reply(500, ErrorMessage(TokenMissing))
  {
  }

  /** GET of a known type answers with the stored document verbatim, or with
      the type's empty document when the file does not exist; any other
      read failure is a 500. */
  lemma GetAnswers(lookup: Lookup, request: Request, token: Option<string>, files: map<FileRef, StoredFile>,
                   read: ReadFault, write: WriteFault, notFound: string, conflict: string, newSha: string, now: string)
    requires request.httpMethod == "GET" && Present(token) && KnownType(request)
    ensures var r := Respond(lookup, request, token, files, read, write, notFound, conflict, newSha, now);
            var ref := DataPath(DataFiles[LastSegment(request.path)]);
            r.files == files &&
            (read == ReadAsStored && ref in files ==> r.response == Reply(200, Content(files[ref].content))) &&
            (read == ReadAsStored && ref !in files ==>
               r.response == Reply(200, Content(EmptyData(LastSegment(request.path), now)))) &&
            (read.ReadFails? && read.status != 404 ==> r.response == Reply(500, ErrorMessage(read.message)))
  {
    var t := LastSegment(request.path);
    RespondDispatches(lookup, request, token, files, read, write, notFound, conflict, newSha, now, DataPath(DataFiles[t]));
  }

  /** Methods other than GET, PUT and OPTIONS, including the POST and DELETE
      the CORS header advertises, are refused with 405 for a known type. */
  lemma OtherMethodsRefused(lookup: Lookup, request: Request, token: Option<string>, files: map<FileRef, StoredFile>,
                            read: ReadFault, write: WriteFault, notFound: string, conflict: string, newSha: string, now: string)
    requires request.httpMethod !in {"GET", "PUT", "OPTIONS"} && Present(token) && KnownType(request)
    ensures Respond(lookup, request, token, files, read, write, notFound, conflict, newSha, now) ==
            Outcome(Reply(405, ErrorMessage("Method not allowed")), files)
  {
    var t := LastSegment(request.path);
    RespondDispatches(lookup, request, token, files, read, write, notFound, conflict, newSha, now, DataPath(DataFiles[t]));
  }

  /** A PUT whose reads and write go as the files allow replaces the type's
      file (reusing the revision it read), and a following GET returns the
      document that was put. */
  lemma PutThenGet(lookup: Lookup, path: string, doc: Json, token: Option<string>, files: map<FileRef, StoredFile>,
                   notFound: string, conflict: string, newSha: string, now: string, any: RequestBody)
    requires Present(token) && LastSegment(path) in DataFiles
    ensures var put := Respond(lookup, Request("PUT", path, Parsed(doc)), token, files, ReadAsStored, WriteAsStored,
                               notFound, conflict, newSha, now);
            put.response == Reply(200, Updated(true, LastSegment(path) + " data updated")) &&
            put.files == files[DataPath(DataFiles[LastSegment(path)]) := StoredFile(doc, newSha)] &&
            Respond(lookup, Request("GET", path, any), token, put.files, ReadAsStored, WriteAsStored,
                    notFound, conflict, newSha, now).response == Reply(200, Content(doc))
  {
    var t := LastSegment(path);
    var ref := DataPath(DataFiles[t]);
    var putRequest := Request("PUT", path, Parsed(doc));
    RespondDispatches(lookup, putRequest, token, files, ReadAsStored, WriteAsStored, notFound, conflict, newSha, now, ref);
    var put := Respond(lookup, putRequest, token, files, ReadAsStored, WriteAsStored, notFound, conflict, newSha, now);
    PutThenGetDispatched(putRequest, t, ref, files, notFound, conflict, newSha, now, Request("GET", path, any));
    RespondDispatches(lookup, Request("GET", path, any), token, put.files, ReadAsStored, WriteAsStored,
                      notFound, conflict, newSha, now, ref);
  }

  /** `PutThenGet` once both requests have reached the type's file. */
  lemma PutThenGetDispatched(put: Request, dataType: string, ref: FileRef, files: map<FileRef, StoredFile>,
                             notFound: string, conflict: string, newSha: string, now: string, get: Request)
    requires put.httpMethod == "PUT" && put.body.Parsed? && get.httpMethod == "GET"
    ensures var r := Dispatch(put, dataType, Some(ref), files, ReadAsStored, WriteAsStored, notFound, conflict, newSha, now);
            r == Outcome(Reply(200, Updated(true, dataType + " data updated")), files[ref := StoredFile(put.body.doc, newSha)]) &&
            Dispatch(get, dataType, Some(ref), r.files, ReadAsStored, WriteAsStored, notFound, conflict, newSha, now).response ==
            Reply(200, Content(put.body.doc))
  {
    assert WriteAccepted(files, ref, ShaBeforeWrite(files, ref, ReadAsStored));
  }

  /** When reading the revision of an existing file fails, the PUT goes out
      without a revision and the repository refuses it: the data is not
      written and the caller gets a 500. */
  lemma PutAfterFailedReadRefused(lookup: Lookup, path: string, doc: Json, token: Option<string>,
                                  files: map<FileRef, StoredFile>, status: int, message: string,
                                  notFound: string, conflict: string, newSha: string, now: string)
    requires Present(token) && LastSegment(path) in DataFiles
    requires DataPath(DataFiles[LastSegment(path)]) in files
    ensures Respond(lookup, Request("PUT", path, Parsed(doc)), token, files, ReadFails(status, message), WriteAsStored,
                    notFound, conflict, newSha, now) == Outcome(Reply(500, ErrorMessage(conflict)), files)
  {
    var t := LastSegment(path);
    var ref := DataPath(DataFiles[t]);
    var request := Request("PUT", path, Parsed(doc));
    RespondDispatches(lookup, request, token, files, ReadFails(status, message), WriteAsStored, notFound, conflict, newSha, now, ref);
    PutAfterFailedReadDispatched(request, t, ref, files, status, message, notFound, conflict, newSha, now);
  }

  /** `PutAfterFailedReadRefused` once the request has reached the type's file. */
  lemma PutAfterFailedReadDispatched(put: Request, dataType: string, ref: FileRef, files: map<FileRef, StoredFile>,
                                     status: int, message: string, notFound: string, conflict: string,
                                     newSha: string, now: string)
    requires put.httpMethod == "PUT" && put.body.Parsed? && ref in files
    ensures Dispatch(put, dataType, Some(ref), files, ReadFails(status, message), WriteAsStored, notFound, conflict, newSha, now) ==
            Outcome(Reply(500, ErrorMessage(conflict)), files)
  {
    assert ShaBeforeWrite(files, ref, ReadFails(status, message)) == None;
  }

  /** As written, a name every object inherits passes the type check: a GET
      for `.../constructor` is answered 200 with `{}` instead of 400. */
  lemma InheritedNamePassesGuard(files: map<FileRef, StoredFile>, notFound: string, conflict: string,
                                 newSha: string, now: string)
    requires Inherited("constructor") !in files
    ensures Respond(PropertyAccess, Request("GET", "/.netlify/functions/data-store/constructor", Parsed(JNull)),
                    Some("t"), files, ReadAsStored, WriteAsStored, notFound, conflict, newSha, now).response ==
            Reply(200, Content(JObject([])))
  {
    var path := "/.netlify/functions/data-store/constructor";
    ConstructorSegment(path);
    assert FileFor(PropertyAccess, "constructor") == Some(Inherited("constructor"));
    var request := Request("GET", path, Parsed(JNull));
    RespondDispatches(PropertyAccess, request, Some("t"), files, ReadAsStored, WriteAsStored, notFound, conflict, newSha, now,
                      Inherited("constructor"));
    assert EmptyData("constructor", now) == JObject([]);
  }

  /** The type named by the path of the `constructor` request. */
  lemma ConstructorSegment(path: string)
    requires path == "/.netlify/functions/data-store/constructor"
    ensures LastSegment(path) == "constructor"
  {
    assert path[|path| - |"constructor"| - 1] == '/';
    assert path[|path| - |"constructor"|..] == "constructor";
    SegmentAfterSlash(path, "constructor");
  }

  /** The segment after a `/` that ends the path's last slash-free stretch. */
  lemma SegmentAfterSlash(path: string, seg: string)
    requires '/' !in seg && |seg| < |path| && path[|path| - |seg|..] == seg && path[|path| - |seg| - 1] == '/'
    ensures LastSegment(path) == seg
  {
  }

  /** With the own-property lookup only the four types reach the
      repository; every other name, inherited ones included, gets 400 and
      changes nothing. */
  lemma OwnLookupRejectsUnknownTypes(request: Request, token: Option<string>, files: map<FileRef, StoredFile>,
                                     read: ReadFault, write: WriteFault, notFound: string, conflict: string,
                                     newSha: string, now: string)
    requires request.httpMethod != "OPTIONS" && Present(token) && !KnownType(request)
    ensures Respond(OwnProperty, request, token, files, read, write, notFound, conflict, newSha, now) ==
            Outcome(Reply(400, ErrorMessage("Invalid data type: " + LastSegment(request.path))), files)
  {
  }

  /** With the own-property lookup, a request that changes the repository
      is a PUT of a known type, and it replaces that type's file only. */
  lemma OwnLookupWritesDataFiles(request: Request, token: Option<string>, files: map<FileRef, StoredFile>,
                                 read: ReadFault, write: WriteFault, notFound: string, conflict: string,
                                 newSha: string, now: string)
    ensures var r := Respond(OwnProperty, request, token, files, read, write, notFound, conflict, newSha, now);
            r.files != files ==>
              KnownType(request) && request.body.Parsed? &&
              r.files == files[DataPath(DataFiles[LastSegment(request.path)]) := StoredFile(request.body.doc, newSha)]
  {
    var r := Respond(OwnProperty, request, token, files, read, write, notFound, conflict, newSha, now);
    var t := LastSegment(request.path);
    if r.files != files {
      assert request.httpMethod != "OPTIONS" && Present(token);
      assert r == Dispatch(request, t, FileFor(OwnProperty, t), files, read, write, notFound, conflict, newSha, now);
      assert t in DataFiles;
    }
  }

  /** The repository the function talks to. */
  class Repository {
    var files: map<FileRef, StoredFile>

    constructor(files0: map<FileRef, StoredFile>)
      ensures files == files0
    {
      files := files0;
    }

    /** `repos.getContent`. */
    method GetContent(ref: FileRef, fault: ReadFault, notFound: string) returns (r: ReadResult)
      ensures r == ReadFile(files, ref, fault, notFound)
    {
      if fault.ReadFails? {
        r := ReadError(fault.status, fault.message);
      } else if ref in files {
        r := Found(files[ref]);
      } else {
        r := ReadError(404, notFound);
      }
    }

    /** `repos.createOrUpdateFileContents`: stores the document under a new
        revision when the repository accepts the write. */
    method CreateOrUpdate(ref: FileRef, doc: Json, sha: Option<string>, fault: WriteFault,
                          conflict: string, newSha: string) returns (result: Wrappers.Outcome)
      modifies this
      ensures fault.WriteFails? ==> result == Fail(fault.message) && files == old(files)
      ensures fault == WriteAsStored && !WriteAccepted(old(files), ref, sha) ==>
                result == Fail(conflict) && files == old(files)
      ensures fault == WriteAsStored && WriteAccepted(old(files), ref, sha) ==>
                result == Pass && files == old(files)[ref := StoredFile(doc, newSha)]
    {
      if fault.WriteFails? {
        return Fail(fault.message);
      }
      if !WriteAccepted(files, ref, sha) {
        return Fail(conflict);
      }
      files := files[ref := StoredFile(doc, newSha)];
      return Pass;
    }
  }

  /** `exports.handler`: the early returns of the function in their order,
      with `let sha` reassigned by the read before the write. */
  method Handle(lookup: Lookup, request: Request, token: Option<string>, repo: Repository,
                read: ReadFault, write: WriteFault, notFound: string, conflict: string,
                newSha: string, now: string) returns (response: Response)
    modifies repo
    ensures var r := Respond(lookup, request, token, old(repo.files), read, write, notFound, conflict, newSha, now);
            response == r.response && repo.files == r.files
  {
    if request.httpMethod == "OPTIONS" {
      return Reply(200, EmptyBody);
    }
    if !Present(token) {
      return Reply(500, ErrorMessage(TokenMissing));
    }
    var dataType := LastSegment(request.path);
    var ref := FileFor(lookup, dataType);
    response := Serve(request, dataType, ref, repo, read, write, notFound, conflict, newSha, now);
  }

  /** The handler past its token check: the type's file, then the method. */
  method Serve(request: Request, dataType: string, ref: Option<FileRef>, repo: Repository,
               read: ReadFault, write: WriteFault, notFound: string, conflict: string,
               newSha: string, now: string) returns (response: Response)
    modifies repo
    ensures var r := Dispatch(request, dataType, ref, old(repo.files), read, write, notFound, conflict, newSha, now);
            response == r.response && repo.files == r.files
  {
    if ref.None? {
      return Reply(400, ErrorMessage("Invalid data type: " + dataType));
    }
    if request.httpMethod == "GET" {
      var got := repo.GetContent(ref.value, read, notFound);
      if got.Found? {
        return Reply(200, Content(got.file.content));
      } else if got.status == 404 {
        return Reply(200, Content(EmptyData(dataType, now)));
      }
      return Reply(500, ErrorMessage(got.message));
    } else if request.httpMethod == "PUT" {
      if request.body.Unparsable? {
        return Reply(500, ErrorMessage(request.body.message));
      }
      var sha: Option<string>;
      var got := repo.GetContent(ref.value, read, notFound);
      if got.Found? {
        sha := Some(got.file.sha);
      } else {
        sha := None;
      }
      var written := repo.CreateOrUpdate(ref.value, request.body.doc, sha, write, conflict, newSha);
      if written.Fail? {
        return Reply(500, ErrorMessage(written.error));
      }
      return Reply(200, Updated(true, dataType + " data updated"));
    }
    return Reply(405, ErrorMessage("Method not allowed"));
  }
}

=== FILE: download_assets.dfy ===
/** The naming rules of the layout-asset download (src/utils/downloadAssets.ts):
    the extension given to a downloaded file, and the folder and archive
    names made from a layout or property name. */
module DownloadAssets {
  import opened Wrappers
  import opened Strings
  import opened Seqs

  /** The alternatives of the extension group of the URL pattern, in the
      pattern's order, lower-cased. */
  const ImageExtensions: seq<string> := ["jpg", "jpeg", "png", "gif", "webp", "svg", "bmp"]

  /** `mimeExtensions`. */
  const MimeExtensions: map<string, string> := map[
    "image/jpeg" := ".jpg",
    "image/png" := ".png",
    "image/gif" := ".gif",
    "image/webp" := ".webp",
    "image/svg+xml" := ".svg",
    "image/bmp" := ".bmp"
  ]

  /** The characters `.` in a regular expression does not match. */
  predicate IsLineTerminator(c: char) {
    c == '\n' || c == '\r' || c == '\U{2028}' || c == '\U{2029}'
  }

  /** `(\?.*)?$`: the rest of the URL is empty, or a `?` followed by no
      line break. */
  predicate QueryTail(rest: string) {
    rest == [] || (rest[0] == '?' && forall i :: 0 <= i < |rest| ==> !IsLineTerminator(rest[i]))
  }

  /** The pattern matches at position `p` with the alternative `ext`: a dot,
      the extension in any letter case, then the query tail. Without the `u`
      flag the `i` flag folds only ASCII letters onto ASCII letters. */
  predicate MatchesAt(url: string, p: int, ext: string) {
    0 <= p && p + 1 + |ext| <= |url| && url[p] == '.' &&
    ToLower(url[p + 1..p + 1 + |ext|]) == ext && QueryTail(url[p + 1 + |ext|..])
  }

  /** The first alternative among `exts` that matches at `p`. */
  function AlternativeAt(url: string, p: int, exts: seq<string>): (r: Option<string>)
    ensures r.Some? ==> r.value in exts && MatchesAt(url, p, r.value)
    ensures r.None? ==> forall e :: e in exts ==> !MatchesAt(url, p, e)
  {
    if exts == [] then None
    else if MatchesAt(url, p, exts[0]) then Some(exts[0])
    else AlternativeAt(url, p, exts[1..])
  }

  /** No alternative matches at any position from `from` up to `to`. */
  ghost predicate NoMatchBetween(url: string, from: int, to: int) {
    forall q, e :: from <= q < to && e in ImageExtensions ==> !MatchesAt(url, q, e)
  }

  /** `q` is the leftmost position at or after `p` where the pattern
      matches, and it matches there with `e`. */
  ghost predicate LeftmostMatch(url: string, p: int, q: int, e: string) {
    p <= q < |url| && e in ImageExtensions && MatchesAt(url, q, e) && NoMatchBetween(url, p, q)
  }

  /** The extension group of the leftmost match at or after `p`: none
      exactly when the pattern matches nowhere from `p` on. */
  function MatchFrom(url: string, p: nat): (r: Option<string>)
    ensures r.Some? ==> r.value in ImageExtensions && exists q :: p <= q < |url| && MatchesAt(url, q, r.value)
    ensures r.None? <==> NoMatchBetween(url, p, |url|)
    ensures r.Some? ==> exists q :: LeftmostMatch(url, p, q, r.value)
    decreases |url| - p
  {
    if p >= |url| then None
    else
      var here := AlternativeAt(url, p, ImageExtensions);
      if here.Some? then
        assert LeftmostMatch(url, p, p, here.value);
        here
      else
        var rest := MatchFrom(url, p + 1);
        MatchFromStep(url, p, p + 1, rest);
        rest
  }

  /** No match at `p` extends what is known from `p + 1` on down to `p`. */
  lemma MatchFromStep(url: string, p: nat, next: nat, rest: Option<string>)
    requires p < |url| && next == p + 1 && forall e :: e in ImageExtensions ==> !MatchesAt(url, p, e)
    requires rest.None? <==> NoMatchBetween(url, next, |url|)
    requires rest.Some? ==> exists q :: LeftmostMatch(url, next, q, rest.value)
    ensures rest.None? <==> NoMatchBetween(url, p, |url|)
    ensures rest.Some? ==> exists q :: LeftmostMatch(url, p, q, rest.value)
  {
    if rest.Some? {
      var q :| LeftmostMatch(url, next, q, rest.value);
      forall q', e | p <= q' < q && e in ImageExtensions ensures !MatchesAt(url, q', e) {
        if q' == p {
        } else {
          assert next <= q' < q;
        }
      }
      assert LeftmostMatch(url, p, q, rest.value);
    } else {
      forall q, e | p <= q < |url| && e in ImageExtensions ensures !MatchesAt(url, q, e) {
        if q == p {
        } else {
          assert next <= q < |url|;
        }
      }
    }
  }

  /** When the pattern matches at `p` with `e` and nowhere between `from`
      and `p`, the leftmost match from `from` is that one. */
  lemma LeftmostIs(url: string, from: nat, p: nat, e: string)
    requires from <= p && e in ImageExtensions && MatchesAt(url, p, e) && NoMatchBetween(url, from, p)
    ensures MatchFrom(url, from) == Some(e)
  {
    var r := MatchFrom(url, from);
    assert !NoMatchBetween(url, from, |url|);
    var q :| LeftmostMatch(url, from, q, r.value);
    MatchUnique(url, p, r.value, e);
  }

  /** `url.match(/\.(jpg|jpeg|png|gif|webp|svg|bmp)(\?.*)?$/i)`, as the
      lower-cased extension group. */
  function UrlExtension(url: string): Option<string> {
    MatchFrom(url, 0)
  }

  /** `getFileExtension(url, mimeType)`: the URL's image extension when the
      URL ends in one (ignoring a query string), else the extension the MIME
      table gives, else `.jpg`. */
  function GetFileExtension(url: string, mimeType: string): (r: string)
    ensures UrlExtension(url).Some? ==> r == "." + UrlExtension(url).value
    ensures UrlExtension(url).None? && mimeType in MimeExtensions ==> r == MimeExtensions[mimeType]
    ensures UrlExtension(url).None? && mimeType !in MimeExtensions ==> r == ".jpg"
  {
    var m := UrlExtension(url);
    if m.Some? then "." + m.value
    else if mimeType in MimeExtensions then MimeExtensions[mimeType]
    else ".jpg"
  }

  /** The seven results `getFileExtension` can give. */
  const Results: set<string> := {".jpg", ".jpeg", ".png", ".gif", ".webp", ".svg", ".bmp"}

  /** Whatever the URL and MIME type, the extension is one of seven fixed
      strings, each starting with a dot. */
  lemma ExtensionIsFixed(url: string, mimeType: string)
    ensures GetFileExtension(url, mimeType) in Results
    ensures GetFileExtension(url, mimeType)[0] == '.'
  {
    var m := UrlExtension(url);
    if m.Some? {
      DottedExtension(m.value);
    } else if mimeType in MimeExtensions {
      assert MimeExtensions[mimeType] in MimeExtensions.Values;
      MimeResults();
    }
  }

  lemma DottedExtension(e: string)
    requires e in ImageExtensions
    ensures "." + e in Results
  {
    if e == "jpg" {
      assert "." + e == ".jpg";
    } else if e == "jpeg" {
      assert "." + e == ".jpeg";
    } else if e == "png" {
      assert "." + e == ".png";
    } else if e == "gif" {
      assert "." + e == ".gif";
    } else if e == "webp" {
      assert "." + e == ".webp";
    } else if e == "svg" {
      assert "." + e == ".svg";
    } else {
      assert e == "bmp";
      assert "." + e == ".bmp";
    }
  }

  lemma MimeResults()
    ensures MimeExtensions.Values <= Results
  {
  }

  predicate IsLowerLetter(c: char) {
    'a' <= c <= 'z'
  }

  /** Every alternative of the pattern is made of lower-case letters. */
  lemma ExtensionsAreLetters(e: string, j: int)
    requires e in ImageExtensions && 0 <= j < |e|
    ensures IsLowerLetter(e[j])
  {
    assert e == "jpg" || e == "jpeg" || e == "png" || e == "gif" || e == "webp" || e == "svg" || e == "bmp";
  }

  /** When a shorter alternative matches, the character after it is the `?`
      of the query tail, which no longer alternative can have there. */
  lemma ShorterBlocksLonger(url: string, p: int, short: string, long: string)
    requires long in ImageExtensions && |short| < |long|
    requires MatchesAt(url, p, short)
    ensures !MatchesAt(url, p, long)
  {
    var k := p + 1 + |short|;
    if p + 1 + |long| <= |url| {
      var tail := url[k..];
      assert tail[0] == url[k] == '?';
      var word := url[p + 1..p + 1 + |long|];
      assert word[|short|] == url[k];
      ExtensionsAreLetters(long, |short|);
      assert ToLower(word)[|short|] != long[|short|];
    }
  }

  /** No alternative of the pattern is a prefix of another, so at a given
      position at most one of them matches. */
  lemma MatchUnique(url: string, p: int, e1: string, e2: string)
    requires e1 in ImageExtensions && e2 in ImageExtensions
    requires MatchesAt(url, p, e1) && MatchesAt(url, p, e2)
    ensures e1 == e2
  {
    if |e1| < |e2| {
      ShorterBlocksLonger(url, p, e1, e2);
    } else if |e2| < |e1| {
      ShorterBlocksLonger(url, p, e2, e1);
    }
  }

  /** The first alternative that matches is the only one that does. */
  lemma AlternativeIsTheMatch(url: string, p: int, e: string)
    requires e in ImageExtensions && MatchesAt(url, p, e)
    ensures AlternativeAt(url, p, ImageExtensions) == Some(e)
  {
    var r := AlternativeAt(url, p, ImageExtensions);
    MatchUnique(url, p, r.value, e);
  }

  /** No match starts before `p` in a URL whose first `p` characters hold
      no dot. */
  lemma NoDotNoMatch(url: string, from: nat, p: nat, e: string)
    requires from <= p < |url| && e in ImageExtensions && MatchesAt(url, p, e)
    requires forall i :: from <= i < p ==> url[i] != '.'
    ensures MatchFrom(url, from) == Some(e)
  {
    LeftmostIs(url, from, p, e);
  }

  /** Every alternative starts with a dot, so none matches at a position
      holding another character. */
  lemma NoAlternativeWithoutDot(url: string, p: nat, exts: seq<string>)
    requires p < |url| && url[p] != '.'
    ensures AlternativeAt(url, p, exts).None?
  {
  }

  /** A name without a `?`, a dot, an image extension in any letter case and
      an optional query string gets that extension, lower-cased; so
      `https://cdn.example.com/a.b/photo.JPEG?w=400` yields `.jpeg`. The name
      may hold dots and even extensions of its own: no match can start in
      it, since what follows a match there is neither the end nor a `?`. */
  lemma ExtensionFromUrl(name: string, ext: string, query: string, mimeType: string)
    requires '?' !in name
    requires ToLower(ext) in ImageExtensions
    requires query == [] || (query[0] == '?' && forall i :: 0 <= i < |query| ==> !IsLineTerminator(query[i]))
    ensures GetFileExtension(name + "." + ext + query, mimeType) == "." + ToLower(ext)
  {
    var url := name + "." + ext + query;
    var p := |name|;
    assert url[p + 1..p + 1 + |ext|] == ext;
    assert url[p + 1 + |ext|..] == query;
    assert MatchesAt(url, p, ToLower(ext));
    forall q, e | 0 <= q < p && e in ImageExtensions ensures !MatchesAt(url, q, e) {
      NoMatchInName(name, url, q, e);
    }
    LeftmostIs(url, 0, p, ToLower(ext));
  }

  /** A match cannot start inside a name without `?` that a dot follows:
      its extension is made of letters, so it ends before that dot, and
      then the character after it is neither the end nor a `?`. */
  lemma NoMatchInName(name: string, url: string, q: nat, e: string)
    requires '?' !in name && |name| < |url| && url[..|name|] == name && url[|name|] == '.'
    requires q < |name| && e in ImageExtensions
    ensures !MatchesAt(url, q, e)
  {
    var k := q + 1 + |e|;
    if k <= |name| {
      assert url[k] != '?' by {
        if k < |name| {
          assert url[k] == name[k];
        }
      }
      assert url[k..][0] == url[k];
    } else if k <= |url| {
      var j := |name| - q - 1;
      assert url[q + 1..k][j] == url[|name|];
      ExtensionsAreLetters(e, j);
      assert ToLower(url[q + 1..k])[j] != e[j];
    }
  }

  /** A URL without a dot falls back to the MIME table, and an unknown MIME
      type to `.jpg`. */
  lemma ExtensionFromMime(url: string, mimeType: string)
    requires forall i :: 0 <= i < |url| ==> url[i] != '.'
    ensures GetFileExtension(url, mimeType) == if mimeType in MimeExtensions then MimeExtensions[mimeType] else ".jpg"
  {
  }

  /** `name.replace(/\s+/g, '_')`, the folder name of a layout or property. */
  function FolderName(name: string): (r: string)
    ensures forall i :: 0 <= i < |r| ==> !IsWhitespace(r[i])
  {
    UnderscoreWhitespace(name)
  }

  /** The archive name `<folder>_assets_<timestamp>.zip`. */
  function ArchiveName(name: string, timestamp: string): string {
    FolderName(name) + "_assets_" + timestamp + ".zip"
  }

  /** Naming a folder after a name that is already a folder name changes
      nothing. */
  lemma FolderNameIdempotent(name: string)
    ensures FolderName(FolderName(name)) == FolderName(name)
  {
  }

  /** Skipping white space at the front of a string that holds a visible
      character skips nothing that follows it. */
  lemma {:induction false} SkipBeforeVisible(x: string, y: string)
    requires exists i :: 0 <= i < |x| && !IsWhitespace(x[i])
    ensures SkipWhitespace(x + y) == SkipWhitespace(x) + y
  {
    if IsWhitespace(x[0]) {
      assert (x + y)[1..] == x[1..] + y;
      SkipBeforeVisible(x[1..], y);
    }
  }

  /** Skipping a run of white space lands on what follows it. */
  lemma {:induction false} SkipRun(ws: string, b: string)
    requires forall i :: 0 <= i < |ws| ==> IsWhitespace(ws[i])
    requires b == [] || !IsWhitespace(b[0])
    ensures SkipWhitespace(ws + b) == b
  {
    if ws != [] {
      assert (ws + b)[1..] == ws[1..] + b;
      SkipRun(ws[1..], b);
    } else {
      assert ws + b == b;
    }
  }

  /** A run of white space between two visible characters becomes exactly one
      underscore, and the parts on either side are named independently. */
  lemma {:induction false} RunBecomesOneUnderscore(a: string, ws: string, b: string)
    requires a == [] || !IsWhitespace(a[|a| - 1])
    requires ws != [] && forall i :: 0 <= i < |ws| ==> IsWhitespace(ws[i])
    requires b == [] || !IsWhitespace(b[0])
    ensures UnderscoreWhitespace(a + (ws + b)) == UnderscoreWhitespace(a) + ("_" + UnderscoreWhitespace(b))
    decreases |a|
  {
    if a == [] {
      assert a + (ws + b) == ws + b;
      RunFirst(ws, b);
    } else if IsWhitespace(a[0]) {
      SkipKeepsLast(a[1..]);
      RunBecomesOneUnderscore(SkipWhitespace(a[1..]), ws, b);
      LeadingRunStep(a, ws + b, "_" + UnderscoreWhitespace(b));
    } else {
      if a[1..] != [] {
        assert a[1..][|a[1..]| - 1] == a[|a| - 1];
      }
      RunBecomesOneUnderscore(a[1..], ws, b);
      VisibleFirstStep(a, ws + b, "_" + UnderscoreWhitespace(b));
    }
  }

  lemma LeadingRunStep(a: string, c: string, t: string)
    requires a != [] && IsWhitespace(a[0]) && !IsWhitespace(a[|a| - 1])
    requires UnderscoreWhitespace(SkipWhitespace(a[1..]) + c) == UnderscoreWhitespace(SkipWhitespace(a[1..])) + t
    ensures UnderscoreWhitespace(a + c) == UnderscoreWhitespace(a) + t
  {
    LeadingRun(a, c);
    AppendAssoc("_", UnderscoreWhitespace(SkipWhitespace(a[1..])), t);
  }

  lemma VisibleFirstStep(a: string, c: string, t: string)
    requires a != [] && !IsWhitespace(a[0])
    requires UnderscoreWhitespace(a[1..] + c) == UnderscoreWhitespace(a[1..]) + t
    ensures UnderscoreWhitespace(a + c) == UnderscoreWhitespace(a) + t
  {
    VisibleFirst(a, c);
    AppendAssoc([a[0]], UnderscoreWhitespace(a[1..]), t);
  }

  /** A name that starts with the run. */
  lemma RunFirst(ws: string, b: string)
    requires ws != [] && forall i :: 0 <= i < |ws| ==> IsWhitespace(ws[i])
    requires b == [] || !IsWhitespace(b[0])
    ensures UnderscoreWhitespace(ws + b) == "_" + UnderscoreWhitespace(b)
  {
    assert (ws + b)[1..] == ws[1..] + b;
    SkipRun(ws[1..], b);
  }

  /** A leading run of a name with a visible last character is one
      underscore in front of the rest. */
  lemma LeadingRun(a: string, c: string)
    requires a != [] && IsWhitespace(a[0]) && !IsWhitespace(a[|a| - 1])
    ensures UnderscoreWhitespace(a + c) == "_" + UnderscoreWhitespace(SkipWhitespace(a[1..]) + c)
    ensures UnderscoreWhitespace(a) == "_" + UnderscoreWhitespace(SkipWhitespace(a[1..]))
  {
    assert (a + c)[1..] == a[1..] + c;
    assert a[1..][|a[1..]| - 1] == a[|a| - 1];
    SkipBeforeVisible(a[1..], c);
  }

  /** A name that starts with a visible character keeps it. */
  lemma VisibleFirst(a: string, c: string)
    requires a != [] && !IsWhitespace(a[0])
    ensures UnderscoreWhitespace(a + c) == [a[0]] + UnderscoreWhitespace(a[1..] + c)
    ensures UnderscoreWhitespace(a) == [a[0]] + UnderscoreWhitespace(a[1..])
  {
    assert (a + c)[1..] == a[1..] + c;
  }

  /** Skipping leading white space keeps a visible last character. */
  lemma {:induction false} SkipKeepsLast(x: string)
    requires x != [] && !IsWhitespace(x[|x| - 1])
    ensures SkipWhitespace(x) != [] && SkipWhitespace(x)[|SkipWhitespace(x)| - 1] == x[|x| - 1]
  {
    if IsWhitespace(x[0]) {
      SkipKeepsLast(x[1..]);
    }
  }
}

=== FILE: event_data.dfy ===
/** The static event catalogue (src/utils/eventData.ts): the events grouped
    by year, the generated photo list of the one event that has photos, and
    the lookups over the catalogue. Dates are kept as `yyyymmdd` integers,
    which order exactly as the `Date` values do. */
module EventData {
  import opened Wrappers
  import opened Seqs
  import opened Sorting

  datatype EventPhoto = EventPhoto(id: string, url: string, thumbnail: string, order: int)

  datatype PropertyEvent = PropertyEvent(id: string, year: int, propertyId: string, propertyName: string,
                                         title: string, date: int, description: string,
                                         photos: seq<EventPhoto>, coverPhoto: string, attendees: int)

  datatype EventYear = EventYear(year: int, events: seq<PropertyEvent>)

  /** The numbers of the photos shown for the Fred 2025 event. */
  const PhotoNumbers: seq<string> := [
    "001", "008", "015", "022", "029", "036", "043", "050",
    "057", "064", "071", "078", "085", "092", "099", "106",
    "113", "120", "127", "134", "141", "148", "155", "162",
    "169", "176", "183", "190", "197", "204", "211", "218",
    "225", "232", "239", "246", "253", "260", "267", "274",
    "281", "288", "295", "302", "309", "316", "323", "330",
    "337", "344", "351", "358", "365", "372", "379", "386",
    "393", "400", "407", "414", "421", "428", "435", "442",
    "449", "456", "463", "470", "477", "484", "491", "498",
    "505", "512", "519", "526", "533", "540", "547", "554",
    "561", "568", "575", "582", "589", "596", "603", "610",
    "617", "624", "631", "638", "645", "652", "659", "666",
    "673", "680", "687", "694", "701", "708", "715", "722"
  ]

  predicate IsDigit(c: char) {
    '0' <= c <= '9'
  }

  function DigitValue(c: char): int {
    c as int - '0' as int
  }

  /** A string of exactly three decimal digits. */
  predicate ThreeDigits(num: string) {
    |num| == 3 && IsDigit(num[0]) && IsDigit(num[1]) && IsDigit(num[2])
  }

  /** The number three digits spell. */
  function ThreeDigitValue(num: string): int
    requires |num| == 3
  {
    DigitValue(num[0]) * 100 + DigitValue(num[1]) * 10 + DigitValue(num[2])
  }

  /** The anchored pattern that selects the `top` photos, alternative by
      alternative: 07[3-9], 08[0-9], 09[0-9], 1[0-4][0-9], 15[0-9],
      16[0-5], 17[0-9], 18[0-9], 19[0-9], 2[0-4][0-9], 25[0-9]. */
  predicate MatchesTop(num: string) {
    |num| == 3 && (
      (num[0] == '0' && num[1] == '7' && '3' <= num[2] <= '9')
      || (num[0] == '0' && num[1] == '8' && IsDigit(num[2]))
      || (num[0] == '0' && num[1] == '9' && IsDigit(num[2]))
      || (num[0] == '1' && '0' <= num[1] <= '4' && IsDigit(num[2]))
      || (num[0] == '1' && num[1] == '5' && IsDigit(num[2]))
      || (num[0] == '1' && num[1] == '6' && '0' <= num[2] <= '5')
      || (num[0] == '1' && num[1] == '7' && IsDigit(num[2]))
      || (num[0] == '1' && num[1] == '8' && IsDigit(num[2]))
      || (num[0] == '1' && num[1] == '9' && IsDigit(num[2]))
      || (num[0] == '2' && '0' <= num[1] <= '4' && IsDigit(num[2]))
      || (num[0] == '2' && num[1] == '5' && IsDigit(num[2])))
  }

  /** For a three-digit number the pattern selects exactly 073-165 and
      170-259: the numbers 166-169 fall between the alternatives. */
  lemma TopRanges(num: string)
    requires ThreeDigits(num)
    ensures MatchesTop(num) <==> (73 <= ThreeDigitValue(num) <= 165 || 170 <= ThreeDigitValue(num) <= 259)
  {
    var a, b, c := DigitValue(num[0]), DigitValue(num[1]), DigitValue(num[2]);
    assert 0 <= a <= 9 && 0 <= b <= 9 && 0 <= c <= 9;
    assert ThreeDigitValue(num) == a * 100 + b * 10 + c;
  }

  /** The file-name suffix of a photo number. */
  function Suffix(num: string): (s: string)
    ensures s == "top" <==> MatchesTop(num)
    ensures s == "top" || s == "all"
  {
    if MatchesTop(num) then "top" else "all"
  }

  /** The record generated for the photo number at `index`. */
  function PhotoFor(num: string, index: int): (p: EventPhoto)
    ensures p.id == "fred-2025-" + num && p.order == index
    ensures p.url == p.thumbnail == "/events/2025/fred/2025-fred-" + num + "-" + Suffix(num) + ".jpg"
  {
    var path := "/events/2025/fred/2025-fred-" + num + "-" + Suffix(num) + ".jpg";
    EventPhoto("fred-2025-" + num, path, path, index)
  }

  /** The generated photos as a value, for the catalogue constant. */
  function PhotosFor(nums: seq<string>): (r: seq<EventPhoto>)
    ensures |r| == |nums|
    ensures forall i :: 0 <= i < |nums| ==> r[i] == PhotoFor(nums[i], i)
  {
    seq(|nums|, i requires 0 <= i < |nums| => PhotoFor(nums[i], i))
  }

  /** `generateFred2025Photos`: one record pushed per number, its `order`
      the number's index. */
  method GeneratePhotos(photoNumbers: seq<string>) returns (photos: seq<EventPhoto>)
    ensures |photos| == |photoNumbers|
    ensures forall i :: 0 <= i < |photos| ==>
              photos[i].id == "fred-2025-" + photoNumbers[i] && photos[i].order == i
              && photos[i].url == "/events/2025/fred/2025-fred-" + photoNumbers[i] + "-"
                                  + Suffix(photoNumbers[i]) + ".jpg"
    ensures photos == PhotosFor(photoNumbers)
  {
    photos := [];
    for index := 0 to |photoNumbers|
      invariant photos == PhotosFor(photoNumbers[..index])
    {
      var num := photoNumbers[index];
      var suffix := if MatchesTop(num) then "top" else "all";
      var path := "/events/2025/fred/2025-fred-" + num + "-" + suffix + ".jpg";
      photos := photos + [EventPhoto("fred-2025-" + num, path, path, index)];
    }
    assert photoNumbers[..|photoNumbers|] == photoNumbers;
  }

  /** Distinct photo numbers give distinct photo ids. */
  lemma GeneratedIdsDistinct(nums: seq<string>)
    requires Distinct(nums)
    ensures forall i, j :: 0 <= i < j < |nums| ==> PhotosFor(nums)[i].id != PhotosFor(nums)[j].id
  {
    var prefix := "fred-2025-";
    forall i, j | 0 <= i < j < |nums| ensures PhotosFor(nums)[i].id != PhotosFor(nums)[j].id {
      var a, b := prefix + nums[i], prefix + nums[j];
      assert nums[i] == a[|prefix|..] && nums[j] == b[|prefix|..];
    }
  }

  /** `eventsData`. */
  const EventsData: seq<EventYear> := [
    EventYear(2025, [
      PropertyEvent("fred-2025", 2025, "fred", "The Fred", "Summer Solstice Party 2025", 20250621,
                    "Annual summer celebration at The Fred Edina featuring live music, gourmet food trucks, and rooftop festivities.",
                    PhotosFor(PhotoNumbers), "/events/2025/fred/2025-fred-001-all.jpg", 420),
      PropertyEvent("archive-2025", 2025, "archive", "The Archive", "Fall Art Gallery Opening 2025", 20250915,
                    "Celebrating local artists in our hallway galleries with wine, cheese, and live jazz.",
                    [], "https://picsum.photos/seed/archive-2025/800/600", 200),
      PropertyEvent("lucille-2025", 2025, "lucille", "Lucille", "Holiday Lights Celebration 2025", 20251215,
                    "Winter wonderland rooftop party with hot cocoa, holiday treats, and spectacular city views.",
                    [], "https://picsum.photos/seed/lucille-2025/800/600", 150)
    ]),
    EventYear(2024, [
      PropertyEvent("archive-2024", 2024, "archive", "The Archive", "Spring Garden Party 2024", 20240501,
                    "Welcoming spring with rooftop garden activities and outdoor yoga sessions.",
                    [], "https://picsum.photos/seed/archive-2024/800/600", 180),
      PropertyEvent("fred-2024", 2024, "fred", "The Fred", "Pool Opening Bash 2024", 20240601,
                    "Kicking off summer with our resort-style pool opening celebration.",
                    [], "https://picsum.photos/seed/fred-2024/800/600", 350)
    ])
  ]

  /** `getEventsByYear`: the events of the first year entry with that year,
      or none. */
  function GetEventsByYear(data: seq<EventYear>, year: int): (r: seq<PropertyEvent>)
    ensures (forall i :: 0 <= i < |data| ==> data[i].year != year) ==> r == []
    ensures (exists i :: 0 <= i < |data| && data[i].year == year) ==>
              exists i :: 0 <= i < |data| && data[i].year == year && r == data[i].events
                          && forall j :: 0 <= j < i ==> data[j].year != year
  {
    if data == [] then []
    else if data[0].year == year then data[0].events
    else
      var r := GetEventsByYear(data[1..], year);
      assert forall i :: 1 <= i < |data| ==> data[i] == data[1..][i - 1];
      r
  }

  /** `events.find(e => e.id === eventId)`. */
  function FindEvent(events: seq<PropertyEvent>, eventId: string): (r: Option<PropertyEvent>)
    ensures r.None? <==> forall j :: 0 <= j < |events| ==> events[j].id != eventId
    ensures r.Some? ==> exists j :: 0 <= j < |events| && events[j] == r.value && r.value.id == eventId
                                    && forall k :: 0 <= k < j ==> events[k].id != eventId
  {
    if events == [] then None
    else if events[0].id == eventId then Some(events[0])
    else
      var r := FindEvent(events[1..], eventId);
      assert forall j :: 1 <= j < |events| ==> events[j] == events[1..][j - 1];
      r
  }

  /** `getEvent`: the first event with that id, scanning the years in order. */
  function GetEvent(data: seq<EventYear>, eventId: string): (r: Option<PropertyEvent>)
    ensures r.None? <==> forall i, j :: 0 <= i < |data| && 0 <= j < |data[i].events| ==> data[i].events[j].id != eventId
    ensures r.Some? ==> r.value.id == eventId && FoundInFirstYear(data, eventId, r.value)
  {
    if data == [] then None
    else
      match FindEvent(data[0].events, eventId)
      case Some(e) =>
        assert FindEvent(data[0].events, eventId) == Some(e);
        Some(e)
      case None =>
        var r := GetEvent(data[1..], eventId);
        assert forall i :: 1 <= i < |data| ==> data[i] == data[1..][i - 1];
        if r.Some? then FoundLater(data, eventId, r.value); r else r
  }

  /** `e` is what `find` returns in the first year that holds an event with
      that id: the first such event of that year. */
  ghost predicate FoundInFirstYear(data: seq<EventYear>, eventId: string, e: PropertyEvent) {
    exists i :: 0 <= i < |data| && FindEvent(data[i].events, eventId) == Some(e)
                && forall i' :: 0 <= i' < i ==> FindEvent(data[i'].events, eventId).None?
  }

  lemma FoundLater(data: seq<EventYear>, eventId: string, e: PropertyEvent)
    requires data != [] && FindEvent(data[0].events, eventId).None?
    requires FoundInFirstYear(data[1..], eventId, e)
    ensures FoundInFirstYear(data, eventId, e)
  {
    var i :| 0 <= i < |data| - 1 && FindEvent(data[1..][i].events, eventId) == Some(e)
             && forall i' :: 0 <= i' < i ==> FindEvent(data[1..][i'].events, eventId).None?;
    assert data[i + 1] == data[1..][i];
    forall i' | 0 <= i' < i + 1 ensures FindEvent(data[i'].events, eventId).None? {
      if i' > 0 {
        assert data[i'] == data[1..][i' - 1];
      }
    }
  }

  /** `e.propertyId === propertyId`. */
  function HasProperty(propertyId: string): PropertyEvent -> bool {
    (e: PropertyEvent) => e.propertyId == propertyId
  }

  /** The events of a property in catalogue order, year by year. */
  function EventsOfProperty(data: seq<EventYear>, propertyId: string): (r: seq<PropertyEvent>)
    ensures forall e :: e in r <==> e.propertyId == propertyId && exists i :: 0 <= i < |data| && e in data[i].events
  {
    if data == [] then []
    else
      var prefix := EventsOfProperty(data[..|data| - 1], propertyId);
      var last := Filter(data[|data| - 1].events, HasProperty(propertyId));
      forall e ensures e in prefix + last <==> e.propertyId == propertyId && exists i :: 0 <= i < |data| && e in data[i].events {
        if e.propertyId == propertyId && exists i :: 0 <= i < |data| && e in data[i].events {
          var i :| 0 <= i < |data| && e in data[i].events;
          if i < |data| - 1 {
            assert data[..|data| - 1][i] == data[i];
          } else {
            var j :| 0 <= j < |data[i].events| && data[i].events[j] == e;
          }
        }
        if e in prefix {
          var i :| 0 <= i < |data[..|data| - 1]| && e in data[..|data| - 1][i].events;
          assert data[i] == data[..|data| - 1][i];
        }
      }
      prefix + last
  }

  /** `b.date - a.date`: the key of the newest-first sort. */
  function DateDesc(e: PropertyEvent): int {
    -e.date
  }

  /** `getEventsByProperty`: the property's events collected by nested
      loops, newest first (equal dates keep catalogue order). */
  method GetEventsByProperty(data: seq<EventYear>, propertyId: string) returns (r: seq<PropertyEvent>)
    ensures forall e :: e in r <==> e.propertyId == propertyId && exists i :: 0 <= i < |data| && e in data[i].events
    ensures forall i, j :: 0 <= i < j < |r| ==> r[i].date >= r[j].date
    ensures multiset(r) == multiset(EventsOfProperty(data, propertyId))
    ensures StableSortOf(r, EventsOfProperty(data, propertyId), DateDesc)
  {
    var allEvents: seq<PropertyEvent> := [];
    for y := 0 to |data|
      invariant allEvents == EventsOfProperty(data[..y], propertyId)
    {
      allEvents := CollectEvents(allEvents, data[y].events, propertyId);
      assert data[..y + 1][..y] == data[..y];
    }
    assert data[..|data|] == data;
    r := SortBy(allEvents, DateDesc);
    SortMembers(allEvents, DateDesc);
    NewestFirst(r);
  }

  /** Ascending by the negated date is newest first. */
  lemma NewestFirst(r: seq<PropertyEvent>)
    requires SortedBy(r, DateDesc)
    ensures forall i, j :: 0 <= i < j < |r| ==> r[i].date >= r[j].date
  {
    forall i, j | 0 <= i < j < |r| ensures r[i].date >= r[j].date {
      assert DateDesc(r[i]) <= DateDesc(r[j]);
    }
  }

  /** The inner `forEach` of `getEventsByProperty`: pushes the events of
      one year that belong to the property. */
  method CollectEvents(allEvents: seq<PropertyEvent>, events: seq<PropertyEvent>, propertyId: string)
    returns (r: seq<PropertyEvent>)
    ensures r == allEvents + Filter(events, HasProperty(propertyId))
  {
    r := allEvents;
    for j := 0 to |events|
      invariant r == allEvents + Filter(events[..j], HasProperty(propertyId))
    {
      assert events[..j + 1] == events[..j] + [events[j]];
      FilterAppend(events[..j], [events[j]], HasProperty(propertyId));
      if events[j].propertyId == propertyId {
        AppendAssoc(allEvents, Filter(events[..j], HasProperty(propertyId)), [events[j]]);
        r := r + [events[j]];
      }
    }
    assert events[..|events|] == events;
  }

  /** `eventsData.map(y => y.year)`. */
  function Years(data: seq<EventYear>): (r: seq<int>)
    ensures |r| == |data| && forall i :: 0 <= i < |data| ==> r[i] == data[i].year
  {
    seq(|data|, i requires 0 <= i < |data| => data[i].year)
  }

  function Negated(x: int): int {
    -x
  }

  /** `getAllYears`: the years of the catalogue, largest first. */
  function GetAllYears(data: seq<EventYear>): (r: seq<int>)
    ensures multiset(r) == multiset(Years(data))
    ensures forall i, j :: 0 <= i < j < |r| ==> r[i] >= r[j]
  {
    SortBy(Years(data), Negated)
  }

  /** For the catalogue the years come out strictly descending: 2025, 2024. */
  lemma AllYearsOfCatalogue()
    ensures GetAllYears(EventsData) == [2025, 2024]
  {
    var ys := Years(EventsData);
    assert ys == [2025, 2024];
    assert SortedBy(ys, Negated);
    SortSorted(ys, Negated);
  }

  /** The event page's and the public gallery's lookup of the one event
      that has photos finds it, with its one hundred and four generated photos. */
  lemma CatalogueHasFred2025()
    ensures GetEvent(EventsData, "fred-2025").Some?
    ensures |GetEvent(EventsData, "fred-2025").value.photos| == 104
  {
    assert EventsData[0].events[0].id == "fred-2025";
    assert FindEvent(EventsData[0].events, "fred-2025") == Some(EventsData[0].events[0]);
    assert GetEvent(EventsData, "fred-2025") == Some(EventsData[0].events[0]);
    assert |PhotoNumbers| == 104;
  }
}

=== FILE: event_gallery_page.dfy ===
/** The event gallery page (src/pages/EventGalleryPage.tsx): the query
    pipeline that turns an event's photos into the grid (join with the
    stores, the hidden gate of public mode, the admin visibility mode, the
    tag filter, the rating comparator, the sort), the tag statistics, the
    multi-selection and the bulk editor. The page reads the local rating,
    tag and public stores and the server-synchronised hidden store. */
module EventGalleryPage {
  import opened Wrappers
  import opened Seqs
  import opened Sorting
  import opened EventData
  import RatingStore
  import TagStore
  import HiddenStore
  import ServerHiddenStore
  import PublicStore

  /** A photo with the metadata the page joins onto it. */
  datatype PhotoWithMeta = PhotoWithMeta(photo: EventPhoto, rating: Option<int>, tags: seq<string>,
                                         isHidden: bool)

  /** The admin visibility mode. */
  datatype ShowHidden = Exclude | Include | Only

  datatype RatingOperator = AnyRating | Equal | Greater | Less | GreaterEqual | LessEqual

  datatype SortOrder = DefaultOrder | RatingHigh | RatingLow | MostTagged

  /** The bulk editor's choices for visibility and public status. */
  datatype VisibilityEdit = NoVisibilityChange | Show | Hide
  datatype PublicEdit = NoPublicChange | AddPublic | RemovePublic

  /** `getPhotoTags(id)?.tags || []`. */
  function ExistingTags(photoTags: map<string, TagStore.PhotoTag>, photoId: string): seq<string> {
    if photoId in photoTags then photoTags[photoId].tags else []
  }

  /** One photo joined with its rating, tags and hidden flag. */
  function Meta(photo: EventPhoto, ratings: map<string, RatingStore.PhotoRating>,
                photoTags: map<string, TagStore.PhotoTag>, hidden: map<string, HiddenStore.HiddenPhoto>)
    : PhotoWithMeta
  {
    PhotoWithMeta(photo,
                  if photo.id in ratings then Some(ratings[photo.id].rating) else None,
                  ExistingTags(photoTags, photo.id),
                  HiddenStore.IsPhotoHidden(hidden, photo.id))
  }

  /** `event.photos.map(...)`: the join, one entry per photo, in order. */
  function Join(photos: seq<EventPhoto>, ratings: map<string, RatingStore.PhotoRating>,
                photoTags: map<string, TagStore.PhotoTag>, hidden: map<string, HiddenStore.HiddenPhoto>)
    : (r: seq<PhotoWithMeta>)
    ensures |r| == |photos|
    ensures forall i :: 0 <= i < |r| ==> r[i] == Meta(photos[i], ratings, photoTags, hidden)
  {
    seq(|photos|, i requires 0 <= i < |photos| => Meta(photos[i], ratings, photoTags, hidden))
  }

  function NotHidden(p: PhotoWithMeta): bool {
    !p.isHidden
  }

  function IsHiddenMeta(p: PhotoWithMeta): bool {
    p.isHidden
  }

  /** `photosWithMeta`: the joined photos; outside admin mode the hidden
      ones are dropped entirely. */
  function PhotosWithMeta(photos: seq<EventPhoto>, ratings: map<string, RatingStore.PhotoRating>,
                          photoTags: map<string, TagStore.PhotoTag>,
                          hidden: map<string, HiddenStore.HiddenPhoto>, isAdminMode: bool)
    : (r: seq<PhotoWithMeta>)
    ensures SubseqOf(r, Join(photos, ratings, photoTags, hidden))
    ensures isAdminMode ==> |r| == |photos| && forall i :: 0 <= i < |r| ==> r[i].photo == photos[i]
    ensures forall i :: 0 <= i < |r| ==> r[i] == Meta(r[i].photo, ratings, photoTags, hidden)
    ensures !isAdminMode ==> forall i :: 0 <= i < |r| ==> !HiddenStore.IsPhotoHidden(hidden, r[i].photo.id)
    ensures forall i :: 0 <= i < |photos| && (isAdminMode || !HiddenStore.IsPhotoHidden(hidden, photos[i].id)) ==>
              Meta(photos[i], ratings, photoTags, hidden) in r
  {
    var joined := Join(photos, ratings, photoTags, hidden);
    if isAdminMode then
      SubseqRefl(joined);
      joined
    else
      FilterIsSubseq(joined, NotHidden);
      Filter(joined, NotHidden)
  }

  /** The ids of the joined photos: `photosWithMeta.map(p => p.photo.id)`. */
  function Ids(ps: seq<PhotoWithMeta>): (r: seq<string>)
    ensures |r| == |ps| && forall i :: 0 <= i < |ps| ==> r[i] == ps[i].photo.id
  {
    seq(|ps|, i requires 0 <= i < |ps| => ps[i].photo.id)
  }

  /** In public mode a hidden photo is not among the gated ids, so nothing
      computed from the gated set can see it. */
  lemma HiddenNotGated(photos: seq<EventPhoto>, ratings: map<string, RatingStore.PhotoRating>,
                       photoTags: map<string, TagStore.PhotoTag>,
                       hidden: map<string, HiddenStore.HiddenPhoto>, photoId: string)
    requires HiddenStore.IsPhotoHidden(hidden, photoId)
    ensures photoId !in Ids(PhotosWithMeta(photos, ratings, photoTags, hidden, false))
  {
  }

  /** Whether the admin visibility mode lets a photo through. */
  predicate VisibilityPasses(isAdminMode: bool, showHidden: ShowHidden, p: PhotoWithMeta) {
    !isAdminMode || showHidden == Include
    || (showHidden == Exclude && !p.isHidden) || (showHidden == Only && p.isHidden)
  }

  /** The hidden filter, applied in admin mode only. */
  function VisibilityFiltered(ps: seq<PhotoWithMeta>, isAdminMode: bool, showHidden: ShowHidden)
    : (r: seq<PhotoWithMeta>)
    ensures SubseqOf(r, ps)
    ensures forall p :: p in r <==> p in ps && VisibilityPasses(isAdminMode, showHidden, p)
    ensures !isAdminMode || showHidden == Include ==> r == ps
  {
    if isAdminMode && showHidden == Exclude then
      FilterIsSubseq(ps, NotHidden);
      Filter(ps, NotHidden)
    else if isAdminMode && showHidden == Only then
      FilterIsSubseq(ps, IsHiddenMeta);
      Filter(ps, IsHiddenMeta)
    else
      SubseqRefl(ps);
      ps
  }

  function HasTag(tag: string): PhotoWithMeta -> bool {
    (p: PhotoWithMeta) => tag in p.tags
  }

  /** The tag filter: `all` lets everything through. */
  function TagFiltered(ps: seq<PhotoWithMeta>, selectedTag: string): (r: seq<PhotoWithMeta>)
    ensures SubseqOf(r, ps)
    ensures forall p :: p in r <==> p in ps && (selectedTag == "all" || selectedTag in p.tags)
    ensures selectedTag == "all" ==> r == ps
  {
    if selectedTag != "all" then
      FilterIsSubseq(ps, HasTag(selectedTag));
      Filter(ps, HasTag(selectedTag))
    else
      SubseqRefl(ps);
      ps
  }

  /** `p.rating` is truthy: present and not zero. */
  predicate HasRating(rating: Option<int>) {
    rating.Some? && rating.value != 0
  }

  /** The rating comparator. Ratings are integers, so `Math.floor` is the
      identity. */
  predicate RatingPasses(op: RatingOperator, rating: Option<int>, value: int) {
    match op
    case AnyRating => true
    case Equal => HasRating(rating) && rating.value == value
    case Greater => HasRating(rating) && rating.value > value
    case Less => HasRating(rating) && rating.value < value
    case GreaterEqual => HasRating(rating) && rating.value >= value
    case LessEqual => HasRating(rating) && rating.value <= value
  }

  /** Every comparator but `any` turns away a photo without a rating,
      whatever the value compared with. */
  lemma UnratedExcluded(op: RatingOperator, rating: Option<int>, value: int)
    requires op != AnyRating && !HasRating(rating)
    ensures !RatingPasses(op, rating, value)
  {
  }

  function RatingTest(op: RatingOperator, value: int): PhotoWithMeta -> bool {
    (p: PhotoWithMeta) => RatingPasses(op, p.rating, value)
  }

  /** The rating filter. */
  function RatingFiltered(ps: seq<PhotoWithMeta>, op: RatingOperator, value: int): (r: seq<PhotoWithMeta>)
    ensures SubseqOf(r, ps)
    ensures forall p :: p in r <==> p in ps && RatingPasses(op, p.rating, value)
    ensures op == AnyRating ==> r == ps
  {
    if op != AnyRating then
      FilterIsSubseq(ps, RatingTest(op, value));
      Filter(ps, RatingTest(op, value))
    else
      SubseqRefl(ps);
      ps
  }

  /** Everything the page's filters ask of one photo. */
  predicate Passes(isAdminMode: bool, showHidden: ShowHidden, selectedTag: string,
                   op: RatingOperator, value: int, p: PhotoWithMeta) {
    VisibilityPasses(isAdminMode, showHidden, p) && (selectedTag == "all" || selectedTag in p.tags)
    && RatingPasses(op, p.rating, value)
  }

  /** `filteredPhotos`: the hidden, tag and rating filters in that order. The
      result keeps the order of the gated photos and holds exactly those
      that pass every filter. */
  function FilteredPhotos(ps: seq<PhotoWithMeta>, isAdminMode: bool, showHidden: ShowHidden,
                          selectedTag: string, op: RatingOperator, value: int): (r: seq<PhotoWithMeta>)
    ensures SubseqOf(r, ps)
    ensures forall p :: p in r <==> p in ps && Passes(isAdminMode, showHidden, selectedTag, op, value, p)
  {
    var v := VisibilityFiltered(ps, isAdminMode, showHidden);
    var t := TagFiltered(v, selectedTag);
    var r := RatingFiltered(t, op, value);
    SubseqTrans(t, v, ps);
    SubseqTrans(r, t, ps);
    r
  }

  /** `p.rating || 0`. */
  function RatingOrZero(rating: Option<int>): int {
    if rating.Some? then rating.value else 0
  }

  /** The stable-sort key of each order (descending orders negate). */
  function SortKey(sortBy: SortOrder): PhotoWithMeta -> int {
    match sortBy
    case RatingHigh => (p: PhotoWithMeta) => -RatingOrZero(p.rating)
    case RatingLow => (p: PhotoWithMeta) => RatingOrZero(p.rating)
    case MostTagged => (p: PhotoWithMeta) => -|p.tags|
    case DefaultOrder => (p: PhotoWithMeta) => 0
  }

  /** `sortedPhotos`: a permutation of the filtered photos in the chosen
      order, equal elements keeping their filtered order; `default` leaves
      the order as it is. */
  function SortedPhotos(filtered: seq<PhotoWithMeta>, sortBy: SortOrder): (r: seq<PhotoWithMeta>)
    ensures |r| == |filtered| && multiset(r) == multiset(filtered)
    ensures sortBy == DefaultOrder ==> r == filtered
    ensures sortBy != DefaultOrder ==> StableSortOf(r, filtered, SortKey(sortBy))
    ensures sortBy == RatingHigh ==>
              forall i, j :: 0 <= i < j < |r| ==> RatingOrZero(r[i].rating) >= RatingOrZero(r[j].rating)
    ensures sortBy == RatingLow ==>
              forall i, j :: 0 <= i < j < |r| ==> RatingOrZero(r[i].rating) <= RatingOrZero(r[j].rating)
    ensures sortBy == MostTagged ==> forall i, j :: 0 <= i < j < |r| ==> |r[i].tags| >= |r[j].tags|
  {
    if sortBy == DefaultOrder then filtered
    else
      var r := SortBy(filtered, SortKey(sortBy));
      assert forall i, j :: 0 <= i < j < |r| ==> SortKey(sortBy)(r[i]) <= SortKey(sortBy)(r[j]);
      r
  }

  /** The tag lists of the joined photos. */
  function MetaTagLists(ps: seq<PhotoWithMeta>): (r: seq<seq<string>>)
    ensures |r| == |ps| && forall i :: 0 <= i < |ps| ==> r[i] == ps[i].tags
  {
    seq(|ps|, i requires 0 <= i < |ps| => ps[i].tags)
  }

  /** `tagCounts`: every tag of the gated photos with its number of
      occurrences, counted by the nested `forEach`. */
  method TagCounts(ps: seq<PhotoWithMeta>) returns (counts: map<string, nat>)
    ensures counts == TagStore.CountMap(Flatten(MetaTagLists(ps)))
    ensures forall t :: t in counts <==> exists i :: 0 <= i < |ps| && t in ps[i].tags
  {
    var order;
    counts, order := TagStore.CountTags(MetaTagLists(ps));
    forall t ensures t in counts <==> exists i :: 0 <= i < |ps| && t in ps[i].tags {
      FlattenMember(MetaTagLists(ps), t);
    }
  }

  /** `tag.eventId === event.id && visiblePhotoIds.includes(tag.photoId)`,
      as a test on the keys of the tag store. */
  function VisibleInEvent(photoTags: map<string, TagStore.PhotoTag>, eventId: string, ids: seq<string>)
    : string -> bool
  {
    k => k in photoTags && photoTags[k].eventId == eventId && photoTags[k].photoId in ids
  }

  /** The keys of the tag records `tagStats` counts. */
  ghost function VisibleTagged(photoTags: map<string, TagStore.PhotoTag>, eventId: string, ids: seq<string>)
    : set<string>
  {
    set k | k in photoTags && photoTags[k].eventId == eventId && photoTags[k].photoId in ids
  }

  /** `tagStats`: the event's tag records whose photo is in the gated set
      (the tag and rating filters play no part), with their tag counts and
      the ten most frequent tags. */
  method TagStats(photoTags: map<string, TagStore.PhotoTag>, keys: seq<string>, eventId: string,
                  ps: seq<PhotoWithMeta>) returns (st: TagStore.TagStats)
    requires Enumerates(keys, photoTags)
    ensures st.totalTaggedPhotos == |VisibleTagged(photoTags, eventId, Ids(ps))|
    ensures forall t :: t in st.tagCounts <==>
              exists k :: k in VisibleTagged(photoTags, eventId, Ids(ps)) && t in photoTags[k].tags
    ensures |st.popularTags| <= 10
    ensures forall i, j :: 0 <= i < j < |st.popularTags| ==> st.popularTags[i].count >= st.popularTags[j].count
    ensures forall i :: 0 <= i < |st.popularTags| ==>
              st.popularTags[i].tag in st.tagCounts && st.popularTags[i].count == st.tagCounts[st.popularTags[i].tag]
    ensures TagStore.Counts(st.tagCounts, st.tagOrder,
                            Flatten(TagStore.TagLists(VisibleRecords(photoTags, keys, eventId, Ids(ps)))))
    ensures TagStore.WellFormed(photoTags) ==>
              forall t :: t in st.tagCounts ==>
                st.tagCounts[t] == TagStore.ListsWith(TagStore.TagLists(VisibleRecords(photoTags, keys, eventId, Ids(ps))), t)
    ensures |st.popularTags| == if |st.tagOrder| < 10 then |st.tagOrder| else 10
    ensures forall t, i :: t in st.tagCounts && 0 <= i < |st.popularTags|
                           && (forall j :: 0 <= j < |st.popularTags| ==> st.popularTags[j].tag != t)
                           ==> st.tagCounts[t] <= st.popularTags[i].count
  {
    var ids := Ids(ps);
    var records := VisibleRecords(photoTags, keys, eventId, ids);
    var counts, order := TagStore.CountTags(TagStore.TagLists(records));
    var popular := TagStore.PopularTags(order, counts, 10);
    st := TagStore.TagStats(|records|, counts, order, popular);
    TagStatsFacts(photoTags, keys, eventId, ids, st);
    PopularFacts(order, counts, popular);
  }

  /** What `tagStats` computes from the visible records, stated in terms of
      the tag records themselves. */
  lemma TagStatsFacts(photoTags: map<string, TagStore.PhotoTag>, keys: seq<string>, eventId: string,
                      ids: seq<string>, st: TagStore.TagStats)
    requires Enumerates(keys, photoTags)
    requires st.totalTaggedPhotos == |VisibleRecords(photoTags, keys, eventId, ids)|
    requires TagStore.Counts(st.tagCounts, st.tagOrder, Flatten(TagStore.TagLists(VisibleRecords(photoTags, keys, eventId, ids))))
    requires Enumerates(st.tagOrder, st.tagCounts)
    requires st.popularTags == TagStore.PopularTags(st.tagOrder, st.tagCounts, 10)
    ensures st.totalTaggedPhotos == |VisibleTagged(photoTags, eventId, ids)|
    ensures forall t :: t in st.tagCounts <==>
              exists k :: k in VisibleTagged(photoTags, eventId, ids) && t in photoTags[k].tags
    ensures TagStore.WellFormed(photoTags) ==>
              forall t :: t in st.tagCounts ==>
                st.tagCounts[t] == TagStore.ListsWith(TagStore.TagLists(VisibleRecords(photoTags, keys, eventId, ids)), t)
  {
    VisibleRecordsFacts(photoTags, keys, eventId, ids);
    if TagStore.WellFormed(photoTags) {
      CountsArePhotoCounts(VisibleRecords(photoTags, keys, eventId, ids), st.tagCounts);
    }
  }

  /** The ten most frequent tags: ten of them when there are that many, and
      no tag left out is more frequent than one kept. */
  lemma PopularFacts(order: seq<string>, counts: map<string, nat>, popular: seq<TagStore.TagCount>)
    requires Enumerates(order, counts) && popular == TagStore.PopularTags(order, counts, 10)
    ensures |popular| == if |order| < 10 then |order| else 10
    ensures forall t, i :: t in counts && 0 <= i < |popular|
                           && (forall j :: 0 <= j < |popular| ==> popular[j].tag != t)
                           ==> counts[t] <= popular[i].count
  {
  }

  /** When no record repeats a tag, each tag's count is the number of
      records carrying it. */
  lemma CountsArePhotoCounts(records: seq<TagStore.PhotoTag>, counts: map<string, nat>)
    requires forall i :: 0 <= i < |records| ==> Distinct(records[i].tags)
    requires counts == TagStore.CountMap(Flatten(TagStore.TagLists(records)))
    ensures forall t :: t in counts ==> counts[t] == TagStore.ListsWith(TagStore.TagLists(records), t)
  {
    forall t | t in counts ensures counts[t] == TagStore.ListsWith(TagStore.TagLists(records), t) {
      TagStore.CountIsListsWith(TagStore.TagLists(records), t);
    }
  }

  /** The tag records `tagStats` counts, in enumeration order. */
  function VisibleRecords(photoTags: map<string, TagStore.PhotoTag>, keys: seq<string>, eventId: string,
                          ids: seq<string>): (r: seq<TagStore.PhotoTag>)
    requires Enumerates(keys, photoTags)
    ensures forall i :: 0 <= i < |r| ==> r[i] in photoTags.Values && r[i].eventId == eventId && r[i].photoId in ids
    ensures TagStore.WellFormed(photoTags) ==> forall i :: 0 <= i < |r| ==> Distinct(r[i].tags)
  {
    var kept := Filter(keys, VisibleInEvent(photoTags, eventId, ids));
    var r := Values(photoTags, kept);
    assert forall i :: 0 <= i < |r| ==> kept[i] in photoTags && r[i] == photoTags[kept[i]];
    r
  }

  /** How many tag records `tagStats` counts, and which tags they hold. */
  lemma VisibleRecordsFacts(photoTags: map<string, TagStore.PhotoTag>, keys: seq<string>, eventId: string,
                            ids: seq<string>)
    requires Enumerates(keys, photoTags)
    ensures |Filter(keys, VisibleInEvent(photoTags, eventId, ids))| == |VisibleTagged(photoTags, eventId, ids)|
    ensures forall t :: t in TagStore.CountMap(Flatten(TagStore.TagLists(Values(photoTags, Filter(keys, VisibleInEvent(photoTags, eventId, ids)))))) <==>
              exists k :: k in VisibleTagged(photoTags, eventId, ids) && t in photoTags[k].tags
  {
    var kept := Filter(keys, VisibleInEvent(photoTags, eventId, ids));
    FilterDistinctCard(keys, VisibleInEvent(photoTags, eventId, ids));
    assert Kept(keys, VisibleInEvent(photoTags, eventId, ids)) == VisibleTagged(photoTags, eventId, ids);
    forall t ensures t in Flatten(TagStore.TagLists(Values(photoTags, kept))) <==>
                     exists k :: k in VisibleTagged(photoTags, eventId, ids) && t in photoTags[k].tags {
      TagInRecords(photoTags, keys, kept, eventId, ids, t);
    }
  }

  lemma TagInRecords(photoTags: map<string, TagStore.PhotoTag>, keys: seq<string>, kept: seq<string>,
                     eventId: string, ids: seq<string>, t: string)
    requires Enumerates(keys, photoTags)
    requires kept == Filter(keys, VisibleInEvent(photoTags, eventId, ids))
    ensures t in Flatten(TagStore.TagLists(Values(photoTags, kept))) <==>
            exists k :: k in VisibleTagged(photoTags, eventId, ids) && t in photoTags[k].tags
  {
    forall x ensures x in kept <==> x in keys && VisibleInEvent(photoTags, eventId, ids)(x) {
      FilterMember(keys, VisibleInEvent(photoTags, eventId, ids), x);
    }
    KeptTagged(photoTags, keys, kept, eventId, ids, t);
    TagsOfKept(photoTags, kept, TagStore.TagLists(Values(photoTags, kept)), t);
  }

  /** A tag is in the flattened tag lists of some records exactly when one
      of the records carries it. */
  lemma TagsOfKept(photoTags: map<string, TagStore.PhotoTag>, kept: seq<string>, lists: seq<seq<string>>, t: string)
    requires forall i :: 0 <= i < |kept| ==> kept[i] in photoTags
    requires |lists| == |kept| && forall i :: 0 <= i < |kept| ==> lists[i] == photoTags[kept[i]].tags
    ensures t in Flatten(lists) <==> exists i :: 0 <= i < |kept| && kept[i] in photoTags && t in photoTags[kept[i]].tags
  {
    FlattenMember(lists, t);
    if t in Flatten(lists) {
      var i :| 0 <= i < |lists| && t in lists[i];
      assert lists[i] == photoTags[kept[i]].tags;
    }
  }

  /** The kept keys are exactly the visible tag records. */
  lemma KeptTagged(photoTags: map<string, TagStore.PhotoTag>, keys: seq<string>, kept: seq<string>,
                   eventId: string, ids: seq<string>, t: string)
    requires Enumerates(keys, photoTags)
    requires forall x :: x in kept <==> x in keys && VisibleInEvent(photoTags, eventId, ids)(x)
    ensures forall i :: 0 <= i < |kept| ==> kept[i] in photoTags
    ensures (exists i :: 0 <= i < |kept| && kept[i] in photoTags && t in photoTags[kept[i]].tags) <==>
            exists k :: k in VisibleTagged(photoTags, eventId, ids) && t in photoTags[k].tags
  {
    forall i | 0 <= i < |kept| ensures kept[i] in photoTags {
      assert kept[i] in kept;
    }
    if exists i :: 0 <= i < |kept| && kept[i] in photoTags && t in photoTags[kept[i]].tags {
      var i :| 0 <= i < |kept| && kept[i] in photoTags && t in photoTags[kept[i]].tags;
      assert kept[i] in kept;
      assert kept[i] in VisibleTagged(photoTags, eventId, ids);
    }
    if exists k :: k in VisibleTagged(photoTags, eventId, ids) && t in photoTags[k].tags {
      var k :| k in VisibleTagged(photoTags, eventId, ids) && t in photoTags[k].tags;
      assert k in kept;
      var j :| 0 <= j < |kept| && kept[j] == k;
    }
  }

  // ---------------------------------------------------------------------
  // Bulk tag edit: `new Set(existing)`, delete each removed tag, add each
  // added tag, `Array.from`.

  function Other(t: string): string -> bool {
    x => x != t
  }

  /** The set after `remove.forEach(tag => newTags.delete(tag))`. */
  function RemoveAll(s: seq<string>, remove: seq<string>): (r: seq<string>)
    ensures forall t :: t in r <==> t in s && t !in remove
  {
    if remove == [] then s
    else
      var prev := RemoveAll(s, remove[..|remove| - 1]);
      assert forall t :: t in remove <==> t in remove[..|remove| - 1] || t == remove[|remove| - 1];
      Filter(prev, Other(remove[|remove| - 1]))
  }

  lemma {:induction false} RemoveAllDistinct(s: seq<string>, remove: seq<string>)
    requires Distinct(s)
    ensures Distinct(RemoveAll(s, remove))
  {
    if remove != [] {
      RemoveAllDistinct(s, remove[..|remove| - 1]);
      FilterPreservesDistinct(RemoveAll(s, remove[..|remove| - 1]), Other(remove[|remove| - 1]));
    }
  }

  /** `Set.add`: a new element goes at the end, a present one stays put. */
  function AddOne(s: seq<string>, t: string): seq<string> {
    if t in s then s else s + [t]
  }

  /** The set after `add.forEach(tag => newTags.add(tag))`. */
  function AddAll(s: seq<string>, add: seq<string>): (r: seq<string>)
    ensures forall t :: t in r <==> t in s || t in add
  {
    if add == [] then s
    else
      assert forall t :: t in add <==> t in add[..|add| - 1] || t == add[|add| - 1];
      AddOne(AddAll(s, add[..|add| - 1]), add[|add| - 1])
  }

  /** Adding to a repetition-free list is removing repetitions from the
      concatenation: the added tags that are new go at the end, in order. */
  lemma {:induction false} AddAllIsDedup(s: seq<string>, add: seq<string>)
    requires Distinct(s)
    ensures AddAll(s, add) == Dedup(s + add)
  {
    if add == [] {
      assert s + add == s;
      DedupDistinct(s);
    } else {
      var init := add[..|add| - 1];
      var x := add[|add| - 1];
      AddAllIsDedup(s, init);
      assert s + add == (s + init) + [x];
      DedupSnoc(s + init, x);
      assert x in s + init <==> x in AddAll(s, init);
    }
  }

  /** The tag list the bulk editor writes: `(existing \ remove) ∪ add`,
      free of repetitions. */
  function BulkTags(existing: seq<string>, add: seq<string>, remove: seq<string>): (r: seq<string>)
    ensures forall t :: t in r <==> (t in existing && t !in remove) || t in add
    ensures Distinct(r)
    ensures r == Dedup(RemoveAll(Dedup(existing), remove) + add)
  {
    var kept := RemoveAll(Dedup(existing), remove);
    RemoveAllDistinct(Dedup(existing), remove);
    AddAllIsDedup(kept, add);
    AddAll(kept, add)
  }

  /** The loops of the bulk tag edit. */
  method BulkTagList(existing: seq<string>, add: seq<string>, remove: seq<string>) returns (newTags: seq<string>)
    ensures newTags == BulkTags(existing, add, remove)
  {
    newTags := Dedup(existing);
    for i := 0 to |remove|
      invariant newTags == RemoveAll(Dedup(existing), remove[..i])
    {
      assert remove[..i + 1][..i] == remove[..i];
      newTags := Filter(newTags, Other(remove[i]));
    }
    assert remove[..|remove|] == remove;
    ghost var kept := newTags;
    for i := 0 to |add|
      invariant newTags == AddAll(kept, add[..i])
    {
      assert add[..i + 1][..i] == add[..i];
      if add[i] !in newTags {
        newTags := newTags + [add[i]];
      }
    }
    assert add[..|add|] == add;
  }

  // ---------------------------------------------------------------------
  // The effect of `applyBulkEdits` on each store, photo by photo in the
  // order of the selection.

  /** Key `k` is in `r` exactly when it is in `m`, with the same record. */
  ghost predicate Unchanged<V>(r: map<string, V>, m: map<string, V>, k: string) {
    (k in r <==> k in m) && (k in r ==> r[k] == m[k])
  }

  /** Ratings after the bulk edit: every selected photo rated when a rating
      was chosen. */
  function RatingsAfter(m: map<string, RatingStore.PhotoRating>, sel: seq<string>, eventId: string,
                        rating: Option<int>, now: string): map<string, RatingStore.PhotoRating>
  {
    if sel == [] then m
    else
      var prev := RatingsAfter(m, sel[..|sel| - 1], eventId, rating, now);
      RatingStep(prev, sel[|sel| - 1], eventId, rating, now)
  }

  /** Every selected photo carries the chosen rating, clamped, with the
      edit's timestamp and no comment; no other record changes. */
  lemma {:induction false} RatingsAfterHolds(m: map<string, RatingStore.PhotoRating>, sel: seq<string>,
                                             eventId: string, rating: Option<int>, now: string)
    ensures rating.None? ==> RatingsAfter(m, sel, eventId, rating, now) == m
    ensures forall p :: p in sel && rating.Some? ==>
              p in RatingsAfter(m, sel, eventId, rating, now)
              && RatingsAfter(m, sel, eventId, rating, now)[p]
                 == RatingStore.PhotoRating(p, eventId, RatingStore.Clamp(rating.value), now, None)
    ensures forall k :: k !in sel ==> Unchanged(RatingsAfter(m, sel, eventId, rating, now), m, k)
  {
    if sel != [] {
      RatingsAfterHolds(m, sel[..|sel| - 1], eventId, rating, now);
      assert forall p :: p in sel <==> p in sel[..|sel| - 1] || p == sel[|sel| - 1];
    }
  }

  /** One photo's rating edit, when a rating was chosen. */
  function RatingStep(m: map<string, RatingStore.PhotoRating>, p: string, eventId: string,
                      rating: Option<int>, now: string): map<string, RatingStore.PhotoRating> {
    if rating.Some? then RatingStore.Rated(m, p, eventId, rating.value, None, now) else m
  }

  /** One photo's tag edit, when any tag was chosen. */
  function TagStep(m: map<string, TagStore.PhotoTag>, p: string, eventId: string,
                   add: seq<string>, remove: seq<string>, now: string): map<string, TagStore.PhotoTag> {
    if |add| > 0 || |remove| > 0 then TagStore.Tagged(m, p, eventId, BulkTags(ExistingTags(m, p), add, remove), now)
    else m
  }

  /** Tags after the bulk edit. */
  function TagsAfter(m: map<string, TagStore.PhotoTag>, sel: seq<string>, eventId: string,
                     add: seq<string>, remove: seq<string>, now: string): map<string, TagStore.PhotoTag>
  {
    if sel == [] then m
    else
      var prev := TagsAfter(m, sel[..|sel| - 1], eventId, add, remove, now);
      TagStep(prev, sel[|sel| - 1], eventId, add, remove, now)
  }

  /** The tag edit touches the selected photos only, and nothing when no
      tag was chosen. */
  lemma {:induction false} TagsAfterFrame(m: map<string, TagStore.PhotoTag>, sel: seq<string>, eventId: string,
                                          add: seq<string>, remove: seq<string>, now: string)
    ensures |add| == 0 && |remove| == 0 ==> TagsAfter(m, sel, eventId, add, remove, now) == m
    ensures forall k :: k !in sel ==> Unchanged(TagsAfter(m, sel, eventId, add, remove, now), m, k)
  {
    if sel != [] {
      TagsAfterFrame(m, sel[..|sel| - 1], eventId, add, remove, now);
      assert forall p :: p in sel <==> p in sel[..|sel| - 1] || p == sel[|sel| - 1];
    }
  }

  /** Each selected photo ends with exactly the tags it had, minus the
      removed ones, plus the added ones; a photo selected twice gets the
      same result, the edit being idempotent on its tags. */
  lemma {:induction false} TagsAfterHolds(m: map<string, TagStore.PhotoTag>, sel: seq<string>, eventId: string,
                                          add: seq<string>, remove: seq<string>, now: string, p: string, t: string)
    requires p in sel && (|add| > 0 || |remove| > 0)
    ensures p in TagsAfter(m, sel, eventId, add, remove, now)
    ensures t in TagsAfter(m, sel, eventId, add, remove, now)[p].tags <==>
            (t in ExistingTags(m, p) && t !in remove) || t in add
  {
    var init := sel[..|sel| - 1];
    var prev := TagsAfter(m, init, eventId, add, remove, now);
    var last := sel[|sel| - 1];
    assert p in init || p == last;
    if p == last {
      if p in init {
        TagsAfterHolds(m, init, eventId, add, remove, now, p, t);
      } else {
        TagsAfterFrame(m, init, eventId, add, remove, now);
        assert ExistingTags(prev, p) == ExistingTags(m, p);
      }
    } else {
      TagsAfterHolds(m, init, eventId, add, remove, now, p, t);
    }
  }

  /** One photo's visibility edit: toggled only when it differs from the
      target, and kept as it was when the toggle's save fails. */
  function HiddenStep(m: map<string, HiddenStore.HiddenPhoto>, p: string, eventId: string,
                      visibility: VisibilityEdit, failing: set<string>, now: string)
    : map<string, HiddenStore.HiddenPhoto> {
    if visibility != NoVisibilityChange && HiddenStore.IsPhotoHidden(m, p) != (visibility == Hide) && p !in failing
    then HiddenStore.Toggled(m, p, eventId, now)
    else m
  }

  /** Hidden records after the bulk edit; `failing` holds the photos whose
      save fails. */
  function HiddenAfter(m: map<string, HiddenStore.HiddenPhoto>, sel: seq<string>, eventId: string,
                       visibility: VisibilityEdit, failing: set<string>, now: string)
    : map<string, HiddenStore.HiddenPhoto>
  {
    if sel == [] then m
    else
      var prev := HiddenAfter(m, sel[..|sel| - 1], eventId, visibility, failing, now);
      HiddenStep(prev, sel[|sel| - 1], eventId, visibility, failing, now)
  }

  /** Every selected photo whose save succeeds ends with the chosen
      visibility; the others, and the unselected photos, keep their record. */
  lemma {:induction false} HiddenAfterHolds(m: map<string, HiddenStore.HiddenPhoto>, sel: seq<string>, eventId: string,
                                            visibility: VisibilityEdit, failing: set<string>, now: string)
    ensures visibility == NoVisibilityChange ==> HiddenAfter(m, sel, eventId, visibility, failing, now) == m
    ensures forall p :: p in sel && p !in failing && visibility != NoVisibilityChange ==>
              HiddenStore.IsPhotoHidden(HiddenAfter(m, sel, eventId, visibility, failing, now), p) == (visibility == Hide)
    ensures forall k :: k !in sel || k in failing ==> Unchanged(HiddenAfter(m, sel, eventId, visibility, failing, now), m, k)
  {
    if sel != [] {
      HiddenAfterHolds(m, sel[..|sel| - 1], eventId, visibility, failing, now);
      assert forall p :: p in sel <==> p in sel[..|sel| - 1] || p == sel[|sel| - 1];
    }
  }

  /** One photo's public edit: toggled only when it differs from the target. */
  function PublicStep(m: map<string, PublicStore.PublicPhoto>, p: string, eventId: string,
                      publicEdit: PublicEdit, now: string): map<string, PublicStore.PublicPhoto> {
    if publicEdit != NoPublicChange && PublicStore.IsPhotoPublic(m, p) != (publicEdit == AddPublic)
    then PublicStore.Toggled(m, p, eventId, now)
    else m
  }

  /** Public records after the bulk edit. */
  function PublicAfter(m: map<string, PublicStore.PublicPhoto>, sel: seq<string>, eventId: string,
                       publicEdit: PublicEdit, now: string): map<string, PublicStore.PublicPhoto>
  {
    if sel == [] then m
    else
      var prev := PublicAfter(m, sel[..|sel| - 1], eventId, publicEdit, now);
      PublicStep(prev, sel[|sel| - 1], eventId, publicEdit, now)
  }

  /** Every selected photo ends with the chosen public status; the
      unselected photos keep their record. */
  lemma {:induction false} PublicAfterHolds(m: map<string, PublicStore.PublicPhoto>, sel: seq<string>, eventId: string,
                                            publicEdit: PublicEdit, now: string)
    ensures publicEdit == NoPublicChange ==> PublicAfter(m, sel, eventId, publicEdit, now) == m
    ensures forall p :: p in sel && publicEdit != NoPublicChange ==>
              PublicStore.IsPhotoPublic(PublicAfter(m, sel, eventId, publicEdit, now), p) == (publicEdit == AddPublic)
    ensures forall k :: k !in sel ==> Unchanged(PublicAfter(m, sel, eventId, publicEdit, now), m, k)
  {
    if sel != [] {
      PublicAfterHolds(m, sel[..|sel| - 1], eventId, publicEdit, now);
      assert forall p :: p in sel <==> p in sel[..|sel| - 1] || p == sel[|sel| - 1];
    }
  }

  /** When every selected photo already has the target visibility (or its
      save fails), the visibility edit changes nothing. */
  lemma {:induction false} HiddenAtTarget(m: map<string, HiddenStore.HiddenPhoto>, sel: seq<string>, eventId: string,
                                          visibility: VisibilityEdit, failing: set<string>, now: string)
    requires forall p :: p in sel && p !in failing && visibility != NoVisibilityChange ==>
               HiddenStore.IsPhotoHidden(m, p) == (visibility == Hide)
    ensures HiddenAfter(m, sel, eventId, visibility, failing, now) == m
  {
    if sel != [] {
      assert forall p :: p in sel[..|sel| - 1] ==> p in sel;
      HiddenAtTarget(m, sel[..|sel| - 1], eventId, visibility, failing, now);
    }
  }

  /** Applying the same visibility edit twice has no further effect. */
  lemma HiddenEditIdempotent(m: map<string, HiddenStore.HiddenPhoto>, sel: seq<string>, eventId: string,
                             visibility: VisibilityEdit, failing: set<string>, t1: string, t2: string)
    ensures HiddenAfter(HiddenAfter(m, sel, eventId, visibility, failing, t1), sel, eventId, visibility, failing, t2)
            == HiddenAfter(m, sel, eventId, visibility, failing, t1)
  {
    HiddenAfterHolds(m, sel, eventId, visibility, failing, t1);
    HiddenAtTarget(HiddenAfter(m, sel, eventId, visibility, failing, t1), sel, eventId, visibility, failing, t2);
  }

  lemma {:induction false} PublicAtTarget(m: map<string, PublicStore.PublicPhoto>, sel: seq<string>, eventId: string,
                                          publicEdit: PublicEdit, now: string)
    requires forall p :: p in sel && publicEdit != NoPublicChange ==>
               PublicStore.IsPhotoPublic(m, p) == (publicEdit == AddPublic)
    ensures PublicAfter(m, sel, eventId, publicEdit, now) == m
  {
    if sel != [] {
      assert forall p :: p in sel[..|sel| - 1] ==> p in sel;
      PublicAtTarget(m, sel[..|sel| - 1], eventId, publicEdit, now);
    }
  }

  /** Applying the same public edit twice has no further effect. */
  lemma PublicEditIdempotent(m: map<string, PublicStore.PublicPhoto>, sel: seq<string>, eventId: string,
                             publicEdit: PublicEdit, t1: string, t2: string)
    ensures PublicAfter(PublicAfter(m, sel, eventId, publicEdit, t1), sel, eventId, publicEdit, t2)
            == PublicAfter(m, sel, eventId, publicEdit, t1)
  {
    PublicAfterHolds(m, sel, eventId, publicEdit, t1);
    PublicAtTarget(PublicAfter(m, sel, eventId, publicEdit, t1), sel, eventId, publicEdit, t2);
  }

  /** The tag edit applied twice leaves every selected photo with the same
      tags as applied once. */
  lemma TagEditIdempotent(m: map<string, TagStore.PhotoTag>, sel: seq<string>, eventId: string,
                          add: seq<string>, remove: seq<string>, t1: string, t2: string, p: string, t: string)
    requires p in sel && (|add| > 0 || |remove| > 0)
    ensures var once := TagsAfter(m, sel, eventId, add, remove, t1);
            p in once && p in TagsAfter(once, sel, eventId, add, remove, t2)
            && (t in TagsAfter(once, sel, eventId, add, remove, t2)[p].tags <==> t in once[p].tags)
  {
    var once := TagsAfter(m, sel, eventId, add, remove, t1);
    TagsAfterHolds(m, sel, eventId, add, remove, t1, p, t);
    TagsAfterHolds(once, sel, eventId, add, remove, t2, p, t);
  }

  // ---------------------------------------------------------------------
  // The selection: a JavaScript `Set`, kept here as its insertion order.

  /** `togglePhotoSelection` on the selection's contents. */
  function SelectionToggled(sel: seq<string>, photoId: string): (r: seq<string>)
    ensures photoId in r <==> photoId !in sel
    ensures forall k :: k != photoId ==> (k in r <==> k in sel)
    ensures Distinct(sel) ==> Distinct(r)
  {
    if photoId in sel then
      assert forall k :: k in Filter(sel, Other(photoId)) <==> k in sel && k != photoId;
      if Distinct(sel) then
        FilterPreservesDistinct(sel, Other(photoId));
        Filter(sel, Other(photoId))
      else
        Filter(sel, Other(photoId))
    else sel + [photoId]
  }

  /** Toggling a photo twice restores the selection's contents (it moves to
      the end of the insertion order). */
  lemma SelectionToggleTwice(sel: seq<string>, photoId: string, k: string)
    ensures k in SelectionToggled(SelectionToggled(sel, photoId), photoId) <==> k in sel
  {
  }

  class EventGalleryPage {
    var selectedPhotos: seq<string>
    var isMultiSelectMode: bool
    var selectedPhotoIndex: int
    var showLightbox: bool
    var showBulkEditModal: bool
    var bulkEditRating: Option<int>
    var bulkEditAdd: seq<string>
    var bulkEditRemove: seq<string>
    var bulkEditVisibility: VisibilityEdit
    var bulkEditPublic: PublicEdit

    /** The page's initial state. */
    constructor()
      ensures selectedPhotos == [] && !isMultiSelectMode && selectedPhotoIndex == 0 && !showLightbox
      ensures !showBulkEditModal && FormReset()
    {
      selectedPhotos := [];
      isMultiSelectMode := false;
      selectedPhotoIndex := 0;
      showLightbox := false;
      showBulkEditModal := false;
      bulkEditRating := None;
      bulkEditAdd := [];
      bulkEditRemove := [];
      bulkEditVisibility := NoVisibilityChange;
      bulkEditPublic := NoPublicChange;
    }

    /** The bulk edit form holds no change. */
    predicate FormReset()
      reads this
    {
      bulkEditRating.None? && bulkEditAdd == [] && bulkEditRemove == []
      && bulkEditVisibility == NoVisibilityChange && bulkEditPublic == NoPublicChange
    }

    /** `togglePhotoSelection`. */
    method TogglePhotoSelection(photoId: string)
      modifies this
      ensures selectedPhotos == SelectionToggled(old(selectedPhotos), photoId)
      ensures Distinct(old(selectedPhotos)) ==> Distinct(selectedPhotos)
      ensures showLightbox == old(showLightbox) && selectedPhotoIndex == old(selectedPhotoIndex)
    {
      if photoId in selectedPhotos {
        selectedPhotos := Filter(selectedPhotos, Other(photoId));
      } else {
        selectedPhotos := selectedPhotos + [photoId];
      }
    }

    /** `selectAllVisible`: the selection becomes the ids of the sorted
        photos, in order. */
    method SelectAllVisible(sorted: seq<PhotoWithMeta>)
      modifies this
      ensures selectedPhotos == Dedup(Ids(sorted))
      ensures Distinct(selectedPhotos)
      ensures forall k :: k in selectedPhotos <==> exists i :: 0 <= i < |sorted| && sorted[i].photo.id == k
    {
      selectedPhotos := Dedup(Ids(sorted));
    }

    /** `clearSelection`. */
    method ClearSelection()
      modifies this
      ensures selectedPhotos == []
    {
      selectedPhotos := [];
    }

    /** `toggleMultiSelect`: leaving multi-select mode empties the selection. */
    method ToggleMultiSelect()
      modifies this
      ensures isMultiSelectMode == !old(isMultiSelectMode)
      ensures old(isMultiSelectMode) ==> selectedPhotos == []
      ensures !old(isMultiSelectMode) ==> selectedPhotos == old(selectedPhotos)
    {
      var wasOn := isMultiSelectMode;
      isMultiSelectMode := !isMultiSelectMode;
      if wasOn {
        selectedPhotos := [];
      }
    }

    /** `handlePhotoClick`: selects in multi-select mode, otherwise opens the
        lightbox at the clicked position. */
    method HandlePhotoClick(index: int, photoId: string)
      modifies this
      ensures old(isMultiSelectMode) ==>
                selectedPhotos == SelectionToggled(old(selectedPhotos), photoId) && showLightbox == old(showLightbox)
      ensures !old(isMultiSelectMode) ==>
                selectedPhotoIndex == index && showLightbox && selectedPhotos == old(selectedPhotos)
    {
      if isMultiSelectMode {
        TogglePhotoSelection(photoId);
      } else {
        selectedPhotoIndex := index;
        showLightbox := true;
      }
    }

    /** `openBulkEditModal`: only with a non-empty selection. */
    method OpenBulkEditModal()
      modifies this
      ensures showBulkEditModal == (old(showBulkEditModal) || |selectedPhotos| > 0)
      ensures selectedPhotos == old(selectedPhotos)
    {
      if |selectedPhotos| > 0 {
        showBulkEditModal := true;
      }
    }

    /** `resetBulkEditForm`. */
    method ResetBulkEditForm()
      modifies this
      ensures FormReset()
      ensures selectedPhotos == old(selectedPhotos) && isMultiSelectMode == old(isMultiSelectMode)
      ensures showBulkEditModal == old(showBulkEditModal)
    {
      bulkEditRating := None;
      bulkEditAdd := [];
      bulkEditRemove := [];
      bulkEditVisibility := NoVisibilityChange;
      bulkEditPublic := NoPublicChange;
    }

    /** `applyBulkEdits`: every selected photo in selection order gets the
        rating, the tag edit, the visibility and the public status chosen;
        then the modal, the selection, the form and multi-select mode are
        reset. A visibility toggle whose save fails (`failing`) leaves that
        photo as it was. */
    method ApplyBulkEdits(eventId: string, now: string, failing: set<string>, message: string,
                          ratings: RatingStore.LocalRatingStore, tags: TagStore.LocalTagStore,
                          hidden: ServerHiddenStore.ServerHiddenStore, publics: PublicStore.LocalPublicStore)
      modifies this, ratings, tags, hidden, publics
      ensures ratings.ratings == RatingsAfter(old(ratings.ratings), old(selectedPhotos), eventId, old(bulkEditRating), now)
      ensures tags.photoTags == TagsAfter(old(tags.photoTags), old(selectedPhotos), eventId,
                                          old(bulkEditAdd), old(bulkEditRemove), now)
      ensures hidden.hiddenPhotos == HiddenAfter(old(hidden.hiddenPhotos), old(selectedPhotos), eventId,
                                                 old(bulkEditVisibility), failing, now)
      ensures publics.publicPhotos == PublicAfter(old(publics.publicPhotos), old(selectedPhotos), eventId,
                                                  old(bulkEditPublic), now)
      ensures !showBulkEditModal && selectedPhotos == [] && FormReset() && !isMultiSelectMode
    {
      EditAll(selectedPhotos, eventId, now, failing, message, bulkEditRating, bulkEditAdd, bulkEditRemove,
              bulkEditVisibility, bulkEditPublic, ratings, tags, hidden, publics);
      showBulkEditModal := false;
      selectedPhotos := [];
      ResetBulkEditForm();
      isMultiSelectMode := false;
    }
  }

  /** The `forEach` of `applyBulkEdits`: the photos in selection order. */
  method EditAll(sel: seq<string>, eventId: string, now: string, failing: set<string>, message: string,
                 rating: Option<int>, add: seq<string>, remove: seq<string>,
                 visibility: VisibilityEdit, publicEdit: PublicEdit,
                 ratings: RatingStore.LocalRatingStore, tags: TagStore.LocalTagStore,
                 hidden: ServerHiddenStore.ServerHiddenStore, publics: PublicStore.LocalPublicStore)
    modifies ratings, tags, hidden, publics
    ensures ratings.ratings == RatingsAfter(old(ratings.ratings), sel, eventId, rating, now)
    ensures tags.photoTags == TagsAfter(old(tags.photoTags), sel, eventId, add, remove, now)
    ensures hidden.hiddenPhotos == HiddenAfter(old(hidden.hiddenPhotos), sel, eventId, visibility, failing, now)
    ensures publics.publicPhotos == PublicAfter(old(publics.publicPhotos), sel, eventId, publicEdit, now)
  {
    ghost var r0, t0, h0, p0 := ratings.ratings, tags.photoTags, hidden.hiddenPhotos, publics.publicPhotos;
    for i := 0 to |sel|
      invariant ratings.ratings == RatingsAfter(r0, sel[..i], eventId, rating, now)
      invariant tags.photoTags == TagsAfter(t0, sel[..i], eventId, add, remove, now)
      invariant hidden.hiddenPhotos == HiddenAfter(h0, sel[..i], eventId, visibility, failing, now)
      invariant publics.publicPhotos == PublicAfter(p0, sel[..i], eventId, publicEdit, now)
    {
      assert sel[..i + 1] == sel[..i] + [sel[i]];
      RatingsSnoc(r0, sel[..i], sel[i], eventId, rating, now);
      TagsSnoc(t0, sel[..i], sel[i], eventId, add, remove, now);
      HiddenSnoc(h0, sel[..i], sel[i], eventId, visibility, failing, now);
      PublicSnoc(p0, sel[..i], sel[i], eventId, publicEdit, now);
      EditPhoto(sel[i], eventId, now, failing, message, rating, add, remove, visibility, publicEdit,
                ratings, tags, hidden, publics);
    }
    assert sel[..|sel|] == sel;
  }

  /** Extending the selection by one photo applies that photo's rating edit last. */
  lemma RatingsSnoc(m: map<string, RatingStore.PhotoRating>, done: seq<string>, x: string,
                    eventId: string, rating: Option<int>, now: string)
    ensures RatingsAfter(m, done + [x], eventId, rating, now)
            == RatingStep(RatingsAfter(m, done, eventId, rating, now), x, eventId, rating, now)
  {
    var next := done + [x];
    assert next[..|next| - 1] == done && next[|next| - 1] == x;
  }

  /** Extending the selection by one photo applies that photo's tag edit last. */
  lemma TagsSnoc(m: map<string, TagStore.PhotoTag>, done: seq<string>, x: string, eventId: string,
                 add: seq<string>, remove: seq<string>, now: string)
    ensures TagsAfter(m, done + [x], eventId, add, remove, now)
            == TagStep(TagsAfter(m, done, eventId, add, remove, now), x, eventId, add, remove, now)
  {
    var next := done + [x];
    assert next[..|next| - 1] == done && next[|next| - 1] == x;
  }

  /** Extending the selection by one photo applies that photo's visibility edit last. */
  lemma HiddenSnoc(m: map<string, HiddenStore.HiddenPhoto>, done: seq<string>, x: string, eventId: string,
                   visibility: VisibilityEdit, failing: set<string>, now: string)
    ensures HiddenAfter(m, done + [x], eventId, visibility, failing, now)
            == HiddenStep(HiddenAfter(m, done, eventId, visibility, failing, now), x, eventId, visibility, failing, now)
  {
    var next := done + [x];
    assert next[..|next| - 1] == done && next[|next| - 1] == x;
  }

  /** Extending the selection by one photo applies that photo's public edit last. */
  lemma PublicSnoc(m: map<string, PublicStore.PublicPhoto>, done: seq<string>, x: string, eventId: string,
                   publicEdit: PublicEdit, now: string)
    ensures PublicAfter(m, done + [x], eventId, publicEdit, now)
            == PublicStep(PublicAfter(m, done, eventId, publicEdit, now), x, eventId, publicEdit, now)
  {
    var next := done + [x];
    assert next[..|next| - 1] == done && next[|next| - 1] == x;
  }

  /** The body of `applyBulkEdits`'s `forEach`, for one photo. */
  method EditPhoto(photoId: string, eventId: string, now: string, failing: set<string>, message: string,
                   rating: Option<int>, add: seq<string>, remove: seq<string>,
                   visibility: VisibilityEdit, publicEdit: PublicEdit,
                   ratings: RatingStore.LocalRatingStore, tags: TagStore.LocalTagStore,
                   hidden: ServerHiddenStore.ServerHiddenStore, publics: PublicStore.LocalPublicStore)
    modifies ratings, tags, hidden, publics
    ensures ratings.ratings == RatingStep(old(ratings.ratings), photoId, eventId, rating, now)
    ensures tags.photoTags == TagStep(old(tags.photoTags), photoId, eventId, add, remove, now)
    ensures hidden.hiddenPhotos == HiddenStep(old(hidden.hiddenPhotos), photoId, eventId, visibility, failing, now)
    ensures publics.publicPhotos == PublicStep(old(publics.publicPhotos), photoId, eventId, publicEdit, now)
  {
    EditRating(photoId, eventId, now, rating, ratings);
    EditTags(photoId, eventId, now, add, remove, tags);
    EditVisibility(photoId, eventId, now, failing, message, visibility, hidden);
    EditPublic(photoId, eventId, now, publicEdit, publics);
  }

  method EditRating(photoId: string, eventId: string, now: string, rating: Option<int>,
                    ratings: RatingStore.LocalRatingStore)
    modifies ratings
    ensures ratings.ratings == RatingStep(old(ratings.ratings), photoId, eventId, rating, now)
  {
    if rating.Some? {
      ratings.RatePhoto(photoId, eventId, rating.value, None, now);
    }
  }

  method EditTags(photoId: string, eventId: string, now: string, add: seq<string>, remove: seq<string>,
                  tags: TagStore.LocalTagStore)
    modifies tags
    ensures tags.photoTags == TagStep(old(tags.photoTags), photoId, eventId, add, remove, now)
  {
    if |add| > 0 || |remove| > 0 {
      var newTags := BulkTagList(ExistingTags(tags.photoTags, photoId), add, remove);
      tags.TagPhoto(photoId, eventId, newTags, now);
    }
  }

  method EditVisibility(photoId: string, eventId: string, now: string, failing: set<string>, message: string,
                        visibility: VisibilityEdit, hidden: ServerHiddenStore.ServerHiddenStore)
    modifies hidden
    ensures hidden.hiddenPhotos == HiddenStep(old(hidden.hiddenPhotos), photoId, eventId, visibility, failing, now)
  {
    if visibility != NoVisibilityChange {
      var shouldHide := visibility == Hide;
      var isCurrentlyHidden := hidden.IsHidden(photoId);
      if isCurrentlyHidden != shouldHide {
        var _ := hidden.TogglePhotoHidden(photoId, eventId, now, if photoId in failing then Fail(message) else Pass);
      }
    }
  }

  method EditPublic(photoId: string, eventId: string, now: string, publicEdit: PublicEdit,
                    publics: PublicStore.LocalPublicStore)
    modifies publics
    ensures publics.publicPhotos == PublicStep(old(publics.publicPhotos), photoId, eventId, publicEdit, now)
  {
    if publicEdit != NoPublicChange {
      var shouldBePublic := publicEdit == AddPublic;
      var isCurrentlyPublic := PublicStore.IsPhotoPublic(publics.publicPhotos, photoId);
      if isCurrentlyPublic != shouldBePublic {
        publics.TogglePhotoPublic(photoId, eventId, now);
      }
    }
  }
}

=== FILE: financial_store.dfy ===
/** The rent-payment store (src/stores/financialStore.ts): a list of
    payments updated by id, and a list of period summaries. Money is a whole
    number and dates are millisecond timestamps. */
module FinancialStore {
  import opened Wrappers
  import opened Seqs

  datatype PaymentStatus = Pending | Paid | Late | Partial | Failed | Refunded
  datatype PaymentMethod = Cash | Check | Ach | CreditCard | DebitCard | Online

  datatype Payment = Payment(
    id: string,
    leaseId: string,
    tenantId: string,
    amount: int,
    dueDate: int,
    paidDate: Option<int>,
    status: PaymentStatus,
    payMethod: Option<PaymentMethod>,
    transactionId: Option<string>,
    lateFee: Option<int>,
    notes: Option<string>)

  /** A `Partial<Payment>`: each field it names replaces the payment's
      (an optional field can be named with `undefined`, hence the inner
      Option). */
  datatype PaymentPatch = PaymentPatch(
    id: Option<string>,
    leaseId: Option<string>,
    tenantId: Option<string>,
    amount: Option<int>,
    dueDate: Option<int>,
    paidDate: Option<Option<int>>,
    status: Option<PaymentStatus>,
    payMethod: Option<Option<PaymentMethod>>,
    transactionId: Option<Option<string>>,
    lateFee: Option<Option<int>>,
    notes: Option<Option<string>>)

  /** `{ ...p, ...updates }`. */
  function Merge(p: Payment, u: PaymentPatch): (r: Payment)
    ensures u == PaymentPatch(None, None, None, None, None, None, None, None, None, None, None) ==> r == p
    ensures r.amount == u.amount.GetOr(p.amount) && r.status == u.status.GetOr(p.status)
    ensures r.id == u.id.GetOr(p.id)
    ensures r.leaseId == u.leaseId.GetOr(p.leaseId) && r.tenantId == u.tenantId.GetOr(p.tenantId)
    ensures r.dueDate == u.dueDate.GetOr(p.dueDate) && r.paidDate == u.paidDate.GetOr(p.paidDate)
    ensures r.payMethod == u.payMethod.GetOr(p.payMethod)
    ensures r.transactionId == u.transactionId.GetOr(p.transactionId)
    ensures r.lateFee == u.lateFee.GetOr(p.lateFee) && r.notes == u.notes.GetOr(p.notes)
  {
    Payment(
      u.id.GetOr(p.id), u.leaseId.GetOr(p.leaseId), u.tenantId.GetOr(p.tenantId),
      u.amount.GetOr(p.amount), u.dueDate.GetOr(p.dueDate), u.paidDate.GetOr(p.paidDate),
      u.status.GetOr(p.status), u.payMethod.GetOr(p.payMethod), u.transactionId.GetOr(p.transactionId),
      u.lateFee.GetOr(p.lateFee), u.notes.GetOr(p.notes))
  }

  /** A change applied by `payments.map(p => p.id === id ? change(p) : p)`. */
  datatype Change =
    | Patch(updates: PaymentPatch)
    | Record(payMethod: Option<PaymentMethod>, transactionId: Option<string>, now: int)
    | LateFee(fee: int)
    | Refund(reason: string)

  function ApplyChange(p: Payment, c: Change): (r: Payment)
    ensures r.leaseId == p.leaseId || c.Patch?
    ensures c.Record? ==> r == p.(status := Paid, paidDate := Some(c.now), payMethod := c.payMethod,
                                    transactionId := c.transactionId)
    ensures c.LateFee? ==> r == p.(lateFee := Some(c.fee), amount := p.amount + c.fee, status := Late)
    ensures c.Refund? ==> r == p.(status := Refunded, notes := Some("Refunded: " + c.reason))
  {
    match c
    case Patch(u) => Merge(p, u)
    case Record(m, t, now) => p.(status := Paid, paidDate := Some(now), payMethod := m, transactionId := t)
    case LateFee(fee) => p.(lateFee := Some(fee), amount := p.amount + fee, status := Late)
    case Refund(reason) => p.(status := Refunded, notes := Some("Refunded: " + reason))
  }

  /** The payments after applying `c` to those whose id is `id`: the list
      keeps its length and every other payment stays where it was. */
  function ChangeWhere(ps: seq<Payment>, id: string, c: Change): (r: seq<Payment>)
    ensures |r| == |ps|
    ensures forall i :: 0 <= i < |ps| ==> r[i] == if ps[i].id == id then ApplyChange(ps[i], c) else ps[i]
  {
    seq(|ps|, i requires 0 <= i < |ps| => if ps[i].id == id then ApplyChange(ps[i], c) else ps[i])
  }

  /** The predicate of `payments.filter(p => p.id !== id)`. */
  function IdIsNot(id: string): Payment -> bool {
    (p: Payment) => p.id != id
  }

  function HasStatus(s: PaymentStatus): Payment -> bool {
    (p: Payment) => p.status == s
  }

  /** `pending`, `late` or `partial`. */
  predicate IsOutstanding(p: Payment) {
    p.status == Pending || p.status == Late || p.status == Partial
  }

  function Amount(p: Payment): int {
    p.amount
  }

  /** The amount a payment adds to a total taken over the payments `keep`
      selects. */
  function Counted(keep: Payment -> bool): Payment -> int {
    (p: Payment) => if keep(p) then p.amount else 0
  }

  /** `getPayment`: the first payment with that id. */
  function GetPayment(ps: seq<Payment>, id: string): (r: Option<Payment>)
    ensures r.Some? ==> r.value in ps && r.value.id == id
    ensures r.None? <==> forall i :: 0 <= i < |ps| ==> ps[i].id != id
    ensures r.Some? ==> exists j :: 0 <= j < |ps| && ps[j] == r.value && forall k :: 0 <= k < j ==> ps[k].id != id
  {
    if ps == [] then None
    else if ps[0].id == id then Some(ps[0])
    else
      var r := GetPayment(ps[1..], id);
      assert forall j :: 1 <= j < |ps| ==> ps[j] == ps[1..][j - 1];
      r
  }

  /** `getPaymentsByStatus(status)`, and `getLatePayments` with `late`. */
  function PaymentsByStatus(ps: seq<Payment>, status: PaymentStatus): (r: seq<Payment>)
    ensures forall p :: p in r <==> p in ps && p.status == status
  {
    Filter(ps, HasStatus(status))
  }

  function ByLease(leaseId: string): Payment -> bool {
    (p: Payment) => p.leaseId == leaseId
  }

  function ByTenant(tenantId: string): Payment -> bool {
    (p: Payment) => p.tenantId == tenantId
  }

  /** `getPaymentsByLease` and `getPaymentsByTenant`. */
  function PaymentsByLease(ps: seq<Payment>, leaseId: string): (r: seq<Payment>)
    ensures forall p :: p in r <==> p in ps && p.leaseId == leaseId
  {
    Filter(ps, ByLease(leaseId))
  }

  function PaymentsByTenant(ps: seq<Payment>, tenantId: string): (r: seq<Payment>)
    ensures forall p :: p in r <==> p in ps && p.tenantId == tenantId
  {
    Filter(ps, ByTenant(tenantId))
  }

  const MillisPerDay: int := 24 * 60 * 60 * 1000

  function DueWithin(now: int, future: int): Payment -> bool {
    (p: Payment) => p.status == Pending && now <= p.dueDate <= future
  }

  /** `getUpcomingPayments(days)`: pending payments due between now and
      `days` days from now, both ends included. */
  function UpcomingPayments(ps: seq<Payment>, now: int, days: int): (r: seq<Payment>)
    ensures forall p :: p in r <==> p in ps && p.status == Pending && now <= p.dueDate <= now + days * MillisPerDay
  {
    Filter(ps, DueWithin(now, now + days * MillisPerDay))
  }

  /** `getUpcomingPayments()` with its default window of seven days. */
  function UpcomingWeek(ps: seq<Payment>, now: int): (r: seq<Payment>)
    ensures forall p :: p in r <==> p in ps && p.status == Pending && now <= p.dueDate <= now + 7 * MillisPerDay
  {
    UpcomingPayments(ps, now, 7)
  }

  function OverdueAt(now: int): Payment -> bool {
    (p: Payment) => (p.status == Pending || p.status == Late) && p.dueDate < now
  }

  /** `getOverduePayments`: pending or late payments due before now. */
  function OverduePayments(ps: seq<Payment>, now: int): (r: seq<Payment>)
    ensures forall p :: p in r <==> p in ps && (p.status == Pending || p.status == Late) && p.dueDate < now
  {
    Filter(ps, OverdueAt(now))
  }

  /** A payment belongs to a period when it was paid in it or falls due in
      it. */
  predicate InPeriod(p: Payment, startDate: int, endDate: int) {
    (p.paidDate.Some? && startDate <= p.paidDate.value <= endDate) || (startDate <= p.dueDate <= endDate)
  }

  function InRange(startDate: int, endDate: int): Payment -> bool {
    (p: Payment) => InPeriod(p, startDate, endDate)
  }

  /** `getPaymentsByDateRange`. */
  function PaymentsByDateRange(ps: seq<Payment>, startDate: int, endDate: int): (r: seq<Payment>)
    ensures forall p :: p in r <==> p in ps && InPeriod(p, startDate, endDate)
  {
    Filter(ps, InRange(startDate, endDate))
  }

  function PaidIn(range: Option<(int, int)>): Payment -> bool {
    (p: Payment) => p.status == Paid &&
         (range.None? || (p.paidDate.Some? && range.value.0 <= p.paidDate.value <= range.value.1))
  }

  /** `getTotalRevenue(startDate, endDate)`: the amounts of paid payments,
      restricted to those paid in the range when both ends are given. */
  function TotalRevenue(ps: seq<Payment>, range: Option<(int, int)>): int {
    Sum(Filter(ps, PaidIn(range)), Amount)
  }

  function Outstanding(): Payment -> bool {
    (p: Payment) => IsOutstanding(p)
  }

  /** `getTotalOutstanding`: the amounts of pending, late and partial
      payments. */
  function TotalOutstanding(ps: seq<Payment>): int {
    Sum(Filter(ps, Outstanding()), Amount)
  }

  function PaidForProperty(propertyId: string, range: Option<(int, int)>): Payment -> bool {
    (p: Payment) => PaidIn(range)(p) && propertyId <= p.leaseId
  }

  /** `getRevenueByProperty`: paid payments whose lease id starts with the
      property id. */
  function RevenueByProperty(ps: seq<Payment>, propertyId: string, range: Option<(int, int)>): int {
    Sum(Filter(ps, PaidForProperty(propertyId, range)), Amount)
  }

  function PendingOrLate(): Payment -> bool {
    (p: Payment) => p.status == Pending || p.status == Late
  }

  function LateFeeOrZero(p: Payment): int {
    p.lateFee.GetOr(0)
  }

  /** The whole-number parts of `getFinancialMetrics`. */
  datatype Metrics = Metrics(totalRevenue: int, totalOutstanding: int, totalLate: int)

  /** A payment's late fee when it is late (`lateFee || 0`), else nothing. */
  function LateFeeIfLate(p: Payment): int {
    if p.status == Late then LateFeeOrZero(p) else 0
  }

  /** `getFinancialMetrics`: revenue as `getTotalRevenue` without a range,
      each pending or late payment's amount as outstanding, and the late
      fees of the late payments. */
  function FinancialMetrics(ps: seq<Payment>): (r: Metrics)
    ensures r.totalRevenue == TotalRevenue(ps, None)
    ensures r.totalOutstanding == Sum(ps, Counted(PendingOrLate()))
    ensures r.totalLate == Sum(ps, LateFeeIfLate)
  {
    FilterExt(ps, HasStatus(Paid), PaidIn(None));
    SumAppend(PaymentsByStatus(ps, Pending), PaymentsByStatus(ps, Late), Amount);
    FilteredSum(ps, HasStatus(Pending));
    FilteredSum(ps, HasStatus(Late));
    CountedSplit(ps, PendingOrLate(), HasStatus(Pending), HasStatus(Late));
    LateFeesSum(ps);
    Metrics(Sum(PaymentsByStatus(ps, Paid), Amount),
            Sum(PaymentsByStatus(ps, Pending) + PaymentsByStatus(ps, Late), Amount),
            Sum(PaymentsByStatus(ps, Late), LateFeeOrZero))
  }

  /** A filtered total equals the total of each payment's contribution. */
  lemma {:induction false} FilteredSum(ps: seq<Payment>, keep: Payment -> bool)
    ensures Sum(Filter(ps, keep), Amount) == Sum(ps, Counted(keep))
  {
    if ps != [] {
      FilteredSum(ps[1..], keep);
      var h := if keep(ps[0]) then [ps[0]] else [];
      SumAppend(h, Filter(ps[1..], keep), Amount);
    }
  }

  /** The late fees of the late payments, added one payment at a time. */
  lemma {:induction false} LateFeesSum(ps: seq<Payment>)
    ensures Sum(Filter(ps, HasStatus(Late)), LateFeeOrZero) == Sum(ps, LateFeeIfLate)
  {
    if ps != [] {
      LateFeesSum(ps[1..]);
      var h := if ps[0].status == Late then [ps[0]] else [];
      SumAppend(h, Filter(ps[1..], HasStatus(Late)), LateFeeOrZero);
    }
  }

  /** Sum over the union of two disjoint filters. */
  lemma {:induction false} CountedSplit(ps: seq<Payment>, both: Payment -> bool, a: Payment -> bool, b: Payment -> bool)
    requires forall p :: both(p) == (a(p) || b(p)) && !(a(p) && b(p))
    ensures Sum(ps, Counted(both)) == Sum(ps, Counted(a)) + Sum(ps, Counted(b))
  {
    if ps != [] {
      CountedSplit(ps[1..], both, a, b);
    }
  }

  /** The metrics' outstanding total leaves out partial payments, which
      `getTotalOutstanding` counts: the two differ by exactly the partial
      amounts. */
  lemma MetricsOutstandingOmitsPartial(ps: seq<Payment>)
    ensures FinancialMetrics(ps).totalOutstanding + Sum(PaymentsByStatus(ps, Partial), Amount) == TotalOutstanding(ps)
  {
    OutstandingParts(ps);
  }

  /** `getTotalOutstanding` counts each pending or late payment, and then
      the partial ones. */
  lemma OutstandingParts(ps: seq<Payment>)
    ensures TotalOutstanding(ps) == Sum(ps, Counted(PendingOrLate())) + Sum(PaymentsByStatus(ps, Partial), Amount)
  {
    FilteredSum(ps, HasStatus(Partial));
    FilteredSum(ps, Outstanding());
    CountedSplit(ps, Outstanding(), PendingOrLate(), HasStatus(Partial));
  }

  /** With no negative amounts, a filter that keeps fewer payments never has
      a larger total. */
  lemma {:induction false} CountedMonotone(ps: seq<Payment>, narrow: Payment -> bool, wide: Payment -> bool)
    requires forall p :: narrow(p) ==> wide(p)
    requires forall i :: 0 <= i < |ps| ==> ps[i].amount >= 0
    ensures Sum(ps, Counted(narrow)) <= Sum(ps, Counted(wide))
  {
    if ps != [] {
      CountedMonotone(ps[1..], narrow, wide);
    }
  }

  /** With no negative amounts, a property's revenue is part of the revenue
      of the same period, which is part of the revenue of all time. */
  lemma RevenueNested(ps: seq<Payment>, propertyId: string, range: Option<(int, int)>)
    requires forall i :: 0 <= i < |ps| ==> ps[i].amount >= 0
    ensures RevenueByProperty(ps, propertyId, range) <= TotalRevenue(ps, range) <= TotalRevenue(ps, None)
  {
    FilteredSum(ps, PaidForProperty(propertyId, range));
    FilteredSum(ps, PaidIn(range));
    FilteredSum(ps, PaidIn(None));
    CountedMonotone(ps, PaidForProperty(propertyId, range), PaidIn(range));
    CountedMonotone(ps, PaidIn(range), PaidIn(None));
  }

  /** Ids name at most one payment. */
  predicate UniqueIds(ps: seq<Payment>) {
    forall i, j :: 0 <= i < j < |ps| ==> ps[i].id != ps[j].id
  }

  /** Recording an unpaid payment moves its amount into the revenue total,
      and out of the outstanding total if it was outstanding. */
  lemma RecordMovesAmount(ps: seq<Payment>, i: nat, payMethod: Option<PaymentMethod>, tx: Option<string>, now: int)
    requires UniqueIds(ps) && i < |ps| && ps[i].status != Paid
    ensures var after := ChangeWhere(ps, ps[i].id, Record(payMethod, tx, now));
            TotalRevenue(after, None) == TotalRevenue(ps, None) + ps[i].amount &&
            TotalOutstanding(after) == TotalOutstanding(ps) - (if IsOutstanding(ps[i]) then ps[i].amount else 0)
  {
    var after := ChangeWhere(ps, ps[i].id, Record(payMethod, tx, now));
    forall j | 0 <= j < |ps| && j != i ensures ps[j] == after[j] {
      assert ps[j].id != ps[i].id;
    }
    assert after[i] == ApplyChange(ps[i], Record(payMethod, tx, now));
    PaidInPlace(ps, after, i);
  }

  /** Marking the unpaid payment at `i` paid, amount unchanged, moves its
      amount into revenue and out of the outstanding total if it was there. */
  lemma PaidInPlace(ps: seq<Payment>, after: seq<Payment>, i: nat)
    requires |ps| == |after| && i < |ps|
    requires forall j :: 0 <= j < |ps| && j != i ==> ps[j] == after[j]
    requires ps[i].status != Paid && after[i].status == Paid && after[i].amount == ps[i].amount
    ensures TotalRevenue(after, None) == TotalRevenue(ps, None) + ps[i].amount
    ensures TotalOutstanding(after) == TotalOutstanding(ps) - (if IsOutstanding(ps[i]) then ps[i].amount else 0)
  {
    FilteredSum(ps, PaidIn(None));
    FilteredSum(after, PaidIn(None));
    SumReplaceAt(ps, after, i, Counted(PaidIn(None)));
    FilteredSum(ps, Outstanding());
    FilteredSum(after, Outstanding());
    SumReplaceAt(ps, after, i, Counted(Outstanding()));
  }

  /** Applying a late fee twice adds it to the amount twice, while the
      recorded fee stays the single fee. */
  lemma LateFeeTwice(ps: seq<Payment>, id: string, fee: int)
    ensures var twice := ChangeWhere(ChangeWhere(ps, id, LateFee(fee)), id, LateFee(fee));
            forall i :: 0 <= i < |ps| && ps[i].id == id ==>
              twice[i].amount == ps[i].amount + 2 * fee && twice[i].lateFee == Some(fee) && twice[i].status == Late
  {
  }

  /** After `deletePayment(id)` no payment has that id, and the others keep
      their order. */
  lemma DeleteRemovesId(ps: seq<Payment>, id: string)
    ensures GetPayment(Filter(ps, IdIsNot(id)), id).None?
    ensures Filter(ps, IdIsNot(id)) == ps <==> GetPayment(ps, id).None?
  {
    var r := Filter(ps, IdIsNot(id));
    if GetPayment(ps, id).None? {
      FilterAll(ps, IdIsNot(id));
    } else {
      var i :| 0 <= i < |ps| && ps[i].id == id;
      assert ps[i] !in r;
    }
  }

  /** The integer fields of a `FinancialSummary` (the average rent is a
      fraction and is not kept). */
  datatype Summary = Summary(totalRevenue: int, totalExpenses: int, netIncome: int, outstandingRent: int,
                             occupancyRate: int, periodStart: int, periodEnd: int)

  /** The summary of the payments of a period: paid amounts as revenue,
      pending, late and partial ones as outstanding rent; expenses and
      occupancy are 0. */
  function SummaryOf(ps: seq<Payment>, startDate: int, endDate: int): (r: Summary)
    ensures r.netIncome == r.totalRevenue - r.totalExpenses
    ensures r.periodStart == startDate && r.periodEnd == endDate
    ensures r.outstandingRent == TotalOutstanding(PaymentsByDateRange(ps, startDate, endDate))
    ensures r.totalRevenue == Sum(PaymentsByDateRange(ps, startDate, endDate), Counted(HasStatus(Paid)))
    ensures r.totalExpenses == 0 && r.occupancyRate == 0
  {
    var inPeriod := PaymentsByDateRange(ps, startDate, endDate);
    FilteredSum(inPeriod, HasStatus(Paid));
    var revenue := Sum(Filter(inPeriod, HasStatus(Paid)), Amount);
    Summary(revenue, 0, revenue, TotalOutstanding(inPeriod), 0, startDate, endDate)
  }

  /** When every payment falls due in the period, the summary's outstanding
      rent is the store's total outstanding. */
  lemma SummaryCoversAll(ps: seq<Payment>, startDate: int, endDate: int)
    requires forall p :: p in ps ==> startDate <= p.dueDate <= endDate
    ensures SummaryOf(ps, startDate, endDate).outstandingRent == TotalOutstanding(ps)
  {
    FilterAll(ps, InRange(startDate, endDate));
  }

  function OtherPeriod(startDate: int, endDate: int): Summary -> bool {
    (s: Summary) => !(s.periodStart == startDate && s.periodEnd == endDate)
  }

  /** At most one summary per period. */
  predicate OnePerPeriod(summaries: seq<Summary>) {
    forall i, j :: 0 <= i < j < |summaries| ==>
      (summaries[i].periodStart, summaries[i].periodEnd) != (summaries[j].periodStart, summaries[j].periodEnd)
  }

  /** `summaries` after storing a new one: the old ones of other periods,
      then the new one. */
  function StoreSummary(summaries: seq<Summary>, summary: Summary): (r: seq<Summary>)
    ensures |r| > 0 && r[|r| - 1] == summary
    ensures forall s :: s in r[..|r| - 1] <==>
              s in summaries && (s.periodStart, s.periodEnd) != (summary.periodStart, summary.periodEnd)
  {
    var kept := Filter(summaries, OtherPeriod(summary.periodStart, summary.periodEnd));
    assert (kept + [summary])[..|kept|] == kept;
    kept + [summary]
  }

  /** Storing a summary keeps at most one summary per period. */
  lemma StoreSummaryOnePerPeriod(summaries: seq<Summary>, summary: Summary)
    requires OnePerPeriod(summaries)
    ensures OnePerPeriod(StoreSummary(summaries, summary))
  {
    var kept := Filter(summaries, OtherPeriod(summary.periodStart, summary.periodEnd));
    FilterPreservesOnePerPeriod(summaries, OtherPeriod(summary.periodStart, summary.periodEnd));
    var r := kept + [summary];
    forall i, j | 0 <= i < j < |r|
      ensures (r[i].periodStart, r[i].periodEnd) != (r[j].periodStart, r[j].periodEnd)
    {
      if j < |kept| {
        assert r[i] == kept[i] && r[j] == kept[j];
      } else {
        assert r[i] == kept[i];
        assert OtherPeriod(summary.periodStart, summary.periodEnd)(kept[i]);
      }
    }
  }

  lemma {:induction false} FilterPreservesOnePerPeriod(s: seq<Summary>, p: Summary -> bool)
    requires OnePerPeriod(s)
    ensures OnePerPeriod(Filter(s, p))
  {
    if s != [] {
      FilterPreservesOnePerPeriod(s[1..], p);
      var rest := Filter(s[1..], p);
      if p(s[0]) {
        assert Filter(s, p) == [s[0]] + rest;
        forall y | y in rest ensures (s[0].periodStart, s[0].periodEnd) != (y.periodStart, y.periodEnd) {
          HeadOwnPeriod(s, y);
        }
        ConsOnePerPeriod(s[0], rest);
      } else {
        assert Filter(s, p) == rest;
      }
    }
  }

  /** A summary put in front of summaries of other periods keeps one per
      period. */
  lemma ConsOnePerPeriod(x: Summary, rest: seq<Summary>)
    requires OnePerPeriod(rest)
    requires forall y :: y in rest ==> (x.periodStart, x.periodEnd) != (y.periodStart, y.periodEnd)
    ensures OnePerPeriod([x] + rest)
  {
    var r := [x] + rest;
    forall i, j | 0 <= i < j < |r|
      ensures (r[i].periodStart, r[i].periodEnd) != (r[j].periodStart, r[j].periodEnd)
    {
      assert r[j] == rest[j - 1];
      if i > 0 {
        assert r[i] == rest[i - 1];
      }
    }
  }

  /** No later summary shares the first summary's period. */
  lemma HeadOwnPeriod(s: seq<Summary>, x: Summary)
    requires OnePerPeriod(s) && s != [] && x in s[1..]
    ensures (s[0].periodStart, s[0].periodEnd) != (x.periodStart, x.periodEnd)
  {
    var k :| 0 <= k < |s[1..]| && s[1..][k] == x;
    assert s[k + 1] == x;
  }

  class FinancialStore {
    var payments: seq<Payment>
    var summaries: seq<Summary>

    constructor()
      ensures payments == [] && summaries == []
    {
      payments := [];
      summaries := [];
    }

    method SetPayments(ps: seq<Payment>)
      modifies this
      ensures payments == ps && summaries == old(summaries)
    {
      payments := ps;
    }

    /** `addPayment`: appends; the earlier payments are untouched. */
    method AddPayment(payment: Payment)
      modifies this
      ensures payments == old(payments) + [payment] && summaries == old(summaries)
    {
      payments := payments + [payment];
    }

    /** `updatePayment`, `recordPayment`, `applyLateFee` and
        `refundPayment`: the change applied to the payments with that id. */
    method ChangePayment(id: string, change: Change)
      modifies this
      ensures payments == ChangeWhere(old(payments), id, change) && summaries == old(summaries)
    {
      payments := ChangeWhere(payments, id, change);
    }

    /** `deletePayment`: every payment with that id goes. */
    method DeletePayment(id: string)
      modifies this
      ensures payments == Filter(old(payments), IdIsNot(id)) && summaries == old(summaries)
    {
      payments := Filter(payments, IdIsNot(id));
    }

    method SetSummaries(s: seq<Summary>)
      modifies this
      ensures summaries == s && payments == old(payments)
    {
      summaries := s;
    }

    /** `generateMonthlySummary` and `generateYearlySummary`, given the
        period's first and last day: the summary replaces any summary of the
        same period and is returned. */
    method GenerateSummary(startDate: int, endDate: int) returns (summary: Summary)
      modifies this
      ensures summary == SummaryOf(old(payments), startDate, endDate)
      ensures summaries == StoreSummary(old(summaries), summary) && payments == old(payments)
      ensures old(OnePerPeriod(summaries)) ==> OnePerPeriod(summaries)
    {
      summary := SummaryOf(payments, startDate, endDate);
      if OnePerPeriod(summaries) {
        StoreSummaryOnePerPeriod(summaries, summary);
      }
      summaries := StoreSummary(summaries, summary);
    }
  }
}

=== FILE: flag_store.dfy ===
/** The local flag store (src/stores/flagStore.ts): a map from photo id to
    the removal request a visitor filed for the photo. */
module FlagStore {
  import opened Wrappers
  import opened Seqs

  datatype FlaggedPhoto = FlaggedPhoto(photoId: string, eventId: string, reason: string,
                                       reporterEmail: Option<string>, reporterName: Option<string>,
                                       flaggedAt: string, submitted: bool)

  /** The store's map. A key can be bound to `undefined`, which is `None`. */
  type FlagMap = map<string, Option<FlaggedPhoto>>

  /** `getEventFlags` either returns the event's flags or throws a
      `TypeError` while reading `eventId` of an `undefined` entry. */
  datatype EventFlags = Flags(flags: seq<FlaggedPhoto>) | TypeError

  /** The map after `flagPhoto`: a fresh, not yet submitted record replaces
      any earlier one, submitted or not. */
  function Flagged(m: FlagMap, photoId: string, eventId: string, reason: string,
                   email: Option<string>, name: Option<string>, now: string): (r: FlagMap)
    ensures IsPhotoFlagged(r, photoId)
    ensures r[photoId] == Some(FlaggedPhoto(photoId, eventId, reason, email, name, now, false))
    ensures r.Keys == m.Keys + {photoId}
    ensures forall k :: k in m && k != photoId ==> r[k] == m[k]
  {
    m[photoId := Some(FlaggedPhoto(photoId, eventId, reason, email, name, now, false))]
  }

  /** The map after `markAsSubmitted`, as the store writes it: a flagged
      photo's record gets `submitted = true`; for any other photo the key is
      (re)bound to `undefined`. */
  function MarkedSubmitted(m: FlagMap, photoId: string): (r: FlagMap)
    ensures r.Keys == m.Keys + {photoId}
    ensures IsPhotoFlagged(m, photoId) ==>
              r[photoId] == Some(m[photoId].value.(submitted := true))
    ensures !IsPhotoFlagged(m, photoId) ==> r[photoId] == None
    ensures forall k :: k in m && k != photoId ==> r[k] == m[k]
  {
    m[photoId := if IsPhotoFlagged(m, photoId) then Some(m[photoId].value.(submitted := true)) else None]
  }

  /** `markAsSubmitted` leaves an unflagged photo unflagged and without a
      flag to read back. */
  lemma MarkUnflaggedStaysUnflagged(m: FlagMap, photoId: string)
    requires !IsPhotoFlagged(m, photoId)
    ensures !IsPhotoFlagged(MarkedSubmitted(m, photoId), photoId)
    ensures GetPhotoFlag(MarkedSubmitted(m, photoId), photoId).None?
  {
  }

  /** `isPhotoFlagged`: a record (not `undefined`) is present. */
  predicate IsPhotoFlagged(m: FlagMap, photoId: string) {
    photoId in m && m[photoId].Some?
  }

  /** `getPhotoFlag`: the record, or null. */
  function GetPhotoFlag(m: FlagMap, photoId: string): (r: Option<FlaggedPhoto>)
    ensures r.Some? <==> IsPhotoFlagged(m, photoId)
    ensures r.Some? ==> m[photoId] == r
  {
    if photoId in m then m[photoId] else None
  }

  /** No key is bound to `undefined`. */
  ghost predicate AllDefined(m: FlagMap) {
    forall k :: k in m ==> m[k].Some?
  }

  /** The records of the event among `vals`, or `TypeError` at the first
      `undefined`. */
  function FilterEvent(vals: seq<Option<FlaggedPhoto>>, eventId: string): (r: EventFlags)
    ensures r.TypeError? <==> exists i :: 0 <= i < |vals| && vals[i].None?
    ensures r.Flags? ==> forall i :: 0 <= i < |r.flags| ==>
              r.flags[i].eventId == eventId && Some(r.flags[i]) in vals
    ensures r.Flags? ==> forall i :: 0 <= i < |vals| && vals[i].value.eventId == eventId ==>
              vals[i].value in r.flags
  {
    if vals == [] then Flags([])
    else if vals[0].None? then TypeError
    else
      match FilterEvent(vals[1..], eventId)
      case TypeError =>
        assert forall i :: 0 <= i < |vals[1..]| ==> vals[1..][i] == vals[i + 1];
        TypeError
      case Flags(rest) =>
        assert forall i :: 1 <= i < |vals| ==> vals[i] == vals[1..][i - 1];
        Flags(if vals[0].value.eventId == eventId then [vals[0].value] + rest else rest)
  }

  /** `getEventFlags(eventId)`: exactly the event's records, unless some key
      is bound to `undefined`, in which case it throws. */
  function GetEventFlags(m: FlagMap, keys: seq<string>, eventId: string): (r: EventFlags)
    requires Enumerates(keys, m)
    ensures r.TypeError? <==> !AllDefined(m)
    ensures r.Flags? ==> forall i :: 0 <= i < |r.flags| ==>
              r.flags[i].eventId == eventId && Some(r.flags[i]) in m.Values
    ensures r.Flags? ==> forall k :: k in m && m[k].value.eventId == eventId ==> m[k].value in r.flags
  {
    EventFlagsFacts(m, keys, eventId);
    FilterEvent(Values(m, keys), eventId)
  }

  lemma EventFlagsFacts(m: FlagMap, keys: seq<string>, eventId: string)
    requires Enumerates(keys, m)
    ensures (exists i :: 0 <= i < |Values(m, keys)| && Values(m, keys)[i].None?) <==> !AllDefined(m)
    ensures forall x :: x in Values(m, keys) ==> x in m.Values
    ensures forall k :: k in m ==> m[k] in Values(m, keys)
  {
    ValuesOfEnumeration(m, keys);
    ValuesAreValues(m, keys);
    UndefinedAmongValues(m, Values(m, keys));
  }

  /** A list holding exactly the map's values has an `undefined` entry
      exactly when some photo's record is undefined. */
  lemma UndefinedAmongValues(m: FlagMap, vs: seq<Option<FlaggedPhoto>>)
    requires forall x :: x in vs ==> x in m.Values
    requires forall k :: k in m ==> m[k] in vs
    ensures (exists i :: 0 <= i < |vs| && vs[i].None?) <==> !AllDefined(m)
  {
    if !AllDefined(m) {
      var k :| k in m && m[k].None?;
      var i :| 0 <= i < |vs| && vs[i] == m[k];
    }
    if exists i :: 0 <= i < |vs| && vs[i].None? {
      var i :| 0 <= i < |vs| && vs[i].None?;
      assert vs[i] in m.Values;
    }
  }

  lemma ValuesAreValues(m: FlagMap, keys: seq<string>)
    requires forall k :: k in keys ==> k in m
    ensures forall x :: x in Values(m, keys) ==> x in m.Values
  {
    forall x | x in Values(m, keys) ensures x in m.Values {
      var i :| 0 <= i < |keys| && Values(m, keys)[i] == x;
      assert m[keys[i]] == x;
    }
  }

  /** `markAsSubmitted` on a photo that was never flagged makes every later
      `getEventFlags` throw, whatever the event. */
  lemma MarkUnflaggedBreaksEventFlags(eventId: string)
    ensures GetEventFlags(MarkedSubmitted(map[], "p"), ["p"], eventId) == TypeError
  {
    assert !AllDefined(MarkedSubmitted(map[], "p"));
  }

  /** `markAsSubmitted` as evidently intended: only a flagged photo's record
      changes. */
  function MarkedSubmittedIfFlagged(m: FlagMap, photoId: string): (r: FlagMap)
    ensures IsPhotoFlagged(m, photoId) ==>
              r == m[photoId := Some(m[photoId].value.(submitted := true))]
    ensures !IsPhotoFlagged(m, photoId) ==> r == m
  {
    if IsPhotoFlagged(m, photoId) then m[photoId := Some(m[photoId].value.(submitted := true))] else m
  }

  /** With the intended `markAsSubmitted`, every map the store's actions
      build keeps a record behind every key, so `getEventFlags` never
      throws; and on a flagged photo it agrees with the store's own. */
  lemma IntendedMarkKeepsFlagsReadable(m: FlagMap, keys: seq<string>, photoId: string, eventId: string)
    requires AllDefined(m)
    requires Enumerates(keys, MarkedSubmittedIfFlagged(m, photoId))
    ensures AllDefined(MarkedSubmittedIfFlagged(m, photoId))
    ensures GetEventFlags(MarkedSubmittedIfFlagged(m, photoId), keys, eventId).Flags?
    ensures IsPhotoFlagged(m, photoId) ==> MarkedSubmittedIfFlagged(m, photoId) == MarkedSubmitted(m, photoId)
  {
  }

  /** `flagPhoto` and `removeFlag` keep every key bound to a record. */
  lemma ActionsKeepDefined(m: FlagMap, photoId: string, eventId: string, reason: string,
                           email: Option<string>, name: Option<string>, now: string)
    requires AllDefined(m)
    ensures AllDefined(Flagged(m, photoId, eventId, reason, email, name, now))
    ensures AllDefined(m - {photoId})
  {
  }

  class LocalFlagStore {
    var flaggedPhotos: FlagMap

    constructor()
      ensures flaggedPhotos == map[]
    {
      flaggedPhotos := map[];
    }

    /** `flagPhoto(photoId, eventId, reason, reporterEmail, reporterName)`. */
    method FlagPhoto(photoId: string, eventId: string, reason: string,
                     email: Option<string>, name: Option<string>, now: string)
      modifies this
      ensures flaggedPhotos == Flagged(old(flaggedPhotos), photoId, eventId, reason, email, name, now)
    {
      flaggedPhotos := flaggedPhotos[photoId := Some(FlaggedPhoto(photoId, eventId, reason, email, name, now, false))];
    }

    /** `markAsSubmitted(photoId)`, as written. */
    method MarkAsSubmitted(photoId: string)
      modifies this
      ensures flaggedPhotos == MarkedSubmitted(old(flaggedPhotos), photoId)
    {
      var current := if photoId in flaggedPhotos then flaggedPhotos[photoId] else None;
      flaggedPhotos := flaggedPhotos[photoId := if current.Some? then Some(current.value.(submitted := true)) else None];
    }

    /** `removeFlag(photoId)`. */
    method RemoveFlag(photoId: string)
      modifies this
      ensures flaggedPhotos == old(flaggedPhotos) - {photoId}
    {
      flaggedPhotos := flaggedPhotos - {photoId};
    }

    /** `clearAllFlags`. */
    method ClearAllFlags()
      modifies this
      ensures flaggedPhotos == map[]
    {
      flaggedPhotos := map[];
    }
  }
}

=== FILE: hidden_store.dfy ===
/** The local hidden-photo store (src/stores/hiddenStore.ts): a map from
    photo id to the record saying the photo is hidden from public view. */
module HiddenStore {
  import opened Wrappers
  import opened Seqs

  datatype HiddenPhoto = HiddenPhoto(photoId: string, eventId: string, hiddenAt: string,
                                     reason: Option<string>)

  /** A parsed export document `{version, exportDate, hiddenPhotos}`. */
  datatype HiddenDoc = HiddenDoc(version: Option<string>, exportDate: Option<string>,
                                 hiddenPhotos: Option<map<string, HiddenPhoto>>)

  /** The map after `hidePhoto`: the photo's record is replaced by a fresh one. */
  function Hidden(m: map<string, HiddenPhoto>, photoId: string, eventId: string,
                  reason: Option<string>, now: string): (r: map<string, HiddenPhoto>)
    ensures IsPhotoHidden(r, photoId)
    ensures r[photoId] == HiddenPhoto(photoId, eventId, now, reason)
    ensures r.Keys == m.Keys + {photoId}
    ensures forall k :: k in m && k != photoId ==> r[k] == m[k]
  {
    m[photoId := HiddenPhoto(photoId, eventId, now, reason)]
  }

  /** The map after `unhidePhoto`: the key is gone, nothing else changes. */
  function Unhidden(m: map<string, HiddenPhoto>, photoId: string): (r: map<string, HiddenPhoto>)
    ensures !IsPhotoHidden(r, photoId)
    ensures r.Keys == m.Keys - {photoId}
    ensures forall k :: k in r ==> r[k] == m[k]
    ensures photoId !in m ==> r == m
  {
    m - {photoId}
  }

  /** `isPhotoHidden`: a record is present. */
  predicate IsPhotoHidden(m: map<string, HiddenPhoto>, photoId: string) {
    photoId in m
  }

  /** The ids of the hidden photos of an event. */
  ghost function EventPhotoIds(m: map<string, HiddenPhoto>, eventId: string): set<string> {
    set k | k in m && m[k].eventId == eventId
  }

  /** `h => h.eventId === eventId`, as a test on keys. */
  function InEvent(m: map<string, HiddenPhoto>, eventId: string): string -> bool {
    k => k in m && m[k].eventId == eventId
  }

  /** `getHiddenPhotos(eventId)`: the records of the event, or every record
      when the event id is missing or empty. */
  function GetHiddenPhotos(m: map<string, HiddenPhoto>, keys: seq<string>, eventId: Option<string>)
    : (r: seq<HiddenPhoto>)
    requires Enumerates(keys, m)
    ensures !Present(eventId) ==> |r| == |m|
    ensures Present(eventId) ==> |r| == |EventPhotoIds(m, eventId.value)|
    ensures forall i :: 0 <= i < |r| ==> r[i] in m.Values
    ensures Present(eventId) ==> forall i :: 0 <= i < |r| ==> r[i].eventId == eventId.value
    ensures forall k :: k in m && (!Present(eventId) || m[k].eventId == eventId.value) ==> m[k] in r
  {
    if Present(eventId) then
      EventFacts(m, keys, eventId.value);
      Values(m, Filter(keys, InEvent(m, eventId.value)))
    else
      ValuesOfEnumeration(m, keys);
      Values(m, keys)
  }

  lemma EventFacts(m: map<string, HiddenPhoto>, keys: seq<string>, eventId: string)
    requires Enumerates(keys, m)
    ensures |Filter(keys, InEvent(m, eventId))| == |EventPhotoIds(m, eventId)|
    ensures forall k :: k in m && m[k].eventId == eventId ==>
              m[k] in Values(m, Filter(keys, InEvent(m, eventId)))
  {
    FilterDistinctCard(keys, InEvent(m, eventId));
    assert Kept(keys, InEvent(m, eventId)) == EventPhotoIds(m, eventId);
    var ks := Filter(keys, InEvent(m, eventId));
    var r := Values(m, ks);
    KeptValues(m, keys, InEvent(m, eventId));
    forall k | k in m && m[k].eventId == eventId ensures m[k] in r {
      assert k in keys && InEvent(m, eventId)(k);
    }
  }

  /** The map after `togglePhotoHidden`. */
  function Toggled(m: map<string, HiddenPhoto>, photoId: string, eventId: string, now: string)
    : (r: map<string, HiddenPhoto>)
    ensures IsPhotoHidden(r, photoId) <==> !IsPhotoHidden(m, photoId)
    ensures forall k :: k != photoId ==> (k in r <==> k in m) && (k in r ==> r[k] == m[k])
  {
    if IsPhotoHidden(m, photoId) then Unhidden(m, photoId) else Hidden(m, photoId, eventId, None, now)
  }

  /** Toggling twice restores whether the photo is hidden and every other
      record; a photo that was not hidden is back to exactly the old map,
      while a hidden photo comes back with a new timestamp and no reason. */
  lemma ToggleTwice(m: map<string, HiddenPhoto>, photoId: string, eventId: string, t1: string, t2: string)
    ensures Toggled(Toggled(m, photoId, eventId, t1), photoId, eventId, t2).Keys == m.Keys
    ensures photoId !in m ==> Toggled(Toggled(m, photoId, eventId, t1), photoId, eventId, t2) == m
    ensures photoId in m ==>
              Toggled(Toggled(m, photoId, eventId, t1), photoId, eventId, t2)[photoId]
              == HiddenPhoto(photoId, eventId, t2, None)
  {
    var once := Toggled(m, photoId, eventId, t1);
    var twice := Toggled(once, photoId, eventId, t2);
    if photoId !in m {
      assert twice == m;
    }
  }

  /** The map after `hideMultiplePhotos`: every listed photo gets a record
      with the one shared timestamp; unlisted records are untouched. */
  function HideAll(m: map<string, HiddenPhoto>, photoIds: seq<string>, eventId: string,
                   reason: Option<string>, now: string): (r: map<string, HiddenPhoto>)
    ensures forall k :: k in photoIds ==> k in r && r[k] == HiddenPhoto(k, eventId, now, reason)
    ensures forall k :: k !in photoIds ==> (k in r <==> k in m) && (k in r ==> r[k] == m[k])
  {
    map k | k in m.Keys + set i | 0 <= i < |photoIds| :: photoIds[i] ::
      if k in photoIds then HiddenPhoto(k, eventId, now, reason) else m[k]
  }

  lemma HideAllNext(m: map<string, HiddenPhoto>, photoIds: seq<string>, i: nat, eventId: string,
                    reason: Option<string>, now: string)
    requires i < |photoIds|
    ensures HideAll(m, photoIds[..i + 1], eventId, reason, now)
            == HideAll(m, photoIds[..i], eventId, reason, now)[photoIds[i] := HiddenPhoto(photoIds[i], eventId, now, reason)]
  {
    assert forall k :: k in photoIds[..i + 1] <==> k in photoIds[..i] || k == photoIds[i];
  }

  /** The `forEach` of `hideMultiplePhotos`: a copy of the map with one
      record written per listed id. */
  method FillHidden(m: map<string, HiddenPhoto>, photoIds: seq<string>, eventId: string,
                    reason: Option<string>, now: string) returns (newHidden: map<string, HiddenPhoto>)
    ensures newHidden == HideAll(m, photoIds, eventId, reason, now)
  {
    newHidden := m;
    assert photoIds[..0] == [];
    assert HideAll(m, [], eventId, reason, now) == m;
    for i := 0 to |photoIds|
      invariant newHidden == HideAll(m, photoIds[..i], eventId, reason, now)
    {
      HideAllNext(m, photoIds, i, eventId, reason, now);
      newHidden := newHidden[photoIds[i] := HiddenPhoto(photoIds[i], eventId, now, reason)];
    }
    assert photoIds[..|photoIds|] == photoIds;
  }

  /** The map after `unhideAll(eventId)`: every record when the event id is
      missing or empty, otherwise exactly the event's records, are removed. */
  function WithoutEvent(m: map<string, HiddenPhoto>, eventId: Option<string>): (r: map<string, HiddenPhoto>)
    ensures !Present(eventId) ==> r == map[]
    ensures Present(eventId) ==> forall k :: k in r <==> k in m && m[k].eventId != eventId.value
    ensures forall k :: k in r ==> r[k] == m[k]
  {
    if !Present(eventId) then map[]
    else map k | k in m && m[k].eventId != eventId.value :: m[k]
  }

  /** `exportHidden`. */
  function ExportHidden(m: map<string, HiddenPhoto>, now: string): (d: HiddenDoc)
    ensures d.version == Some("1.0") && d.hiddenPhotos == Some(m)
  {
    HiddenDoc(Some("1.0"), Some(now), Some(m))
  }

  /** `data.version && data.hiddenPhotos`. */
  predicate Accepts(d: HiddenDoc) {
    Present(d.version) && d.hiddenPhotos.Some?
  }

  /** Importing what `exportHidden` produced is accepted and restores the map. */
  lemma ExportImportRoundTrip(m: map<string, HiddenPhoto>, now: string)
    ensures Accepts(ExportHidden(m, now)) && ExportHidden(m, now).hiddenPhotos.value == m
  {
  }

  class LocalHiddenStore {
    var hiddenPhotos: map<string, HiddenPhoto>

    constructor()
      ensures hiddenPhotos == map[]
    {
      hiddenPhotos := map[];
    }

    /** `hidePhoto(photoId, eventId, reason)`. */
    method HidePhoto(photoId: string, eventId: string, reason: Option<string>, now: string)
      modifies this
      ensures hiddenPhotos == Hidden(old(hiddenPhotos), photoId, eventId, reason, now)
    {
      hiddenPhotos := hiddenPhotos[photoId := HiddenPhoto(photoId, eventId, now, reason)];
    }

    /** `unhidePhoto(photoId)`. */
    method UnhidePhoto(photoId: string)
      modifies this
      ensures hiddenPhotos == Unhidden(old(hiddenPhotos), photoId)
    {
      hiddenPhotos := hiddenPhotos - {photoId};
    }

    /** `togglePhotoHidden(photoId, eventId)`. */
    method TogglePhotoHidden(photoId: string, eventId: string, now: string)
      modifies this
      ensures hiddenPhotos == Toggled(old(hiddenPhotos), photoId, eventId, now)
    {
      if photoId in hiddenPhotos {
        UnhidePhoto(photoId);
      } else {
        HidePhoto(photoId, eventId, None, now);
      }
    }

    /** `hideMultiplePhotos(photoIds, eventId, reason)`: one timestamp for
        all, written into a copy of the map one id at a time. */
    method HideMultiplePhotos(photoIds: seq<string>, eventId: string, reason: Option<string>, now: string)
      modifies this
      ensures hiddenPhotos == HideAll(old(hiddenPhotos), photoIds, eventId, reason, now)
    {
      var newHidden := FillHidden(hiddenPhotos, photoIds, eventId, reason, now);
      hiddenPhotos := newHidden;
    }

    /** `unhideAll(eventId)`. */
    method UnhideAll(eventId: Option<string>)
      modifies this
      ensures hiddenPhotos == WithoutEvent(old(hiddenPhotos), eventId)
    {
      if !Present(eventId) {
        hiddenPhotos := map[];
      } else {
        hiddenPhotos := map k | k in hiddenPhotos && hiddenPhotos[k].eventId != eventId.value :: hiddenPhotos[k];
      }
    }

    /** `importHidden(json)`; `json` is `None` when `JSON.parse` throws. */
    method ImportHidden(json: Option<HiddenDoc>) returns (ok: bool)
      modifies this
      ensures ok <==> json.Some? && Accepts(json.value)
      ensures ok ==> hiddenPhotos == json.value.hiddenPhotos.value
      ensures !ok ==> hiddenPhotos == old(hiddenPhotos)
    {
      if json.Some? && Accepts(json.value) {
        hiddenPhotos := json.value.hiddenPhotos.value;
        ok := true;
      } else {
        ok := false;
      }
    }
  }
}

=== FILE: lightbox.dfy ===
/** The two photo lightboxes: the admin `EventGallery`
    (src/components/features/EventGallery.tsx) and the visitor-facing
    `PublicLightbox` (src/components/features/PublicLightbox.tsx) with its
    removal-request form. */
module Lightbox {
  import opened Wrappers
  import opened Strings
  import opened FlagStore
  import opened EventData

  /** `nextPhoto`'s update of the index over `n` photos: the last photo wraps
      to the first. */
  function NextIndex(prev: int, n: int): (r: int)
    ensures 0 <= prev < n ==> 0 <= r < n
    ensures prev == n - 1 ==> r == 0
  {
    if prev == n - 1 then 0 else prev + 1
  }

  /** `prevPhoto`'s update of the index over `n` photos: the first photo wraps
      to the last. */
  function PrevIndex(prev: int, n: int): (r: int)
    ensures 0 <= prev < n ==> 0 <= r < n
    ensures prev == 0 ==> r == n - 1
  {
    if prev == 0 then n - 1 else prev - 1
  }

  /** Within range, stepping forward and then back (or back and then
      forward) returns to the same photo. */
  lemma NextPrevInverse(i: int, n: int)
    requires 0 <= i < n
    ensures PrevIndex(NextIndex(i, n), n) == i
    ensures NextIndex(PrevIndex(i, n), n) == i
  {
  }

  /** With no photos the index leaves the range: from 0, `nextPhoto` moves to
      1 and `prevPhoto` to -1. */
  lemma EmptyEventEscapes()
    ensures NextIndex(0, 0) == 1
    ensures PrevIndex(0, 0) == -1
  {
  }

  /** The index after pressing "next" `k` times. */
  function Advance(i: int, n: int, k: nat): int {
    if k == 0 then i else NextIndex(Advance(i, n, k - 1), n)
  }

  /** Pressing "next" `k <= n` times moves `k` photos on, modulo `n`. */
  lemma {:induction false} AdvanceWraps(i: int, n: int, k: nat)
    requires 0 <= i < n && k <= n
    ensures Advance(i, n, k) == if i + k < n then i + k else i + k - n
  {
    if k > 0 {
      AdvanceWraps(i, n, k - 1);
    }
  }

  /** Pressing "next" once per photo comes back to the starting photo. */
  lemma FullCycleReturns(i: int, n: int)
    requires 0 <= i < n
    ensures Advance(i, n, n) == i
  {
    AdvanceWraps(i, n, n);
  }

  /** `event.photos[index]`: the photo, or `undefined` out of range. */
  function PhotoAt(photos: seq<EventPhoto>, index: int): (r: Option<EventPhoto>)
    ensures r.Some? <==> 0 <= index < |photos|
    ensures r.Some? ==> r.value in photos
  {
    if 0 <= index < |photos| then Some(photos[index]) else None
  }

  /** The event page opens the lightbox on the photo it was clicked at; since
      `EventGallery` has no `initialPhotoIndex` prop it shows the first photo
      instead whenever the clicked photo is a different one. */
  lemma ClickedPhotoNotShown(photos: seq<EventPhoto>, clicked: int)
    requires 0 < clicked < |photos| && photos[clicked] != photos[0]
    ensures PhotoAt(photos, 0) != PhotoAt(photos, clicked)
  {
  }

  /** The event page's click on the photo at `clicked`, opening the lightbox
      as written: it shows the first photo, not the clicked one. */
  method OpenClickedAsWritten(event: PropertyEvent, clicked: int) returns (g: EventGallery)
    requires 0 < clicked < |event.photos| && event.photos[clicked] != event.photos[0]
    ensures g.photos == event.photos
    ensures g.CurrentPhoto() == PhotoAt(event.photos, 0)
    ensures g.CurrentPhoto() != PhotoAt(event.photos, clicked)
  {
    g := new EventGallery(event);
    ClickedPhotoNotShown(event.photos, clicked);
  }

  /** The same click with the lightbox starting at the index it is given:
      the clicked photo is on screen. */
  method OpenClickedIntended(event: PropertyEvent, clicked: int) returns (g: EventGallery)
    requires 0 <= clicked < |event.photos|
    ensures g.photos == event.photos
    ensures g.Valid() && g.CurrentPhoto() == Some(event.photos[clicked])
  {
    g := new EventGallery.OpenedAt(event, clicked);
  }

  /** The admin lightbox: only its index is state that the model follows. */
  class EventGallery {
    const photos: seq<EventPhoto>
    var currentPhotoIndex: int

    /** The component as written: its props are `event` and `onClose`, so
        the index starts at 0 whatever the caller asked for. */
    constructor(event: PropertyEvent)
      ensures photos == event.photos
      ensures currentPhotoIndex == 0
    {
      photos := event.photos;
      currentPhotoIndex := 0;
    }

    /** The component as its callers evidently intend: it starts on the
        photo at `initialPhotoIndex`. */
    constructor OpenedAt(event: PropertyEvent, initialPhotoIndex: int)
      ensures photos == event.photos
      ensures currentPhotoIndex == initialPhotoIndex
      ensures CurrentPhoto() == PhotoAt(event.photos, initialPhotoIndex)
    {
      photos := event.photos;
      currentPhotoIndex := initialPhotoIndex;
    }

    /** `event.photos[currentPhotoIndex]`. */
    function CurrentPhoto(): Option<EventPhoto>
      reads this
    {
      PhotoAt(photos, currentPhotoIndex)
    }

    /** The index points at a photo. */
    predicate Valid()
      reads this
    {
      0 <= currentPhotoIndex < |photos|
    }

    /** `nextPhoto` (also the right arrow key). */
    method NextPhoto()
      modifies this
      ensures currentPhotoIndex == NextIndex(old(currentPhotoIndex), |photos|)
      ensures old(Valid()) ==> Valid() && CurrentPhoto().Some?
    {
      currentPhotoIndex := if currentPhotoIndex == |photos| - 1 then 0 else currentPhotoIndex + 1;
    }

    /** `prevPhoto` (also the left arrow key). */
    method PrevPhoto()
      modifies this
      ensures currentPhotoIndex == PrevIndex(old(currentPhotoIndex), |photos|)
      ensures old(Valid()) ==> Valid() && CurrentPhoto().Some?
    {
      currentPhotoIndex := if currentPhotoIndex == 0 then |photos| - 1 else currentPhotoIndex - 1;
    }

    /** A click on the thumbnail at `index` in the strip below the photo. */
    method SelectPhoto(index: int)
      requires 0 <= index < |photos|
      modifies this
      ensures currentPhotoIndex == index
      ensures Valid() && CurrentPhoto() == Some(photos[index])
    {
      currentPhotoIndex := index;
    }
  }

  /** `flagSubmitStatus`. */
  datatype SubmitStatus = Idle | Submitting | Success | Error

  /** How the form post settles: an ok response, a response that is not ok,
      or a rejected `fetch`. */
  datatype PostResult = Ok | NotOk | Threw

  /** The form may be sent: there is a current photo and reason, name, email
      and apartment are all non-blank once trimmed. */
  predicate CanSubmit(photo: Option<EventPhoto>, reason: string, name: string, email: string, apartment: string) {
    photo.Some? && !IsBlank(reason) && !IsBlank(name) && !IsBlank(email) && !IsBlank(apartment)
  }

  /** The flag map after a sent form: the flag is recorded first, and marked
      as submitted only when the post answered ok. */
  function AfterSubmit(m: FlagMap, photoId: string, eventId: string, reason: string,
                       email: string, name: string, now: string, post: PostResult): FlagMap
  {
    var flagged := Flagged(m, photoId, eventId, reason, Some(email), Some(name), now);
    if post == Ok then MarkedSubmitted(flagged, photoId) else flagged
  }

  /** Whatever the post does, the photo ends up flagged with the form's
      reason, email and name, and the flag counts as submitted exactly when
      the post answered ok; no other photo's flag changes. */
  lemma SubmitRecordsFlag(m: FlagMap, photoId: string, eventId: string, reason: string,
                          email: string, name: string, now: string, post: PostResult)
    ensures IsPhotoFlagged(AfterSubmit(m, photoId, eventId, reason, email, name, now, post), photoId)
    ensures AfterSubmit(m, photoId, eventId, reason, email, name, now, post)[photoId] ==
            Some(FlaggedPhoto(photoId, eventId, reason, Some(email), Some(name), now, post == Ok))
    ensures forall k :: k in m && k != photoId ==>
              AfterSubmit(m, photoId, eventId, reason, email, name, now, post)[k] == m[k]
  {
  }

  /** The visitor lightbox with its index and the removal-request form. */
  class PublicLightbox {
    const eventId: string
    const photos: seq<EventPhoto>
    var currentPhotoIndex: int
    var showFlagForm: bool
    var flagReason: string
    var flagEmail: string
    var flagName: string
    var flagApartment: string
    var flagSubmitStatus: SubmitStatus

    /** Mounting the component: the index starts at `initialPhotoIndex`
        (0 when the caller gives none) and the form is empty. */
    constructor(event: PropertyEvent, initialPhotoIndex: int)
      ensures eventId == event.id && photos == event.photos
      ensures currentPhotoIndex == initialPhotoIndex
      ensures CurrentPhoto() == PhotoAt(event.photos, initialPhotoIndex)
      ensures !showFlagForm && flagSubmitStatus == Idle
      ensures flagReason == "" && flagEmail == "" && flagName == "" && flagApartment == ""
    {
      eventId := event.id;
      photos := event.photos;
      currentPhotoIndex := initialPhotoIndex;
      showFlagForm := false;
      flagReason := "";
      flagEmail := "";
      flagName := "";
      flagApartment := "";
      flagSubmitStatus := Idle;
    }

    function CurrentPhoto(): Option<EventPhoto>
      reads this
    {
      PhotoAt(photos, currentPhotoIndex)
    }

    predicate Valid()
      reads this
    {
      0 <= currentPhotoIndex < |photos|
    }

    /** The form fields the reset effect clears; email and name survive a
        change of photo. */
    predicate FormCleared()
      reads this
    {
      !showFlagForm && flagReason == "" && flagApartment == "" && flagSubmitStatus == Idle
    }

    /** The effect that runs when the index changes: with a photo on screen,
        the form is closed and reason, apartment and status are reset. */
    method ResetOnPhotoChange(previousIndex: int)
      modifies this
      ensures currentPhotoIndex == old(currentPhotoIndex)
      ensures flagEmail == old(flagEmail) && flagName == old(flagName)
      ensures previousIndex != currentPhotoIndex && CurrentPhoto().Some? ==> FormCleared()
      ensures !(previousIndex != currentPhotoIndex && CurrentPhoto().Some?) ==>
                showFlagForm == old(showFlagForm) && flagReason == old(flagReason) &&
                flagApartment == old(flagApartment) && flagSubmitStatus == old(flagSubmitStatus)
    {
      if previousIndex != currentPhotoIndex && CurrentPhoto().Some? {
        showFlagForm := false;
        flagReason := "";
        flagApartment := "";
        flagSubmitStatus := Idle;
      }
    }

    /** `nextPhoto`, followed by the reset effect. */
    method NextPhoto()
      modifies this
      ensures currentPhotoIndex == NextIndex(old(currentPhotoIndex), |photos|)
      ensures old(Valid()) ==> Valid()
      ensures flagEmail == old(flagEmail) && flagName == old(flagName)
      ensures currentPhotoIndex != old(currentPhotoIndex) && CurrentPhoto().Some? ==> FormCleared()
    {
      var previous := currentPhotoIndex;
      currentPhotoIndex := if currentPhotoIndex == |photos| - 1 then 0 else currentPhotoIndex + 1;
      ResetOnPhotoChange(previous);
    }

    /** `prevPhoto`, followed by the reset effect. */
    method PrevPhoto()
      modifies this
      ensures currentPhotoIndex == PrevIndex(old(currentPhotoIndex), |photos|)
      ensures old(Valid()) ==> Valid()
      ensures flagEmail == old(flagEmail) && flagName == old(flagName)
      ensures currentPhotoIndex != old(currentPhotoIndex) && CurrentPhoto().Some? ==> FormCleared()
    {
      var previous := currentPhotoIndex;
      currentPhotoIndex := if currentPhotoIndex == 0 then |photos| - 1 else currentPhotoIndex - 1;
      ResetOnPhotoChange(previous);
    }

    /** A click on the thumbnail at `index`, followed by the reset effect:
        moving to another photo clears the form. */
    method SelectPhoto(index: int)
      requires 0 <= index < |photos|
      modifies this
      ensures currentPhotoIndex == index
      ensures Valid() && CurrentPhoto() == Some(photos[index])
      ensures flagEmail == old(flagEmail) && flagName == old(flagName)
      ensures index != old(currentPhotoIndex) ==> FormCleared()
      ensures index == old(currentPhotoIndex) ==>
                showFlagForm == old(showFlagForm) && flagReason == old(flagReason) &&
                flagApartment == old(flagApartment) && flagSubmitStatus == old(flagSubmitStatus)
    {
      var previous := currentPhotoIndex;
      currentPhotoIndex := index;
      ResetOnPhotoChange(previous);
    }

    /** `handleFlagSubmit`: a form that cannot be sent changes nothing;
        otherwise the flag is stored locally, the form is posted, and the
        outcome of the post decides between `markAsSubmitted` with status
        `success` and status `error`. The form fields are left as typed. */
    method HandleFlagSubmit(flags: LocalFlagStore, now: string, post: PostResult)
      modifies this, flags
      ensures currentPhotoIndex == old(currentPhotoIndex) && showFlagForm == old(showFlagForm)
      ensures flagReason == old(flagReason) && flagEmail == old(flagEmail)
      ensures flagName == old(flagName) && flagApartment == old(flagApartment)
      ensures !CanSubmit(CurrentPhoto(), flagReason, flagName, flagEmail, flagApartment) ==>
                flags.flaggedPhotos == old(flags.flaggedPhotos) && flagSubmitStatus == old(flagSubmitStatus)
      ensures CanSubmit(CurrentPhoto(), flagReason, flagName, flagEmail, flagApartment) ==>
                flags.flaggedPhotos == AfterSubmit(old(flags.flaggedPhotos), CurrentPhoto().value.id, eventId,
                                                   flagReason, flagEmail, flagName, now, post) &&
                flagSubmitStatus == (if post == Ok then Success else Error)
    {
      var photo := CurrentPhoto();
      if !CanSubmit(photo, flagReason, flagName, flagEmail, flagApartment) {
        return;
      }
      flagSubmitStatus := Submitting;
      flags.FlagPhoto(photo.value.id, eventId, flagReason, Some(flagEmail), Some(flagName), now);
      if post == Ok {
        flags.MarkAsSubmitted(photo.value.id);
        flagSubmitStatus := Success;
      } else {
        flagSubmitStatus := Error;
      }
    }

    /** The timer that fires two seconds after a successful submit: every
        form field, email and name included, is cleared. */
    method ResetAfterSuccess()
      modifies this
      ensures currentPhotoIndex == old(currentPhotoIndex)
      ensures FormCleared() && flagEmail == "" && flagName == ""
    {
      showFlagForm := false;
      flagReason := "";
      flagEmail := "";
      flagName := "";
      flagApartment := "";
      flagSubmitStatus := Idle;
    }
  }
}

=== FILE: maintenance_store.dfy ===
/** The maintenance store (src/stores/maintenanceStore.ts): work requests
    and vendors, requests changed by id, and the selected request. Costs are
    whole numbers and dates millisecond timestamps. */
module MaintenanceStore {
  import opened Wrappers
  import opened Seqs
  import opened Notes

  datatype Category = Plumbing | Electrical | Hvac | Appliance | Structural | Cosmetic | Pest | OtherCategory
  datatype Priority = Emergency | High | Medium | Low
  datatype Status = Open | Assigned | InProgress | Completed | Cancelled

  /** The fields of a vendor the store reads or writes. */
  datatype Vendor = Vendor(id: string, companyName: string, specialties: seq<Category>, emergencyAvailable: bool)

  /** A `Partial<Vendor>`. */
  datatype VendorPatch = VendorPatch(id: Option<string>, companyName: Option<string>,
                                     specialties: Option<seq<Category>>, emergencyAvailable: Option<bool>)

  /** The fields of a request the store reads or writes. */
  datatype Request = Request(
    id: string,
    unitId: string,
    category: Category,
    priority: Priority,
    status: Status,
    title: string,
    assignedTo: Option<string>,
    vendor: Option<Vendor>,
    scheduledDate: Option<int>,
    completedDate: Option<int>,
    cost: Option<int>,
    notes: seq<Note>,
    createdAt: int,
    updatedAt: int)

  /** A `Partial<MaintenanceRequest>` (an optional field can be named with
      `undefined`, hence the inner Option). */
  datatype RequestPatch = RequestPatch(
    id: Option<string>, unitId: Option<string>, category: Option<Category>, priority: Option<Priority>,
    status: Option<Status>, title: Option<string>, assignedTo: Option<Option<string>>,
    vendor: Option<Option<Vendor>>, scheduledDate: Option<Option<int>>, completedDate: Option<Option<int>>,
    cost: Option<Option<int>>, notes: Option<seq<Note>>, createdAt: Option<int>)

  function MergeVendor(v: Vendor, u: VendorPatch): Vendor {
    Vendor(u.id.GetOr(v.id), u.companyName.GetOr(v.companyName), u.specialties.GetOr(v.specialties),
           u.emergencyAvailable.GetOr(v.emergencyAvailable))
  }

  /** `{ ...r, ...updates, updatedAt }`: each field the patch names replaces
      the request's, the others stay, and the time is stamped whatever the
      patch says. */
  function MergeRequest(r: Request, u: RequestPatch, now: int): (q: Request)
    ensures q.updatedAt == now
    ensures q.id == u.id.GetOr(r.id) && q.unitId == u.unitId.GetOr(r.unitId)
    ensures q.category == u.category.GetOr(r.category) && q.priority == u.priority.GetOr(r.priority)
    ensures q.status == u.status.GetOr(r.status) && q.title == u.title.GetOr(r.title)
    ensures q.assignedTo == u.assignedTo.GetOr(r.assignedTo) && q.vendor == u.vendor.GetOr(r.vendor)
    ensures q.scheduledDate == u.scheduledDate.GetOr(r.scheduledDate)
    ensures q.completedDate == u.completedDate.GetOr(r.completedDate)
    ensures q.cost == u.cost.GetOr(r.cost) && q.notes == u.notes.GetOr(r.notes)
    ensures q.createdAt == u.createdAt.GetOr(r.createdAt)
  {
    Request(u.id.GetOr(r.id), u.unitId.GetOr(r.unitId), u.category.GetOr(r.category), u.priority.GetOr(r.priority),
            u.status.GetOr(r.status), u.title.GetOr(r.title), u.assignedTo.GetOr(r.assignedTo),
            u.vendor.GetOr(r.vendor), u.scheduledDate.GetOr(r.scheduledDate),
            u.completedDate.GetOr(r.completedDate), u.cost.GetOr(r.cost), u.notes.GetOr(r.notes),
            u.createdAt.GetOr(r.createdAt), now)
  }

  /** `vendors.find(v => v.id === id)`. */
  function GetVendor(vendors: seq<Vendor>, id: string): (r: Option<Vendor>)
    ensures r.Some? ==> r.value in vendors && r.value.id == id
    ensures r.None? <==> forall i :: 0 <= i < |vendors| ==> vendors[i].id != id
    ensures r.Some? ==> exists j :: 0 <= j < |vendors| && vendors[j] == r.value && forall k :: 0 <= k < j ==> vendors[k].id != id
  {
    if vendors == [] then None
    else if vendors[0].id == id then Some(vendors[0])
    else
      var r := GetVendor(vendors[1..], id);
      assert forall j :: 1 <= j < |vendors| ==> vendors[j] == vendors[1..][j - 1];
      r
  }

  /** The note `completeRequest` appends: written by `system`, public, with
      an id made of `note-` and the clock reading `stamp`. */
  function CompletionNote(content: string, stamp: string, now: int): Note {
    Note("note-" + stamp, content, "system", now, false)
  }

  /** The request operations, applied to the request with the given id. */
  datatype Change =
    | Patch(patch: RequestPatch)
    | AssignVendor(vendorId: string)
    | UpdateStatus(status: Status)
    | Schedule(date: int)
    | Complete(cost: int, completionNotes: Option<string>, stamp: string)
    | AddNote(note: Note)

  /** A request after a change; `vendors` is the store's vendor list, read by
      `assignVendor`. */
  function ApplyChange(r: Request, c: Change, vendors: seq<Vendor>, now: int): (q: Request)
    ensures q.updatedAt == now
    ensures c.Patch? ==> q == MergeRequest(r, c.patch, now)
    ensures c.UpdateStatus? ==> q == r.(status := c.status, updatedAt := now)
    ensures c.AddNote? ==> q == r.(notes := r.notes + [c.note], updatedAt := now)
    ensures c.AssignVendor? ==>
              q == r.(assignedTo := Some(c.vendorId), vendor := GetVendor(vendors, c.vendorId), status := Assigned,
                      updatedAt := now)
    ensures c.Schedule? ==> q == r.(scheduledDate := Some(c.date), status := Assigned, updatedAt := now)
    ensures c.Complete? ==>
              q.status == Completed && q.cost == Some(c.cost) && q.completedDate == Some(now) &&
              q.id == r.id && q.priority == r.priority &&
              (if Present(c.completionNotes) then |q.notes| == |r.notes| + 1 && q.notes[..|r.notes|] == r.notes
               else q.notes == r.notes)
  {
    match c
    case Patch(patch) => MergeRequest(r, patch, now)
    case AssignVendor(vendorId) =>
      r.(assignedTo := Some(vendorId), vendor := GetVendor(vendors, vendorId), status := Assigned, updatedAt := now)
    case UpdateStatus(status) => r.(status := status, updatedAt := now)
    case Schedule(date) => r.(scheduledDate := Some(date), status := Assigned, updatedAt := now)
    case Complete(cost, completionNotes, stamp) =>
      var updated := r.(status := Completed, completedDate := Some(now), cost := Some(cost), updatedAt := now);
      if Present(completionNotes) then
        assert (r.notes + [CompletionNote(completionNotes.value, stamp, now)])[..|r.notes|] == r.notes;
        updated.(notes := r.notes + [CompletionNote(completionNotes.value, stamp, now)])
      else updated
    case AddNote(note) => r.(notes := r.notes + [note], updatedAt := now)
  }

  /** `completeRequest` appends a note exactly when the notes text is
      non-empty, and that note carries the text. */
  lemma CompletionNoteIffText(r: Request, cost: int, text: Option<string>, stamp: string, vendors: seq<Vendor>, now: int)
    ensures var q := ApplyChange(r, Complete(cost, text, stamp), vendors, now);
            (|q.notes| > |r.notes| <==> text.Some? && text.value != "") &&
            (|q.notes| > |r.notes| ==> q.notes[|r.notes|].content == text.value && q.notes[|r.notes|].authorId == "system")
  {
  }

  /** `requests.map(r => r.id === id ? change(r) : r)`. */
  function ChangeWhere(rs: seq<Request>, id: string, c: Change, vendors: seq<Vendor>, now: int): (q: seq<Request>)
    ensures |q| == |rs|
    ensures forall i :: 0 <= i < |rs| ==> q[i] == if rs[i].id == id then ApplyChange(rs[i], c, vendors, now) else rs[i]
  {
    seq(|rs|, i requires 0 <= i < |rs| => if rs[i].id == id then ApplyChange(rs[i], c, vendors, now) else rs[i])
  }

  /** `getRequest`: the first request with that id. */
  function GetRequest(rs: seq<Request>, id: string): (r: Option<Request>)
    ensures r.Some? ==> r.value in rs && r.value.id == id
    ensures r.None? <==> forall i :: 0 <= i < |rs| ==> rs[i].id != id
    ensures r.Some? ==> exists j :: 0 <= j < |rs| && rs[j] == r.value && forall k :: 0 <= k < j ==> rs[k].id != id
  {
    if rs == [] then None
    else if rs[0].id == id then Some(rs[0])
    else
      var r := GetRequest(rs[1..], id);
      assert forall j :: 1 <= j < |rs| ==> rs[j] == rs[1..][j - 1];
      r
  }

  /** `getSelectedRequest`: nothing when no (or an empty) id is selected. */
  function SelectedRequest(rs: seq<Request>, selected: Option<string>): (r: Option<Request>)
    ensures !Present(selected) ==> r.None?
    ensures r.Some? ==> r.value in rs && Some(r.value.id) == selected
    ensures Present(selected) ==> (r.None? <==> forall i :: 0 <= i < |rs| ==> rs[i].id != selected.value)
    ensures Present(selected) ==> r == GetRequest(rs, selected.value)
  {
    if Present(selected) then GetRequest(rs, selected.value) else None
  }

  function HasStatus(s: Status): Request -> bool {
    (r: Request) => r.status == s
  }

  function HasPriority(p: Priority): Request -> bool {
    (r: Request) => r.priority == p
  }

  function ForUnit(unitId: string): Request -> bool {
    (r: Request) => r.unitId == unitId
  }

  function ForProperty(propertyId: string): Request -> bool {
    (r: Request) => propertyId <= r.unitId
  }

  /** `getRequestsByUnit`, `getRequestsByProperty` (unit ids starting with
      the property id), `getRequestsByStatus` and `getRequestsByPriority`. */
  function RequestsByUnit(rs: seq<Request>, unitId: string): (r: seq<Request>)
    ensures forall q :: q in r <==> q in rs && q.unitId == unitId
  {
    Filter(rs, ForUnit(unitId))
  }

  function RequestsByProperty(rs: seq<Request>, propertyId: string): (r: seq<Request>)
    ensures forall q :: q in r <==> q in rs && propertyId <= q.unitId
  {
    Filter(rs, ForProperty(propertyId))
  }

  function RequestsByStatus(rs: seq<Request>, status: Status): (r: seq<Request>)
    ensures forall q :: q in r <==> q in rs && q.status == status
  {
    Filter(rs, HasStatus(status))
  }

  function RequestsByPriority(rs: seq<Request>, priority: Priority): (r: seq<Request>)
    ensures forall q :: q in r <==> q in rs && q.priority == priority
  {
    Filter(rs, HasPriority(priority))
  }

  function OpenEmergency(): Request -> bool {
    (r: Request) => r.priority == Emergency && r.status != Completed
  }

  /** `getEmergencyRequests`: emergencies not yet completed. */
  function EmergencyRequests(rs: seq<Request>): (r: seq<Request>)
    ensures forall q :: q in r <==> q in rs && q.priority == Emergency && q.status != Completed
  {
    Filter(rs, OpenEmergency())
  }

  const ThreeDays: int := 3 * 24 * 60 * 60 * 1000

  function OverdueAt(now: int): Request -> bool {
    (r: Request) => r.status != Completed && r.createdAt < now - ThreeDays && r.priority != Low
  }

  /** `getOverdueRequests`: not completed, created more than three days
      before now, and not of low priority. */
  function OverdueRequests(rs: seq<Request>, now: int): (r: seq<Request>)
    ensures forall q :: q in r <==> q in rs && q.status != Completed && q.createdAt < now - ThreeDays && q.priority != Low
  {
    Filter(rs, OverdueAt(now))
  }

  function HasSpecialty(category: Category): Vendor -> bool {
    (v: Vendor) => category in v.specialties
  }

  /** `getVendorsBySpecialty`. */
  function VendorsBySpecialty(vendors: seq<Vendor>, category: Category): (r: seq<Vendor>)
    ensures forall v :: v in r <==> v in vendors && category in v.specialties
  {
    Filter(vendors, HasSpecialty(category))
  }

  /** The whole-number parts of `getMaintenanceStats`. */
  datatype Stats = Stats(total: int, open: int, inProgress: int, completed: int, emergency: int, totalCost: int)

  function CostOrZero(r: Request): int {
    r.cost.GetOr(0)
  }

  /** The cost a request adds to the stats' total: its cost if completed. */
  function CompletedCost(r: Request): int {
    if r.status == Completed then r.cost.GetOr(0) else 0
  }

  /** `getMaintenanceStats`: the number of requests, the status and
      emergency counts as the getters give them, and the cost of the
      completed requests. */
  function MaintenanceStats(rs: seq<Request>): (r: Stats)
    ensures r.total == |rs|
    ensures r.open + r.inProgress + r.completed <= r.total
    ensures r.totalCost == Sum(rs, CompletedCost)
    ensures r.open == |RequestsByStatus(rs, Open)| && r.inProgress == |RequestsByStatus(rs, InProgress)|
    ensures r.completed == |RequestsByStatus(rs, Completed)|
    ensures r.emergency == |RequestsByPriority(rs, Emergency)|
  {
    StatusCountsBounded(rs);
    CompletedCostSum(rs);
    Stats(|rs|, Count(rs, HasStatus(Open)), Count(rs, HasStatus(InProgress)), Count(rs, HasStatus(Completed)),
          Count(rs, HasPriority(Emergency)), Sum(Filter(rs, HasStatus(Completed)), CostOrZero))
  }

  lemma {:induction false} StatusCountsBounded(rs: seq<Request>)
    ensures Count(rs, HasStatus(Open)) + Count(rs, HasStatus(InProgress)) + Count(rs, HasStatus(Completed)) <= |rs|
  {
    if rs != [] {
      StatusCountsBounded(rs[1..]);
    }
  }

  lemma {:induction false} CompletedCostSum(rs: seq<Request>)
    ensures Sum(Filter(rs, HasStatus(Completed)), CostOrZero) == Sum(rs, CompletedCost)
  {
    if rs != [] {
      CompletedCostSum(rs[1..]);
      var h := if rs[0].status == Completed then [rs[0]] else [];
      SumAppend(h, Filter(rs[1..], HasStatus(Completed)), CostOrZero);
    }
  }

  /** Each count of the stats is the number of positions holding a request
      of that status or priority. */
  lemma StatsCountPositions(rs: seq<Request>)
    ensures var st := MaintenanceStats(rs);
            && st.open == |set i | 0 <= i < |rs| && rs[i].status == Open|
            && st.inProgress == |set i | 0 <= i < |rs| && rs[i].status == InProgress|
            && st.completed == |set i | 0 <= i < |rs| && rs[i].status == Completed|
            && st.emergency == |set i | 0 <= i < |rs| && rs[i].priority == Emergency|
  {
    StatusPositions(rs, Open);
    StatusPositions(rs, InProgress);
    StatusPositions(rs, Completed);
    CountPositions(rs, HasPriority(Emergency));
    assert Positions(rs, HasPriority(Emergency)) == set i | 0 <= i < |rs| && rs[i].priority == Emergency;
  }

  lemma StatusPositions(rs: seq<Request>, s: Status)
    ensures Count(rs, HasStatus(s)) == |set i | 0 <= i < |rs| && rs[i].status == s|
  {
    CountPositions(rs, HasStatus(s));
    assert Positions(rs, HasStatus(s)) == set i | 0 <= i < |rs| && rs[i].status == s;
  }

  /** The stats count every emergency, completed or not, so they never
      report fewer than `getEmergencyRequests` lists. */
  lemma {:induction false} StatsCountAllEmergencies(rs: seq<Request>)
    ensures MaintenanceStats(rs).emergency >= |EmergencyRequests(rs)|
  {
    if rs != [] {
      StatsCountAllEmergencies(rs[1..]);
    }
  }

  /** Ids name at most one request. */
  predicate UniqueIds(rs: seq<Request>) {
    forall i, j :: 0 <= i < j < |rs| ==> rs[i].id != rs[j].id
  }

  /** Completing an open request moves it from the open count to the
      completed count, adds its cost to the total, and takes it off the
      emergency list. */
  lemma CompleteMovesCounts(rs: seq<Request>, i: nat, cost: int, text: Option<string>, stamp: string,
                            vendors: seq<Vendor>, now: int)
    requires UniqueIds(rs) && i < |rs| && rs[i].status == Open
    ensures var after := ChangeWhere(rs, rs[i].id, Complete(cost, text, stamp), vendors, now);
            var before, stats := MaintenanceStats(rs), MaintenanceStats(after);
            stats.total == before.total && stats.open == before.open - 1 && stats.completed == before.completed + 1 &&
            stats.totalCost == before.totalCost + cost && rs[i] !in EmergencyRequests(after) &&
            after[i] !in EmergencyRequests(after)
  {
    var after := ChangeWhere(rs, rs[i].id, Complete(cost, text, stamp), vendors, now);
    forall j | 0 <= j < |rs| && j != i ensures rs[j] == after[j] {
      assert rs[j].id != rs[i].id;
    }
    assert after[i] == ApplyChange(rs[i], Complete(cost, text, stamp), vendors, now);
    CompletedInPlace(rs, after, i, cost);
    assert rs[i] !in after;
  }

  /** Completing the open request at `i` moves one request from open to
      completed and adds its cost. */
  lemma CompletedInPlace(rs: seq<Request>, after: seq<Request>, i: nat, cost: int)
    requires |rs| == |after| && i < |rs|
    requires forall j :: 0 <= j < |rs| && j != i ==> rs[j] == after[j]
    requires rs[i].status == Open && after[i].status == Completed && after[i].cost == Some(cost)
    ensures var before, stats := MaintenanceStats(rs), MaintenanceStats(after);
            stats.total == before.total && stats.open == before.open - 1 && stats.completed == before.completed + 1 &&
            stats.totalCost == before.totalCost + cost
  {
    CountReplaceAt(rs, after, i, HasStatus(Open));
    CountReplaceAt(rs, after, i, HasStatus(Completed));
    SumReplaceAt(rs, after, i, CompletedCost);
  }

  class MaintenanceStore {
    var requests: seq<Request>
    var vendors: seq<Vendor>
    var selectedRequestId: Option<string>

    constructor()
      ensures requests == [] && vendors == [] && selectedRequestId == None
    {
      requests := [];
      vendors := [];
      selectedRequestId := None;
    }

    method SetRequests(rs: seq<Request>)
      modifies this
      ensures requests == rs && vendors == old(vendors) && selectedRequestId == old(selectedRequestId)
    {
      requests := rs;
    }

    /** `addRequest`: appends. */
    method AddRequest(request: Request)
      modifies this
      ensures requests == old(requests) + [request]
      ensures vendors == old(vendors) && selectedRequestId == old(selectedRequestId)
    {
      requests := requests + [request];
    }

    /** `updateRequest`, `assignVendor`, `updateRequestStatus`,
        `scheduleRequest`, `completeRequest` and `addRequestNote` on the
        request with that id. */
    method ChangeRequest(id: string, change: Change, now: int)
      modifies this
      ensures requests == ChangeWhere(old(requests), id, change, old(vendors), now)
      ensures vendors == old(vendors) && selectedRequestId == old(selectedRequestId)
    {
      requests := ChangeWhere(requests, id, change, vendors, now);
    }

    /** `deleteRequest`: every request with that id goes, and the selection
        is cleared only if it was that request. */
    method DeleteRequest(id: string)
      modifies this
      ensures requests == Filter(old(requests), (r: Request) => r.id != id)
      ensures GetRequest(requests, id).None?
      ensures selectedRequestId == if old(selectedRequestId) == Some(id) then None else old(selectedRequestId)
      ensures vendors == old(vendors)
    {
      requests := Filter(requests, (r: Request) => r.id != id);
      if selectedRequestId == Some(id) {
        selectedRequestId := None;
      }
    }

    /** `selectRequest`. */
    method SelectRequest(id: Option<string>)
      modifies this
      ensures selectedRequestId == id && requests == old(requests) && vendors == old(vendors)
    {
      selectedRequestId := id;
    }

    method SetVendors(vs: seq<Vendor>)
      modifies this
      ensures vendors == vs && requests == old(requests) && selectedRequestId == old(selectedRequestId)
    {
      vendors := vs;
    }

    /** `addVendor`: appends. */
    method AddVendor(vendor: Vendor)
      modifies this
      ensures vendors == old(vendors) + [vendor]
      ensures requests == old(requests) && selectedRequestId == old(selectedRequestId)
    {
      vendors := vendors + [vendor];
    }

    /** `updateVendor`: the patch over the vendors with that id. Requests
        keep the vendor copy they were assigned. */
    method UpdateVendor(id: string, patch: VendorPatch)
      modifies this
      ensures |vendors| == |old(vendors)|
      ensures forall i :: 0 <= i < |vendors| ==>
                vendors[i] == if old(vendors)[i].id == id then MergeVendor(old(vendors)[i], patch) else old(vendors)[i]
      ensures requests == old(requests) && selectedRequestId == old(selectedRequestId)
    {
      var vs := vendors;
      vendors := seq(|vs|, i requires 0 <= i < |vs| => if vs[i].id == id then MergeVendor(vs[i], patch) else vs[i]);
    }

    /** `deleteVendor`: the vendor goes from the list; requests keep their
        copy. */
    method DeleteVendor(id: string)
      modifies this
      ensures vendors == Filter(old(vendors), (v: Vendor) => v.id != id)
      ensures GetVendor(vendors, id).None?
      ensures requests == old(requests) && selectedRequestId == old(selectedRequestId)
    {
      vendors := Filter(vendors, (v: Vendor) => v.id != id);
    }
  }
}

=== FILE: notes.dfy ===
/** The note record attached to tenants and maintenance requests
    (`Note` in src/types/index.ts). */
module Notes {
  datatype Note = Note(id: string, content: string, authorId: string, createdAt: int, isPrivate: bool)
}

=== FILE: photo_gallery.dfy ===
/** The cross-event photo browser (src/pages/PhotoGallery.tsx): every photo
    of the chosen year and property, with its local rating and tags,
    filtered by tag and sorted. */
module PhotoGallery {
  import opened Wrappers
  import opened Seqs
  import opened Sorting
  import opened EventData
  import RatingStore
  import TagStore

  /** A photo of the browser with the event it belongs to. */
  datatype GalleryPhoto = GalleryPhoto(photo: EventPhoto, event: PropertyEvent, rating: Option<int>, tags: seq<string>)

  /** The browser's `sortBy`. */
  datatype GallerySort = Newest | RatingHigh | RatingLow | MostTagged

  /** `selectedYear !== 0 && yearData.year !== selectedYear` fails: year 0
      stands for every year. */
  predicate YearPasses(selectedYear: int, year: int) {
    selectedYear == 0 || year == selectedYear
  }

  /** The property filter: `all` stands for every property. */
  predicate PropertyPasses(selectedProperty: string, event: PropertyEvent) {
    selectedProperty == "all" || event.propertyId == selectedProperty
  }

  /** The record pushed for one photo: `rating?.rating` and
      `tags?.tags || []` from the local stores. */
  function GalleryMeta(photo: EventPhoto, event: PropertyEvent, ratings: map<string, RatingStore.PhotoRating>,
                       photoTags: map<string, TagStore.PhotoTag>): (r: GalleryPhoto)
    ensures r.photo == photo && r.event == event
    ensures r.rating.Some? <==> RatingStore.GetPhotoRating(ratings, photo.id).Some?
    ensures photo.id in ratings ==> r.rating == Some(ratings[photo.id].rating)
    ensures TagStore.GetPhotoTags(photoTags, photo.id).Some? ==> r.tags == photoTags[photo.id].tags
    ensures TagStore.GetPhotoTags(photoTags, photo.id).None? ==> r.tags == []
  {
    var rating := RatingStore.GetPhotoRating(ratings, photo.id);
    var tags := TagStore.GetPhotoTags(photoTags, photo.id);
    GalleryPhoto(photo, event,
                 if rating.Some? then Some(rating.value.rating) else None,
                 if tags.Some? then tags.value.tags else [])
  }

  /** The records one event contributes, in photo order. */
  function EventMetas(event: PropertyEvent, ratings: map<string, RatingStore.PhotoRating>,
                      photoTags: map<string, TagStore.PhotoTag>): (r: seq<GalleryPhoto>)
    ensures |r| == |event.photos|
    ensures forall k :: 0 <= k < |r| ==> r[k] == GalleryMeta(event.photos[k], event, ratings, photoTags)
  {
    seq(|event.photos|, k requires 0 <= k < |event.photos| => GalleryMeta(event.photos[k], event, ratings, photoTags))
  }

  /** The records of the passing events among `events`, in order. */
  function EventsMetas(events: seq<PropertyEvent>, selectedProperty: string,
                       ratings: map<string, RatingStore.PhotoRating>,
                       photoTags: map<string, TagStore.PhotoTag>): seq<GalleryPhoto>
  {
    if events == [] then []
    else
      var last := events[|events| - 1];
      EventsMetas(events[..|events| - 1], selectedProperty, ratings, photoTags) +
      (if PropertyPasses(selectedProperty, last) then EventMetas(last, ratings, photoTags) else [])
  }

  /** The records of the passing years among `years`, in order. */
  function YearsMetas(years: seq<EventYear>, selectedYear: int, selectedProperty: string,
                      ratings: map<string, RatingStore.PhotoRating>,
                      photoTags: map<string, TagStore.PhotoTag>): seq<GalleryPhoto>
  {
    if years == [] then []
    else
      var last := years[|years| - 1];
      YearsMetas(years[..|years| - 1], selectedYear, selectedProperty, ratings, photoTags) +
      (if YearPasses(selectedYear, last.year) then EventsMetas(last.events, selectedProperty, ratings, photoTags) else [])
  }

  /** A record comes from a passing event, and every photo of a passing
      event has its record. */
  lemma {:induction false} EventsMetasMembers(events: seq<PropertyEvent>, selectedProperty: string,
                                              ratings: map<string, RatingStore.PhotoRating>,
                                              photoTags: map<string, TagStore.PhotoTag>)
    ensures forall g :: g in EventsMetas(events, selectedProperty, ratings, photoTags) ==>
              g.event in events && PropertyPasses(selectedProperty, g.event) && g.photo in g.event.photos &&
              g == GalleryMeta(g.photo, g.event, ratings, photoTags)
    ensures forall e, k :: e in events && PropertyPasses(selectedProperty, e) && 0 <= k < |e.photos| ==>
              GalleryMeta(e.photos[k], e, ratings, photoTags) in EventsMetas(events, selectedProperty, ratings, photoTags)
  {
    if events != [] {
      var init, last := events[..|events| - 1], events[|events| - 1];
      EventsMetasMembers(init, selectedProperty, ratings, photoTags);
      EventMetasMembers(last, ratings, photoTags);
      assert forall e :: e in events ==> e in init || e == last;
    }
  }

  /** The records of one event are its photos, each joined with its rating and tags. */
  lemma EventMetasMembers(event: PropertyEvent, ratings: map<string, RatingStore.PhotoRating>,
                          photoTags: map<string, TagStore.PhotoTag>)
    ensures forall g :: g in EventMetas(event, ratings, photoTags) ==>
              g.event == event && g.photo in event.photos && g == GalleryMeta(g.photo, g.event, ratings, photoTags)
    ensures forall k :: 0 <= k < |event.photos| ==>
              GalleryMeta(event.photos[k], event, ratings, photoTags) in EventMetas(event, ratings, photoTags)
  {
    var r := EventMetas(event, ratings, photoTags);
    forall g | g in r
      ensures g.event == event && g.photo in event.photos && g == GalleryMeta(g.photo, g.event, ratings, photoTags)
    {
      var k :| 0 <= k < |r| && r[k] == g;
    }
  }

  /** `allPhotosWithMeta` holds exactly the photos of the events that pass
      the property filter inside the years that pass the year filter, each
      joined with its rating and tags. */
  lemma {:induction false} YearsMetasMembers(years: seq<EventYear>, selectedYear: int, selectedProperty: string,
                                             ratings: map<string, RatingStore.PhotoRating>,
                                             photoTags: map<string, TagStore.PhotoTag>)
    ensures forall g :: g in YearsMetas(years, selectedYear, selectedProperty, ratings, photoTags) ==>
              (exists y :: y in years && YearPasses(selectedYear, y.year) && g.event in y.events) &&
              PropertyPasses(selectedProperty, g.event) && g.photo in g.event.photos &&
              g == GalleryMeta(g.photo, g.event, ratings, photoTags)
    ensures forall y, e, k :: (y in years && YearPasses(selectedYear, y.year) && e in y.events &&
                               PropertyPasses(selectedProperty, e) && 0 <= k < |e.photos|) ==>
              GalleryMeta(e.photos[k], e, ratings, photoTags) in YearsMetas(years, selectedYear, selectedProperty, ratings, photoTags)
  {
    if years != [] {
      var init := years[..|years| - 1];
      var last := years[|years| - 1];
      YearsMetasMembers(init, selectedYear, selectedProperty, ratings, photoTags);
      EventsMetasMembers(last.events, selectedProperty, ratings, photoTags);
      assert forall y :: y in years ==> y in init || y == last;
    }
  }

  /** The photos of one event, pushed one by one. */
  method PushEvent(photos: seq<GalleryPhoto>, event: PropertyEvent, ratings: map<string, RatingStore.PhotoRating>,
                   photoTags: map<string, TagStore.PhotoTag>) returns (r: seq<GalleryPhoto>)
    ensures r == photos + EventMetas(event, ratings, photoTags)
  {
    r := photos;
    for k := 0 to |event.photos|
      invariant r == photos + EventMetas(event, ratings, photoTags)[..k]
    {
      assert EventMetas(event, ratings, photoTags)[..k + 1] == EventMetas(event, ratings, photoTags)[..k] + [GalleryMeta(event.photos[k], event, ratings, photoTags)];
      r := r + [GalleryMeta(event.photos[k], event, ratings, photoTags)];
    }
    assert EventMetas(event, ratings, photoTags)[..|event.photos|] == EventMetas(event, ratings, photoTags);
  }

  /** The events of one year, each pushed when it passes the property
      filter. */
  method PushYear(photos: seq<GalleryPhoto>, events: seq<PropertyEvent>, selectedProperty: string,
                  ratings: map<string, RatingStore.PhotoRating>,
                  photoTags: map<string, TagStore.PhotoTag>) returns (r: seq<GalleryPhoto>)
    ensures r == photos + EventsMetas(events, selectedProperty, ratings, photoTags)
  {
    r := photos;
    for j := 0 to |events|
      invariant r == photos + EventsMetas(events[..j], selectedProperty, ratings, photoTags)
    {
      assert events[..j + 1][..j] == events[..j];
      ghost var before := EventsMetas(events[..j], selectedProperty, ratings, photoTags);
      if PropertyPasses(selectedProperty, events[j]) {
        r := PushEvent(r, events[j], ratings, photoTags);
        AppendAssoc(photos, before, EventMetas(events[j], ratings, photoTags));
      } else {
        assert before + [] == before;
      }
    }
    assert events[..|events|] == events;
  }

  /** `allPhotosWithMeta`: the nested `forEach` over years, events and
      photos. */
  method AllPhotosWithMeta(years: seq<EventYear>, selectedYear: int, selectedProperty: string,
                           ratings: map<string, RatingStore.PhotoRating>,
                           photoTags: map<string, TagStore.PhotoTag>) returns (photos: seq<GalleryPhoto>)
    ensures photos == YearsMetas(years, selectedYear, selectedProperty, ratings, photoTags)
  {
    photos := [];
    for i := 0 to |years|
      invariant photos == YearsMetas(years[..i], selectedYear, selectedProperty, ratings, photoTags)
    {
      assert years[..i + 1][..i] == years[..i];
      ghost var before := YearsMetas(years[..i], selectedYear, selectedProperty, ratings, photoTags);
      if YearPasses(selectedYear, years[i].year) {
        photos := PushYear(photos, years[i].events, selectedProperty, ratings, photoTags);
      } else {
        assert before + [] == before;
      }
    }
    assert years[..|years|] == years;
  }

  /** `p.tags?.includes(selectedTag)`. */
  function Carries(tag: string): GalleryPhoto -> bool {
    (g: GalleryPhoto) => tag in g.tags
  }

  /** `filteredPhotos`: `all` lets every photo through, any other tag keeps
      the photos carrying it, in their order. */
  function FilteredPhotos(all: seq<GalleryPhoto>, selectedTag: string): (r: seq<GalleryPhoto>)
    ensures SubseqOf(r, all)
    ensures selectedTag == "all" ==> r == all
    ensures selectedTag != "all" ==> forall g :: g in r <==> g in all && selectedTag in g.tags
  {
    if selectedTag == "all" then
      SubseqRefl(all);
      all
    else
      FilterIsSubseq(all, Carries(selectedTag));
      Filter(all, Carries(selectedTag))
  }

  /** `s.reverse()`. */
  function Reversed<T>(s: seq<T>): (r: seq<T>)
    ensures |r| == |s|
    ensures forall i :: 0 <= i < |s| ==> r[i] == s[|s| - 1 - i]
  {
    if s == [] then [] else Reversed(s[1..]) + [s[0]]
  }

  /** Reversing twice gives the list back. */
  lemma ReversedTwice<T>(s: seq<T>)
    ensures Reversed(Reversed(s)) == s
  {
  }

  function RatingOrZero(rating: Option<int>): int {
    if rating.Some? then rating.value else 0
  }

  /** The stable-sort key of each rating or tag order (descending orders
      negate). */
  function GalleryKey(sortBy: GallerySort): GalleryPhoto -> int {
    match sortBy
    case RatingHigh => (g: GalleryPhoto) => -RatingOrZero(g.rating)
    case RatingLow => (g: GalleryPhoto) => RatingOrZero(g.rating)
    case MostTagged => (g: GalleryPhoto) => -|g.tags|
    case Newest => (g: GalleryPhoto) => 0
  }

  /** `sortedPhotos`: `newest` is the filtered list back to front; the other
      orders are stable sorts of it, missing ratings counting as 0. */
  function SortedPhotos(filtered: seq<GalleryPhoto>, sortBy: GallerySort): (r: seq<GalleryPhoto>)
    ensures |r| == |filtered| && multiset(r) == multiset(filtered)
    ensures sortBy == Newest ==> forall i :: 0 <= i < |r| ==> r[i] == filtered[|filtered| - 1 - i]
    ensures sortBy != Newest ==> StableSortOf(r, filtered, GalleryKey(sortBy))
    ensures sortBy == RatingHigh ==>
              forall i, j :: 0 <= i < j < |r| ==> RatingOrZero(r[i].rating) >= RatingOrZero(r[j].rating)
    ensures sortBy == RatingLow ==>
              forall i, j :: 0 <= i < j < |r| ==> RatingOrZero(r[i].rating) <= RatingOrZero(r[j].rating)
    ensures sortBy == MostTagged ==> forall i, j :: 0 <= i < j < |r| ==> |r[i].tags| >= |r[j].tags|
  {
    if sortBy == Newest then
      ReversedMultiset(filtered);
      Reversed(filtered)
    else
      var r := SortBy(filtered, GalleryKey(sortBy));
      assert forall i, j :: 0 <= i < j < |r| ==> GalleryKey(sortBy)(r[i]) <= GalleryKey(sortBy)(r[j]);
      r
  }

  lemma {:induction false} ReversedMultiset<T>(s: seq<T>)
    ensures multiset(Reversed(s)) == multiset(s)
  {
    if s != [] {
      ReversedMultiset(s[1..]);
      assert s == [s[0]] + s[1..];
    }
  }

  /** The tag lists of the browser's photos. */
  function GalleryTagLists(ps: seq<GalleryPhoto>): (r: seq<seq<string>>)
    ensures |r| == |ps| && forall i :: 0 <= i < |ps| ==> r[i] == ps[i].tags
  {
    seq(|ps|, i requires 0 <= i < |ps| => ps[i].tags)
  }

  /** `tagCounts`: the occurrences of each tag over the year- and
      property-filtered photos, before the tag filter. */
  method TagCounts(all: seq<GalleryPhoto>) returns (counts: map<string, nat>)
    ensures counts == TagStore.CountMap(Flatten(GalleryTagLists(all)))
    ensures forall t :: t in counts <==> exists i :: 0 <= i < |all| && t in all[i].tags
  {
    var order;
    counts, order := TagStore.CountTags(GalleryTagLists(all));
    forall t ensures t in counts <==> exists i :: 0 <= i < |all| && t in all[i].tags {
      FlattenMember(GalleryTagLists(all), t);
    }
  }

  /** Because the counts are taken before the tag filter, every tag they
      offer selects at least one photo, and a tag they do not offer selects
      none. */
  lemma CountedTagSelects(all: seq<GalleryPhoto>, tag: string)
    requires tag != "all"
    ensures tag in TagStore.CountMap(Flatten(GalleryTagLists(all))) <==> FilteredPhotos(all, tag) != []
  {
    FlattenMember(GalleryTagLists(all), tag);
    if tag in TagStore.CountMap(Flatten(GalleryTagLists(all))) {
      var i :| 0 <= i < |GalleryTagLists(all)| && tag in GalleryTagLists(all)[i];
      assert all[i] in FilteredPhotos(all, tag);
    }
  }

  /** The photo list of the event `handlePhotoClick` opens: the sorted
      photos with `order` renumbered to their position. */
  function Renumbered(sorted: seq<GalleryPhoto>): (r: seq<EventPhoto>)
    ensures |r| == |sorted|
    ensures forall i :: 0 <= i < |r| ==> r[i] == sorted[i].photo.(order := i)
  {
    seq(|sorted|, i requires 0 <= i < |sorted| => sorted[i].photo.(order := i))
  }

  /** `handlePhotoClick(photo, index)`: the event opened in the lightbox,
      which carries the clicked photo's event details and the renumbered
      list, and the index to open at. */
  function PhotoClick(sorted: seq<GalleryPhoto>, photo: GalleryPhoto, index: int): (r: (PropertyEvent, int))
    ensures r.0 == photo.event.(photos := Renumbered(sorted))
    ensures r.1 == index
  {
    (photo.event.(photos := Renumbered(sorted)), index)
  }

  /** Clicking the photo shown at `index` opens a list whose entry at that
      index is the clicked photo, numbered by its position; apart from the
      numbers it is the sorted list's photos. */
  lemma ClickOpensClickedPhoto(sorted: seq<GalleryPhoto>, index: int)
    requires 0 <= index < |sorted|
    ensures PhotoClick(sorted, sorted[index], index).0.photos[index] == sorted[index].photo.(order := index)
    ensures forall i :: 0 <= i < |sorted| ==>
              PhotoClick(sorted, sorted[index], index).0.photos[i].id == sorted[i].photo.id &&
              PhotoClick(sorted, sorted[index], index).0.photos[i].order == i
  {
  }
}

=== FILE: property_store.dfy ===
/** The property store (src/stores/propertyStore.ts): properties with their
    units, whose unit counters and rent roll are recomputed when a unit
    changes, and the selected property. */
module PropertyStore {
  import opened Wrappers
  import opened Seqs
  import opened Strings

  datatype UnitStatus = Available | Occupied | Maintenance | Reserved | Renovation

  /** The fields of a unit the store reads or writes. */
  datatype Unit = Unit(id: string, unitNumber: string, rentAmount: int, status: UnitStatus)

  /** A `Partial<Unit>`. */
  datatype UnitPatch = UnitPatch(id: Option<string>, unitNumber: Option<string>, rentAmount: Option<int>,
                                 status: Option<UnitStatus>)

  datatype Address = Address(street: string, city: string, state: string, zipCode: string)

  /** The fields of a property the store reads or writes (the occupancy
      rate, a fraction, is not kept). */
  datatype Property = Property(id: string, name: string, address: Address, units: seq<Unit>,
                               totalUnits: int, occupiedUnits: int, monthlyRevenue: int, updatedAt: int)

  /** A `Partial<Property>`. */
  datatype PropertyPatch = PropertyPatch(id: Option<string>, name: Option<string>, address: Option<Address>, units: Option<seq<Unit>>,
                                         totalUnits: Option<int>, occupiedUnits: Option<int>,
                                         monthlyRevenue: Option<int>)

  function IsOccupied(): Unit -> bool {
    (u: Unit) => u.status == Occupied
  }

  function IsAvailable(): Unit -> bool {
    (u: Unit) => u.status == Available
  }

  function Rent(u: Unit): int {
    u.rentAmount
  }

  /** `units.filter(u => u.status === 'occupied').length`. */
  function OccupiedCount(units: seq<Unit>): (r: nat)
    ensures r <= |units|
  {
    Count(units, IsOccupied())
  }

  /** The rent of the occupied units. */
  function OccupiedRent(units: seq<Unit>): int {
    Sum(Filter(units, IsOccupied()), Rent)
  }

  /** A property whose counters agree with its units. */
  predicate CountersAgree(p: Property) {
    p.totalUnits == |p.units| && p.occupiedUnits == OccupiedCount(p.units)
  }

  /** `{ ...u, ...updates }`. */
  function MergeUnit(u: Unit, patch: UnitPatch): Unit {
    Unit(patch.id.GetOr(u.id), patch.unitNumber.GetOr(u.unitNumber), patch.rentAmount.GetOr(u.rentAmount),
         patch.status.GetOr(u.status))
  }

  /** `updateProperty`'s record: the patch over the property, stamped now.
      Its counters are taken from the patch as given. */
  function PatchedProperty(p: Property, patch: PropertyPatch, now: int): (r: Property)
    ensures r.id == patch.id.GetOr(p.id) && r.updatedAt == now
    ensures r.name == patch.name.GetOr(p.name) && r.address == patch.address.GetOr(p.address)
    ensures r.units == patch.units.GetOr(p.units) && r.totalUnits == patch.totalUnits.GetOr(p.totalUnits)
    ensures r.occupiedUnits == patch.occupiedUnits.GetOr(p.occupiedUnits)
    ensures r.monthlyRevenue == patch.monthlyRevenue.GetOr(p.monthlyRevenue)
    ensures patch == PropertyPatch(None, None, None, None, None, None, None) ==> r == p.(updatedAt := now)
  {
    p.(id := patch.id.GetOr(p.id), name := patch.name.GetOr(p.name), address := patch.address.GetOr(p.address),
       units := patch.units.GetOr(p.units), totalUnits := patch.totalUnits.GetOr(p.totalUnits),
       occupiedUnits := patch.occupiedUnits.GetOr(p.occupiedUnits),
       monthlyRevenue := patch.monthlyRevenue.GetOr(p.monthlyRevenue), updatedAt := now)
  }

  /** `addUnit`'s record: the unit appended, one more unit counted, the
      occupied count recomputed. */
  function WithUnitAdded(p: Property, unit: Unit, now: int): (r: Property)
    ensures r.units == p.units + [unit] && r.totalUnits == p.totalUnits + 1
    ensures r.occupiedUnits == OccupiedCount(p.units) + (if unit.status == Occupied then 1 else 0)
    ensures r.monthlyRevenue == p.monthlyRevenue && r.id == p.id
  {
    var added := p.(units := p.units + [unit], totalUnits := p.totalUnits + 1, updatedAt := now);
    FilterAppend(p.units, [unit], IsOccupied());
    added.(occupiedUnits := OccupiedCount(added.units))
  }

  /** `units.map(u => u.id === unitId ? change(u) : u)`. */
  function MapUnits(units: seq<Unit>, unitId: string, patch: UnitPatch): (r: seq<Unit>)
    ensures |r| == |units|
    ensures forall i :: 0 <= i < |units| ==> r[i] == if units[i].id == unitId then MergeUnit(units[i], patch) else units[i]
  {
    seq(|units|, i requires 0 <= i < |units| => if units[i].id == unitId then MergeUnit(units[i], patch) else units[i])
  }

  /** `updateUnit`'s record: the unit patched, the occupied count
      recomputed, the unit total and the rent roll left as they were. */
  function WithUnitUpdated(p: Property, unitId: string, patch: UnitPatch, now: int): (r: Property)
    ensures r.units == MapUnits(p.units, unitId, patch) && r.occupiedUnits == OccupiedCount(r.units)
    ensures r.totalUnits == p.totalUnits && r.monthlyRevenue == p.monthlyRevenue && r.id == p.id
  {
    var units := MapUnits(p.units, unitId, patch);
    p.(units := units, occupiedUnits := OccupiedCount(units), updatedAt := now)
  }

  function IdIsNot(unitId: string): Unit -> bool {
    (u: Unit) => u.id != unitId
  }

  /** `deleteUnit`'s record: every unit with that id removed and both
      counters recomputed from the remaining units. */
  function WithUnitDeleted(p: Property, unitId: string, now: int): (r: Property)
    ensures CountersAgree(r)
    ensures forall u :: u in r.units <==> u in p.units && u.id != unitId
    ensures r.monthlyRevenue == p.monthlyRevenue && r.id == p.id
  {
    var units := Filter(p.units, IdIsNot(unitId));
    p.(units := units, totalUnits := |units|, occupiedUnits := OccupiedCount(units), updatedAt := now)
  }

  /** `updateUnitStatus`'s record: the unit's status set, the occupied count
      and the rent roll recomputed. */
  function WithUnitStatus(p: Property, unitId: string, status: UnitStatus, now: int): (r: Property)
    ensures r.units == MapUnits(p.units, unitId, UnitPatch(None, None, None, Some(status)))
    ensures r.occupiedUnits == OccupiedCount(r.units) && r.monthlyRevenue == OccupiedRent(r.units)
    ensures r.totalUnits == p.totalUnits && r.id == p.id
  {
    var units := MapUnits(p.units, unitId, UnitPatch(None, None, None, Some(status)));
    p.(units := units, occupiedUnits := OccupiedCount(units), monthlyRevenue := OccupiedRent(units), updatedAt := now)
  }

  /** The unit operations and `updateProperty`, each applied to the
      property with the given id. */
  datatype Change =
    | PatchProperty(patch: PropertyPatch)
    | AddUnit(unit: Unit)
    | UpdateUnit(unitId: string, unitPatch: UnitPatch)
    | DeleteUnit(deletedId: string)
    | SetUnitStatus(statusUnitId: string, status: UnitStatus)

  /** Only a patch that names an id changes the property's id. */
  function ApplyChange(p: Property, c: Change, now: int): (r: Property)
    ensures (c.PatchProperty? && c.patch.id.Some?) || r.id == p.id
    ensures c.PatchProperty? ==> r == PatchedProperty(p, c.patch, now)
  {
    match c
    case PatchProperty(patch) => PatchedProperty(p, patch, now)
    case AddUnit(unit) => WithUnitAdded(p, unit, now)
    case UpdateUnit(unitId, patch) => WithUnitUpdated(p, unitId, patch, now)
    case DeleteUnit(unitId) => WithUnitDeleted(p, unitId, now)
    case SetUnitStatus(unitId, status) => WithUnitStatus(p, unitId, status, now)
  }

  /** `properties.map(p => p.id === id ? change(p) : p)`. */
  function ChangeWhere(ps: seq<Property>, id: string, c: Change, now: int): (r: seq<Property>)
    ensures |r| == |ps|
    ensures forall i :: 0 <= i < |ps| ==> r[i] == if ps[i].id == id then ApplyChange(ps[i], c, now) else ps[i]
  {
    seq(|ps|, i requires 0 <= i < |ps| => if ps[i].id == id then ApplyChange(ps[i], c, now) else ps[i])
  }

  /** Every unit operation keeps a property's counters in agreement with its
      units (`deleteUnit` even restores it); a property patch may break
      it. */
  lemma UnitChangeKeepsCounters(p: Property, c: Change, now: int)
    requires CountersAgree(p) && !c.PatchProperty?
    ensures CountersAgree(ApplyChange(p, c, now))
  {
  }

  /** A patch that sets the counters by hand breaks the agreement. */
  lemma PatchCanBreakCounters(p: Property, now: int)
    requires CountersAgree(p)
    ensures !CountersAgree(ApplyChange(p, PatchProperty(PropertyPatch(None, None, None, None, Some(|p.units| + 1), None, None)), now))
  {
  }

  /** `updateUnit` leaves the rent roll as it was, so after it changes a
      unit's status the roll need not be the occupied units' rent, which
      `updateUnitStatus` would have made it. */
  lemma UpdateUnitLeavesRevenue(unit: Unit, now: int)
    requires unit.status == Available && unit.rentAmount > 0
    ensures var p := Property("p", "", Address("", "", "", ""), [unit], 1, 0, 0, now);
            var patch := UnitPatch(None, None, None, Some(Occupied));
            WithUnitUpdated(p, unit.id, patch, now).monthlyRevenue == 0 &&
            WithUnitStatus(p, unit.id, Occupied, now).monthlyRevenue == unit.rentAmount
  {
    var p := Property("p", "", Address("", "", "", ""), [unit], 1, 0, 0, now);
    var units := MapUnits(p.units, unit.id, UnitPatch(None, None, None, Some(Occupied)));
    assert units == [unit.(status := Occupied)];
    assert Filter(units, IsOccupied()) == units;
    assert Sum(units, Rent) == unit.rentAmount + Sum(units[1..], Rent);
  }

  /** The store keeps every property's counters agreeing with its units. */
  predicate AllCountersAgree(ps: seq<Property>) {
    forall i :: 0 <= i < |ps| ==> CountersAgree(ps[i])
  }

  lemma UnitChangesKeepStore(ps: seq<Property>, id: string, c: Change, now: int)
    requires AllCountersAgree(ps) && !c.PatchProperty?
    ensures AllCountersAgree(ChangeWhere(ps, id, c, now))
  {
    forall i | 0 <= i < |ps| && ps[i].id == id
      ensures CountersAgree(ChangeWhere(ps, id, c, now)[i])
    {
      UnitChangeKeepsCounters(ps[i], c, now);
    }
  }

  /** `getProperty`: the first property with that id. */
  function GetProperty(ps: seq<Property>, id: string): (r: Option<Property>)
    ensures r.Some? ==> r.value in ps && r.value.id == id
    ensures r.None? <==> forall i :: 0 <= i < |ps| ==> ps[i].id != id
    ensures r.Some? ==> exists j :: 0 <= j < |ps| && ps[j] == r.value && forall k :: 0 <= k < j ==> ps[k].id != id
  {
    if ps == [] then None
    else if ps[0].id == id then Some(ps[0])
    else
      var r := GetProperty(ps[1..], id);
      assert forall j :: 1 <= j < |ps| ==> ps[j] == ps[1..][j - 1];
      r
  }

  /** `getSelectedProperty`: nothing when no (or an empty) id is selected. */
  function SelectedProperty(ps: seq<Property>, selected: Option<string>): (r: Option<Property>)
    ensures !Present(selected) ==> r.None?
    ensures r.Some? ==> r.value in ps && Some(r.value.id) == selected
    ensures Present(selected) ==> (r.None? <==> forall i :: 0 <= i < |ps| ==> ps[i].id != selected.value)
    ensures Present(selected) ==> r == GetProperty(ps, selected.value)
  {
    if Present(selected) then GetProperty(ps, selected.value) else None
  }

  /** `getUnit`: the first unit with that id in the first property with that
      id. */
  function GetUnit(ps: seq<Property>, propertyId: string, unitId: string): (r: Option<Unit>)
    ensures r.Some? ==> GetProperty(ps, propertyId).Some? && r.value in GetProperty(ps, propertyId).value.units &&
                        r.value.id == unitId
    ensures GetProperty(ps, propertyId).None? ==> r.None?
    ensures GetProperty(ps, propertyId).Some? ==>
              var units := GetProperty(ps, propertyId).value.units;
              r == FindUnit(units, unitId) && (r.None? <==> forall i :: 0 <= i < |units| ==> units[i].id != unitId)
  {
    match GetProperty(ps, propertyId)
    case None => None
    case Some(p) => FindUnit(p.units, unitId)
  }

  function FindUnit(units: seq<Unit>, unitId: string): (r: Option<Unit>)
    ensures r.Some? ==> r.value in units && r.value.id == unitId
    ensures r.None? <==> forall i :: 0 <= i < |units| ==> units[i].id != unitId
    ensures r.Some? ==> exists j :: 0 <= j < |units| && units[j] == r.value && forall k :: 0 <= k < j ==> units[k].id != unitId
  {
    if units == [] then None
    else if units[0].id == unitId then Some(units[0])
    else
      var r := FindUnit(units[1..], unitId);
      assert forall j :: 1 <= j < |units| ==> units[j] == units[1..][j - 1];
      r
  }

  /** The whole-number parts of `getPropertyStats`. */
  datatype PropertyStats = PropertyStats(totalUnits: int, occupiedUnits: int, availableUnits: int, monthlyRevenue: int)

  /** `getPropertyStats`: the stored counters and rent roll of the first
      property with that id, and how many of its units are available;
      nothing when no property has the id. */
  function GetPropertyStats(ps: seq<Property>, propertyId: string): (r: Option<PropertyStats>)
    ensures r.Some? <==> GetProperty(ps, propertyId).Some?
    ensures r.Some? ==> r.value.availableUnits <= |GetProperty(ps, propertyId).value.units|
    ensures r.Some? ==> var p := GetProperty(ps, propertyId).value;
              r.value.totalUnits == p.totalUnits && r.value.occupiedUnits == p.occupiedUnits &&
              r.value.monthlyRevenue == p.monthlyRevenue &&
              r.value.availableUnits == |set i | 0 <= i < |p.units| && p.units[i].status == Available|
    ensures r.Some? && CountersAgree(GetProperty(ps, propertyId).value) ==>
              r.value.occupiedUnits + r.value.availableUnits <= r.value.totalUnits
  {
    match GetProperty(ps, propertyId)
    case None => None
    case Some(p) =>
      AvailablePositions(p.units);
      StatsBounded(p.units);
      Some(PropertyStats(p.totalUnits, p.occupiedUnits, Count(p.units, IsAvailable()), p.monthlyRevenue))
  }

  lemma AvailablePositions(units: seq<Unit>)
    ensures Count(units, IsAvailable()) == |set i | 0 <= i < |units| && units[i].status == Available|
  {
    CountPositions(units, IsAvailable());
    assert Positions(units, IsAvailable()) == set i | 0 <= i < |units| && units[i].status == Available;
  }

  /** Occupied and available units together never outnumber the units. */
  lemma {:induction false} StatsBounded(units: seq<Unit>)
    ensures Count(units, IsOccupied()) + Count(units, IsAvailable()) <= |units|
  {
    if units != [] {
      StatsBounded(units[1..]);
    }
  }

  /** `searchProperties`: name, street or city contains the query, ignoring
      case. */
  predicate PropertyMatches(p: Property, query: string) {
    ContainsIgnoringCase(p.name, query) || ContainsIgnoringCase(p.address.street, query) ||
    ContainsIgnoringCase(p.address.city, query)
  }

  function Matching(query: string): Property -> bool {
    (p: Property) => PropertyMatches(p, query)
  }

  function SearchProperties(ps: seq<Property>, query: string): (r: seq<Property>)
    ensures SubseqOf(r, ps)
    ensures forall p :: p in r <==> p in ps && PropertyMatches(p, query)
  {
    FilterIsSubseq(ps, Matching(query));
    Filter(ps, Matching(query))
  }

  /** The empty query finds every property; a query and its lower-case form
      find the same ones. */
  lemma SearchIgnoresCase(ps: seq<Property>, query: string)
    ensures SearchProperties(ps, "") == ps
    ensures SearchProperties(ps, ToLower(query)) == SearchProperties(ps, query)
  {
    forall p | p in ps ensures Matching("")(p) {
      EmptyQueryFound(p.name);
    }
    FilterAll(ps, Matching(""));
    ToLowerIdempotent(query);
    FilterExt(ps, Matching(ToLower(query)), Matching(query));
  }

  class PropertyStore {
    var properties: seq<Property>
    var selectedPropertyId: Option<string>

    constructor()
      ensures properties == [] && selectedPropertyId == None
    {
      properties := [];
      selectedPropertyId := None;
    }

    method SetProperties(ps: seq<Property>)
      modifies this
      ensures properties == ps && selectedPropertyId == old(selectedPropertyId)
    {
      properties := ps;
    }

    /** `addProperty`: appends. */
    method AddProperty(property: Property)
      modifies this
      ensures properties == old(properties) + [property] && selectedPropertyId == old(selectedPropertyId)
    {
      properties := properties + [property];
    }

    /** `updateProperty`, `addUnit`, `updateUnit`, `deleteUnit` and
        `updateUnitStatus` on the property with that id. A unit operation
        keeps the store's counters in agreement with the units. */
    method ChangeProperty(id: string, change: Change, now: int)
      modifies this
      ensures properties == ChangeWhere(old(properties), id, change, now)
      ensures selectedPropertyId == old(selectedPropertyId)
      ensures old(AllCountersAgree(properties)) && !change.PatchProperty? ==> AllCountersAgree(properties)
    {
      if AllCountersAgree(properties) && !change.PatchProperty? {
        UnitChangesKeepStore(properties, id, change, now);
      }
      properties := ChangeWhere(properties, id, change, now);
    }

    /** `deleteProperty`: every property with that id goes, and the
        selection is cleared if it was that id. */
    method DeleteProperty(id: string)
      modifies this
      ensures properties == Filter(old(properties), (p: Property) => p.id != id)
      ensures GetProperty(properties, id).None?
      ensures selectedPropertyId == if old(selectedPropertyId) == Some(id) then None else old(selectedPropertyId)
    {
      properties := Filter(properties, (p: Property) => p.id != id);
      if selectedPropertyId == Some(id) {
        selectedPropertyId := None;
      }
    }

    /** `selectProperty`. */
    method SelectProperty(id: Option<string>)
      modifies this
      ensures selectedPropertyId == id && properties == old(properties)
    {
      selectedPropertyId := id;
    }
  }
}

=== FILE: public_gallery.dfy ===
/** The password-protected visitor gallery of one event
    (src/pages/PublicGallery.tsx): it shows only the photos marked public,
    and only after the gallery password was given. */
module PublicGallery {
  import opened Wrappers
  import opened Seqs
  import opened EventData
  import opened PublicStore

  /** `GALLERY_PASSWORD`. */
  const GalleryPassword: string := "solhem2025"

  /** The event lookup: `for (const yearData of eventsData)` with an early
      return of the first event whose id is the slug. */
  method LookupEvent(data: seq<EventYear>, eventSlug: string) returns (event: Option<PropertyEvent>)
    ensures event == GetEvent(data, eventSlug)
  {
    for i := 0 to |data|
      invariant GetEvent(data, eventSlug) == GetEvent(data[i..], eventSlug)
    {
      assert data[i..][1..] == data[i + 1..];
      var found := FindEvent(data[i].events, eventSlug);
      if found.Some? {
        return found;
      }
    }
    return None;
  }

  /** `getPublicPhotos(event.id).map(p => p.photoId)`. */
  function PhotoIds(records: seq<PublicPhoto>): (r: seq<string>)
    ensures |r| == |records| && forall i :: 0 <= i < |r| ==> r[i] == records[i].photoId
  {
    seq(|records|, i requires 0 <= i < |records| => records[i].photoId)
  }

  /** `photo => publicPhotoIds.includes(photo.id)`. */
  function Listed(ids: seq<string>): EventPhoto -> bool {
    (p: EventPhoto) => p.id in ids
  }

  /** `publicPhotos`: the event's photos, in event order, whose id belongs to
      one of the event's public records. */
  function PublicPhotos(m: map<string, PublicPhoto>, keys: seq<string>, event: PropertyEvent): (r: seq<EventPhoto>)
    requires Enumerates(keys, m)
    ensures SubseqOf(r, event.photos)
  {
    FilterIsSubseq(event.photos, Listed(PhotoIds(GetPublicPhotos(m, keys, Some(event.id)))));
    Filter(event.photos, Listed(PhotoIds(GetPublicPhotos(m, keys, Some(event.id)))))
  }

  /** A photo of the event is shown exactly when some public record of the
      event names it. */
  lemma PublicPhotosExact(m: map<string, PublicPhoto>, keys: seq<string>, event: PropertyEvent, p: EventPhoto)
    requires Enumerates(keys, m) && event.id != ""
    ensures p in PublicPhotos(m, keys, event) <==>
            p in event.photos && exists k :: k in m && m[k].eventId == event.id && m[k].photoId == p.id
  {
    var records := GetPublicPhotos(m, keys, Some(event.id));
    assert PublicPhotos(m, keys, event) == Filter(event.photos, Listed(PhotoIds(records)));
    FilterListed(event.photos, PhotoIds(records), p);
    if p.id in PhotoIds(records) {
      ListedHasRecord(m, records, event.id, p.id);
    }
    if exists k :: k in m && m[k].eventId == event.id && m[k].photoId == p.id {
      var k :| k in m && m[k].eventId == event.id && m[k].photoId == p.id;
      RecordIsListed(m, records, event.id, k);
    }
  }

  /** Keeping the listed photos keeps exactly the photos whose id is listed. */
  lemma FilterListed(photos: seq<EventPhoto>, ids: seq<string>, p: EventPhoto)
    ensures p in Filter(photos, Listed(ids)) <==> p in photos && p.id in ids
  {
    if p in photos && p.id in ids {
      var j :| 0 <= j < |photos| && photos[j] == p;
      assert Listed(ids)(photos[j]);
    }
  }

  /** An id listed from the event's records names a record of the event. */
  lemma ListedHasRecord(m: map<string, PublicPhoto>, records: seq<PublicPhoto>, eventId: string, id: string)
    requires forall i :: 0 <= i < |records| ==> records[i] in m.Values && records[i].eventId == eventId
    requires id in PhotoIds(records)
    ensures exists k :: k in m && m[k].eventId == eventId && m[k].photoId == id
  {
    var ids := PhotoIds(records);
    var i :| 0 <= i < |ids| && ids[i] == id;
    assert records[i] in m.Values;
    var k :| k in m && m[k] == records[i];
  }

  /** Every record of the event has its photo id listed. */
  lemma RecordIsListed(m: map<string, PublicPhoto>, records: seq<PublicPhoto>, eventId: string, k: string)
    requires forall k :: k in m && m[k].eventId == eventId ==> m[k] in records
    requires k in m && m[k].eventId == eventId
    ensures m[k].photoId in PhotoIds(records)
  {
    var i :| 0 <= i < |records| && records[i] == m[k];
    assert PhotoIds(records)[i] == m[k].photoId;
  }

  /** What the page renders. */
  datatype Screen = NotFound | ComingSoon | PasswordForm | Gallery(photos: seq<EventPhoto>)

  /** The page's early returns, in their order: an unknown slug, then a zero
      public count, then the password form, then the grid. */
  function Render(data: seq<EventYear>, eventSlug: string, m: map<string, PublicPhoto>, keys: seq<string>,
                  isAuthenticated: bool): Screen
    requires Enumerates(keys, m)
  {
    var event := GetEvent(data, eventSlug);
    if event.None? then NotFound
    else if GetPublicPhotoCount(m, keys, event.value.id) == 0 then ComingSoon
    else if !isAuthenticated then PasswordForm
    else Gallery(PublicPhotos(m, keys, event.value))
  }

  /** Photos are reachable only for a known event with public photos and an
      authenticated visitor, and then they are exactly the event's public
      photos; a zero count hides the gallery even from an authenticated
      visitor. */
  lemma RenderGates(data: seq<EventYear>, eventSlug: string, m: map<string, PublicPhoto>, keys: seq<string>,
                    isAuthenticated: bool)
    requires Enumerates(keys, m)
    ensures Render(data, eventSlug, m, keys, isAuthenticated).Gallery? <==>
            GetEvent(data, eventSlug).Some? && isAuthenticated &&
            (if eventSlug == "" then |m| > 0 else |EventPhotoIds(m, eventSlug)| > 0)
    ensures Render(data, eventSlug, m, keys, isAuthenticated).Gallery? ==>
            Render(data, eventSlug, m, keys, isAuthenticated).photos ==
            PublicPhotos(m, keys, GetEvent(data, eventSlug).value)
    ensures GetEvent(data, eventSlug).Some? && eventSlug != "" && |EventPhotoIds(m, eventSlug)| == 0 ==>
            Render(data, eventSlug, m, keys, isAuthenticated) == ComingSoon
  {
  }

  /** With no public record for the event, no photo is public either. */
  lemma ZeroCountNoPhotos(m: map<string, PublicPhoto>, keys: seq<string>, event: PropertyEvent)
    requires Enumerates(keys, m)
    requires GetPublicPhotoCount(m, keys, event.id) == 0
    ensures PublicPhotos(m, keys, event) == []
  {
    var ids := PhotoIds(GetPublicPhotos(m, keys, Some(event.id)));
    assert ids == [];
    FilterNone(event.photos, Listed(ids));
  }

  lemma {:induction false} FilterNone(s: seq<EventPhoto>, p: EventPhoto -> bool)
    requires forall x :: x in s ==> !p(x)
    ensures Filter(s, p) == []
  {
    if s != [] {
      FilterNone(s[1..], p);
    }
  }

  /** The page's own state. */
  class PublicGallery {
    var isAuthenticated: bool
    var password: string
    var passwordError: bool
    var selectedPhotoIndex: int
    var showLightbox: bool

    constructor()
      ensures !isAuthenticated && password == "" && !passwordError
      ensures selectedPhotoIndex == 0 && !showLightbox
    {
      isAuthenticated := false;
      password := "";
      passwordError := false;
      selectedPhotoIndex := 0;
      showLightbox := false;
    }

    /** `handlePasswordSubmit`: the right password authenticates and clears
        the error; a wrong one raises the error and empties the field,
        leaving authentication as it was. */
    method HandlePasswordSubmit()
      modifies this
      ensures old(password) == GalleryPassword ==>
                isAuthenticated && !passwordError && password == old(password)
      ensures old(password) != GalleryPassword ==>
                passwordError && password == "" && isAuthenticated == old(isAuthenticated)
      ensures selectedPhotoIndex == old(selectedPhotoIndex) && showLightbox == old(showLightbox)
    {
      if password == GalleryPassword {
        isAuthenticated := true;
        passwordError := false;
      } else {
        passwordError := true;
        password := "";
      }
    }

    /** `handlePhotoClick(index)`. */
    method HandlePhotoClick(index: int)
      modifies this
      ensures selectedPhotoIndex == index && showLightbox
      ensures isAuthenticated == old(isAuthenticated) && password == old(password)
      ensures passwordError == old(passwordError)
    {
      selectedPhotoIndex := index;
      showLightbox := true;
    }

    /** Closing the lightbox returns the index to 0. */
    method CloseLightbox()
      modifies this
      ensures selectedPhotoIndex == 0 && !showLightbox
      ensures isAuthenticated == old(isAuthenticated) && password == old(password)
      ensures passwordError == old(passwordError)
    {
      showLightbox := false;
      selectedPhotoIndex := 0;
    }
  }
}

=== FILE: public_store.dfy ===
/** The local public-photo store (src/stores/publicStore.ts): a map from
    photo id to the record saying the photo is shown in the public gallery. */
module PublicStore {
  import opened Wrappers
  import opened Seqs

  /** `addedBy` is never written by the store's own actions. */
  datatype PublicPhoto = PublicPhoto(photoId: string, eventId: string, addedAt: string,
                                     addedBy: Option<string>)

  /** A parsed export document `{version, exportDate, publicPhotos}`. */
  datatype PublicDoc = PublicDoc(version: Option<string>, exportDate: Option<string>,
                                 publicPhotos: Option<map<string, PublicPhoto>>)

  /** The map after `addToPublic`: the photo's record is replaced by one with
      a fresh `addedAt`. */
  function Added(m: map<string, PublicPhoto>, photoId: string, eventId: string, now: string)
    : (r: map<string, PublicPhoto>)
    ensures IsPhotoPublic(r, photoId)
    ensures r[photoId] == PublicPhoto(photoId, eventId, now, None)
    ensures r.Keys == m.Keys + {photoId}
    ensures forall k :: k in m && k != photoId ==> r[k] == m[k]
  {
    m[photoId := PublicPhoto(photoId, eventId, now, None)]
  }

  /** The map after `removeFromPublic`: the key is gone, nothing else changes. */
  function Removed(m: map<string, PublicPhoto>, photoId: string): (r: map<string, PublicPhoto>)
    ensures !IsPhotoPublic(r, photoId)
    ensures r.Keys == m.Keys - {photoId}
    ensures forall k :: k in r ==> r[k] == m[k]
    ensures photoId !in m ==> r == m
  {
    m - {photoId}
  }

  /** `isPhotoPublic`: a record is present. */
  predicate IsPhotoPublic(m: map<string, PublicPhoto>, photoId: string) {
    photoId in m
  }

  /** The ids of the public photos of an event. */
  ghost function EventPhotoIds(m: map<string, PublicPhoto>, eventId: string): set<string> {
    set k | k in m && m[k].eventId == eventId
  }

  /** `p => p.eventId === eventId`, as a test on keys. */
  function InEvent(m: map<string, PublicPhoto>, eventId: string): string -> bool {
    k => k in m && m[k].eventId == eventId
  }

  /** `getPublicPhotos(eventId)`: the records of the event, or every record
      when the event id is missing or empty. */
  function GetPublicPhotos(m: map<string, PublicPhoto>, keys: seq<string>, eventId: Option<string>)
    : (r: seq<PublicPhoto>)
    requires Enumerates(keys, m)
    ensures !Present(eventId) ==> |r| == |m|
    ensures Present(eventId) ==> |r| == |EventPhotoIds(m, eventId.value)|
    ensures forall i :: 0 <= i < |r| ==> r[i] in m.Values
    ensures Present(eventId) ==> forall i :: 0 <= i < |r| ==> r[i].eventId == eventId.value
    ensures forall k :: k in m && (!Present(eventId) || m[k].eventId == eventId.value) ==> m[k] in r
  {
    if Present(eventId) then
      EventFacts(m, keys, eventId.value);
      Values(m, Filter(keys, InEvent(m, eventId.value)))
    else
      ValuesOfEnumeration(m, keys);
      Values(m, keys)
  }

  lemma EventFacts(m: map<string, PublicPhoto>, keys: seq<string>, eventId: string)
    requires Enumerates(keys, m)
    ensures |Filter(keys, InEvent(m, eventId))| == |EventPhotoIds(m, eventId)|
    ensures forall k :: k in m && m[k].eventId == eventId ==>
              m[k] in Values(m, Filter(keys, InEvent(m, eventId)))
  {
    FilterDistinctCard(keys, InEvent(m, eventId));
    assert Kept(keys, InEvent(m, eventId)) == EventPhotoIds(m, eventId);
    var ks := Filter(keys, InEvent(m, eventId));
    var r := Values(m, ks);
    KeptValues(m, keys, InEvent(m, eventId));
    forall k | k in m && m[k].eventId == eventId ensures m[k] in r {
      assert k in keys && InEvent(m, eventId)(k);
    }
  }

  /** `getPublicPhotoCount(eventId)`: the number of the event's public
      photos; an empty event id counts every public photo. */
  function GetPublicPhotoCount(m: map<string, PublicPhoto>, keys: seq<string>, eventId: string): (n: nat)
    requires Enumerates(keys, m)
    ensures eventId != "" ==> n == |EventPhotoIds(m, eventId)|
    ensures eventId == "" ==> n == |m|
  {
    |GetPublicPhotos(m, keys, Some(eventId))|
  }

  /** The map after `togglePhotoPublic`. */
  function Toggled(m: map<string, PublicPhoto>, photoId: string, eventId: string, now: string)
    : (r: map<string, PublicPhoto>)
    ensures IsPhotoPublic(r, photoId) <==> !IsPhotoPublic(m, photoId)
    ensures forall k :: k != photoId ==> (k in r <==> k in m) && (k in r ==> r[k] == m[k])
  {
    if IsPhotoPublic(m, photoId) then Removed(m, photoId) else Added(m, photoId, eventId, now)
  }

  /** Toggling twice restores whether the photo is public and every other
      record; a photo that was not public is back to exactly the old map. */
  lemma ToggleTwice(m: map<string, PublicPhoto>, photoId: string, eventId: string, t1: string, t2: string)
    ensures Toggled(Toggled(m, photoId, eventId, t1), photoId, eventId, t2).Keys == m.Keys
    ensures photoId !in m ==> Toggled(Toggled(m, photoId, eventId, t1), photoId, eventId, t2) == m
    ensures photoId in m ==>
              Toggled(Toggled(m, photoId, eventId, t1), photoId, eventId, t2)[photoId]
              == PublicPhoto(photoId, eventId, t2, None)
  {
    var once := Toggled(m, photoId, eventId, t1);
    var twice := Toggled(once, photoId, eventId, t2);
    if photoId !in m {
      assert twice == m;
    }
  }

  /** The map after `addMultipleToPublic`: every listed photo gets a record
      with the one shared timestamp; unlisted records are untouched. */
  function AddAll(m: map<string, PublicPhoto>, photoIds: seq<string>, eventId: string, now: string)
    : (r: map<string, PublicPhoto>)
    ensures forall k :: k in photoIds ==> k in r && r[k] == PublicPhoto(k, eventId, now, None)
    ensures forall k :: k !in photoIds ==> (k in r <==> k in m) && (k in r ==> r[k] == m[k])
  {
    map k | k in m.Keys + set i | 0 <= i < |photoIds| :: photoIds[i] ::
      if k in photoIds then PublicPhoto(k, eventId, now, None) else m[k]
  }

  lemma AddAllNext(m: map<string, PublicPhoto>, photoIds: seq<string>, i: nat, eventId: string, now: string)
    requires i < |photoIds|
    ensures AddAll(m, photoIds[..i + 1], eventId, now)
            == AddAll(m, photoIds[..i], eventId, now)[photoIds[i] := PublicPhoto(photoIds[i], eventId, now, None)]
  {
    assert forall k :: k in photoIds[..i + 1] <==> k in photoIds[..i] || k == photoIds[i];
  }

  /** The `forEach` of `addMultipleToPublic`: a copy of the map with one
      record written per listed id. */
  method FillPublic(m: map<string, PublicPhoto>, photoIds: seq<string>, eventId: string, now: string)
    returns (newPublic: map<string, PublicPhoto>)
    ensures newPublic == AddAll(m, photoIds, eventId, now)
  {
    newPublic := m;
    assert photoIds[..0] == [];
    assert AddAll(m, [], eventId, now) == m;
    for i := 0 to |photoIds|
      invariant newPublic == AddAll(m, photoIds[..i], eventId, now)
    {
      AddAllNext(m, photoIds, i, eventId, now);
      newPublic := newPublic[photoIds[i] := PublicPhoto(photoIds[i], eventId, now, None)];
    }
    assert photoIds[..|photoIds|] == photoIds;
  }

  /** The map after `removeAllFromPublic(eventId)`: every record when the
      event id is missing or empty, otherwise exactly the event's records,
      are removed. */
  function WithoutEvent(m: map<string, PublicPhoto>, eventId: Option<string>): (r: map<string, PublicPhoto>)
    ensures !Present(eventId) ==> r == map[]
    ensures Present(eventId) ==> forall k :: k in r <==> k in m && m[k].eventId != eventId.value
    ensures forall k :: k in r ==> r[k] == m[k]
  {
    if !Present(eventId) then map[]
    else map k | k in m && m[k].eventId != eventId.value :: m[k]
  }

  /** `exportPublicPhotos`. */
  function ExportPublicPhotos(m: map<string, PublicPhoto>, now: string): (d: PublicDoc)
    ensures d.version == Some("1.0") && d.publicPhotos == Some(m)
  {
    PublicDoc(Some("1.0"), Some(now), Some(m))
  }

  /** `data.version && data.publicPhotos`. */
  predicate Accepts(d: PublicDoc) {
    Present(d.version) && d.publicPhotos.Some?
  }

  /** Importing what `exportPublicPhotos` produced is accepted and restores
      the map. */
  lemma ExportImportRoundTrip(m: map<string, PublicPhoto>, now: string)
    ensures Accepts(ExportPublicPhotos(m, now)) && ExportPublicPhotos(m, now).publicPhotos.value == m
  {
  }

  class LocalPublicStore {
    var publicPhotos: map<string, PublicPhoto>

    constructor()
      ensures publicPhotos == map[]
    {
      publicPhotos := map[];
    }

    /** `addToPublic(photoId, eventId)`. */
    method AddToPublic(photoId: string, eventId: string, now: string)
      modifies this
      ensures publicPhotos == Added(old(publicPhotos), photoId, eventId, now)
    {
      publicPhotos := publicPhotos[photoId := PublicPhoto(photoId, eventId, now, None)];
    }

    /** `removeFromPublic(photoId)`. */
    method RemoveFromPublic(photoId: string)
      modifies this
      ensures publicPhotos == Removed(old(publicPhotos), photoId)
    {
      publicPhotos := publicPhotos - {photoId};
    }

    /** `togglePhotoPublic(photoId, eventId)`. */
    method TogglePhotoPublic(photoId: string, eventId: string, now: string)
      modifies this
      ensures publicPhotos == Toggled(old(publicPhotos), photoId, eventId, now)
    {
      if photoId in publicPhotos {
        RemoveFromPublic(photoId);
      } else {
        AddToPublic(photoId, eventId, now);
      }
    }

    /** `addMultipleToPublic(photoIds, eventId)`: one timestamp for all,
        written into a copy of the map one id at a time. */
    method AddMultipleToPublic(photoIds: seq<string>, eventId: string, now: string)
      modifies this
      ensures publicPhotos == AddAll(old(publicPhotos), photoIds, eventId, now)
    {
      var newPublic := FillPublic(publicPhotos, photoIds, eventId, now);
      publicPhotos := newPublic;
    }

    /** `removeAllFromPublic(eventId)`. */
    method RemoveAllFromPublic(eventId: Option<string>)
      modifies this
      ensures publicPhotos == WithoutEvent(old(publicPhotos), eventId)
    {
      if !Present(eventId) {
        publicPhotos := map[];
      } else {
        publicPhotos := map k | k in publicPhotos && publicPhotos[k].eventId != eventId.value :: publicPhotos[k];
      }
    }

    /** `importPublicPhotos(json)`; `json` is `None` when `JSON.parse` throws. */
    method ImportPublicPhotos(json: Option<PublicDoc>) returns (ok: bool)
      modifies this
      ensures ok <==> json.Some? && Accepts(json.value)
      ensures ok ==> publicPhotos == json.value.publicPhotos.value
      ensures !ok ==> publicPhotos == old(publicPhotos)
    {
      if json.Some? && Accepts(json.value) {
        publicPhotos := json.value.publicPhotos.value;
        ok := true;
      } else {
        ok := false;
      }
    }
  }
}

=== FILE: rating_store.dfy ===
/** The local photo-rating store (src/stores/ratingStore.ts): a map from
    photo id to the photo's star rating, mirrored to browser storage.
    The getters and statistics defined here are shared with the
    server-synchronised variant, whose code repeats them verbatim. */
module RatingStore {
  import opened Wrappers
  import opened Seqs
  import opened Sorting

  datatype PhotoRating = PhotoRating(photoId: string, eventId: string, rating: int,
                                     timestamp: string, comment: Option<string>)

  /** `{averageRating, totalRatings, distribution}`; the average is the
      floating-point quotient `totalScore / totalRatings`, so the model keeps
      the integer sum it is computed from. */
  datatype RatingStats = RatingStats(totalScore: int, totalRatings: nat, distribution: map<int, nat>)

  /** One `{photoId, rating}` entry of `getTopRatedPhotos`. */
  datatype TopEntry = TopEntry(photoId: string, rating: int)

  /** A parsed export document `{version, exportDate, ratings}`; a field
      that is absent or null is `None`. */
  datatype RatingsDoc = RatingsDoc(version: Option<string>, exportDate: Option<string>,
                                   ratings: Option<map<string, PhotoRating>>)

  /** `Math.min(5, Math.max(1, rating))`. */
  function Clamp(rating: int): (r: int)
    ensures 1 <= r <= 5
    ensures 1 <= rating <= 5 ==> r == rating
    ensures rating < 1 ==> r == 1
    ensures rating > 5 ==> r == 5
  {
    if rating < 1 then 1 else if rating > 5 then 5 else rating
  }

  /** Every record is filed under its own photo id with a rating in 1..5:
      what `ratePhoto` alone ever writes. */
  ghost predicate WellFormed(m: map<string, PhotoRating>) {
    forall k :: k in m ==> m[k].photoId == k && 1 <= m[k].rating <= 5
  }

  /** The map after `ratePhoto`: the photo's record is replaced by a fresh one
      with the clamped rating. */
  function Rated(m: map<string, PhotoRating>, photoId: string, eventId: string, rating: int,
                 comment: Option<string>, now: string): (r: map<string, PhotoRating>)
    ensures photoId in r && r[photoId].rating == Clamp(rating)
    ensures r[photoId] == PhotoRating(photoId, eventId, Clamp(rating), now, comment)
    ensures r.Keys == m.Keys + {photoId}
    ensures forall k :: k in m && k != photoId ==> r[k] == m[k]
  {
    m[photoId := PhotoRating(photoId, eventId, Clamp(rating), now, comment)]
  }

  /** `ratePhoto` keeps the store well formed, whatever rating it is given. */
  lemma RatedWellFormed(m: map<string, PhotoRating>, photoId: string, eventId: string,
                        rating: int, comment: Option<string>, now: string)
    requires WellFormed(m)
    ensures WellFormed(Rated(m, photoId, eventId, rating, comment, now))
  {
  }

  /** `getPhotoRating`: the record, or null when there is none. */
  function GetPhotoRating(m: map<string, PhotoRating>, photoId: string): (r: Option<PhotoRating>)
    ensures r.None? <==> photoId !in m
    ensures r.Some? ==> r.value == m[photoId]
  {
    if photoId in m then Some(m[photoId]) else None
  }

  /** The ids of the photos of an event that have a rating. */
  ghost function EventPhotoIds(m: map<string, PhotoRating>, eventId: string): set<string> {
    set k | k in m && m[k].eventId == eventId
  }

  /** The keys, in enumeration order, whose record belongs to the event. */
  function EventKeys(m: map<string, PhotoRating>, keys: seq<string>, eventId: string): seq<string> {
    Filter(keys, InEvent(m, eventId))
  }

  /** `rating => rating.eventId === eventId`, as a test on keys. */
  function InEvent(m: map<string, PhotoRating>, eventId: string): string -> bool {
    k => k in m && m[k].eventId == eventId
  }

  /** `getEventRatings`: the records of the event, in enumeration order. */
  function GetEventRatings(m: map<string, PhotoRating>, keys: seq<string>, eventId: string): (r: seq<PhotoRating>)
    requires Enumerates(keys, m)
    ensures |r| == |EventPhotoIds(m, eventId)|
    ensures forall i :: 0 <= i < |r| ==> r[i].eventId == eventId && r[i] in m.Values
    ensures forall k :: k in m && m[k].eventId == eventId ==> m[k] in r
  {
    EventRatingsFacts(m, keys, eventId);
    Values(m, EventKeys(m, keys, eventId))
  }

  lemma EventRatingsFacts(m: map<string, PhotoRating>, keys: seq<string>, eventId: string)
    requires Enumerates(keys, m)
    ensures |Values(m, EventKeys(m, keys, eventId))| == |EventPhotoIds(m, eventId)|
    ensures forall k :: k in m && m[k].eventId == eventId ==> m[k] in Values(m, EventKeys(m, keys, eventId))
  {
    EventKeysCard(m, keys, eventId);
    var ks := EventKeys(m, keys, eventId);
    var r := Values(m, ks);
    KeptValues(m, keys, InEvent(m, eventId));
    forall k | k in m && m[k].eventId == eventId ensures m[k] in r {
      assert k in keys && InEvent(m, eventId)(k);
    }
  }

  lemma EventKeysCard(m: map<string, PhotoRating>, keys: seq<string>, eventId: string)
    requires Enumerates(keys, m)
    ensures |EventKeys(m, keys, eventId)| == |EventPhotoIds(m, eventId)|
  {
    FilterDistinctCard(keys, InEvent(m, eventId));
    assert Kept(keys, InEvent(m, eventId)) == EventPhotoIds(m, eventId);
  }

  /** Sort key of `(a, b) => b.rating - a.rating`: highest rating first. */
  function RatingDesc(r: PhotoRating): int {
    -r.rating
  }

  /** The `{photoId, rating}` entry of a record. */
  function ToEntry(p: PhotoRating): TopEntry {
    TopEntry(p.photoId, p.rating)
  }

  /** `getTopRatedPhotos(eventId, limit)`: the event's records sorted by
      rating, highest first (ties in enumeration order), cut to `limit`. */
  function GetTopRatedPhotos(m: map<string, PhotoRating>, keys: seq<string>, eventId: string,
                             limit: int): (r: seq<TopEntry>)
    requires Enumerates(keys, m)
    ensures |r| <= |GetEventRatings(m, keys, eventId)|
    ensures limit >= 0 ==> |r| == if limit < |GetEventRatings(m, keys, eventId)|
                                  then limit else |GetEventRatings(m, keys, eventId)|
    ensures forall i, j :: 0 <= i < j < |r| ==> r[i].rating >= r[j].rating
    ensures forall i :: 0 <= i < |r| ==>
              exists j :: 0 <= j < |GetEventRatings(m, keys, eventId)|
                          && r[i] == ToEntry(GetEventRatings(m, keys, eventId)[j])
    ensures TopOf(r, GetEventRatings(m, keys, eventId))
  {
    TopRated(GetEventRatings(m, keys, eventId), limit)
  }

  /** `getTopRatedPhotos(eventId)` with its default limit of ten. */
  function TopTen(m: map<string, PhotoRating>, keys: seq<string>, eventId: string): (r: seq<TopEntry>)
    requires Enumerates(keys, m)
    ensures |r| == if |GetEventRatings(m, keys, eventId)| < 10 then |GetEventRatings(m, keys, eventId)| else 10
    ensures forall i, j :: 0 <= i < j < |r| ==> r[i].rating >= r[j].rating
    ensures TopOf(r, GetEventRatings(m, keys, eventId))
  {
    GetTopRatedPhotos(m, keys, eventId, 10)
  }

  /** The ranking behind `getTopRatedPhotos`, over the event's records. */
  function TopRated(events: seq<PhotoRating>, limit: int): (r: seq<TopEntry>)
    ensures |r| <= |events|
    ensures limit >= 0 ==> |r| == if limit < |events| then limit else |events|
    ensures forall i, j :: 0 <= i < j < |r| ==> r[i].rating >= r[j].rating
    ensures forall i :: 0 <= i < |r| ==> exists j :: 0 <= j < |events| && r[i] == ToEntry(events[j])
    ensures TopOf(r, events)
  {
    TopSelection(events, limit);
    EntriesOf(SliceTo(SortBy(events, RatingDesc), limit))
  }

  /** The entries of a list of records. */
  function EntriesOf(top: seq<PhotoRating>): (r: seq<TopEntry>)
    ensures |r| == |top| && forall i :: 0 <= i < |r| ==> r[i] == ToEntry(top[i])
  {
    seq(|top|, i requires 0 <= i < |top| => ToEntry(top[i]))
  }

  /** The entries of the records sorted highest first and cut to `limit`:
      as many as the limit allows, highest first, each the entry of a
      record, and a best-rated selection. */
  lemma TopSelection(events: seq<PhotoRating>, limit: int)
    ensures var r := EntriesOf(SliceTo(SortBy(events, RatingDesc), limit));
            && |r| <= |events|
            && (limit >= 0 ==> |r| == if limit < |events| then limit else |events|)
            && (forall i, j :: 0 <= i < j < |r| ==> r[i].rating >= r[j].rating)
            && (forall i :: 0 <= i < |r| ==> exists j :: 0 <= j < |events| && r[i] == ToEntry(events[j]))
            && TopOf(r, events)
  {
    var sorted := SortBy(events, RatingDesc);
    var top := SliceTo(sorted, limit);
    var r := EntriesOf(top);
    SortMembers(events, RatingDesc);
    TopFacts(events, sorted, top);
    TopKeepsBest(sorted, |top|);
    forall i | 0 <= i < |r| ensures exists j :: 0 <= j < |events| && r[i] == ToEntry(events[j]) {
      var j :| 0 <= j < |events| && events[j] == top[i];
    }
    assert top + sorted[|top|..] == sorted;
    assert KeptBest(r, events, top, sorted[|top|..]);
  }

  /** `r` lists the entries of `top`; together with `rest` these are the
      records of `events` (as a multiset), and no record of `rest` rates
      above a record of `top`. */
  ghost predicate KeptBest(r: seq<TopEntry>, events: seq<PhotoRating>, top: seq<PhotoRating>,
                           rest: seq<PhotoRating>) {
    |top| == |r| && (forall i :: 0 <= i < |r| ==> r[i] == ToEntry(top[i]))
    && multiset(top + rest) == multiset(events)
    && forall e, x :: e in rest && x in top ==> e.rating <= x.rating
  }

  /** `r` is a best-rated selection of `events`: the entries of some of
      them, none of the others rating higher. */
  ghost predicate TopOf(r: seq<TopEntry>, events: seq<PhotoRating>) {
    exists top, rest :: KeptBest(r, events, top, rest)
  }

  /** In a list sorted highest first, nothing after a cut rates above
      anything before it. */
  lemma TopKeepsBest(sorted: seq<PhotoRating>, n: nat)
    requires SortedBy(sorted, RatingDesc) && n <= |sorted|
    ensures forall e, x :: e in sorted[n..] && x in sorted[..n] ==> e.rating <= x.rating
  {
    forall e, x | e in sorted[n..] && x in sorted[..n] ensures e.rating <= x.rating {
      var k :| 0 <= k < |sorted[n..]| && sorted[n..][k] == e;
      var i :| 0 <= i < n && sorted[..n][i] == x;
      assert RatingDesc(sorted[i]) <= RatingDesc(sorted[n + k]);
    }
  }

  /** A prefix of the ratings sorted highest first is itself highest first
      and holds only records of the event. */
  lemma TopFacts(events: seq<PhotoRating>, sorted: seq<PhotoRating>, top: seq<PhotoRating>)
    requires SortedBy(sorted, RatingDesc) && forall x :: x in sorted <==> x in events
    requires |top| <= |sorted| && top == sorted[..|top|]
    ensures forall i, j :: 0 <= i < j < |top| ==> top[i].rating >= top[j].rating
    ensures forall i :: 0 <= i < |top| ==> top[i] in events
  {
    forall i, j | 0 <= i < j < |top| ensures top[i].rating >= top[j].rating {
      assert top[i] == sorted[i] && top[j] == sorted[j];
      assert RatingDesc(sorted[i]) <= RatingDesc(sorted[j]);
    }
    forall i | 0 <= i < |top| ensures top[i] in events {
      assert top[i] == sorted[i] && sorted[i] in sorted;
    }
  }

  /** The ratings of a list of records. */
  function Scores(rs: seq<PhotoRating>): (s: seq<int>)
    ensures |s| == |rs| && forall i :: 0 <= i < |rs| ==> s[i] == rs[i].rating
  {
    seq(|rs|, i requires 0 <= i < |rs| => rs[i].rating)
  }

  /** Sum of a list of integers. */
  function Total(s: seq<int>): int {
    if s == [] then 0 else Total(s[..|s| - 1]) + s[|s| - 1]
  }

  /** `d` is the distribution of the ratings `s`: it has the buckets 1..5
      and one for every other rating seen, each holding how often its rating
      occurs. */
  ghost predicate Tallies(d: map<int, nat>, s: seq<int>) {
    (forall b :: b in d <==> (1 <= b <= 5 || b in s))
    && (forall b :: b in d ==> d[b] == Occurrences(s, b))
  }

  /** The initial distribution `{1: 0, 2: 0, 3: 0, 4: 0, 5: 0}` tallies no ratings. */
  lemma InitialTallies()
    ensures Tallies(map[1 := 0, 2 := 0, 3 := 0, 4 := 0, 5 := 0], [])
  {
    var d: map<int, nat> := map[1 := 0, 2 := 0, 3 := 0, 4 := 0, 5 := 0];
    assert d.Keys == {1, 2, 3, 4, 5};
  }

  /** One step of the `forEach` in `getRatingStats`. */
  lemma TallyStep(d: map<int, nat>, s: seq<int>, r: int)
    requires Tallies(d, s)
    ensures Tallies(d[r := (if r in d then d[r] else 0) + 1], s + [r])
    ensures Total(s + [r]) == Total(s) + r
  {
    forall b ensures Occurrences(s + [r], b) == Occurrences(s, b) + (if b == r then 1 else 0) {
      OccurrencesAppend(s, [r], b);
    }
    forall b | b !in d ensures Occurrences(s, b) == 0 {
      OccurrencesPositive(s, b);
    }
    assert (s + [r])[..|s|] == s;
  }

  /** `getRatingStats`: for each rating value, how many of the event's
      records carry it, and the total score. */
  method GetRatingStats(m: map<string, PhotoRating>, keys: seq<string>, eventId: string)
    returns (st: RatingStats)
    requires Enumerates(keys, m)
    ensures st.totalRatings == |GetEventRatings(m, keys, eventId)|
    ensures st.totalRatings == |EventPhotoIds(m, eventId)|
    ensures Tallies(st.distribution, Scores(GetEventRatings(m, keys, eventId)))
    ensures st.totalScore == Total(Scores(GetEventRatings(m, keys, eventId)))
  {
    var events := GetEventRatings(m, keys, eventId);
    if |events| == 0 {
      InitialTallies();
      return RatingStats(0, 0, map[1 := 0, 2 := 0, 3 := 0, 4 := 0, 5 := 0]);
    }
    var distribution, totalScore := Tally(events);
    st := RatingStats(totalScore, |events|, distribution);
  }

  /** The `forEach` of `getRatingStats` over the event's records. */
  method Tally(events: seq<PhotoRating>) returns (distribution: map<int, nat>, totalScore: int)
    ensures Tallies(distribution, Scores(events))
    ensures totalScore == Total(Scores(events))
  {
    distribution := map[1 := 0, 2 := 0, 3 := 0, 4 := 0, 5 := 0];
    totalScore := 0;
    ghost var all := Scores(events);
    assert all[..0] == [];
    InitialTallies();
    for i := 0 to |events|
      invariant Tallies(distribution, all[..i])
      invariant totalScore == Total(all[..i])
    {
      var r := events[i].rating;
      assert all[..i + 1] == all[..i] + [r];
      TallyStep(distribution, all[..i], r);
      distribution := distribution[r := (if r in distribution then distribution[r] else 0) + 1];
      totalScore := totalScore + r;
    }
    assert all[..|events|] == all;
  }

  /** For ratings in 1..5 the five buckets add up to the number of ratings. */
  lemma {:induction false} BucketsSum(s: seq<int>)
    requires forall i :: 0 <= i < |s| ==> 1 <= s[i] <= 5
    ensures Occurrences(s, 1) + Occurrences(s, 2) + Occurrences(s, 3)
            + Occurrences(s, 4) + Occurrences(s, 5) == |s|
  {
    if s != [] {
      BucketsSum(s[1..]);
    }
  }

  /** In a well-formed store the distribution has exactly the buckets 1..5,
      and they add up to `totalRatings`. */
  lemma StatsBucketsAddUp(m: map<string, PhotoRating>, keys: seq<string>, eventId: string, st: RatingStats)
    requires Enumerates(keys, m) && WellFormed(m)
    requires st.totalRatings == |GetEventRatings(m, keys, eventId)|
    requires Tallies(st.distribution, Scores(GetEventRatings(m, keys, eventId)))
    ensures st.distribution.Keys == {1, 2, 3, 4, 5}
    ensures st.distribution[1] + st.distribution[2] + st.distribution[3]
            + st.distribution[4] + st.distribution[5] == st.totalRatings
  {
    var events := GetEventRatings(m, keys, eventId);
    var s := Scores(events);
    forall i | 0 <= i < |s| ensures 1 <= s[i] <= 5 {
      assert events[i] in m.Values;
    }
    TalliedBuckets(st.distribution, s);
  }

  /** A tally of scores in 1..5 has exactly the buckets 1..5, adding up to
      the number of scores. */
  lemma TalliedBuckets(d: map<int, nat>, s: seq<int>)
    requires forall i :: 0 <= i < |s| ==> 1 <= s[i] <= 5
    requires Tallies(d, s)
    ensures d.Keys == {1, 2, 3, 4, 5}
    ensures d[1] + d[2] + d[3] + d[4] + d[5] == |s|
  {
    forall b | b in d ensures 1 <= b <= 5 {
      if b in s {
        var i :| 0 <= i < |s| && s[i] == b;
      }
    }
    assert d.Keys == {1, 2, 3, 4, 5};
    BucketsSum(s);
  }

  /** `exportRatings`: the document `{version: '1.0', exportDate, ratings}`. */
  function ExportRatings(m: map<string, PhotoRating>, now: string): (d: RatingsDoc)
    ensures d.version == Some("1.0") && d.ratings == Some(m)
  {
    RatingsDoc(Some("1.0"), Some(now), Some(m))
  }

  /** `data.version && data.ratings`: a non-empty version and a ratings object
      (an empty object is truthy). */
  predicate Accepts(d: RatingsDoc) {
    d.version.Some? && d.version.value != "" && d.ratings.Some?
  }

  /** Importing what `exportRatings` produced is accepted and restores the map. */
  lemma ExportImportRoundTrip(m: map<string, PhotoRating>, now: string)
    ensures Accepts(ExportRatings(m, now)) && ExportRatings(m, now).ratings.value == m
  {
  }

  /** The store itself: one field, replaced wholesale by every action. */
  class LocalRatingStore {
    var ratings: map<string, PhotoRating>

    constructor()
      ensures ratings == map[]
    {
      ratings := map[];
    }

    /** `ratePhoto(photoId, eventId, rating, comment)`. */
    method RatePhoto(photoId: string, eventId: string, rating: int, comment: Option<string>, now: string)
      modifies this
      ensures ratings == Rated(old(ratings), photoId, eventId, rating, comment, now)
    {
      ratings := ratings[photoId := PhotoRating(photoId, eventId, Clamp(rating), now, comment)];
    }

    /** `importRatings(json)`; `json` is the result of `JSON.parse`, `None`
        when it throws. */
    method ImportRatings(json: Option<RatingsDoc>) returns (ok: bool)
      modifies this
      ensures ok <==> json.Some? && Accepts(json.value)
      ensures ok ==> ratings == json.value.ratings.value
      ensures !ok ==> ratings == old(ratings)
    {
      if json.Some? && Accepts(json.value) {
        ratings := json.value.ratings.value;
        ok := true;
      } else {
        ok := false;
      }
    }

    /** `clearAllRatings`. */
    method ClearAllRatings()
      modifies this
      ensures ratings == map[]
    {
      ratings := map[];
    }
  }
}

=== FILE: seqs.dfy ===
/** Sequence helpers standing for the JavaScript array methods the source
    uses: `filter`, `includes`, `reduce` sums, `slice`, and the enumeration
    of an object's keys. */
module Seqs {

  /** No element occurs twice. */
  predicate Distinct<T(==)>(s: seq<T>) {
    forall i, j :: 0 <= i < j < |s| ==> s[i] != s[j]
  }

  /** `keys` lists every key of `m` exactly once. JavaScript enumerates an
      object's own keys in an order of its own; functions that turn a map
      into an array take that order as a parameter satisfying this. */
  ghost predicate Enumerates<K(!new), V>(keys: seq<K>, m: map<K, V>) {
    Distinct(keys) && (forall k :: k in keys <==> k in m)
  }

  /** `a` is an order-preserving subsequence of `b`. */
  ghost predicate SubseqOf<T>(a: seq<T>, b: seq<T>)
    decreases |b|
  {
    if a == [] then true
    else if b == [] then false
    else (a[0] == b[0] && SubseqOf(a[1..], b[1..])) || SubseqOf(a, b[1..])
  }

  /** `Array.prototype.filter`. */
  function Filter<T>(s: seq<T>, p: T -> bool): (r: seq<T>)
    ensures |r| <= |s|
    ensures forall i :: 0 <= i < |r| ==> p(r[i]) && r[i] in s
    ensures forall i :: 0 <= i < |s| && p(s[i]) ==> s[i] in r
  {
    if s == [] then [] else (if p(s[0]) then [s[0]] else []) + Filter(s[1..], p)
  }

  /** Number of elements satisfying `p`. */
  function Count<T>(s: seq<T>, p: T -> bool): nat {
    |Filter(s, p)|
  }

  /** `s.reduce((sum, x) => sum + f(x), 0)`. */
  function Sum<T>(s: seq<T>, f: T -> int): int {
    if s == [] then 0 else f(s[0]) + Sum(s[1..], f)
  }

  /** Number of positions of `s` holding `x`. */
  function Occurrences<T(==)>(s: seq<T>, x: T): nat {
    if s == [] then 0 else (if s[0] == x then 1 else 0) + Occurrences(s[1..], x)
  }

  /** `s.slice(0, end)`: a negative `end` counts from the end of the array. */
  function SliceTo<T>(s: seq<T>, end: int): (r: seq<T>)
    ensures |r| <= |s|
    ensures end >= 0 ==> |r| == if end < |s| then end else |s|
    ensures r == s[..|r|]
  {
    var e := if end < 0 then |s| + end else end;
    if e <= 0 then [] else if e >= |s| then s else s[..e]
  }

  /** The values of `m` in the enumeration order `keys`: `Object.values`. */
  function Values<K, V>(m: map<K, V>, keys: seq<K>): (r: seq<V>)
    requires forall k :: k in keys ==> k in m
    ensures |r| == |keys|
    ensures forall i :: 0 <= i < |keys| ==> r[i] == m[keys[i]]
  {
    if keys == [] then [] else [m[keys[0]]] + Values(m, keys[1..])
  }

  lemma {:induction false} FilterIsSubseq<T>(s: seq<T>, p: T -> bool)
    ensures SubseqOf(Filter(s, p), s)
  {
    if s != [] {
      FilterIsSubseq(s[1..], p);
      var r := Filter(s, p);
      if !p(s[0]) {
        assert r == Filter(s[1..], p);
        if r != [] {
          assert SubseqOf(r, s[1..]);
        }
      } else {
        assert r[1..] == Filter(s[1..], p);
      }
    }
  }

  lemma {:induction false} SubseqRefl<T>(s: seq<T>)
    ensures SubseqOf(s, s)
  {
    if s != [] {
      SubseqRefl(s[1..]);
    }
  }

  lemma {:induction false} SubseqTrans<T>(a: seq<T>, b: seq<T>, c: seq<T>)
    requires SubseqOf(a, b) && SubseqOf(b, c)
    ensures SubseqOf(a, c)
    decreases |c|
  {
    if a != [] {
      assert b != [] && c != [];
      if b[0] == c[0] && SubseqOf(b[1..], c[1..]) {
        if a[0] == b[0] && SubseqOf(a[1..], b[1..]) {
          SubseqTrans(a[1..], b[1..], c[1..]);
        } else {
          SubseqTrans(a, b[1..], c[1..]);
        }
      } else {
        SubseqTrans(a, b, c[1..]);
      }
    }
  }

  /** Filtering twice is filtering once by the conjunction. */
  lemma {:induction false} FilterFilter<T>(s: seq<T>, p: T -> bool, q: T -> bool)
    ensures Filter(Filter(s, p), q) == Filter(s, x => p(x) && q(x))
  {
    if s != [] {
      FilterFilter(s[1..], p, q);
      if p(s[0]) {
        assert Filter(s, p) == [s[0]] + Filter(s[1..], p);
        assert Filter(s, p)[1..] == Filter(s[1..], p);
      } else {
        assert Filter(s, p) == Filter(s[1..], p);
      }
    }
  }

  /** Filters by two predicates that agree on every element coincide. */
  lemma {:induction false} FilterExt<T>(s: seq<T>, p: T -> bool, q: T -> bool)
    requires forall x :: x in s ==> p(x) == q(x)
    ensures Filter(s, p) == Filter(s, q)
  {
    if s != [] {
      FilterExt(s[1..], p, q);
    }
  }

  /** Filtering by a predicate every element satisfies changes nothing. */
  lemma {:induction false} FilterAll<T>(s: seq<T>, p: T -> bool)
    requires forall x :: x in s ==> p(x)
    ensures Filter(s, p) == s
  {
    if s != [] {
      FilterAll(s[1..], p);
      assert s == [s[0]] + s[1..];
    }
  }

  /** A filter keeps every copy of an element that satisfies the predicate
      and no copy of one that does not. */
  lemma {:induction false} FilterMultiplicity<T>(s: seq<T>, p: T -> bool, x: T)
    ensures multiset(Filter(s, p))[x] == if p(x) then multiset(s)[x] else 0
  {
    if s != [] {
      FilterMultiplicity(s[1..], p, x);
      assert s == [s[0]] + s[1..];
    }
  }

  /** The positions of `s` whose element satisfies `p`. */
  ghost function Positions<T>(s: seq<T>, p: T -> bool): set<int> {
    set i | 0 <= i < |s| && p(s[i])
  }

  /** A filter keeps one element for each position that satisfies the
      predicate. */
  lemma {:induction false} CountPositions<T>(s: seq<T>, p: T -> bool)
    ensures Count(s, p) == |Positions(s, p)|
  {
    if s != [] {
      var n := |s| - 1;
      var init := s[..n];
      CountPositions(init, p);
      assert s == init + [s[n]];
      FilterAppend(init, [s[n]], p);
      var before, after := Positions(init, p), Positions(s, p);
      forall i ensures i in after <==> i in before || (i == n && p(s[n])) {
        if 0 <= i < n {
          assert init[i] == s[i];
        }
      }
      if p(s[n]) {
        assert after == before + {n};
      } else {
        assert after == before;
      }
    }
  }

  lemma {:induction false} FilterAppend<T>(a: seq<T>, b: seq<T>, p: T -> bool)
    ensures Filter(a + b, p) == Filter(a, p) + Filter(b, p)
  {
    if a == [] {
      assert a + b == b;
    } else {
      FilterAppend(a[1..], b, p);
      assert (a + b)[0] == a[0] && (a + b)[1..] == a[1..] + b;
      var h := if p(a[0]) then [a[0]] else [];
      assert Filter(a + b, p) == h + Filter(a[1..] + b, p);
      assert Filter(a, p) == h + Filter(a[1..], p);
      AppendAssoc(h, Filter(a[1..], p), Filter(b, p));
    }
  }

  /** What a filter keeps, as membership. */
  lemma FilterMember<T>(s: seq<T>, p: T -> bool, x: T)
    ensures x in Filter(s, p) <==> x in s && p(x)
  {
    if x in s && p(x) {
      var i :| 0 <= i < |s| && s[i] == x;
    }
  }

  /** The value of every key that passes `p` is among the values of the
      filtered keys. */
  lemma KeptValues<K, V>(m: map<K, V>, keys: seq<K>, p: K -> bool)
    requires forall k :: k in keys ==> k in m
    ensures forall k :: k in keys && p(k) ==> m[k] in Values(m, Filter(keys, p))
  {
    var ks := Filter(keys, p);
    forall k | k in keys && p(k) ensures m[k] in Values(m, ks) {
      FilterMember(keys, p, k);
      var j :| 0 <= j < |ks| && ks[j] == k;
      assert Values(m, ks)[j] == m[k];
    }
  }

  lemma AppendAssoc<T>(x: seq<T>, y: seq<T>, z: seq<T>)
    ensures x + (y + z) == (x + y) + z
  {
  }

  lemma {:induction false} SumAppend<T>(a: seq<T>, b: seq<T>, f: T -> int)
    ensures Sum(a + b, f) == Sum(a, f) + Sum(b, f)
  {
    if a == [] {
      assert a + b == b;
    } else {
      SumAppend(a[1..], b, f);
      assert (a + b)[1..] == a[1..] + b;
    }
  }

  /** Replacing one element changes a sum by the difference of the two
      contributions. */
  lemma {:induction false} SumReplaceAt<T>(s: seq<T>, t: seq<T>, i: nat, f: T -> int)
    requires |s| == |t| && i < |s|
    requires forall j :: 0 <= j < |s| && j != i ==> s[j] == t[j]
    ensures Sum(t, f) == Sum(s, f) - f(s[i]) + f(t[i])
  {
    if i > 0 {
      SumReplaceAt(s[1..], t[1..], i - 1, f);
    } else {
      assert s[1..] == t[1..];
    }
  }

  /** Replacing one element changes a count by whether each of the two
      elements is counted. */
  lemma {:induction false} CountReplaceAt<T>(s: seq<T>, t: seq<T>, i: nat, p: T -> bool)
    requires |s| == |t| && i < |s|
    requires forall j :: 0 <= j < |s| && j != i ==> s[j] == t[j]
    ensures Count(t, p) == Count(s, p) - (if p(s[i]) then 1 else 0) + (if p(t[i]) then 1 else 0)
  {
    if i > 0 {
      CountReplaceAt(s[1..], t[1..], i - 1, p);
    } else {
      assert s[1..] == t[1..];
    }
  }

  lemma {:induction false} OccurrencesAppend<T>(a: seq<T>, b: seq<T>, x: T)
    ensures Occurrences(a + b, x) == Occurrences(a, x) + Occurrences(b, x)
  {
    if a == [] {
      assert a + b == b;
    } else {
      OccurrencesAppend(a[1..], b, x);
      assert (a + b)[1..] == a[1..] + b;
    }
  }

  /** In a list without duplicates, an element occurs once or not at all. */
  lemma {:induction false} OccurrencesDistinct<T>(s: seq<T>, x: T)
    requires Distinct(s)
    ensures Occurrences(s, x) == if x in s then 1 else 0
  {
    if s != [] {
      OccurrencesDistinct(s[1..], x);
      if s[0] == x {
        assert x !in s[1..] by {
          forall j | 0 <= j < |s[1..]| ensures s[1..][j] != x {
            assert s[1..][j] == s[j + 1];
          }
        }
      }
    }
  }

  /** The set of elements of `s` satisfying `p`. */
  ghost function Kept<T>(s: seq<T>, p: T -> bool): set<T> {
    set x | x in s && p(x)
  }

  /** For a list without duplicates, the number of elements a filter keeps is
      the size of the set they form. */
  lemma {:induction false} FilterDistinctCard<T>(s: seq<T>, p: T -> bool)
    requires Distinct(s)
    ensures |Filter(s, p)| == |Kept(s, p)|
  {
    if s != [] {
      var rest := Kept(s[1..], p);
      assert Distinct(s[1..]);
      FilterDistinctCard(s[1..], p);
      DistinctHead(s);
      KeptCons(s, p);
      if p(s[0]) {
        assert s[0] !in rest;
        assert Filter(s, p) == [s[0]] + Filter(s[1..], p);
      } else {
        assert Filter(s, p) == Filter(s[1..], p);
      }
    }
  }

  lemma KeptCons<T>(s: seq<T>, p: T -> bool)
    requires s != []
    ensures Kept(s, p) == (if p(s[0]) then {s[0]} else {}) + Kept(s[1..], p)
  {
    assert s == [s[0]] + s[1..];
  }

  /** The head of a list without duplicates does not recur in its tail. */
  lemma DistinctHead<T>(s: seq<T>)
    requires Distinct(s) && s != []
    ensures s[0] !in s[1..]
  {
    forall j | 0 <= j < |s[1..]| ensures s[1..][j] != s[0] {
      assert s[1..][j] == s[j + 1];
    }
  }

  lemma {:induction false} OccurrencesPositive<T>(s: seq<T>, x: T)
    ensures Occurrences(s, x) > 0 <==> x in s
  {
    if s != [] {
      OccurrencesPositive(s[1..], x);
      assert x in s <==> s[0] == x || x in s[1..];
    }
  }

  /** `[...new Set(s)]` after elements `seen` were already inserted: a
      JavaScript `Set` keeps its first insertion of each value, in insertion
      order. */
  function DedupFrom<T(==)>(s: seq<T>, seen: set<T>): (r: seq<T>)
    ensures Distinct(r)
    ensures forall i :: 0 <= i < |r| ==> r[i] in s && r[i] !in seen
    ensures forall i :: 0 <= i < |s| && s[i] !in seen ==> s[i] in r
    ensures |r| <= |s|
  {
    if s == [] then []
    else if s[0] in seen then DedupFrom(s[1..], seen)
    else
      var t := DedupFrom(s[1..], seen + {s[0]});
      assert forall i :: 0 <= i < |t| ==> t[i] != s[0];
      [s[0]] + t
  }

  /** `[...new Set(s)]`: the first occurrence of every element, in order. */
  function Dedup<T(==)>(s: seq<T>): (r: seq<T>)
    ensures Distinct(r)
    ensures forall i :: 0 <= i < |r| ==> r[i] in s
    ensures forall i :: 0 <= i < |s| ==> s[i] in r
    ensures |r| <= |s|
  {
    DedupFrom(s, {})
  }

  /** Adding one more element to a `Set` appends it unless it is already
      there; with `Dedup([]) == []` this determines `Dedup` completely. */
  lemma {:induction false} DedupSnoc<T>(s: seq<T>, x: T)
    ensures Dedup(s + [x]) == if x in s then Dedup(s) else Dedup(s) + [x]
  {
    DedupFromSnoc(s, {}, x);
  }

  lemma {:induction false} DedupFromSnoc<T>(s: seq<T>, seen: set<T>, x: T)
    ensures DedupFrom(s + [x], seen) ==
            if x in s || x in seen then DedupFrom(s, seen) else DedupFrom(s, seen) + [x]
  {
    if s == [] {
      assert s + [x] == [x];
      assert [x][1..] == [];
    } else {
      assert (s + [x])[0] == s[0];
      assert (s + [x])[1..] == s[1..] + [x];
      if s[0] in seen {
        DedupFromSnoc(s[1..], seen, x);
        assert x in s <==> x == s[0] || x in s[1..];
      } else {
        DedupFromSnoc(s[1..], seen + {s[0]}, x);
        assert x in s <==> x == s[0] || x in s[1..];
      }
    }
  }

  /** The `Set` of a prefix is a prefix of the `Set` of the whole list:
      elements keep the order of their first occurrences. */
  lemma {:induction false} DedupPrefix<T>(s: seq<T>, k: nat)
    requires k <= |s|
    ensures Dedup(s[..k]) <= Dedup(s)
    decreases |s| - k
  {
    if k < |s| {
      DedupPrefix(s, k + 1);
      assert s[..k + 1] == s[..k] + [s[k]];
      DedupSnoc(s[..k], s[k]);
    } else {
      assert s[..k] == s;
    }
  }

  /** A list without duplicates is its own `Set`: deduplicating it changes
      nothing. */
  lemma {:induction false} DedupDistinct<T>(s: seq<T>)
    requires Distinct(s)
    ensures Dedup(s) == s
  {
    if s != [] {
      var init := s[..|s| - 1];
      assert s == init + [s[|s| - 1]];
      DedupDistinct(init);
      DedupSnoc(init, s[|s| - 1]);
    }
  }

  /** `[...new Set(s)]` is idempotent. */
  lemma DedupIdempotent<T>(s: seq<T>)
    ensures Dedup(Dedup(s)) == Dedup(s)
  {
    DedupDistinct(Dedup(s));
  }

  /** `lists.flat()`: the lists one after the other. */
  function Flatten<T>(lists: seq<seq<T>>): seq<T> {
    if lists == [] then [] else Flatten(lists[..|lists| - 1]) + lists[|lists| - 1]
  }

  /** An element is in the flattened list exactly when it is in one of the lists. */
  lemma {:induction false} FlattenMember<T>(lists: seq<seq<T>>, x: T)
    ensures x in Flatten(lists) <==> exists i :: 0 <= i < |lists| && x in lists[i]
  {
    if lists != [] {
      var init, last := lists[..|lists| - 1], lists[|lists| - 1];
      FlattenMember(init, x);
      assert Flatten(lists) == Flatten(init) + last;
      if x in Flatten(lists) {
        if x !in last {
          var i :| 0 <= i < |init| && x in init[i];
          assert init[i] == lists[i];
        }
      }
      if exists i :: 0 <= i < |lists| && x in lists[i] {
        var i :| 0 <= i < |lists| && x in lists[i];
        if i < |init| {
          assert init[i] == lists[i];
        }
      }
    }
  }

  /** Filtering keeps a list free of repetitions. */
  lemma {:induction false} FilterPreservesDistinct<T>(s: seq<T>, p: T -> bool)
    requires Distinct(s)
    ensures Distinct(Filter(s, p))
  {
    if s != [] {
      FilterPreservesDistinct(s[1..], p);
      assert s[0] !in s[1..] by {
        forall j | 0 <= j < |s[1..]| ensures s[1..][j] != s[0] {
          assert s[1..][j] == s[j + 1];
        }
      }
    }
  }

  /** The set of elements of `s`. */
  ghost function Elements<T>(s: seq<T>): set<T> {
    set x | x in s
  }

  lemma {:induction false} DistinctCard<T>(s: seq<T>)
    requires Distinct(s)
    ensures |Elements(s)| == |s|
  {
    if s != [] {
      DistinctCard(s[1..]);
      assert s[0] !in s[1..] by {
        forall j | 0 <= j < |s[1..]| ensures s[1..][j] != s[0] {
          assert s[1..][j] == s[j + 1];
        }
      }
      assert Elements(s) == {s[0]} + Elements(s[1..]);
    }
  }

  /** `Object.values(m)` has one entry per key, and every value of `m`
      appears in it. */
  lemma ValuesOfEnumeration<K(!new), V>(m: map<K, V>, keys: seq<K>)
    requires Enumerates(keys, m)
    ensures |Values(m, keys)| == |m|
    ensures forall k :: k in m ==> m[k] in Values(m, keys)
  {
    DistinctCard(keys);
    assert Elements(keys) == m.Keys;
    forall k | k in m ensures m[k] in Values(m, keys) {
      var i :| 0 <= i < |keys| && keys[i] == k;
      assert Values(m, keys)[i] == m[k];
    }
  }
}

=== FILE: server_hidden_store.dfy ===
/** The server-synchronised hidden-photo store
    (src/stores/serverHiddenStore.ts), the one the event gallery page uses.
    Each action changes the local map first and then saves the whole map
    through the data API; on a failed save the action undoes its change and
    rethrows. `remote` is the document the data API holds. */
module ServerHiddenStore {
  import opened Wrappers
  import opened Seqs
  import opened HiddenStore

  /** The map after the failed save of `hidePhoto` is undone AS WRITTEN: the
      key is removed whatever it held before the call. */
  function HideRolledBack(m: map<string, HiddenPhoto>, photoId: string): (r: map<string, HiddenPhoto>)
    ensures !IsPhotoHidden(r, photoId)
    ensures r.Keys == m.Keys - {photoId}
  {
    m - {photoId}
  }

  /** The undo `hidePhoto` evidently intends: what the key held before the
      call (`previous`) is put back, as `unhidePhoto`'s undo does. */
  function HideRestored(m: map<string, HiddenPhoto>, photoId: string, previous: Option<HiddenPhoto>)
    : (r: map<string, HiddenPhoto>)
    ensures IsPhotoHidden(r, photoId) <==> previous.Some?
    ensures forall k :: k != photoId ==> (k in r <==> k in m) && (k in r ==> r[k] == m[k])
  {
    if previous.Some? then m[photoId := previous.value] else m - {photoId}
  }

  /** As written, re-hiding a photo that is already hidden and failing to
      save leaves it NOT hidden: the failed call un-hides the photo. */
  lemma HideRollbackLosesRecord(m: map<string, HiddenPhoto>, photoId: string, eventId: string,
                                reason: Option<string>, now: string)
    requires IsPhotoHidden(m, photoId)
    ensures !IsPhotoHidden(HideRolledBack(Hidden(m, photoId, eventId, reason, now), photoId), photoId)
    ensures HideRolledBack(Hidden(m, photoId, eventId, reason, now), photoId) != m
  {
    assert photoId !in HideRolledBack(Hidden(m, photoId, eventId, reason, now), photoId);
  }

  /** The intended undo gives back exactly the map from before the call. */
  lemma HideRestoreRestores(m: map<string, HiddenPhoto>, photoId: string, eventId: string,
                            reason: Option<string>, now: string)
    ensures HideRestored(Hidden(m, photoId, eventId, reason, now), photoId,
                         if photoId in m then Some(m[photoId]) else None) == m
  {
    var r := HideRestored(Hidden(m, photoId, eventId, reason, now), photoId,
                          if photoId in m then Some(m[photoId]) else None);
    assert r.Keys == m.Keys;
  }

  /** When the photo was not hidden, the written undo and the intended one
      agree: the only caller, `togglePhotoHidden`, is unaffected. */
  lemma HideRollbackAgreesWhenAbsent(m: map<string, HiddenPhoto>, photoId: string, eventId: string,
                                     reason: Option<string>, now: string)
    requires !IsPhotoHidden(m, photoId)
    ensures HideRolledBack(Hidden(m, photoId, eventId, reason, now), photoId) == m
    ensures HideRestored(Hidden(m, photoId, eventId, reason, now), photoId, None) == m
  {
    var r := HideRolledBack(Hidden(m, photoId, eventId, reason, now), photoId);
    assert r.Keys == m.Keys;
  }

  /** The undo of `unhidePhoto`: the removed record is put back if there was one. */
  lemma UnhideRollbackRestores(m: map<string, HiddenPhoto>, photoId: string)
    ensures HideRestored(Unhidden(m, photoId), photoId,
                         if photoId in m then Some(m[photoId]) else None) == m
  {
    var r := HideRestored(Unhidden(m, photoId), photoId, if photoId in m then Some(m[photoId]) else None);
    assert r.Keys == m.Keys;
  }

  class ServerHiddenStore {
    var hiddenPhotos: map<string, HiddenPhoto>
    var isLoading: bool
    var error: Option<string>
    /** The hidden-photos document held by the data API. */
    var remote: map<string, HiddenPhoto>

    constructor(remote0: map<string, HiddenPhoto>)
      ensures hiddenPhotos == map[] && !isLoading && error.None? && remote == remote0
    {
      hiddenPhotos := map[];
      isLoading := false;
      error := None;
      remote := remote0;
    }

    /** `loadFromServer`: `fetched` is the document's `hiddenPhotos` field
        (`None` when missing) or the request's error; `local` is the
        `hidden-photos` entry of browser storage. */
    method LoadFromServer(fetched: Fetch<Option<map<string, HiddenPhoto>>>,
                          local: LocalCopy<map<string, HiddenPhoto>>)
      modifies this
      ensures !isLoading && remote == old(remote)
      ensures fetched.Fetched? ==> hiddenPhotos == fetched.value.GetOr(map[]) && error.None?
      ensures fetched.FetchFailed? ==> error == Some(fetched.message)
      ensures fetched.FetchFailed? && local.Copy? ==> hiddenPhotos == local.value.GetOr(map[])
      ensures fetched.FetchFailed? && !local.Copy? ==> hiddenPhotos == old(hiddenPhotos)
    {
      isLoading := true;
      error := None;
      match fetched {
        case Fetched(data) =>
          hiddenPhotos := data.GetOr(map[]);
          isLoading := false;
        case FetchFailed(message) =>
          error := Some(message);
          isLoading := false;
          if local.Copy? {
            hiddenPhotos := local.value.GetOr(map[]);
          }
      }
    }

    /** `saveToServer`. */
    method SaveToServer(save: Outcome) returns (result: Outcome)
      modifies this
      ensures result == save
      ensures hiddenPhotos == old(hiddenPhotos) && isLoading == old(isLoading)
      ensures save.Pass? ==> remote == hiddenPhotos && error.None?
      ensures save.Fail? ==> remote == old(remote) && error == Some(save.error)
    {
      if save.Pass? {
        remote := hiddenPhotos;
        error := None;
      } else {
        error := Some(save.error);
      }
      result := save;
    }

    /** `hidePhoto`, with its undo as written: a failed save removes the key. */
    method HidePhoto(photoId: string, eventId: string, reason: Option<string>, now: string,
                     save: Outcome) returns (result: Outcome)
      modifies this
      ensures result == save && isLoading == old(isLoading)
      ensures save.Pass? ==> hiddenPhotos == Hidden(old(hiddenPhotos), photoId, eventId, reason, now)
                             && remote == hiddenPhotos && error.None?
      ensures save.Fail? ==> hiddenPhotos == HideRolledBack(Hidden(old(hiddenPhotos), photoId, eventId, reason, now), photoId)
                             && remote == old(remote) && error == Some(save.error)
    {
      hiddenPhotos := hiddenPhotos[photoId := HiddenPhoto(photoId, eventId, now, reason)];
      result := SaveToServer(save);
      if result.Fail? {
        hiddenPhotos := hiddenPhotos - {photoId};
      }
    }

    /** `hidePhoto` with the intended undo: a failed save leaves the store
        as it was. */
    method HidePhotoRestoring(photoId: string, eventId: string, reason: Option<string>, now: string,
                              save: Outcome) returns (result: Outcome)
      modifies this
      ensures result == save && isLoading == old(isLoading)
      ensures save.Pass? ==> hiddenPhotos == Hidden(old(hiddenPhotos), photoId, eventId, reason, now)
                             && remote == hiddenPhotos && error.None?
      ensures save.Fail? ==> hiddenPhotos == old(hiddenPhotos)
                             && remote == old(remote) && error == Some(save.error)
    {
      var previous := if photoId in hiddenPhotos then Some(hiddenPhotos[photoId]) else None;
      ghost var before := hiddenPhotos;
      hiddenPhotos := hiddenPhotos[photoId := HiddenPhoto(photoId, eventId, now, reason)];
      result := SaveToServer(save);
      if result.Fail? {
        HideRestoreRestores(before, photoId, eventId, reason, now);
        if previous.Some? {
          hiddenPhotos := hiddenPhotos[photoId := previous.value];
        } else {
          hiddenPhotos := hiddenPhotos - {photoId};
        }
      }
    }

    /** `unhidePhoto`: a failed save puts the removed record back. */
    method UnhidePhoto(photoId: string, save: Outcome) returns (result: Outcome)
      modifies this
      ensures result == save && isLoading == old(isLoading)
      ensures save.Pass? ==> hiddenPhotos == Unhidden(old(hiddenPhotos), photoId)
                             && remote == hiddenPhotos && error.None?
      ensures save.Fail? ==> hiddenPhotos == old(hiddenPhotos)
                             && remote == old(remote) && error == Some(save.error)
    {
      var removedItem := if photoId in hiddenPhotos then Some(hiddenPhotos[photoId]) else None;
      ghost var before := hiddenPhotos;
      hiddenPhotos := hiddenPhotos - {photoId};
      result := SaveToServer(save);
      if result.Fail? {
        UnhideRollbackRestores(before, photoId);
        if removedItem.Some? {
          hiddenPhotos := hiddenPhotos[photoId := removedItem.value];
        }
      }
    }

    /** `isPhotoHidden`. */
    predicate IsHidden(photoId: string)
      reads this
    {
      IsPhotoHidden(hiddenPhotos, photoId)
    }

    /** `togglePhotoHidden`: a successful save flips the photo, a failed one
        leaves the store as it was (for this caller the written undo of
        `hidePhoto` is the right one). */
    method TogglePhotoHidden(photoId: string, eventId: string, now: string, save: Outcome)
      returns (result: Outcome)
      modifies this
      ensures result == save && isLoading == old(isLoading)
      ensures save.Pass? ==> hiddenPhotos == Toggled(old(hiddenPhotos), photoId, eventId, now)
                             && remote == hiddenPhotos && error.None?
      ensures save.Fail? ==> hiddenPhotos == old(hiddenPhotos)
                             && remote == old(remote) && error == Some(save.error)
    {
      if IsHidden(photoId) {
        result := UnhidePhoto(photoId, save);
      } else {
        HideRollbackAgreesWhenAbsent(hiddenPhotos, photoId, eventId, None, now);
        result := HidePhoto(photoId, eventId, None, now, save);
      }
    }

    /** `hideMultiplePhotos`: one timestamp for all; a failed save restores
        the snapshot taken before the change. */
    method HideMultiplePhotos(photoIds: seq<string>, eventId: string, reason: Option<string>,
                              now: string, save: Outcome) returns (result: Outcome)
      modifies this
      ensures result == save && isLoading == old(isLoading)
      ensures save.Pass? ==> hiddenPhotos == HideAll(old(hiddenPhotos), photoIds, eventId, reason, now)
                             && remote == hiddenPhotos && error.None?
      ensures save.Fail? ==> hiddenPhotos == old(hiddenPhotos)
                             && remote == old(remote) && error == Some(save.error)
    {
      var previousState := hiddenPhotos;
      var newHidden := FillHidden(hiddenPhotos, photoIds, eventId, reason, now);
      hiddenPhotos := newHidden;
      result := SaveToServer(save);
      if result.Fail? {
        hiddenPhotos := previousState;
      }
    }

    /** `unhideAll(eventId)`: snapshot, remove, save, restore on failure. */
    method UnhideAll(eventId: Option<string>, save: Outcome) returns (result: Outcome)
      modifies this
      ensures result == save && isLoading == old(isLoading)
      ensures save.Pass? ==> hiddenPhotos == WithoutEvent(old(hiddenPhotos), eventId)
                             && remote == hiddenPhotos && error.None?
      ensures save.Fail? ==> hiddenPhotos == old(hiddenPhotos)
                             && remote == old(remote) && error == Some(save.error)
    {
      var previousState := hiddenPhotos;
      if !Present(eventId) {
        hiddenPhotos := map[];
      } else {
        hiddenPhotos := map k | k in hiddenPhotos && hiddenPhotos[k].eventId != eventId.value :: hiddenPhotos[k];
      }
      result := SaveToServer(save);
      if result.Fail? {
        hiddenPhotos := previousState;
      }
    }

    /** `importHidden`: an accepted document replaces the map, then a
        background save whose failure is only logged. */
    method ImportHidden(json: Option<HiddenDoc>, save: Outcome) returns (ok: bool)
      modifies this
      ensures ok <==> json.Some? && Accepts(json.value)
      ensures ok ==> hiddenPhotos == json.value.hiddenPhotos.value
      ensures ok && save.Pass? ==> remote == hiddenPhotos && error.None?
      ensures ok && save.Fail? ==> remote == old(remote) && error == Some(save.error)
      ensures !ok ==> hiddenPhotos == old(hiddenPhotos) && remote == old(remote) && error == old(error)
      ensures isLoading == old(isLoading)
    {
      if json.Some? && Accepts(json.value) {
        hiddenPhotos := json.value.hiddenPhotos.value;
        var _ := SaveToServer(save);
        ok := true;
      } else {
        ok := false;
      }
    }
  }

  /** Any action whose save fails leaves the store and the data API as they
      were, except `hidePhoto` on an already hidden photo (above). A
      failing toggle followed by a succeeding one therefore has the effect
      of one toggle. */
  method RetryToggle(s: ServerHiddenStore, photoId: string, eventId: string, t1: string, t2: string,
                     message: string)
    modifies s
    ensures s.hiddenPhotos == Toggled(old(s.hiddenPhotos), photoId, eventId, t2)
    ensures s.remote == s.hiddenPhotos && s.error.None?
  {
    var _ := s.TogglePhotoHidden(photoId, eventId, t1, Fail(message));
    var _ := s.TogglePhotoHidden(photoId, eventId, t2, Pass);
  }
}

=== FILE: server_rating_store.dfy ===
/** The server-synchronised rating store (src/stores/serverRatingStore.ts).
    Every change is made to the local map first and then the whole map is
    saved through the data API; a failed save of a single rating undoes that
    one key. The data API's document is kept as `remote`: what the last
    successful save sent. */
module ServerRatingStore {
  import opened Wrappers
  import opened Seqs
  import RatingStore

  type PhotoRating = RatingStore.PhotoRating

  /** The map after a failed `ratePhoto` is rolled back: the previous record
      is put back if there was one, otherwise the key is removed. Nothing
      else is touched. */
  function RolledBack(m: map<string, PhotoRating>, photoId: string, previous: Option<PhotoRating>)
    : (r: map<string, PhotoRating>)
    ensures previous.Some? ==> photoId in r && r[photoId] == previous.value
    ensures previous.None? ==> photoId !in r
    ensures forall k :: k != photoId ==> (k in r <==> k in m) && (k in r ==> r[k] == m[k])
  {
    if previous.Some? then m[photoId := previous.value] else m - {photoId}
  }

  /** The entry is made from a record of the event kept under some key. */
  ghost predicate FromEvent(m: map<string, PhotoRating>, eventId: string, e: RatingStore.TopEntry) {
    exists k :: k in m && m[k].eventId == eventId && e == RatingStore.ToEntry(m[k])
  }

  /** Entries made from records of the store's event come from keys of
      that event. */
  lemma EntriesOfStore(m: map<string, PhotoRating>, events: seq<PhotoRating>, r: seq<RatingStore.TopEntry>,
                       eventId: string)
    requires forall j :: 0 <= j < |events| ==> events[j].eventId == eventId && events[j] in m.Values
    requires forall i :: 0 <= i < |r| ==> exists j :: 0 <= j < |events| && r[i] == RatingStore.ToEntry(events[j])
    ensures forall i :: 0 <= i < |r| ==> FromEvent(m, eventId, r[i])
  {
    forall i | 0 <= i < |r| ensures FromEvent(m, eventId, r[i]) {
      var j :| 0 <= j < |events| && r[i] == RatingStore.ToEntry(events[j]);
      StoredRecordIsFromEvent(m, eventId, events[j]);
    }
  }

  /** A record of the event stored under some key gives an entry of the
      event. */
  lemma StoredRecordIsFromEvent(m: map<string, PhotoRating>, eventId: string, p: PhotoRating)
    requires p.eventId == eventId && p in m.Values
    ensures FromEvent(m, eventId, RatingStore.ToEntry(p))
  {
    var k :| k in m && m[k] == p;
  }

  /** The local ranking over the store's records keeps to the limit and
      lists only entries of the event's records. */
  lemma TopFromStore(m: map<string, PhotoRating>, keys: seq<string>, eventId: string, limit: int)
    requires Enumerates(keys, m)
    ensures var r := RatingStore.GetTopRatedPhotos(m, keys, eventId, limit);
            (limit >= 0 ==> |r| <= limit) && forall i :: 0 <= i < |r| ==> FromEvent(m, eventId, r[i])
  {
    var r := RatingStore.GetTopRatedPhotos(m, keys, eventId, limit);
    EntriesOfStore(m, RatingStore.GetEventRatings(m, keys, eventId), r, eventId);
  }

  /** Undoing the optimistic rating of one photo gives back exactly the map
      from before the call: the per-key rollback loses nothing. */
  lemma RollbackRestores(m: map<string, PhotoRating>, photoId: string, eventId: string, rating: int,
                         comment: Option<string>, now: string)
    ensures RolledBack(RatingStore.Rated(m, photoId, eventId, rating, comment, now), photoId,
                       RatingStore.GetPhotoRating(m, photoId)) == m
  {
    var r := RolledBack(RatingStore.Rated(m, photoId, eventId, rating, comment, now), photoId,
                        RatingStore.GetPhotoRating(m, photoId));
    assert r.Keys == m.Keys;
  }

  class ServerRatingStore {
    var ratings: map<string, PhotoRating>
    var isLoading: bool
    var error: Option<string>
    /** The ratings document held by the data API. */
    var remote: map<string, PhotoRating>

    constructor(remote0: map<string, PhotoRating>)
      ensures ratings == map[] && !isLoading && error.None? && remote == remote0
    {
      ratings := map[];
      isLoading := false;
      error := None;
      remote := remote0;
    }

    /** `loadFromServer`: `fetched` is what `dataApi.get('ratings')` gave
        (the document's `ratings` field, `None` when missing), `local` what
        browser storage holds under `photo-ratings`. */
    method LoadFromServer(fetched: Fetch<Option<map<string, PhotoRating>>>,
                          local: LocalCopy<map<string, PhotoRating>>)
      modifies this
      ensures !isLoading && remote == old(remote)
      ensures fetched.Fetched? ==> ratings == fetched.value.GetOr(map[]) && error.None?
      ensures fetched.FetchFailed? ==> error == Some(fetched.message)
      ensures fetched.FetchFailed? && local.Copy? ==> ratings == local.value.GetOr(map[])
      ensures fetched.FetchFailed? && !local.Copy? ==> ratings == old(ratings)
    {
      isLoading := true;
      error := None;
      match fetched {
        case Fetched(data) =>
          ratings := data.GetOr(map[]);
          isLoading := false;
        case FetchFailed(message) =>
          error := Some(message);
          isLoading := false;
          if local.Copy? {
            ratings := local.value.GetOr(map[]);
          }
      }
    }

    /** `saveToServer`: sends the whole map; `save` is how the request
        settles. The error is cleared on success, set and rethrown on
        failure. */
    method SaveToServer(save: Outcome) returns (result: Outcome)
      modifies this
      ensures result == save
      ensures ratings == old(ratings) && isLoading == old(isLoading)
      ensures save.Pass? ==> remote == ratings && error.None?
      ensures save.Fail? ==> remote == old(remote) && error == Some(save.error)
    {
      if save.Pass? {
        remote := ratings;
        error := None;
      } else {
        error := Some(save.error);
      }
      result := save;
    }

    /** `ratePhoto`: the clamped record is installed, then saved; a failed
        save puts back what the key held before and rethrows. */
    method RatePhoto(photoId: string, eventId: string, rating: int, comment: Option<string>,
                     now: string, save: Outcome) returns (result: Outcome)
      modifies this
      ensures result == save && isLoading == old(isLoading)
      ensures save.Pass? ==>
                ratings == RatingStore.Rated(old(ratings), photoId, eventId, rating, comment, now)
                && remote == ratings && error.None?
      ensures save.Fail? ==>
                ratings == RolledBack(RatingStore.Rated(old(ratings), photoId, eventId, rating, comment, now),
                                      photoId, RatingStore.GetPhotoRating(old(ratings), photoId))
                && remote == old(remote) && error == Some(save.error)
    {
      var previous := RatingStore.GetPhotoRating(ratings, photoId);
      ratings := ratings[photoId := RatingStore.PhotoRating(photoId, eventId, RatingStore.Clamp(rating), now, comment)];
      result := SaveToServer(save);
      if result.Fail? {
        if previous.Some? {
          ratings := ratings[photoId := previous.value];
        } else {
          ratings := ratings - {photoId};
        }
      }
    }

    /** `getTopRatedPhotos`, the same ranking as the local store's. */
    function GetTopRatedPhotos(keys: seq<string>, eventId: string, limit: int): (r: seq<RatingStore.TopEntry>)
      reads this
      requires Enumerates(keys, ratings)
      ensures r == RatingStore.GetTopRatedPhotos(ratings, keys, eventId, limit)
      ensures limit >= 0 ==> |r| <= limit
      ensures forall i :: 0 <= i < |r| ==> FromEvent(ratings, eventId, r[i])
      ensures forall i, j :: 0 <= i < j < |r| ==> r[i].rating >= r[j].rating
    {
      TopFromStore(ratings, keys, eventId, limit);
      RatingStore.GetTopRatedPhotos(ratings, keys, eventId, limit)
    }

    /** `getRatingStats`, the same statistics as the local store's. */
    method GetRatingStats(keys: seq<string>, eventId: string) returns (st: RatingStore.RatingStats)
      requires Enumerates(keys, ratings)
      ensures st.totalRatings == |RatingStore.EventPhotoIds(ratings, eventId)|
      ensures RatingStore.Tallies(st.distribution, RatingStore.Scores(RatingStore.GetEventRatings(ratings, keys, eventId)))
      ensures st.totalScore == RatingStore.Total(RatingStore.Scores(RatingStore.GetEventRatings(ratings, keys, eventId)))
    {
      st := RatingStore.GetRatingStats(ratings, keys, eventId);
    }

    /** `importRatings`: an accepted document replaces the map and is saved
        in the background; the map stays even if that save fails. */
    method ImportRatings(json: Option<RatingStore.RatingsDoc>, save: Outcome) returns (ok: bool)
      modifies this
      ensures ok <==> json.Some? && RatingStore.Accepts(json.value)
      ensures ok ==> ratings == json.value.ratings.value
      ensures ok && save.Pass? ==> remote == ratings && error.None?
      ensures ok && save.Fail? ==> remote == old(remote) && error == Some(save.error)
      ensures !ok ==> ratings == old(ratings) && remote == old(remote) && error == old(error)
      ensures isLoading == old(isLoading)
    {
      if json.Some? && RatingStore.Accepts(json.value) {
        ratings := json.value.ratings.value;
        var _ := SaveToServer(save);
        ok := true;
      } else {
        ok := false;
      }
    }

    /** `clearAllRatings`: empties the map and saves in the background, with
        no rollback. */
    method ClearAllRatings(save: Outcome)
      modifies this
      ensures ratings == map[] && isLoading == old(isLoading)
      ensures save.Pass? ==> remote == map[] && error.None?
      ensures save.Fail? ==> remote == old(remote) && error == Some(save.error)
    {
      ratings := map[];
      var _ := SaveToServer(save);
    }
  }
}

=== FILE: sorting.dfy ===
/** `Array.prototype.sort` with a numeric comparator `(a, b) => key(a) - key(b)`.
    The JavaScript sort is stable, so the result is determined by the key:
    it is the permutation of the input that is ordered by key and keeps
    elements with equal keys in their input order. Descending sorts
    (`(a, b) => key(b) - key(a)`) are the ascending sort by the negated key. */
module Sorting {

  /** Keys never decrease along `s`. */
  ghost predicate SortedBy<T>(s: seq<T>, key: T -> int) {
    forall i, j :: 0 <= i < j < |s| ==> key(s[i]) <= key(s[j])
  }

  /** The elements of `s` whose key is `k`, in their order in `s`. */
  function WithKey<T>(s: seq<T>, key: T -> int, k: int): seq<T> {
    if s == [] then [] else (if key(s[0]) == k then [s[0]] else []) + WithKey(s[1..], key, k)
  }

  /** `r` is the stable sort of `s` by `key`: ordered by key, and for every
      key the elements carrying it appear in `r` exactly as in `s`. */
  ghost predicate StableSortOf<T>(r: seq<T>, s: seq<T>, key: T -> int) {
    SortedBy(r, key) && forall k :: WithKey(r, key, k) == WithKey(s, key, k)
  }

  /** Places `x` before the first element whose key is not smaller. */
  function Insert<T>(x: T, s: seq<T>, key: T -> int): seq<T> {
    if s == [] then [x]
    else if key(x) <= key(s[0]) then [x] + s
    else [s[0]] + Insert(x, s[1..], key)
  }

  /** The stable ascending sort of `s` by `key`. */
  function SortBy<T>(s: seq<T>, key: T -> int): (r: seq<T>)
    ensures |r| == |s|
    ensures multiset(r) == multiset(s)
    ensures StableSortOf(r, s, key)
  {
    if s == [] then []
    else
      var t := SortBy(s[1..], key);
      InsertFacts(s[0], t, key);
      assert s == [s[0]] + s[1..];
      forall k ensures WithKey(Insert(s[0], t, key), key, k) == WithKey(s, key, k) {
        InsertWithKey(s[0], t, key, k);
      }
      Insert(s[0], t, key)
  }

  lemma InsertFacts<T>(x: T, s: seq<T>, key: T -> int)
    requires SortedBy(s, key)
    ensures |Insert(x, s, key)| == |s| + 1
    ensures multiset(Insert(x, s, key)) == multiset{x} + multiset(s)
    ensures SortedBy(Insert(x, s, key), key)
    ensures forall i :: 0 <= i < |Insert(x, s, key)| ==>
              Insert(x, s, key)[i] == x || Insert(x, s, key)[i] in s
  {
    InsertMultiset(x, s, key);
    InsertSorted(x, s, key);
    var r := Insert(x, s, key);
    forall i | 0 <= i < |r| ensures r[i] == x || r[i] in s {
      assert r[i] in multiset(r);
    }
  }

  lemma {:induction false} InsertMultiset<T>(x: T, s: seq<T>, key: T -> int)
    ensures |Insert(x, s, key)| == |s| + 1
    ensures multiset(Insert(x, s, key)) == multiset{x} + multiset(s)
  {
    if s != [] && key(x) > key(s[0]) {
      InsertMultiset(x, s[1..], key);
      assert s == [s[0]] + s[1..];
    }
  }

  lemma {:induction false} InsertSorted<T>(x: T, s: seq<T>, key: T -> int)
    requires SortedBy(s, key)
    ensures SortedBy(Insert(x, s, key), key)
  {
    var r := Insert(x, s, key);
    if s == [] {
    } else if key(x) <= key(s[0]) {
      assert r == [x] + s;
      forall i, j | 0 <= i < j < |r| ensures key(r[i]) <= key(r[j]) {
        assert r[j] == s[j - 1];
        if i > 0 {
          assert r[i] == s[i - 1];
        } else {
          assert key(s[0]) <= key(s[j - 1]) || j == 1;
        }
      }
    } else {
      var t := Insert(x, s[1..], key);
      InsertSorted(x, s[1..], key);
      InsertBound(x, s[1..], key, key(s[0]));
      assert r == [s[0]] + t;
      forall i, j | 0 <= i < j < |r| ensures key(r[i]) <= key(r[j]) {
        assert r[j] == t[j - 1];
        if i > 0 {
          assert r[i] == t[i - 1];
        }
      }
    }
  }

  /** Inserting keeps a lower bound on the keys. */
  lemma {:induction false} InsertBound<T>(x: T, s: seq<T>, key: T -> int, lo: int)
    requires lo <= key(x) && forall i :: 0 <= i < |s| ==> lo <= key(s[i])
    ensures forall i :: 0 <= i < |Insert(x, s, key)| ==> lo <= key(Insert(x, s, key)[i])
  {
    var r := Insert(x, s, key);
    if s == [] {
    } else if key(x) <= key(s[0]) {
      assert r == [x] + s;
      forall i | 0 <= i < |r| ensures lo <= key(r[i]) {
        if i > 0 {
          assert r[i] == s[i - 1];
        }
      }
    } else {
      var t := Insert(x, s[1..], key);
      InsertBound(x, s[1..], key, lo);
      assert r == [s[0]] + t;
      forall i | 0 <= i < |r| ensures lo <= key(r[i]) {
        if i > 0 {
          assert r[i] == t[i - 1];
        }
      }
    }
  }

  lemma {:induction false} InsertWithKey<T>(x: T, s: seq<T>, key: T -> int, k: int)
    ensures WithKey(Insert(x, s, key), key, k) ==
            (if key(x) == k then [x] else []) + WithKey(s, key, k)
  {
    if s == [] {
      assert WithKey([x], key, k) == (if key(x) == k then [x] else []) + WithKey([], key, k);
    } else if key(x) <= key(s[0]) {
      assert ([x] + s)[1..] == s;
    } else {
      var t := Insert(x, s[1..], key);
      InsertWithKey(x, s[1..], key, k);
      var h := if key(s[0]) == k then [s[0]] else [];
      var hx := if key(x) == k then [x] else [];
      assert ([s[0]] + t)[1..] == t;
      calc {
        WithKey(Insert(x, s, key), key, k);
        WithKey([s[0]] + t, key, k);
        h + WithKey(t, key, k);
        h + (hx + WithKey(s[1..], key, k));
        { assert hx == [] || h == [] || hx == h; }
        hx + (h + WithKey(s[1..], key, k));
        hx + WithKey(s, key, k);
      }
    }
  }

  /** Sorting keeps exactly the elements of the input. */
  lemma SortMembers<T>(s: seq<T>, key: T -> int)
    ensures forall x :: x in SortBy(s, key) <==> x in s
  {
    var r := SortBy(s, key);
    forall x ensures x in r <==> x in s {
      assert x in r <==> x in multiset(r);
      assert x in s <==> x in multiset(s);
    }
  }

  /** Sorting an already sorted sequence changes nothing. */
  lemma {:induction false} SortSorted<T>(s: seq<T>, key: T -> int)
    requires SortedBy(s, key)
    ensures SortBy(s, key) == s
  {
    if s != [] {
      assert SortedBy(s[1..], key);
      SortSorted(s[1..], key);
    }
  }

  /** When every key is the same, the stable sort keeps the input order:
      a comparator that always returns 0 leaves the array unchanged. */
  lemma {:induction false} SortConstantKey<T>(s: seq<T>, key: T -> int)
    requires forall i, j :: 0 <= i < j < |s| ==> key(s[i]) == key(s[j])
    ensures SortBy(s, key) == s
  {
    SortSorted(s, key);
  }
}

=== FILE: strings.dfy ===
/** The JavaScript string operations the source relies on: `toLowerCase`,
    `includes`, `trim` and `replace(/\s+/g, '_')`. */
module Strings {

  /** The characters JavaScript's `\s` and `String.prototype.trim` treat as
      white space (WhiteSpace and LineTerminator of ECMA-262). */
  predicate IsWhitespace(c: char) {
    c == ' ' || c == '\t' || c == '\n' || c == '\r' || c == '\U{000B}' || c == '\U{000C}'
    || c == '\U{00A0}' || c == '\U{1680}' || ('\U{2000}' <= c <= '\U{200A}')
    || c == '\U{2028}' || c == '\U{2029}' || c == '\U{202F}' || c == '\U{205F}'
    || c == '\U{3000}' || c == '\U{FEFF}'
  }

  /** `toLowerCase` on the ASCII letters; every other character is kept. */
  function ToLower(s: string): (r: string)
    ensures |r| == |s|
    ensures forall i :: 0 <= i < |s| ==>
              r[i] == if 'A' <= s[i] <= 'Z' then (s[i] as int + 32) as char else s[i]
  {
    if s == [] then []
    else [if 'A' <= s[0] <= 'Z' then (s[0] as int + 32) as char else s[0]] + ToLower(s[1..])
  }

  /** `s.includes(q)`: `q` occurs in `s` as a contiguous block. */
  function Includes(s: string, q: string): (b: bool)
    ensures b <==> exists i :: 0 <= i <= |s| && q <= s[i..]
  {
    if q <= s then
      assert s[0..] == s;
      true
    else if s == [] then
      false
    else
      var b := Includes(s[1..], q);
      if b then
        var i :| 0 <= i <= |s[1..]| && q <= s[1..][i..];
        assert s[1..][i..] == s[i + 1..];
        true
      else
        assert forall i :: 1 <= i <= |s| ==> s[i..] == s[1..][i - 1..];
        assert s[0..] == s;
        false
  }

  /** Lower-casing twice is lower-casing once. */
  lemma ToLowerIdempotent(s: string)
    ensures ToLower(ToLower(s)) == ToLower(s)
  {
  }

  /** `s.toLowerCase().includes(q.toLowerCase())`. */
  predicate ContainsIgnoringCase(s: string, q: string) {
    Includes(ToLower(s), ToLower(q))
  }

  /** The empty query is found in every string. */
  lemma EmptyQueryFound(s: string)
    ensures ContainsIgnoringCase(s, "")
  {
  }

  /** Drops leading white space. */
  function TrimStart(s: string): (r: string)
    ensures |r| <= |s| && r == s[|s| - |r|..]
    ensures r == [] || !IsWhitespace(r[0])
    ensures forall i :: 0 <= i < |s| - |r| ==> IsWhitespace(s[i])
  {
    if s == [] || !IsWhitespace(s[0]) then s else TrimStart(s[1..])
  }

  /** Drops trailing white space. */
  function TrimEnd(s: string): (r: string)
    ensures |r| <= |s| && r == s[..|r|]
    ensures r == [] || !IsWhitespace(r[|r| - 1])
    ensures forall i :: |r| <= i < |s| ==> IsWhitespace(s[i])
  {
    if s == [] || !IsWhitespace(s[|s| - 1]) then s else TrimEnd(s[..|s| - 1])
  }

  /** `s.trim()`. */
  function Trim(s: string): string {
    TrimEnd(TrimStart(s))
  }

  /** `!s.trim()`: the string is empty after trimming. */
  predicate IsBlank(s: string) {
    Trim(s) == []
  }

  /** A string is blank exactly when it holds nothing but white space. */
  lemma BlankIffAllWhitespace(s: string)
    ensures IsBlank(s) <==> forall i :: 0 <= i < |s| ==> IsWhitespace(s[i])
  {
  }

  /** Skips a run of white space at the front of `s`. */
  function SkipWhitespace(s: string): (r: string)
    ensures |r| <= |s|
    ensures r == [] || !IsWhitespace(r[0])
  {
    if s != [] && IsWhitespace(s[0]) then SkipWhitespace(s[1..]) else s
  }

  /** `s.replace(/\s+/g, '_')`: every maximal run of white space becomes one
      underscore. */
  function UnderscoreWhitespace(s: string): (r: string)
    ensures |r| <= |s|
    ensures forall i :: 0 <= i < |r| ==> !IsWhitespace(r[i])
    ensures (forall i :: 0 <= i < |s| ==> !IsWhitespace(s[i])) ==> r == s
    decreases |s|
  {
    if s == [] then []
    else if IsWhitespace(s[0]) then "_" + UnderscoreWhitespace(SkipWhitespace(s[1..]))
    else [s[0]] + UnderscoreWhitespace(s[1..])
  }
}

=== FILE: tag_selector.dfy ===
/** The tag chooser used by the tag editor (src/components/features/TagSelector.tsx):
    a chip per tag, grouped in collapsible categories. */
module TagSelector {
  import opened Seqs

  /** The predicate of `selectedTags.filter(t => t !== tag)`. */
  function Without(tag: string): string -> bool {
    t => t != tag
  }

  /** `toggleTag(tag)`: the list handed to `onTagsChange`. A selected tag
      loses every occurrence, the others keeping their order; an unselected
      one is appended. */
  function ToggleTag(selected: seq<string>, tag: string): (r: seq<string>)
    ensures tag in selected ==> tag !in r && SubseqOf(r, selected)
    ensures tag !in selected ==> r == selected + [tag]
    ensures forall t :: t != tag ==> (t in r <==> t in selected)
    ensures tag in r <==> tag !in selected
    ensures tag in selected ==> forall t :: t != tag ==> multiset(r)[t] == multiset(selected)[t]
  {
    if tag in selected then
      FilterIsSubseq(selected, Without(tag));
      forall t | t != tag ensures multiset(Filter(selected, Without(tag)))[t] == multiset(selected)[t] {
        FilterMultiplicity(selected, Without(tag), t);
      }
      Filter(selected, Without(tag))
    else
      selected + [tag]
  }

  /** Selecting a tag and deselecting it again gives back the same list. */
  lemma ToggleTagTwice(selected: seq<string>, tag: string)
    requires tag !in selected
    ensures ToggleTag(ToggleTag(selected, tag), tag) == selected
  {
    FilterAppend(selected, [tag], Without(tag));
    FilterAll(selected, Without(tag));
    assert Filter([tag], Without(tag)) == [];
  }

  /** Deselecting a tag the list holds once, and selecting it again, moves it
      to the end and keeps every other tag in place. */
  lemma ToggleTagTwiceMovesLast(selected: seq<string>, i: nat)
    requires i < |selected| && Distinct(selected)
    ensures ToggleTag(ToggleTag(selected, selected[i]), selected[i]) ==
            selected[..i] + selected[i + 1..] + [selected[i]]
  {
    var tag := selected[i];
    var before, after := selected[..i], selected[i + 1..];
    assert selected == before + [tag] + after;
    forall j | 0 <= j < |before| ensures before[j] != tag {
      assert before[j] == selected[j];
    }
    forall j | 0 <= j < |after| ensures after[j] != tag {
      assert after[j] == selected[i + 1 + j];
    }
    DeselectSingle(before, tag, after);
  }

  lemma DeselectSingle(before: seq<string>, tag: string, after: seq<string>)
    requires tag !in before && tag !in after
    ensures ToggleTag(before + [tag] + after, tag) == before + after
  {
    var w := Without(tag);
    assert Filter(before, w) == before by { FilterAll(before, w); }
    assert Filter(after, w) == after by { FilterAll(after, w); }
    assert Filter([tag], w) == [];
    assert Filter(before + [tag], w) == before by { FilterAppend(before, [tag], w); }
    assert Filter(before + [tag] + after, w) == before + after by { FilterAppend(before + [tag], after, w); }
    assert tag in before + [tag] + after;
  }

  /** The expanded set after `toggleCategory(category)`. */
  function CategoryToggled(expanded: set<string>, category: string): (r: set<string>)
    ensures category in r <==> category !in expanded
    ensures forall c :: c != category ==> (c in r <==> c in expanded)
  {
    if category in expanded then expanded - {category} else expanded + {category}
  }

  /** Toggling a category twice restores the expanded set. */
  lemma CategoryToggleTwice(expanded: set<string>, category: string)
    ensures CategoryToggled(CategoryToggled(expanded, category), category) == expanded
  {
  }

  class TagSelector {
    var expandedCategories: set<string>

    constructor()
      ensures expandedCategories == {}
    {
      expandedCategories := {};
    }

    /** `toggleCategory(category)`: copy the set, flip the category, store
        the copy. */
    method ToggleCategory(category: string)
      modifies this
      ensures expandedCategories == CategoryToggled(old(expandedCategories), category)
    {
      var newExpanded := expandedCategories;
      if category in newExpanded {
        newExpanded := newExpanded - {category};
      } else {
        newExpanded := newExpanded + {category};
      }
      expandedCategories := newExpanded;
    }
  }
}

=== FILE: tag_store.dfy ===
/** The local photo-tag store (src/stores/tagStore.ts): a map from photo id
    to the photo's list of tags, the predefined tag vocabulary, and the tag
    statistics of an event. The counting loop defined here is also the one
    the event gallery page runs over its own photo lists. */
module TagStore {
  import opened Wrappers
  import opened Seqs
  import opened Sorting

  datatype PhotoTag = PhotoTag(photoId: string, eventId: string, tags: seq<string>, timestamp: string)

  /** One `{tag, count}` entry of the popular-tags list. */
  datatype TagCount = TagCount(tag: string, count: nat)

  /** `{totalTaggedPhotos, tagCounts, popularTags}`; `tagOrder` is the
      order in which `Object.entries` lists the keys of `tagCounts`. */
  datatype TagStats = TagStats(totalTaggedPhotos: nat, tagCounts: map<string, nat>,
                               tagOrder: seq<string>, popularTags: seq<TagCount>)

  /** A parsed export document `{version, exportDate, photoTags}`. */
  datatype TagsDoc = TagsDoc(version: Option<string>, exportDate: Option<string>,
                             photoTags: Option<map<string, PhotoTag>>)

  /** `TAG_CATEGORIES`, in declaration order. */
  const TagCategories: seq<(string, seq<string>)> := [
    ("people", ["Family", "Kids", "Friends", "Crowd", "Portrait"]),
    ("animals", ["Dog", "Cat", "Pet", "Wildlife"]),
    ("food", ["Food", "Food Truck", "Drinks", "Dessert", "BBQ"]),
    ("location", ["Building", "Rooftop", "Pool", "Garden", "Indoor", "Outdoor"]),
    ("activities", ["Games", "Music", "Dancing", "Sports", "Art"]),
    ("mood", ["Fun", "Candid", "Formal", "Sunset", "Night"])
  ]

  /** The tag lists of the categories, `Object.values(TAG_CATEGORIES)`. */
  function CategoryTags(): (r: seq<seq<string>>)
    ensures |r| == |TagCategories|
    ensures forall i :: 0 <= i < |r| ==> r[i] == TagCategories[i].1
  {
    seq(|TagCategories|, i requires 0 <= i < |TagCategories| => TagCategories[i].1)
  }

  /** `ALL_TAGS`: the six category lists one after the other, in
      declaration order; 30 tags. */
  function AllTags(): (r: seq<string>)
    ensures r == TagCategories[0].1 + TagCategories[1].1 + TagCategories[2].1
                 + TagCategories[3].1 + TagCategories[4].1 + TagCategories[5].1
    ensures |r| == 30
  {
    var c := CategoryTags();
    assert c[..0] == [];
    assert c[..1][..0] == c[..0];
    assert c[..2][..1] == c[..1];
    assert c[..3][..2] == c[..2];
    assert c[..4][..3] == c[..3];
    assert c[..5][..4] == c[..4];
    assert c[..6] == c;
    assert Flatten(c[..1]) == c[0];
    assert Flatten(c[..2]) == c[0] + c[1];
    assert Flatten(c[..3]) == c[0] + c[1] + c[2];
    assert Flatten(c[..4]) == c[0] + c[1] + c[2] + c[3];
    assert Flatten(c[..5]) == c[0] + c[1] + c[2] + c[3] + c[4];
    Flatten(c)
  }

  /** The map after `tagPhoto`: the photo's record is replaced, its tags
      deduplicated. */
  function Tagged(m: map<string, PhotoTag>, photoId: string, eventId: string, tags: seq<string>,
                  now: string): (r: map<string, PhotoTag>)
    ensures photoId in r && Distinct(r[photoId].tags)
    ensures forall t :: t in r[photoId].tags <==> t in tags
    ensures r[photoId].photoId == photoId && r[photoId].eventId == eventId && r[photoId].timestamp == now
    ensures r[photoId].tags == Dedup(tags)
    ensures r.Keys == m.Keys + {photoId}
    ensures forall k :: k in m && k != photoId ==> r[k] == m[k]
  {
    m[photoId := PhotoTag(photoId, eventId, Dedup(tags), now)]
  }

  /** Every record is filed under its own photo id and repeats no tag: what
      `tagPhoto` alone ever writes. */
  ghost predicate WellFormed(m: map<string, PhotoTag>) {
    forall k :: k in m ==> m[k].photoId == k && Distinct(m[k].tags)
  }

  lemma TaggedWellFormed(m: map<string, PhotoTag>, photoId: string, eventId: string,
                         tags: seq<string>, now: string)
    requires WellFormed(m)
    ensures WellFormed(Tagged(m, photoId, eventId, tags, now))
  {
  }

  /** Tagging a photo again with the tags it has changes only its timestamp. */
  lemma RetagKeepsTags(m: map<string, PhotoTag>, photoId: string, now: string)
    requires WellFormed(m) && photoId in m
    ensures Tagged(m, photoId, m[photoId].eventId, m[photoId].tags, now)[photoId].tags == m[photoId].tags
  {
    DedupDistinct(m[photoId].tags);
  }

  /** `getPhotoTags`: the record, or null. */
  function GetPhotoTags(m: map<string, PhotoTag>, photoId: string): (r: Option<PhotoTag>)
    ensures r.None? <==> photoId !in m
    ensures r.Some? ==> r.value == m[photoId]
  {
    if photoId in m then Some(m[photoId]) else None
  }

  /** The ids of the tagged photos of an event. */
  ghost function EventPhotoIds(m: map<string, PhotoTag>, eventId: string): set<string> {
    set k | k in m && m[k].eventId == eventId
  }

  /** `tag => tag.eventId === eventId`, as a test on keys. */
  function InEvent(m: map<string, PhotoTag>, eventId: string): string -> bool {
    k => k in m && m[k].eventId == eventId
  }

  /** `photoTag => photoTag.eventId === eventId && photoTag.tags.includes(tag)`,
      as a test on keys. */
  function InEventWithTag(m: map<string, PhotoTag>, eventId: string, tag: string): string -> bool {
    k => k in m && m[k].eventId == eventId && tag in m[k].tags
  }

  /** `getEventTags`: the records of the event, in enumeration order. */
  function GetEventTags(m: map<string, PhotoTag>, keys: seq<string>, eventId: string): (r: seq<PhotoTag>)
    requires Enumerates(keys, m)
    ensures |r| == |EventPhotoIds(m, eventId)|
    ensures forall i :: 0 <= i < |r| ==> r[i].eventId == eventId && r[i] in m.Values
    ensures forall k :: k in m && m[k].eventId == eventId ==> m[k] in r
  {
    EventTagsFacts(m, keys, eventId);
    Values(m, Filter(keys, InEvent(m, eventId)))
  }

  lemma EventTagsFacts(m: map<string, PhotoTag>, keys: seq<string>, eventId: string)
    requires Enumerates(keys, m)
    ensures |Filter(keys, InEvent(m, eventId))| == |EventPhotoIds(m, eventId)|
    ensures forall k :: k in m && m[k].eventId == eventId ==>
              m[k] in Values(m, Filter(keys, InEvent(m, eventId)))
  {
    FilterDistinctCard(keys, InEvent(m, eventId));
    assert Kept(keys, InEvent(m, eventId)) == EventPhotoIds(m, eventId);
    var ks := Filter(keys, InEvent(m, eventId));
    var r := Values(m, ks);
    KeptValues(m, keys, InEvent(m, eventId));
    forall k | k in m && m[k].eventId == eventId ensures m[k] in r {
      assert k in keys && InEvent(m, eventId)(k);
    }
  }

  /** `getPhotosWithTag`: the records of the event that carry the tag. */
  function GetPhotosWithTag(m: map<string, PhotoTag>, keys: seq<string>, eventId: string,
                            tag: string): (r: seq<PhotoTag>)
    requires Enumerates(keys, m)
    ensures forall i :: 0 <= i < |r| ==> r[i].eventId == eventId && tag in r[i].tags && r[i] in m.Values
    ensures forall k :: k in m && m[k].eventId == eventId && tag in m[k].tags ==> m[k] in r
  {
    TaggedValues(m, keys, eventId, tag, Filter(keys, InEventWithTag(m, eventId, tag)));
    Values(m, Filter(keys, InEventWithTag(m, eventId, tag)))
  }

  /** The values of the keys kept by the event-and-tag test are exactly the
      event's records carrying the tag. */
  lemma TaggedValues(m: map<string, PhotoTag>, keys: seq<string>, eventId: string, tag: string, ks: seq<string>)
    requires Enumerates(keys, m) && ks == Filter(keys, InEventWithTag(m, eventId, tag))
    ensures forall i :: 0 <= i < |ks| ==> ks[i] in m
    ensures var r := Values(m, ks);
            (forall i :: 0 <= i < |r| ==> r[i].eventId == eventId && tag in r[i].tags && r[i] in m.Values)
            && forall k :: k in m && m[k].eventId == eventId && tag in m[k].tags ==> m[k] in r
  {
    var r := Values(m, ks);
    forall i | 0 <= i < |r| ensures r[i].eventId == eventId && tag in r[i].tags && r[i] in m.Values {
      assert InEventWithTag(m, eventId, tag)(ks[i]);
    }
    KeptValues(m, keys, InEventWithTag(m, eventId, tag));
    forall k | k in m && m[k].eventId == eventId && tag in m[k].tags ensures m[k] in r {
      assert k in keys && InEventWithTag(m, eventId, tag)(k);
    }
  }

  /** How many of the lists contain `t`. */
  function ListsWith(lists: seq<seq<string>>, t: string): nat {
    if lists == [] then 0
    else ListsWith(lists[..|lists| - 1], t) + (if t in lists[|lists| - 1] then 1 else 0)
  }

  /** For every tag occurring in `all`, how often it occurs. */
  ghost function CountMap(all: seq<string>): map<string, nat> {
    map t | t in all :: Occurrences(all, t)
  }

  /** `counts` holds, for every tag occurring in `all`, how often it occurs,
      and no other key; `order` lists its keys in insertion order. */
  ghost predicate Counts(counts: map<string, nat>, order: seq<string>, all: seq<string>) {
    counts == CountMap(all) && order == Dedup(all)
  }

  /** One `tagCounts[tag] = (tagCounts[tag] || 0) + 1`. */
  lemma CountStep(all: seq<string>, tag: string)
    ensures CountMap(all + [tag]) ==
            CountMap(all)[tag := (if tag in CountMap(all) then CountMap(all)[tag] else 0) + 1]
    ensures Dedup(all + [tag]) == if tag in CountMap(all) then Dedup(all) else Dedup(all) + [tag]
  {
    DedupSnoc(all, tag);
    CountMapSnoc(all, tag);
  }

  lemma CountMapSnoc(all: seq<string>, tag: string)
    ensures CountMap(all + [tag]) ==
            CountMap(all)[tag := (if tag in CountMap(all) then CountMap(all)[tag] else 0) + 1]
  {
    var c := CountMap(all);
    var c' := CountMap(all + [tag]);
    var d := c[tag := (if tag in c then c[tag] else 0) + 1];
    forall t | t in c' ensures t in d && c'[t] == d[t] {
      OccurrencesAppend(all, [tag], t);
      if t != tag {
        assert t in all;
      } else if tag !in all {
        OccurrencesPositive(all, tag);
      }
    }
    forall t | t in d ensures t in c' {
      assert t in all + [tag];
    }
  }

  /** The two nested `forEach` loops that count tags: every tag of every list
      is counted, and a tag becomes a key when it is first seen. */
  method CountTags(lists: seq<seq<string>>) returns (counts: map<string, nat>, order: seq<string>)
    ensures counts == CountMap(Flatten(lists)) && order == Dedup(Flatten(lists))
    ensures Enumerates(order, counts)
  {
    counts := map[];
    order := [];
    for i := 0 to |lists|
      invariant Counts(counts, order, Flatten(lists[..i]))
    {
      assert lists[..i + 1][..i] == lists[..i];
      counts, order := CountList(counts, order, Flatten(lists[..i]), lists[i]);
    }
    assert lists[..|lists|] == lists;
    forall t ensures t in order <==> t in counts {
      assert t in order <==> t in Flatten(lists);
    }
  }

  /** The inner `forEach` over one photo's tags. */
  method CountList(counts0: map<string, nat>, order0: seq<string>, ghost done: seq<string>, tags: seq<string>)
    returns (counts: map<string, nat>, order: seq<string>)
    requires Counts(counts0, order0, done)
    ensures Counts(counts, order, done + tags)
  {
    counts, order := counts0, order0;
    assert done + tags[..0] == done;
    for j := 0 to |tags|
      invariant Counts(counts, order, done + tags[..j])
    {
      var tag := tags[j];
      CountStep(done + tags[..j], tag);
      assert tags[..j + 1] == tags[..j] + [tag];
      AppendAssoc(done, tags[..j], [tag]);
      if tag !in counts {
        order := order + [tag];
      }
      counts := counts[tag := (if tag in counts then counts[tag] else 0) + 1];
    }
    assert tags[..|tags|] == tags;
  }

  /** When no list repeats a tag, a tag's count is the number of lists
      carrying it: each photo counts once. */
  lemma {:induction false} CountIsListsWith(lists: seq<seq<string>>, t: string)
    requires forall i :: 0 <= i < |lists| ==> Distinct(lists[i])
    ensures Occurrences(Flatten(lists), t) == ListsWith(lists, t)
  {
    if lists != [] {
      var init := lists[..|lists| - 1];
      CountIsListsWith(init, t);
      OccurrencesAppend(Flatten(init), lists[|lists| - 1], t);
      OccurrencesDistinct(lists[|lists| - 1], t);
    }
  }

  /** Sort key of `(a, b) => b.count - a.count`: most frequent first. */
  function CountDesc(e: TagCount): int {
    -(e.count as int)
  }

  /** `Object.entries(tagCounts).map(([tag, count]) => ({tag, count}))`. */
  function Entries(order: seq<string>, counts: map<string, nat>): (r: seq<TagCount>)
    requires forall i :: 0 <= i < |order| ==> order[i] in counts
    ensures |r| == |order|
    ensures forall i :: 0 <= i < |r| ==> r[i] == TagCount(order[i], counts[order[i]])
  {
    seq(|order|, i requires 0 <= i < |order| => TagCount(order[i], counts[order[i]]))
  }

  /** The entries sorted by count, most frequent first (ties in key order),
      cut to `limit`: the `popularTags` list. Every entry carries its tag's
      count, and no tag left out is more frequent than one kept. */
  function PopularTags(order: seq<string>, counts: map<string, nat>, limit: int): (r: seq<TagCount>)
    requires forall i :: 0 <= i < |order| ==> order[i] in counts
    ensures limit >= 0 ==> |r| == if limit < |order| then limit else |order|
    ensures forall i, j :: 0 <= i < j < |r| ==> r[i].count >= r[j].count
    ensures forall i :: 0 <= i < |r| ==> r[i].tag in counts && r[i].count == counts[r[i].tag]
    ensures forall t, i :: t in order && 0 <= i < |r| && (forall j :: 0 <= j < |r| ==> r[j].tag != t)
              ==> counts[t] <= r[i].count
  {
    var entries := Entries(order, counts);
    var sorted := SortBy(entries, CountDesc);
    var r := SliceTo(sorted, limit);
    SortedEntries(order, counts, entries, sorted);
    PrefixFacts(sorted, r, counts);
    r
  }

  /** Sorting the entries keeps each tag's true count, and every tag of
      `order` is among them. */
  lemma SortedEntries(order: seq<string>, counts: map<string, nat>, entries: seq<TagCount>, sorted: seq<TagCount>)
    requires forall i :: 0 <= i < |order| ==> order[i] in counts
    requires entries == Entries(order, counts) && multiset(sorted) == multiset(entries)
    ensures forall p :: 0 <= p < |sorted| ==> sorted[p].tag in counts && sorted[p].count == counts[sorted[p].tag]
    ensures forall t :: t in order ==> exists p :: 0 <= p < |sorted| && sorted[p].tag == t
  {
    forall p | 0 <= p < |sorted| ensures sorted[p].tag in counts && sorted[p].count == counts[sorted[p].tag] {
      assert sorted[p] in multiset(entries);
    }
    forall t | t in order ensures exists p :: 0 <= p < |sorted| && sorted[p].tag == t {
      var k :| 0 <= k < |order| && order[k] == t;
      assert entries[k] in multiset(sorted);
    }
  }

  /** A prefix of a list sorted by decreasing count: its counts do not
      increase, and no entry cut from it has a larger count than a kept one. */
  lemma PrefixFacts(sorted: seq<TagCount>, r: seq<TagCount>, counts: map<string, nat>)
    requires SortedBy(sorted, CountDesc) && |r| <= |sorted| && r == sorted[..|r|]
    requires forall p :: 0 <= p < |sorted| ==> sorted[p].tag in counts && sorted[p].count == counts[sorted[p].tag]
    ensures forall i, j :: 0 <= i < j < |r| ==> r[i].count >= r[j].count
    ensures forall i :: 0 <= i < |r| ==> r[i].tag in counts && r[i].count == counts[r[i].tag]
    ensures forall p, i :: |r| <= p < |sorted| && 0 <= i < |r| ==> sorted[p].count <= r[i].count
  {
    forall i, j | 0 <= i < j < |r| ensures r[i].count >= r[j].count {
      assert r[i] == sorted[i] && r[j] == sorted[j];
    }
    forall p, i | |r| <= p < |sorted| && 0 <= i < |r| ensures sorted[p].count <= r[i].count {
      assert r[i] == sorted[i];
    }
  }

  /** `getTagStats(eventId)`. */
  method GetTagStats(m: map<string, PhotoTag>, keys: seq<string>, eventId: string) returns (st: TagStats)
    requires Enumerates(keys, m)
    ensures st.totalTaggedPhotos == |EventPhotoIds(m, eventId)|
    ensures Counts(st.tagCounts, st.tagOrder, Flatten(TagLists(GetEventTags(m, keys, eventId))))
    ensures st.popularTags == PopularTags(st.tagOrder, st.tagCounts, 10)
  {
    var eventTags := GetEventTags(m, keys, eventId);
    var counts, order := CountTags(TagLists(eventTags));
    st := TagStats(|eventTags|, counts, order, PopularTags(order, counts, 10));
  }

  /** The tag lists of a list of records. */
  function TagLists(rs: seq<PhotoTag>): (r: seq<seq<string>>)
    ensures |r| == |rs| && forall i :: 0 <= i < |rs| ==> r[i] == rs[i].tags
  {
    seq(|rs|, i requires 0 <= i < |rs| => rs[i].tags)
  }

  /** In a well-formed store a tag's count in the statistics is the number of
      the event's photos that carry it. */
  lemma TagCountIsPhotoCount(m: map<string, PhotoTag>, keys: seq<string>, eventId: string, t: string)
    requires Enumerates(keys, m) && WellFormed(m)
    ensures Occurrences(Flatten(TagLists(GetEventTags(m, keys, eventId))), t)
            == ListsWith(TagLists(GetEventTags(m, keys, eventId)), t)
  {
    var rs := GetEventTags(m, keys, eventId);
    forall i | 0 <= i < |rs| ensures Distinct(TagLists(rs)[i]) {
      assert rs[i] in m.Values;
    }
    CountIsListsWith(TagLists(rs), t);
  }

  /** `exportTags`. */
  function ExportTags(m: map<string, PhotoTag>, now: string): (d: TagsDoc)
    ensures d.version == Some("1.0") && d.photoTags == Some(m)
  {
    TagsDoc(Some("1.0"), Some(now), Some(m))
  }

  /** `data.version && data.photoTags`. */
  predicate Accepts(d: TagsDoc) {
    d.version.Some? && d.version.value != "" && d.photoTags.Some?
  }

  /** Importing what `exportTags` produced is accepted and restores the map. */
  lemma ExportImportRoundTrip(m: map<string, PhotoTag>, now: string)
    ensures Accepts(ExportTags(m, now)) && ExportTags(m, now).photoTags.value == m
  {
  }

  class LocalTagStore {
    var photoTags: map<string, PhotoTag>

    constructor()
      ensures photoTags == map[]
    {
      photoTags := map[];
    }

    /** `tagPhoto(photoId, eventId, tags)`. */
    method TagPhoto(photoId: string, eventId: string, tags: seq<string>, now: string)
      modifies this
      ensures photoTags == Tagged(old(photoTags), photoId, eventId, tags, now)
    {
      photoTags := photoTags[photoId := PhotoTag(photoId, eventId, Dedup(tags), now)];
    }

    /** `importTags(json)`; `json` is `None` when `JSON.parse` throws. */
    method ImportTags(json: Option<TagsDoc>) returns (ok: bool)
      modifies this
      ensures ok <==> json.Some? && Accepts(json.value)
      ensures ok ==> photoTags == json.value.photoTags.value
      ensures !ok ==> photoTags == old(photoTags)
    {
      if json.Some? && Accepts(json.value) {
        photoTags := json.value.photoTags.value;
        ok := true;
      } else {
        ok := false;
      }
    }

    /** `clearAllTags`. */
    method ClearAllTags()
      modifies this
      ensures photoTags == map[]
    {
      photoTags := map[];
    }
  }
}

=== FILE: tenant_store.dfy ===
/** The tenant store (src/stores/tenantStore.ts): tenants with their leases,
    payment history, documents and notes, each list changed on the tenant
    with the given id, and the selected tenant. */
module TenantStore {
  import opened Wrappers
  import opened Seqs
  import opened Strings
  import opened Notes
  import FinancialStore
  type Payment = FinancialStore.Payment
  type PaymentStatus = FinancialStore.PaymentStatus

  datatype LeaseStatus = Draft | Active | Expired | Terminated | Renewed

  /** The fields of a lease the store reads or writes. */
  datatype Lease = Lease(id: string, unitId: string, monthlyRent: int, status: LeaseStatus)

  /** A `Partial<Lease>`. */
  datatype LeasePatch = LeasePatch(id: Option<string>, unitId: Option<string>, monthlyRent: Option<int>,
                                   status: Option<LeaseStatus>)

  datatype Document = Document(id: string, title: string, url: string)

  datatype Tenant = Tenant(id: string, firstName: string, lastName: string, email: string, phone: string,
                           leases: seq<Lease>, documents: seq<Document>, paymentHistory: seq<Payment>,
                           notes: seq<Note>, updatedAt: int)

  /** A `Partial<Tenant>`. */
  datatype TenantPatch = TenantPatch(id: Option<string>, firstName: Option<string>, lastName: Option<string>,
                                     email: Option<string>, phone: Option<string>, leases: Option<seq<Lease>>,
                                     documents: Option<seq<Document>>, paymentHistory: Option<seq<Payment>>,
                                     notes: Option<seq<Note>>)

  function MergeLease(l: Lease, u: LeasePatch): Lease {
    Lease(u.id.GetOr(l.id), u.unitId.GetOr(l.unitId), u.monthlyRent.GetOr(l.monthlyRent), u.status.GetOr(l.status))
  }

  /** `{ ...t, ...updates, updatedAt: new Date() }`: each field the patch
      names replaces the tenant's, the others stay, and the time is stamped
      whatever the patch says. */
  function MergeTenant(t: Tenant, u: TenantPatch, now: int): (r: Tenant)
    ensures r.updatedAt == now
    ensures r.id == u.id.GetOr(t.id) && r.firstName == u.firstName.GetOr(t.firstName)
    ensures r.lastName == u.lastName.GetOr(t.lastName) && r.email == u.email.GetOr(t.email)
    ensures r.phone == u.phone.GetOr(t.phone) && r.leases == u.leases.GetOr(t.leases)
    ensures r.documents == u.documents.GetOr(t.documents)
    ensures r.paymentHistory == u.paymentHistory.GetOr(t.paymentHistory)
    ensures r.notes == u.notes.GetOr(t.notes)
  {
    Tenant(u.id.GetOr(t.id), u.firstName.GetOr(t.firstName), u.lastName.GetOr(t.lastName),
           u.email.GetOr(t.email), u.phone.GetOr(t.phone), u.leases.GetOr(t.leases),
           u.documents.GetOr(t.documents), u.paymentHistory.GetOr(t.paymentHistory),
           u.notes.GetOr(t.notes), now)
  }

  /** `t.leases.map(l => l.id === leaseId ? { ...l, ...updates } : l)`. */
  function UpdateLeases(leases: seq<Lease>, leaseId: string, u: LeasePatch): (r: seq<Lease>)
    ensures |r| == |leases|
    ensures forall i :: 0 <= i < |leases| ==> r[i] == if leases[i].id == leaseId then MergeLease(leases[i], u) else leases[i]
  {
    seq(|leases|, i requires 0 <= i < |leases| => if leases[i].id == leaseId then MergeLease(leases[i], u) else leases[i])
  }

  /** A payment's new status, with the payment date set to now when the
      status is `paid` and kept otherwise. */
  function WithStatus(p: Payment, status: PaymentStatus, now: int): (r: Payment)
    ensures r.status == status && r.id == p.id && r.amount == p.amount
    ensures r.paidDate == if status == FinancialStore.Paid then Some(now) else p.paidDate
  {
    p.(status := status, paidDate := if status == FinancialStore.Paid then Some(now) else p.paidDate)
  }

  function UpdatePayments(ps: seq<Payment>, paymentId: string, status: PaymentStatus, now: int): (r: seq<Payment>)
    ensures |r| == |ps|
    ensures forall i :: 0 <= i < |ps| ==> r[i] == if ps[i].id == paymentId then WithStatus(ps[i], status, now) else ps[i]
  {
    seq(|ps|, i requires 0 <= i < |ps| => if ps[i].id == paymentId then WithStatus(ps[i], status, now) else ps[i])
  }

  function DocumentIdIsNot(documentId: string): Document -> bool {
    (d: Document) => d.id != documentId
  }

  /** The operations applied to the tenant with the given id. */
  datatype Change =
    | PatchTenant(patch: TenantPatch)
    | AddLease(lease: Lease)
    | UpdateLease(leaseId: string, leasePatch: LeasePatch)
    | AddPayment(payment: Payment)
    | UpdatePaymentStatus(paymentId: string, status: PaymentStatus)
    | AddDocument(document: Document)
    | RemoveDocument(documentId: string)
    | AddNote(note: Note)

  /** Each change stamps the tenant with the time. */
  function ApplyChange(t: Tenant, c: Change, now: int): (r: Tenant)
    ensures r.updatedAt == now
    ensures !c.PatchTenant? ==> r.id == t.id
    ensures c.AddLease? ==> r.leases == t.leases + [c.lease]
    ensures c.AddDocument? ==> r.documents == t.documents + [c.document]
    ensures c.AddNote? ==> r.notes == t.notes + [c.note]
    ensures c.AddPayment? ==> r.paymentHistory == t.paymentHistory + [c.payment]
    ensures c.RemoveDocument? ==>
              forall d :: d in r.documents <==> d in t.documents && d.id != c.documentId
    ensures c.PatchTenant? ==> r == MergeTenant(t, c.patch, now)
    ensures c.UpdateLease? ==> r.leases == UpdateLeases(t.leases, c.leaseId, c.leasePatch)
    ensures c.UpdatePaymentStatus? ==> r.paymentHistory == UpdatePayments(t.paymentHistory, c.paymentId, c.status, now)
  {
    match c
    case PatchTenant(patch) => MergeTenant(t, patch, now)
    case AddLease(lease) => t.(leases := t.leases + [lease], updatedAt := now)
    case UpdateLease(leaseId, patch) => t.(leases := UpdateLeases(t.leases, leaseId, patch), updatedAt := now)
    case AddPayment(payment) => t.(paymentHistory := t.paymentHistory + [payment], updatedAt := now)
    case UpdatePaymentStatus(paymentId, status) =>
      t.(paymentHistory := UpdatePayments(t.paymentHistory, paymentId, status, now), updatedAt := now)
    case AddDocument(document) => t.(documents := t.documents + [document], updatedAt := now)
    case RemoveDocument(documentId) => t.(documents := Filter(t.documents, DocumentIdIsNot(documentId)), updatedAt := now)
    case AddNote(note) => t.(notes := t.notes + [note], updatedAt := now)
  }

  /** `tenants.map(t => t.id === id ? change(t) : t)`. */
  function ChangeWhere(ts: seq<Tenant>, id: string, c: Change, now: int): (r: seq<Tenant>)
    ensures |r| == |ts|
    ensures forall i :: 0 <= i < |ts| ==> r[i] == if ts[i].id == id then ApplyChange(ts[i], c, now) else ts[i]
  {
    seq(|ts|, i requires 0 <= i < |ts| => if ts[i].id == id then ApplyChange(ts[i], c, now) else ts[i])
  }

  /** `getTenant`: the first tenant with that id. */
  function GetTenant(ts: seq<Tenant>, id: string): (r: Option<Tenant>)
    ensures r.Some? ==> r.value in ts && r.value.id == id
    ensures r.None? <==> forall i :: 0 <= i < |ts| ==> ts[i].id != id
    ensures r.Some? ==> exists j :: 0 <= j < |ts| && ts[j] == r.value && forall k :: 0 <= k < j ==> ts[k].id != id
  {
    if ts == [] then None
    else if ts[0].id == id then Some(ts[0])
    else
      var r := GetTenant(ts[1..], id);
      assert forall j :: 1 <= j < |ts| ==> ts[j] == ts[1..][j - 1];
      r
  }

  /** `getSelectedTenant`: nothing when no (or an empty) id is selected. */
  function SelectedTenant(ts: seq<Tenant>, selected: Option<string>): (r: Option<Tenant>)
    ensures !Present(selected) ==> r.None?
    ensures r.Some? ==> r.value in ts && Some(r.value.id) == selected
    ensures Present(selected) ==> (r.None? <==> forall i :: 0 <= i < |ts| ==> ts[i].id != selected.value)
    ensures Present(selected) ==> r == GetTenant(ts, selected.value)
  {
    if Present(selected) then GetTenant(ts, selected.value) else None
  }

  /** `getTenantPaymentHistory`: the tenant's history, or nothing for an
      unknown tenant. */
  function PaymentHistory(ts: seq<Tenant>, tenantId: string): (r: seq<Payment>)
    ensures GetTenant(ts, tenantId).None? ==> r == []
    ensures GetTenant(ts, tenantId).Some? ==> r == GetTenant(ts, tenantId).value.paymentHistory
  {
    match GetTenant(ts, tenantId)
    case None => []
    case Some(t) => t.paymentHistory
  }

  /** `t.leases.some(l => l.status === 'active')`. */
  predicate HasActiveLease(t: Tenant) {
    exists i :: 0 <= i < |t.leases| && t.leases[i].status == Active
  }

  function IsActive(): Tenant -> bool {
    (t: Tenant) => HasActiveLease(t)
  }

  /** `getActiveTenants`. */
  function ActiveTenants(ts: seq<Tenant>): (r: seq<Tenant>)
    ensures SubseqOf(r, ts)
    ensures forall t :: t in r <==> t in ts && HasActiveLease(t)
  {
    FilterIsSubseq(ts, IsActive());
    Filter(ts, IsActive())
  }

  /** `t.paymentHistory.some(p => p.status === 'late')`. */
  predicate HasLatePayment(t: Tenant) {
    exists i :: 0 <= i < |t.paymentHistory| && t.paymentHistory[i].status == FinancialStore.Late
  }

  function IsLatePayer(): Tenant -> bool {
    (t: Tenant) => HasLatePayment(t)
  }

  /** `getTenantsWithLatePayments`. */
  function TenantsWithLatePayments(ts: seq<Tenant>): (r: seq<Tenant>)
    ensures forall t :: t in r <==> t in ts && HasLatePayment(t)
  {
    Filter(ts, IsLatePayer())
  }

  /** `t.leases.some(l => l.unitId?.startsWith(propertyId))`. */
  predicate LeasesInProperty(t: Tenant, propertyId: string) {
    exists i :: 0 <= i < |t.leases| && propertyId <= t.leases[i].unitId
  }

  function InProperty(propertyId: string): Tenant -> bool {
    (t: Tenant) => LeasesInProperty(t, propertyId)
  }

  /** `getTenantsByProperty`. */
  function TenantsByProperty(ts: seq<Tenant>, propertyId: string): (r: seq<Tenant>)
    ensures forall t :: t in r <==> t in ts && LeasesInProperty(t, propertyId)
  {
    Filter(ts, InProperty(propertyId))
  }

  /** `searchTenants`: names and e-mail ignore case, the phone number is
      matched as typed. */
  predicate TenantMatches(t: Tenant, query: string) {
    ContainsIgnoringCase(t.firstName, query) || ContainsIgnoringCase(t.lastName, query) ||
    ContainsIgnoringCase(t.email, query) || Includes(t.phone, query)
  }

  function Matching(query: string): Tenant -> bool {
    (t: Tenant) => TenantMatches(t, query)
  }

  function SearchTenants(ts: seq<Tenant>, query: string): (r: seq<Tenant>)
    ensures SubseqOf(r, ts)
    ensures forall t :: t in r <==> t in ts && TenantMatches(t, query)
  {
    FilterIsSubseq(ts, Matching(query));
    Filter(ts, Matching(query))
  }

  /** The phone number is matched with case: a tenant known only by the
      phone `X1` is found by `X1` and not by `x1`, while the same text in
      the e-mail is found both ways. */
  lemma PhoneSearchKeepsCase(t: Tenant)
    requires t.firstName == "" && t.lastName == "" && t.email == "" && t.phone == "X1"
    ensures TenantMatches(t, "X1") && !TenantMatches(t, "x1")
    ensures TenantMatches(t.(phone := "", email := "X1"), "x1")
  {
    assert "X1" <= t.phone[0..];
    assert ToLower("X1") == "x1";
    assert ToLower("x1") == "x1";
    assert "x1" <= ToLower(t.(phone := "", email := "X1").email)[0..];
  }

  /** Adding an active lease makes the tenant active; other tenants keep
      their standing. */
  lemma AddActiveLeaseActivates(ts: seq<Tenant>, id: string, lease: Lease, now: int)
    requires lease.status == Active
    ensures var after := ChangeWhere(ts, id, AddLease(lease), now);
            forall i :: 0 <= i < |ts| ==>
              (ts[i].id == id ==> HasActiveLease(after[i])) &&
              (ts[i].id != id ==> after[i] == ts[i])
  {
    var after := ChangeWhere(ts, id, AddLease(lease), now);
    forall i | 0 <= i < |ts| && ts[i].id == id ensures HasActiveLease(after[i]) {
      assert after[i].leases[|ts[i].leases|] == lease;
    }
  }

  /** Marking a payment late puts its tenant among the late payers; marking
      it anything but paid keeps its payment date. */
  lemma MarkLateMakesLatePayer(t: Tenant, j: nat, now: int)
    requires j < |t.paymentHistory|
    ensures var after := ApplyChange(t, UpdatePaymentStatus(t.paymentHistory[j].id, FinancialStore.Late), now);
            HasLatePayment(after) && after.paymentHistory[j].paidDate == t.paymentHistory[j].paidDate
  {
    var after := ApplyChange(t, UpdatePaymentStatus(t.paymentHistory[j].id, FinancialStore.Late), now);
    assert after.paymentHistory[j].status == FinancialStore.Late;
  }

  class TenantStore {
    var tenants: seq<Tenant>
    var selectedTenantId: Option<string>

    constructor()
      ensures tenants == [] && selectedTenantId == None
    {
      tenants := [];
      selectedTenantId := None;
    }

    method SetTenants(ts: seq<Tenant>)
      modifies this
      ensures tenants == ts && selectedTenantId == old(selectedTenantId)
    {
      tenants := ts;
    }

    /** `addTenant`: appends. */
    method AddTenant(tenant: Tenant)
      modifies this
      ensures tenants == old(tenants) + [tenant] && selectedTenantId == old(selectedTenantId)
    {
      tenants := tenants + [tenant];
    }

    /** `updateTenant` and the lease, payment, document and note operations
        on the tenant with that id; the other tenants are unchanged. */
    method ChangeTenant(id: string, change: Change, now: int)
      modifies this
      ensures tenants == ChangeWhere(old(tenants), id, change, now)
      ensures selectedTenantId == old(selectedTenantId)
    {
      tenants := ChangeWhere(tenants, id, change, now);
    }

    /** `deleteTenant`: every tenant with that id goes, and the selection is
        cleared only if it was that tenant. */
    method DeleteTenant(id: string)
      modifies this
      ensures tenants == Filter(old(tenants), (t: Tenant) => t.id != id)
      ensures GetTenant(tenants, id).None?
      ensures selectedTenantId == if old(selectedTenantId) == Some(id) then None else old(selectedTenantId)
    {
      tenants := Filter(tenants, (t: Tenant) => t.id != id);
      if selectedTenantId == Some(id) {
        selectedTenantId := None;
      }
    }

    /** `selectTenant`. */
    method SelectTenant(id: Option<string>)
      modifies this
      ensures selectedTenantId == id && tenants == old(tenants)
    {
      selectedTenantId := id;
    }
  }
}

=== FILE: wrappers.dfy ===
/** Optional values and success/failure outcomes shared by every module. */
module Wrappers {

  /** A JavaScript value that may be `null` or `undefined`. */
  datatype Option<T> = None | Some(value: T) {
    function GetOr(default: T): T {
      match this
      case Some(v) => v
      case None => default
    }
  }

  /** An optional string argument is truthy: given and not empty. */
  predicate Present(s: Option<string>) {
    s.Some? && s.value != ""
  }

  /** The settled state of a promise that resolves to nothing: it either
      resolves, or rejects with an error message. */
  datatype Outcome = Pass | Fail(error: string)

  /** A request to the data API: the decoded payload, or the message of the
      error it threw. */
  datatype Fetch<T> = Fetched(value: T) | FetchFailed(message: string)

  /** What browser storage holds under a store's key: nothing (or an empty
      string); text whose parsing or `state` lookup throws; or the value of
      the parsed `state`'s field, which may be missing. */
  datatype LocalCopy<T> = NoCopy | Unreadable | Copy(value: Option<T>)
}
